=== FILE: README.md ===
# Redex core, modelled in Dafny

This project models the sequential core of Redex, the Android bytecode optimizer. The centre is the mark-and-sweep reachability engine of `libredex/Reachability.cpp`. Several smaller cores from the library and the optimisation passes sit beside it. Classes, fields, methods, types and strings are opaque identifiers. A program is a set of maps from those identifiers to records. Each core's operations are pure functions or short methods over immutable datatypes, and each carries contracts and lemmas that state what the source promises.

Modules, in the order of the source:

- **Reachability** (`reach_*.dfy`).
  - `ReachProgram` holds the abstract program: classes with a superclass, interfaces, member lists and reference sets. It also holds the object identity, the ignore sets and the option defaults.
  - `ReachObjects` has the insert-once marking sets and the conditionally marked members.
  - `ReachSeed` models `RootSetMarker`: root seeding, `mark_all_as_seed` and the external-override seeding.
  - `ReachResolve` models `resolve_without_context`.
  - `ReachClosure` has the push layer (mark, then enqueue) and the upward-closed set of instantiable classes.
  - `ReachVisit` has the class, field and method visitors. These include both orders of conditional retention, the "if instantiable" gate for overriding methods, and string-literal scanning.
  - `ReachMarker` is the worklist. It terminates on the number of objects not yet visited. Its result contains the seed classes. Every conditional member seed is marked once its condition holds: once its class is marked for the retained condition, and once its class is instantiable for the instantiable condition (on well-formed programs). The result is closed: every marked object has been visited, and everything its visit requires is marked too.
  - `ReachSweep` covers sweeping and object counting.
- **StringTree** (`string_tree.dfy`): the trie of `StringTreeSet.cpp`, its byte encoding (header, 6-bit payload units, base-127 offsets), and a reader that proves the encoding round-trips.
- **RedexProperties** (`redex_properties.dfy`): the property interactions, `Manager::apply`, and whole-pipeline verification.
- **MethodFixup** (`method_fixup.dfy`): forwarding of removed-method chains and the invoke-virtual rewrite.
- **ClassChecker** (`class_checker.dfy`): the abstract-method check and the failed-class report.
- **ConfigFiles** (`config_files.dfy`): the tab splitter, `from_chars`, coldstart entries, dead-class lines, relocated names, and the bit-width check.
- **CallGraph**, **CallGraphBuild** (`call_graph*.dfy`): node interning, edge insertion, callee resolution and the BFS statistics. Also the call-site strategies, the big overrides and graph construction.
- **InterDexGains**, **InterDexPlan**, **InterDexMoves** (`interdex_*.dfy`): the reshuffle pass's gain function, the epoch and heap bookkeeping, and the per-dex string counts.
- **UninstantiableTypes**, **VirtualScopes**: the hierarchy walk of `RemoveUninstantiablesPass`, the transitively defined virtual scopes, and `keep_code`.
- **SplittingConfig**, **MethodClosures**, **SplittableClosures**, **MethodSplitter**: the method splitter's configuration, closure discovery filters, integer scoring, switch-case aggregation, overlap filtering, and the per-dex reference budget.
- **ConstClassBranches** (`const_class_branches.dfy`), **ArtProfile** (`art_profile.dfy`): the helpers of those two passes.
- `Wrappers` (an `Option` type) and `Sets` (cardinality and sum lemmas) are shared helpers.

Two consequences of the code for the shape of the model:

- The sweep promises no order. It uses `std::partition` (`libredex/Reachability.cpp:1449`), which is not stable, so the sweep's results are stated as sets and multisets.
- `resolve_without_context` (`libredex/Reachability.cpp:1074-1102`) has no cycle guard and would recurse forever on a superclass cycle. `ReachResolve.Resolve` therefore takes a fuel bound, and the closure passes one more than the number of classes.

Two details of the code that the model keeps as written:

- `fnv1` feeds each `char` to the xor as a signed 8-bit value widened to 32 bits (`opt/const-class-branches/TransformConstClassBranches.cpp:207`). A byte of 128 or more is sign-extended, so the high 24 bits of its operand are set. This assumes a platform where plain `char` is signed, as on x86-64 Linux and on Apple platforms; where `char` is unsigned (ARM Linux, say) the source computes textbook FNV-1. `ConstClassBranches.Fnv1HighByte` states this.
- In `score`, a hot-cold split must leave behind a remainder at least as large as the hot minimum, not the hot-cold minimum (`opt/outliner/SplittableClosures.cpp:136-142`).

## Model

| member | source | states |
|---|---|---|
| ReachProgram.DefaultIgnoreSets | libredex/Reachability.h:81-87 | the default ignore sets are empty and keep_class_in_string defaults to true |
| ReachProgram.DefaultOptions | libredex/Reachability.h:555-567 | every boolean option of compute_reachable_objects defaults to false |
| ReachProgram.InstantiableCls | libredex/Reachability.h:201-225 | an advance carries a class exactly when its kind is InstantiableDependencyResolved |
| ReachProgram.EmptyCounts | libredex/Reachability.h:583-587 | a fresh ObjectCounts has zero classes, fields and methods |
| ReachObjects.Mark | libredex/Reachability.h:102-108 | mark reports true exactly when the object was not yet marked, and afterwards the marked set is the old one plus that object |
| ReachObjects.MarkIsInsertOnce | libredex/Reachability.h:102-118 | after a mark the object is marked; marking it again changes nothing and reports false |
| ReachObjects.WithField | libredex/Reachability.cpp:232-247 | a conditional field seed goes into exactly the field slot of its condition; that slot's methods and directly instantiable types and every other slot are untouched |
| ReachObjects.WithMethod | libredex/Reachability.cpp:249-264 | a conditional method seed goes into exactly the method slot of its condition; that slot's fields and directly instantiable types and every other slot are untouched |
| ReachSeed.ShouldMarkCls | libredex/Reachability.cpp:68-70 | a class is a seed exactly when it is a root or a canary |
| ReachSeed.HasSubstring | libredex/Reachability.cpp:64-66 | the canary test holds exactly when the name contains the text at some position |
| ReachSeed.PushSeedClass | libredex/Reachability.cpp:225-230 | pushing a seed class marks it and adds it to the root set; a null class changes nothing |
| ReachSeed.SeedFields | libredex/Reachability.cpp:232-247 | seeding fields under one condition adds exactly those fields to that condition's slot |
| ReachSeed.SeedMethods | libredex/Reachability.cpp:249-264 | seeding methods under one condition adds exactly those methods to that condition's slot |
| ReachSeed.MarkAllAsSeed | libredex/Reachability.cpp:72-94 | every class in scope is marked and is a root, the roots are exactly the marked objects, and every member of every class is conditioned on class retention |
| ReachSeed.IsFieldSeed | libredex/Reachability.cpp:120-150 | a root instance field (or a volatile one without relaxed keep rules) is recorded under the instance conditions, dynamically referenced and instantiable when relaxed, retained otherwise; a root static field under the retained condition |
| ReachSeed.IsMethodSeed | libredex/Reachability.cpp:120-167 | a root-like clinit or init or a root direct method is recorded under dynamically referenced when it has code, is not a clinit and the class is relaxed, and under retained otherwise; a root virtual method under the instance conditions |
| ReachSeed.SeedClassFields | libredex/Reachability.cpp:134-149 | a class's fields are seeded exactly when root (or volatile outside relaxed mode), under the condition the relaxed flag selects; static fields only under retention |
| ReachSeed.SeedClassDMethods | libredex/Reachability.cpp:96-161 | a direct method is seeded exactly when it is a root-like clinit, a root-like init or a root, under the condition the relaxed flag and its code select |
| ReachSeed.SeedClassMethods | libredex/Reachability.cpp:150-167 | the methods seeded for one class are exactly the direct and virtual method seeds, each under its condition |
| ReachSeed.SeedClass | libredex/Reachability.cpp:113-168 | one class's seeding marks the class iff it is a root or canary and adds exactly its field and method seeds |
| ReachSeed.MarkExternalMethodOverriders | libredex/Reachability.cpp:277-297 | the methods added under "if class instantiable" are exactly the internal overriders of external methods; nothing else changes |
| ReachSeed.SeedScope | libredex/Reachability.cpp:113-168 | after seeding the whole scope the roots are exactly the marked root or canary classes, and the conditional slots hold exactly the seeds of some class |
| ReachSeed.MarkRoots | libredex/Reachability.cpp:113-173 | RootSetMarker::mark: the scope's seeds plus the external overriders under the instantiable condition, and nothing else |
| ReachResolve.FindSig | libredex/Reachability.cpp:1077-1086 | the first method of the list with a matching signature, and None exactly when none matches |
| ReachResolve.Resolve | libredex/Reachability.cpp:1074-1102 | a null class resolves to null; whatever is found matches the signature |
| ReachResolve.ResolveAny | libredex/Reachability.cpp:1094-1100 | the first interface (in order) that resolves the signature; the result matches it |
| ReachResolve.ResolveIsFirstInSearchOrder | libredex/Reachability.cpp:1074-1102 | resolution returns the first match in the order vmethods, dmethods, the superclass's search order, then each interface's search order |
| ReachResolve.ResolveAnyIsFirstInSearchOrder | libredex/Reachability.cpp:1094-1100 | resolution over interfaces returns the first match in the concatenated search orders of the interfaces |
| ReachResolve.FindSigAppend | libredex/Reachability.cpp:1077-1102 | searching a concatenation finds the first part's match if it has one, otherwise the second part's |
| ReachResolve.ResolveFuelIrrelevant | libredex/Reachability.cpp:1088-1102 | on a layered hierarchy, any two fuels above the start class's rank resolve a signature to the same method |
| ReachResolve.ResolveAnyFuelIrrelevant | libredex/Reachability.cpp:1094-1100 | on a layered hierarchy, any two fuels above the interfaces' ranks give the same resolution over the interface list |
| ReachClosure.MarkAndEnqueue | libredex/Reachability.cpp:343-353 | marking adds the object, and it is enqueued exactly when it was not marked before; a new mark shrinks the set of unmarked objects |
| ReachClosure.MarkDropsUnmarked | libredex/Reachability.cpp:349-352 | a newly marked object leaves the unmarked set, so each object is enqueued at most once |
| ReachClosure.PushClass | libredex/Reachability.cpp:343-353 | pushing a null class is a no-op; otherwise the class is marked and enqueued only if it was new |
| ReachClosure.PushMethod | libredex/Reachability.cpp:373-384 | pushing a null method is a no-op; otherwise the method is marked and enqueued only if it was new |
| ReachClosure.PushField | libredex/Reachability.cpp:356-371 | pushing a null or already marked field is a no-op; a newly marked field definition also has all its references pushed |
| ReachClosure.PushClasses | libredex/Reachability.cpp:319-327 | pushing a range marks every known class in it |
| ReachClosure.PushMethods | libredex/Reachability.cpp:319-327 | pushing a range marks every known method in it |
| ReachClosure.PushFields | libredex/Reachability.cpp:319-327 | pushing a range marks every known field in it |
| ReachClosure.PushStrings | libredex/Reachability.cpp:982-992 | every string naming a known type marks that class; strings naming no type are skipped |
| ReachClosure.PushRefs | libredex/Reachability.cpp:968-979 | after gathering, every type, field, method and (when checked) type-like string reference is marked |
| ReachClosure.Instantiable | libredex/Reachability.cpp:1104-1141 | a class that can be instantiable (known, not external) ends in the instantiable set, together with its supers and interfaces; a null, external or already instantiable class changes nothing |
| ReachClosure.InstantiableAll | libredex/Reachability.cpp:1116-1119 | every interface of the list that can be instantiable becomes instantiable |
| ReachClosure.PromoteInstantiable | libredex/Reachability.cpp:1120-1134 | the class's members waiting on "if class instantiable" are all marked |
| ReachClosure.InsertInstantiable | libredex/Reachability.cpp:1109-1134 | a class not yet instantiable is inserted, and the whole insertion is one monotone instantiability step that never grows the count of non-instantiable classes |
| ReachClosure.CloseInstantiable | libredex/Reachability.cpp:1112-1134 | after the recursion on the parents and the promotion, the inserted class is closed: its instantiable-capable parents are instantiable and its waiting members are marked |
| ReachClosure.ParentsInstantiable | libredex/Reachability.cpp:1112-1115 | the superclass and every interface that can be instantiable end instantiable, in one monotone step |
| ReachClosure.PromotionCloses | libredex/Reachability.cpp:1112-1134 | promoting the waiting members after the parents keeps the step monotone and leaves the class closed |
| ReachClosure.InstantiableInsertion | libredex/Reachability.cpp:1109-1111 | adding a class to the instantiable set and then closing it is one monotone instantiability step |
| ReachVisit.PushIfInstantiableMethod | libredex/Reachability.cpp:391-409 | a null or marked method is a no-op; otherwise the method is recorded under "if class instantiable" and is marked iff its class is already instantiable |
| ReachVisit.PushIfInstantiableField | libredex/Reachability.cpp:411-422 | a null or marked field is a no-op; otherwise the field is recorded under "if class instantiable" and is marked iff its class is already instantiable |
| ReachVisit.PushIfInstantiableMethods | libredex/Reachability.cpp:1254-1262 | every overrider ends marked or waiting on its class's instantiability |
| ReachVisit.PushIfRetainedMethod | libredex/Reachability.cpp:455-466 | a null or marked method is a no-op; otherwise the method is recorded under "if class retained" and marked iff its class is already marked |
| ReachVisit.PushIfRetainedField | libredex/Reachability.cpp:468-479 | a null or marked field is a no-op; otherwise the field is recorded under "if class retained" and marked iff its class is already marked |
| ReachVisit.RetainedMethodEitherOrder | libredex/Reachability.cpp:1051-1060 | a method conditioned on retention (recorded at Reachability.cpp:455-466) is marked whether its class was marked before the condition or is visited after it |
| ReachVisit.RetainedFieldEitherOrder | libredex/Reachability.cpp:1040-1050 | a field conditioned on retention (recorded at Reachability.cpp:468-479) is marked whether its class was marked before the condition or is visited after it |
| ReachVisit.PromoteRetained | libredex/Reachability.cpp:1039-1060 | every member of the class recorded under "if class retained" is marked |
| ReachVisit.PushAnnos | libredex/Reachability.cpp:1013-1032 | the references of every annotation not in the system set are marked |
| ReachVisit.VisitClass | libredex/Reachability.cpp:994-1061 | after visiting a class: an instantiable interface is instantiable, super, interfaces and non-system annotation references are marked, and retained members are promoted |
| ReachVisit.VisitField | libredex/Reachability.cpp:1063-1072 | after visiting a field: the resolved definition (for a non-concrete ref), its class and its type are marked |
| ReachVisit.CheckStrings | libredex/Reachability.cpp:895-914 | strings are scanned iff keep_class_in_string or (strings present and Class.forName called) and neither the ignored-class nor ignored-annotation rule applies; the counter grows by one exactly when one of those rules fires on a wanted scan or the class is in string_literals |
| ReachVisit.GatherMethod | libredex/Reachability.cpp:875-945 | gathering a method's body marks its references, conditions its virtual-method references on instantiability, and adds CheckStrings' count to the ignore counter |
| ReachVisit.ResolveRef | libredex/Reachability.cpp:1225-1226 | a method ref resolves from its own class; the result matches its signature, and an unknown class resolves to nothing |
| ReachVisit.ResolveFuelSuffices | libredex/Reachability.cpp:1074-1102 | on a layered hierarchy the fuel the closure passes, one more than the number of classes, resolves exactly as any larger fuel |
| ReachVisit.VisitMethod | libredex/Reachability.cpp:1221-1264 | after visiting a method ref: its resolution, class, return and argument types are marked, a concrete init makes its class instantiable, and overriders of a virtual or abstract definition are marked or waiting |
| ReachMarker.Visit | libredex/Reachability.cpp:303-318 | visiting an object leaves it closed: everything it references is marked |
| ReachMarker.TransitiveClosure | libredex/Reachability.cpp:1343-1353 | the worklist empties and every marked object is known and closed; instantiability stays upward closed |
| ReachMarker.InitialState | libredex/Reachability.cpp:1324-1334 | the worklist starts with the root set, the seeds' marks and conditions, nothing instantiable and a zero counter |
| ReachMarker.ComputeReachableObjects | libredex/Reachability.cpp:1309-1374 | every marked object is closed and the seed classes are marked; a retained member seed is marked whenever its class is, and on well-formed programs an instantiable member seed or external overrider is marked whenever its class is instantiable; in mark-all mode every class and member of the scope is marked; instantiability is upward closed |
| ReachMarker.SeedsKept | libredex/Reachability.cpp:1309-1374 | a closed marking that starts from the root marker's seeds marks every retained seed of a marked class and, on well-formed programs, every instantiable seed of an instantiable class |
| ReachMarker.RetainedFieldSeedsKept | libredex/Reachability.cpp:1040-1049 | visiting a marked class marks each of its field seeds held under the retained condition |
| ReachMarker.RetainedMethodSeedsKept | libredex/Reachability.cpp:1050-1059 | visiting a marked class marks each of its method seeds held under the retained condition |
| ReachMarker.InstantiableFieldSeedsKept | libredex/Reachability.cpp:1116-1120 | once a class is instantiable, each of its field seeds held under the instantiable condition is marked |
| ReachMarker.InstantiableMethodSeedsKept | libredex/Reachability.cpp:1121-1130 | once a class is instantiable, each of its method seeds and external overriders held under the instantiable condition is marked |
| ReachSweep.KeepMarked | libredex/Reachability.cpp:1438-1461 | sweep_if_unmarked keeps exactly the marked elements |
| ReachSweep.KeepMarkedMultiset | libredex/Reachability.cpp:1438-1461 | every marked element keeps its multiplicity and every unmarked one disappears |
| ReachSweep.KeepMarkedAll | libredex/Reachability.cpp:1438-1461 | a container whose elements are all marked is unchanged |
| ReachSweep.KeepMarkedIdempotent | libredex/Reachability.cpp:1438-1461 | sweeping twice is sweeping once |
| ReachSweep.SweepDexes | libredex/Reachability.cpp:1472-1476 | every dex is swept separately and the number of dexes is unchanged |
| ReachSweep.FlattenKeepMarked | libredex/Reachability.cpp:1472-1476 | the scope after sweeping is the old scope with unmarked classes removed |
| ReachSweep.SweepClass | libredex/Reachability.cpp:1485-1508 | a swept class loses all fields and methods; a surviving class keeps exactly its marked fields and methods |
| ReachSweep.Sweep | libredex/Reachability.cpp:1463-1510 | a class stays in the scope iff it is marked, surviving classes keep exactly their marked members, removed classes are emptied |
| ReachSweep.SweepLeavesOnlyMarked | libredex/Reachability.cpp:1463-1510 | after a sweep every class, field and method left in scope is marked |
| ReachSweep.SweepIdempotent | libredex/Reachability.cpp:1463-1510 | sweeping twice with the same marks is sweeping once |
| ReachSweep.SweepAllMarkedIsIdentity | libredex/Reachability.cpp:1463-1510 | when everything in scope is marked the sweep changes nothing |
| ReachSweep.CountObjects | libredex/Reachability.cpp:1585-1597 | classes is the scope size, fields is the sum of instance and static fields, methods the sum of direct and virtual methods |
| ReachSweep.SweepCountsNoMore | libredex/Reachability.cpp:1463-1510 | a sweep never increases any of the three counts |
| ReachSweep.MarkAllThenSweep | test/integ/ReachabilityTest.cpp:72-96 | marking everything as seed and then sweeping leaves the program, and so all three counts, unchanged |
| ReachSweep.ReachabilityThenSweep | test/integ/ReachabilityTest.cpp:32-53 | reachability then sweep keeps every root or canary class and never increases the counts |
| ReachSweep.SweepMarked | libredex/Reachability.cpp:1463-1510 | every marked class survives, survivors were in the scope, and counts do not grow |
| StringTree.CharByte | libredex/StringTreeSet.cpp:65 | a signed char is written as the byte with the same value modulo 256; non-negative chars are written unchanged |
| StringTree.PayloadUnitCount | libredex/StringTreeSet.cpp:22-44 | zero needs no units, a negative value needs the maximum, and no count reaches the no-payload flag |
| StringTree.UnitsHold | libredex/StringTreeSet.cpp:31-43 | a positive value needs exactly as many 6-bit units as lie between the surrounding powers of 64 |
| StringTree.MaxUnitsCeil | libredex/StringTreeSet.cpp:24-25 | the maximum unit count is the ceiling of the value's bit width over six |
| StringTree.Low32 | libredex/StringTreeSet.cpp:85 | the value masked to 32 bits; a value already in range is unchanged |
| StringTree.Payload | libredex/StringTreeSet.cpp:84-90 | one byte per unit, each carrying the 0x40 flag, so no payload byte is zero |
| StringTree.PayloadRoundTrip | libredex/StringTreeSet.cpp:84-90 | reading the 6-bit groups back little-endian gives the written value |
| StringTree.PayloadOfValue | libredex/StringTreeSet.cpp:76-90 | the payload of a terminal value decodes to the value itself (or its 32-bit two's complement when negative) |
| StringTree.OffsetBytes | libredex/StringTreeSet.cpp:114-118 | an offset below 127^3 is three base-127 digits each plus one, so no offset byte is zero |
| StringTree.OffsetRoundTrip | libredex/StringTreeSet.cpp:114-118 | decoding the three offset bytes gives back the position |
| StringTree.FindKid | libredex/StringTreeSet.cpp:57 | the child under a character: present exactly when some edge has that character |
| StringTree.Insert | libredex/StringTreeSet.cpp:47-58 | insertion keeps the children sorted by character |
| StringTree.InsertEdge | libredex/StringTreeSet.cpp:57 | inserting below one character of a sorted child map keeps it sorted |
| StringTree.InsertLookup | libredex/StringTreeSet.cpp:47-58 | after inserting s with v, looking up s gives v (overwriting any earlier value) and every other lookup is unchanged |
| StringTree.InsertEdgeFind | libredex/StringTreeSet.cpp:57 | only the child under the inserted character changes |
| StringTree.EmptyLookup | libredex/StringTreeSet.cpp:128 | an empty tree maps nothing |
| StringTree.Build | libredex/StringTreeSet.cpp:126-131 | building from entries gives a sorted tree |
| StringTree.BuildLookup | libredex/StringTreeSet.cpp:126-131 | the built tree maps each string to the value of its last entry and nothing else |
| StringTree.Header | libredex/StringTreeSet.cpp:69-81 | terminal with zero value gives 8, terminal with nonzero value gives its unit count, non-terminal gives 16; every header is below 32 |
| StringTree.HeaderBytes | libredex/StringTreeSet.cpp:76-90 | the header followed by the payload exactly when the node is terminal with nonzero value |
| StringTree.Encode | libredex/StringTreeSet.cpp:60-123 | a chain node writes its character and its child; any other node writes its header, payload units, child count plus one, the child characters each followed (after the first) by a three-byte base-127 offset, then the children; it fails where the source asserts: a chained character below 32, an inner node without children, 127 or more children, or an offset of 127^3 or more |
| StringTree.EncodeKids | libredex/StringTreeSet.cpp:108-122 | the children are encoded one after another, each recorded at its start position |
| StringTree.Table | libredex/StringTreeSet.cpp:92-107 | the child table is one character per child plus three offset bytes for every child but the first |
| StringTree.ReadEncoded | libredex/StringTreeSet.cpp:60-123 | a lookup that walks the written bytes (chains, headers, tables and offsets) finds exactly what the tree maps |
| StringTree.EncodedMapLookup | libredex/StringTreeSet.cpp:125-135 | reading a string back from an encoded map gives the value of its last entry, or nothing |
| StringTree.SetEntries | libredex/StringTreeSet.cpp:148-153 | every string of a set is inserted with value 0 |
| StringTree.SetTreeAllZero | libredex/StringTreeSet.cpp:148-153 | a set's tree holds only zero values |
| StringTree.ZeroHeaders | libredex/StringTreeSet.cpp:78-80 | in a zero-valued tree terminal headers are 8 and non-terminal ones 16, with no payload |
| StringTree.EncodedSetMembership | libredex/StringTreeSet.cpp:148-157 | reading a string back from an encoded set gives 0 exactly for members and nothing otherwise |
| StringTree.CharByteInjective | libredex/StringTreeSet.cpp:98 | distinct characters are written as distinct bytes, so the table is unambiguous |
| StringTree.BuildInRange | libredex/StringTreeSet.cpp:137-138 | a tree built from values of the instantiated width holds only values of that width |
| RedexProperties.PredefinedValid | libredex/RedexProperties.h:29-52 | every predefined interaction is valid, and exactly Destroys and Requires neither establish nor preserve |
| RedexProperties.ValidMeaning | libredex/RedexProperties.h:29-37 | a valid interaction that requires a property finally also establishes it, and one that requires it without preserving it does not establish it |
| RedexProperties.PreservesAll | libredex/RedexProperties.h:78-92 | preserves_all maps exactly the nine property names, each to Preserves |
| RedexProperties.NegativeNames | libredex/RedexPropertiesManager.cpp:69-88 | the negative properties are exactly NeedsEverythingPublic and NeedsInjectionIdLowering, both listed among all properties, while NoResolvablePureRefs is a name but not listed |
| RedexProperties.PropertyIsEnabled | libredex/RedexPropertiesManager.cpp:201-242 | only HasSourceBlocks can be disabled, and it is enabled exactly when InsertSourceBlocksPass is on the pass list and not disabled |
| RedexProperties.FilterEnabled | libredex/RedexPropertiesManager.cpp:51-64 | filtering keeps a subset and drops nothing but a disabled HasSourceBlocks |
| RedexProperties.DefaultsAlwaysEnabled | libredex/RedexPropertiesManager.cpp:44-64 | the initial set is {UltralightCodePatterns} and the final set {NoInitClassInstructions, DexLimitsObeyed} under every configuration |
| RedexProperties.Required | libredex/RedexPropertiesManager.cpp:90-99 | the required names are exactly those whose interaction has requires set |
| RedexProperties.Apply | libredex/RedexPropertiesManager.cpp:109-125 | a property is established afterwards iff it was established and is preserved (or is negative and unmentioned), or the interaction establishes it |
| RedexProperties.ApplyIdempotent | libredex/RedexPropertiesManager.cpp:109-125 | applying the same interactions twice is applying them once |
| RedexProperties.ApplyMonotone | libredex/RedexPropertiesManager.cpp:109-125 | more properties before gives at least as many after |
| RedexProperties.PreservesAllKeeps | libredex/RedexProperties.h:78-92 | an analysis pass declaring preserves_all leaves any set of named properties unchanged |
| RedexProperties.AcceptedIffNoViolation | libredex/RedexPropertiesManager.cpp:136-199 | a pipeline is accepted exactly when no pass misses a required property, no final property is missing and no negative property remains |
| RedexProperties.VerifyPassInteractions | libredex/RedexPropertiesManager.cpp:136-199 | verification returns nothing exactly when the pipeline is accepted, and otherwise exactly the non-empty set of violations |
| RedexProperties.CheckPasses | libredex/RedexPropertiesManager.cpp:155-179 | walking the passes ends in the pipeline's end state and final names, and logs exactly the names some pass requires before they are established |
| RedexProperties.MissingBefore | libredex/RedexPropertiesManager.cpp:155-170 | the names logged before a pass are exactly its required names missing from the state before it |
| RedexProperties.EndFailures | libredex/RedexPropertiesManager.cpp:180-192 | at the end, exactly the missing final names and the negative names still established are logged |
| MethodFixup.End | libredex/MethodFixup.cpp:23-29 | the end of a removed method's forwarding chain is not itself removed; a method that is not removed is its own end |
| MethodFixup.ShortcutKeepsEnds | libredex/MethodFixup.cpp:26 | pointing a key directly at its chain end keeps the map acyclic and changes no chain end |
| MethodFixup.Forward | libredex/MethodFixup.cpp:23-29 | the key now maps to its chain end, keys are unchanged, no chain end changes, and entries already pointing outside the map are untouched |
| MethodFixup.ForwardChains | libredex/MethodFixup.cpp:20-32 | afterwards every key maps to its chain end, so no value is a key, and the keys are unchanged |
| MethodFixup.Retarget | libredex/MethodFixup.cpp:38-43 | only an invoke-virtual whose target is a key changes, and it keeps its opcode |
| MethodFixup.FixupCode | libredex/MethodFixup.cpp:35-49 | on success every instruction is retargeted in place and the code keeps its length |
| MethodFixup.FixupCodeMeaning | libredex/MethodFixup.cpp:35-49 | the rewrite succeeds exactly when every instruction referencing a removed method is an invoke-virtual; then no instruction references a removed method and each invoke-virtual points at its chain end |
| ClassChecker.CheckClass | libredex/ClassChecker.cpp:14-31 | a class is recorded as failed and clears the good flag exactly when it is concrete and has an abstract method |
| ClassChecker.Run | libredex/ClassChecker.cpp:13-33 | the failed set gains exactly the failing classes of the scope, the good flag stays true iff none fails, and it never goes from false to true |
| ClassChecker.SingleClassScenarios | test/unit/ClassCheckerTest.cpp:15-85 | a concrete class with an abstract method fails; a concrete class with concrete methods, an interface and an abstract class pass |
| ClassChecker.LinesAppend | libredex/ClassChecker.cpp:42-43 | each printed name is followed by a newline |
| ClassChecker.PrintFailedClasses | libredex/ClassChecker.cpp:35-51 | the "Too many errors" line appears exactly when more than ten failed, then the heading and at most the first ten names |
| ConfigFiles.FindTab | libredex/ConfigFiles.cpp:34-37 | the position of the next tab at or after the start, or the line's end when there is none |
| ConfigFiles.Fields | libredex/ConfigFiles.cpp:28-56 | a line has at least one tab-separated field |
| ConfigFiles.FieldsJoin | libredex/ConfigFiles.cpp:28-56 | joining the fields with tabs gives back the line, and no field contains a tab |
| ConfigFiles.Next | libredex/ConfigFiles.cpp:47-55 | next keeps the splitter valid on the same line and changes nothing when it reports false |
| ConfigFiles.NewSplitter | libredex/ConfigFiles.cpp:40-41 | a new splitter starts at the first field |
| ConfigFiles.SplitterWalk | libredex/ConfigFiles.cpp:43-55 | get returns the current field, next succeeds exactly when another field follows, and then the remaining fields shift by one |
| ConfigFiles.Saturate | libredex/ConfigFiles.cpp:62 | out-of-range values clamp to the 64-bit bounds and in-range values are unchanged |
| ConfigFiles.FromChars | libredex/ConfigFiles.cpp:58-64 | a parsed value lies in the 64-bit range and the empty field reads as 0 |
| ConfigFiles.FromCharsShow | libredex/ConfigFiles.cpp:58-64 | every 64-bit integer written in decimal parses back to itself |
| ConfigFiles.FromCharsRefuses | libredex/ConfigFiles.cpp:58-64 | trailing garbage, a lone sign or only blanks are refused; leading blanks are skipped |
| ConfigFiles.ShowNatValue | libredex/ConfigFiles.cpp:58-64 | the decimal digits of a number read back as that number |
| ConfigFiles.ColdstartEntry | libredex/ConfigFiles.cpp:211-238 | an entry is valid exactly when it is longer than ".class" and ends with it |
| ConfigFiles.ColdstartRoundTrip | libredex/ConfigFiles.cpp:236-238 | "X.class" becomes "LX;" with no dot replacement, and a valid entry is recovered from its descriptor |
| ConfigFiles.LoadColdstart | libredex/ConfigFiles.cpp:226-240 | loading succeeds exactly when every entry is valid and then yields the translated descriptors in order; otherwise it fails naming an invalid entry |
| ConfigFiles.TrimTrailing | libredex/ConfigFiles.cpp:317-321 | the longest prefix ending in a character above ' ', with only characters at or below ' ' dropped |
| ConfigFiles.RemoveRelocatedPart | libredex/ConfigFiles.cpp:295-301 | names shorter than the suffix are unchanged; otherwise exactly the suffix length is dropped from the end |
| ConfigFiles.RelocatedStrip | libredex/ConfigFiles.cpp:291-301 | a name ending in the suffix is relocated, and stripping gives back its base |
| ConfigFiles.DotsToSlashes | libredex/ConfigFiles.cpp:342 | every '.' becomes '/' and every other character is kept |
| ConfigFiles.ToDescriptor | libredex/ConfigFiles.cpp:337-342 | "L" + name + ";" with no dot left and every other character kept in place |
| ConfigFiles.ParseDeadLine | libredex/ConfigFiles.cpp:317-353 | one line: trailing blanks trimmed, the class name is the first tab field and up to two count fields follow; a relocated name loses its suffix and becomes a live descriptor; any other name becomes a translated dead descriptor with its counts |
| ConfigFiles.ReadCountsFields | libredex/ConfigFiles.cpp:322-332 | the optional second and third fields are read as the sampled and unsampled counts |
| ConfigFiles.ParseDeadLineFields | libredex/ConfigFiles.cpp:316-352 | a dead-class line is parsed from the fields of the trimmed line |
| ConfigFiles.MapAllEach | libredex/ConfigFiles.cpp:316 | a whole file parses exactly when every line does, line by line |
| ConfigFiles.ParseLinesEach | libredex/ConfigFiles.cpp:316-353 | the lines parse exactly when each line parses, in order |
| ConfigFiles.FileDeadLines | libredex/ConfigFiles.cpp:333-352 | relocated names go to the live set untranslated, the others to the dead map, where the first entry for a name wins |
| ConfigFiles.ParseDeadLines | libredex/ConfigFiles.cpp:303-356 | the lines parse exactly when each line parses on its own; on failure the named line fails and every line before it parses |
| ConfigFiles.BuildDeadAndLiveLists | libredex/ConfigFiles.cpp:303-356 | the lists are built exactly when every line parses; otherwise the first failing line is named, since it fails and every line before it parses; live set and dead map are as in FileDeadLines |
| ConfigFiles.InstructionSizeBitwidthLimit | libredex/ConfigFiles.cpp:84-90 | the configured width (0 when absent) is accepted exactly when it is below 32 |
| ConstClassBranches.ShouldConsiderMethod | opt/const-class-branches/TransformConstClassBranches.cpp:70-79 | a method is considered exactly when some parameter is java.lang.Class and it has code |
| ConstClassBranches.RelevantCaseCount | opt/const-class-branches/TransformConstClassBranches.cpp:167-178 | the count is at most the number of cases, counts every case when external classes are considered, and is full exactly when every case is relevant |
| ConstClassBranches.RelevantCounted | opt/const-class-branches/TransformConstClassBranches.cpp:169-177 | without external classes the count is the number of cases whose type has a non-external class |
| ConstClassBranches.Qualifies | opt/const-class-branches/TransformConstClassBranches.cpp:179-187 | a branch qualifies exactly when it has a default case and its relevant count lies within [min_cases, max_cases] |
| ConstClassBranches.DefaultGate | opt/const-class-branches/TransformConstClassBranches.cpp:393-399 | under the default configuration a qualifying branch has at least five cases on internal classes |
| ConstClassBranches.Wrap16 | opt/const-class-branches/TransformConstClassBranches.cpp:240-243 | the int16_t counter wraps into [-32768, 32768) and is exact inside that range |
| ConstClassBranches.OrdinalItems | opt/const-class-branches/TransformConstClassBranches.cpp:236-249 | each switched-on name, in order, is paired with the 16-bit counter starting at 1 |
| ConstClassBranches.OrdinalsOfNames | opt/const-class-branches/TransformConstClassBranches.cpp:236-249 | with fewer than 32767 distinct names the ordinals are 1, 2, 3, … and never the reserved 0; each name maps to its position plus one and other names to nothing |
| ConstClassBranches.SwitchLookup | opt/const-class-branches/TransformConstClassBranches.cpp:236-256 | reading the encoded table gives each switched-on name its ordinal and every other name the no-entry value 0 |
| ConstClassBranches.CharOperand | opt/const-class-branches/TransformConstClassBranches.cpp:207 | a byte below 128 enters the xor unchanged |
| ConstClassBranches.Fnv1 | opt/const-class-branches/TransformConstClassBranches.cpp:202-210 | the hash of the encoded name: from offset basis 0x811c9dc5, each byte multiplies by 0x01000193 modulo 2^32 and then xors in the byte's signed-char operand |
| ConstClassBranches.Fnv1Ascii | opt/const-class-branches/TransformConstClassBranches.cpp:202-210 | on bytes below 128 the hash is 32-bit FNV-1 from 0x811c9dc5 with prime 0x01000193, multiply then xor |
| ConstClassBranches.Fnv1HighByte | opt/const-class-branches/TransformConstClassBranches.cpp:207 | where plain `char` is signed (x86-64 Linux, Apple platforms), a byte from 128 up is sign-extended, which flips the upper 24 bits relative to textbook FNV-1 |
| ArtProfile.ShowFlags | opt/art-profile-writer/ArtProfileWriterPass.cpp:35-46 | the output holds H, S and P exactly for the set flags |
| ArtProfile.FlagsRoundTrip | opt/art-profile-writer/ArtProfileWriterPass.cpp:35-46 | the flags are printed in the order H, S, P and can be read back |
| ArtProfile.AssignFlags | opt/art-profile-writer/ArtProfileWriterPass.cpp:62-85 | a method gets flags exactly when it qualifies in some interaction; then it is hot and not_startup, and startup exactly when it qualifies in ColdStart |
| ArtProfile.HotInStep | opt/art-profile-writer/ArtProfileWriterPass.cpp:64-71 | one more interaction adds exactly the methods that meet its thresholds |
| ArtProfile.DexEnd | opt/art-profile-writer/ArtProfileWriterPass.cpp:89-96 | all dexes from min_sdk 21 on, otherwise only the first, which must exist |
| ArtProfile.ReplaceAll | opt/art-profile-writer/ArtProfileWriterPass.cpp:106-107 | every occurrence of the pattern, found left to right without rescanning a replacement, becomes the replacement |
| ArtProfile.ReplaceDots | opt/art-profile-writer/ArtProfileWriterPass.cpp:106 | after replacing "." by "->" no dot is left, and a text without dots is unchanged |
| ArtProfile.ReplaceDotsIsArrows | opt/art-profile-writer/ArtProfileWriterPass.cpp:106 | replacing every "." by "->" is the character-by-character rewrite that turns each dot into an arrow and keeps every other character |
| ArtProfile.ProfileDescriptor | opt/art-profile-writer/ArtProfileWriterPass.cpp:103-107 | the rewritten descriptor contains no dot |
| ArtProfile.ProfileDescriptorKeeps | opt/art-profile-writer/ArtProfileWriterPass.cpp:106-107 | a descriptor without "." or ":(" is written unchanged |
| ArtProfile.ProfileDescriptorOfMethod | opt/art-profile-writer/ArtProfileWriterPass.cpp:103-107 | a deobfuscated method descriptor `cls.name:(sig`, whose parts hold no "." and no ":(", is written as `cls->name(sig` |
| ArtProfile.MethodDots | opt/art-profile-writer/ArtProfileWriterPass.cpp:106 | the dot rewrite turns `cls.name:(sig` into `cls->name` followed by the untouched `:(sig` |
| ArtProfile.NoCallParenBefore | opt/art-profile-writer/ArtProfileWriterPass.cpp:107 | no ":(" starts inside `cls->name` when its parts hold none, so the second rewrite touches only the signature's opening |
| ArtProfile.ReplaceAllSkipsPrefix | opt/art-profile-writer/ArtProfileWriterPass.cpp:106-107 | a prefix in which no match starts is copied unchanged and the rewrite continues on the rest |
| ArtProfile.Flagged | opt/art-profile-writer/ArtProfileWriterPass.cpp:97-102 | the methods of a dex that carry flags: a method is kept exactly when it is in the dex and has flags, and their number is the number of flagged positions |
| ArtProfile.DexLines | opt/art-profile-writer/ArtProfileWriterPass.cpp:97-110 | one line per flagged method of the dex, in dex order; line k is the k-th flagged method's flags followed by its rewritten descriptor |
| ArtProfile.WriteProfile | opt/art-profile-writer/ArtProfileWriterPass.cpp:87-115 | the lines of the scanned dexes, in order, and the metric counts exactly the lines written |
| InterDexGains.PowerValueFor | opt/interdex/InterDexReshufflePass.cpp:47-49 | the power value never exceeds 2^44 |
| InterDexGains.PowerValueClosedForm | opt/interdex/InterDexReshufflePass.cpp:47-49 | for n <= 11 the value is 16^(11-n), i.e. 2^(44-4n); each step down in n multiplies it by 16 |
| InterDexGains.PowerValueDecreasing | opt/interdex/InterDexReshufflePass.cpp:40-49 | positive and strictly decreasing on 0..11, and 0 above 11 |
| InterDexGains.ShiftPow16 | opt/interdex/InterDexReshufflePass.cpp:48 | shifting 2^44 right by 4k bits is 16^(11-k) |
| InterDexGains.ComputeGain | opt/interdex/InterDexReshufflePass.cpp:204-209 | a single gain lies within plus or minus 2^44 |
| InterDexGains.GainSign | opt/interdex/InterDexReshufflePass.cpp:204-209 | a gain is positive exactly when the source has 1..12 occurrences and the target has more than source minus one occurrences or more than 11; it is zero exactly when the source has none, the target has exactly source minus one, or both are past the precision limit |
| InterDexGains.SumGains | opt/interdex/InterDexReshufflePass.cpp:175-198 | a sum of gains over n references lies within plus or minus n times 2^44 |
| InterDexGains.SumGainsPositive | opt/interdex/InterDexReshufflePass.cpp:175-198 | a positive sum has a reference with a positive gain |
| InterDexGains.MoveGain | opt/interdex/InterDexReshufflePass.cpp:166-202 | a move to the class's own dex gains 0; any move gains within the bound of its reference count |
| InterDexGains.MoveGainPositive | opt/interdex/InterDexReshufflePass.cpp:166-202 | a positive move gain means a different dex and a field, method, type or string reference that gains |
| InterDexPlan.CanMove | opt/interdex/InterDexReshufflePass.cpp:455-459 | a class may move unless it is a canary, or it is betamap-ordered while the inter-dex order is kept |
| InterDexPlan.FirstDexIndex | opt/interdex/InterDexReshufflePass.cpp:279-287 | the first dex index is at least 1 and skips exactly the leading dexes with no movable class |
| InterDexPlan.BelowOrder | opt/interdex/InterDexReshufflePass.cpp:60-73 | the heap order by gain, then target index, then class is a strict total order |
| InterDexPlan.RecomputeGains | opt/interdex/InterDexReshufflePass.cpp:90-122 | the heap holds exactly the moves of movable classes to participating dexes with positive gain; the epoch advances, last epoch's move count is kept, and the per-epoch counters reset |
| InterDexPlan.ArgMax | opt/interdex/InterDexReshufflePass.cpp:124-132 | the chosen move is not below any other move of the heap |
| InterDexPlan.PopMaxGain | opt/interdex/InterDexReshufflePass.cpp:124-144 | the popped move is a maximum among the remaining ones and its class has not moved this epoch; skipped moves are of classes already moved; an empty answer means every move was skipped |
| InterDexPlan.ShouldStop | opt/interdex/InterDexReshufflePass.cpp:157-162 | stop when no move happened this epoch or more than nine tenths of the moves repeat last epoch's, the quotient compared exactly |
| InterDexPlan.MovedClass | opt/interdex/InterDexReshufflePass.cpp:146-153 | one more move this epoch, and one more "also moved" exactly when the class was stamped with the previous epoch |
| InterDexPlan.MovedClassSkips | opt/interdex/InterDexReshufflePass.cpp:134-153 | the moved class is now skipped for the epoch; other classes are skipped as before |
| InterDexMoves.Increment | opt/interdex/InterDexReshufflePass.cpp:433-437 | each string of the class gains one occurrence in the target dex and nothing else changes |
| InterDexMoves.Decrement | opt/interdex/InterDexReshufflePass.cpp:444-450 | each string of the class loses one occurrence in the source dex, and entries that reach zero are erased |
| InterDexMoves.TryPlanMove | opt/interdex/InterDexReshufflePass.cpp:415-453 | a move that does not fit changes nothing; one that fits sets the class's dex to the target |
| InterDexMoves.HoldersAfterMove | opt/interdex/InterDexReshufflePass.cpp:433-451 | moving a class changes the holders of a string in a dex exactly by the class leaving the source and arriving at the target |
| InterDexMoves.TryPlanMoveConsistent | opt/interdex/InterDexReshufflePass.cpp:415-453 | after a planned move every dex's string counts still equal the number of its classes holding each string |
| InterDexMoves.AddClassConsistent | opt/interdex/InterDexReshufflePass.cpp:327-329 | adding a class with its strings keeps the counts exact |
| InterDexMoves.InitialPlacement | opt/interdex/InterDexReshufflePass.cpp:279-331 | every class of a participating dex is placed in its own dex and the string counts are exact |
| InterDexMoves.ComputePlan | opt/interdex/InterDexReshufflePass.cpp:334-382 | counts stay exact, no class is added or lost, immovable classes stay put, moves only go to participating dexes, and at most max_batches batches run |
| UninstantiableTypes.ParentReached | opt/remove-uninstantiables/RemoveUninstantiablesPass.cpp:242-249 | a superclass or interface of a class reachable from the instantiable classes is reachable too |
| UninstantiableTypes.ChildrenOfKids | opt/remove-uninstantiables/RemoveUninstantiablesPass.cpp:238-240 | the children recorded under a superclass are exactly the visited classes that extend it |
| UninstantiableTypes.Mark | opt/remove-uninstantiables/RemoveUninstantiablesPass.cpp:235-241 | marking a class adds exactly that class to the visited set |
| UninstantiableTypes.RecordOne | opt/remove-uninstantiables/RemoveUninstantiablesPass.cpp:238-241 | visiting a new class keeps the walk's state exact: remaining candidates are the unvisited ones, and children are recorded under their superclass |
| UninstantiableTypes.Visit | opt/remove-uninstantiables/RemoveUninstantiablesPass.cpp:234-246 | `visit` returns true exactly for a known class not yet visited; otherwise nothing changes; a visited class has its interfaces visited, and only classes reachable from the starting ones are visited |
| UninstantiableTypes.VisitNew | opt/remove-uninstantiables/RemoveUninstantiablesPass.cpp:235-245 | the class becomes visited together with all its interfaces, and every other newly visited class is an interface of a visited class |
| UninstantiableTypes.VisitInterfaceAt | opt/remove-uninstantiables/RemoveUninstantiablesPass.cpp:242-244 | one round of the interface loop visits the next interface and keeps the loop's invariant |
| UninstantiableTypes.WalkChain | opt/remove-uninstantiables/RemoveUninstantiablesPass.cpp:247-251 | walking up the superclass chain leaves every visited class with its superclass visited or reached as an interface |
| UninstantiableTypes.Instantiable | opt/remove-uninstantiables/RemoveUninstantiablesPass.cpp:222-229 | the classes treated as instantiable are exactly those of the scope that are neither uninstantiable nor interfaces that cannot be instantiated |
| UninstantiableTypes.ComputeScopedUninstantiableTypes | opt/remove-uninstantiables/RemoveUninstantiablesPass.cpp:201-254 | a type is uninstantiable exactly when it is Void, or a candidate of the scope that the walk did not visit; the walk visits every instantiable class and the interfaces of every visited class, each visited class has its superclass visited or was reached as an interface, and every visited class lies in every set that holds the instantiable classes and is closed under superclass and interfaces; the children map records exactly the visited classes under their superclass |
| VirtualScopes.IsInstantiated | opt/remove-uninstantiables/RemoveUninstantiablesPass.cpp:135-138 | a type is instantiated when its class is a root or cannot be renamed, or some code creates it |
| VirtualScopes.ScanCode | opt/remove-uninstantiables/RemoveUninstantiablesPass.cpp:108-133 | the instantiated types are exactly those of new-instance and const-class instructions; the unresolved set is exactly the scopes of invoke-super callees that do not resolve, and the resolved set exactly the callees that do |
| VirtualScopes.Transitive | opt/remove-uninstantiables/RemoveUninstantiablesPass.cpp:58-102 | the transitively defined scopes of a type are always scopes some class defines |
| VirtualScopes.HoldersStep | opt/remove-uninstantiables/RemoveUninstantiablesPass.cpp:80-94 | counting one more child raises a scope's count by one exactly when that child covers the scope |
| VirtualScopes.HoldersFull | opt/remove-uninstantiables/RemoveUninstantiablesPass.cpp:95-100 | a scope's count equals the number of children exactly when every child covers it |
| VirtualScopes.Bump | opt/remove-uninstantiables/RemoveUninstantiablesPass.cpp:83-91 | each scope of the set gains one count, the others keep theirs |
| VirtualScopes.ComputeTransitive | opt/remove-uninstantiables/RemoveUninstantiablesPass.cpp:58-102 | afterwards the memo holds the type, and every entry equals the reference definition of transitively defined scopes |
| VirtualScopes.CountChild | opt/remove-uninstantiables/RemoveUninstantiablesPass.cpp:80-94 | after one child the counts equal, for each scope, the number of children so far that define it or have it transitively |
| VirtualScopes.CountStep | opt/remove-uninstantiables/RemoveUninstantiablesPass.cpp:80-94 | bumping by the child's own scopes and then by its other transitive scopes counts exactly the children that cover each scope |
| VirtualScopes.CountedMeaning | opt/remove-uninstantiables/RemoveUninstantiablesPass.cpp:95-100 | the scopes whose count equals the number of children are exactly the reference transitive scopes of a type that is not instantiated |
| VirtualScopes.ComputeAll | opt/remove-uninstantiables/RemoveUninstantiablesPass.cpp:162-165 | every class of the scope ends up in the memo with its reference value |
| VirtualScopes.KeepCode | opt/remove-uninstantiables/RemoveUninstantiablesPass.cpp:167-188 | static code is kept; code of an uninstantiable class is dropped; non-virtual code, code an invoke-super reaches, and code of an instantiated class are kept; otherwise the code is kept unless its scope is among the class's transitively defined scopes, with a failing lookup for a class never seen |
| VirtualScopes.KeepCodeMeaning | opt/remove-uninstantiables/RemoveUninstantiablesPass.cpp:168-189 | with the memo computed, `keep_code` answers, and answers false exactly for a non-static method whose class is uninstantiable, or that is virtual, never super-invoked, on a class that is not instantiated, with a scope the class has transitively |
| VirtualScopes.Overridden | opt/remove-uninstantiables/RemoveUninstantiablesPass.cpp:54-102 | a scope a non-instantiated type has transitively is defined again on every chain of instantiable children ending at an instantiated type |
| VirtualScopes.RunPass | opt/remove-uninstantiables/RemoveUninstantiablesPass.cpp:266-287 | the uncallable methods are exactly the considered ones whose code is not kept, and the rewritten ones exactly those whose code is kept |
| CallGraph.NewGraph | libredex/CallGraph.cpp:435-437 | a new graph is well formed, with no method nodes and no edges |
| CallGraph.MakeNode | libredex/CallGraph.cpp:590-597 | a known method gets its existing node back and the graph is unchanged; a new method gets a fresh node with no edges, and the old nodes are untouched |
| CallGraph.NewNodeWellFormed | libredex/CallGraph.cpp:590-597 | appending a fresh node keeps every edge's endpoints and every node's edge lists consistent |
| CallGraph.AddEdge | libredex/CallGraph.cpp:599-605 | the edge is appended, it becomes the caller's last successor and the callee's last predecessor, and every other node's edge lists are unchanged |
| CallGraph.AddEdgeWellFormed | libredex/CallGraph.cpp:599-605 | adding an edge keeps the graph well formed |
| CallGraph.AppendedSuccessors | libredex/CallGraph.cpp:599-603 | with the edge appended at its caller, every successor list still names only edges leaving its node |
| CallGraph.AppendedPredecessors | libredex/CallGraph.cpp:599-605 | with the edge appended at its callee, every predecessor list still names only edges entering its node |
| CallGraph.Callees | libredex/CallGraph.cpp:613 | a node's callees are exactly its successor edges in order, each leaving that node |
| CallGraph.ResolveCallees | libredex/CallGraph.cpp:607-626 | the callees resolved for an instruction are exactly the methods reached by an outgoing edge of the caller labelled with that instruction |
| CallGraph.ResolveAfterAddEdge | libredex/CallGraph.cpp:599-626 | after adding an edge labelled with an instruction, that instruction resolves to one more callee and every other instruction resolves as before |
| CallGraph.CalleesAfterAddEdge | libredex/CallGraph.cpp:599-613 | adding an edge appends exactly that edge to the caller's callees |
| CallGraph.ResolveByInsn | libredex/CallGraph.cpp:628-637 | an instruction in the map resolves to its recorded callees, any other to the empty set |
| CallGraph.Ids | libredex/CallGraph.cpp:643-666 | the node identifiers 0..k-1 in order |
| CallGraph.Expand | libredex/CallGraph.cpp:653-662 | the queue keeps its entries and gets the callee of each outgoing edge appended in order; the call sites are the distinct instructions on the node's edges |
| CallGraph.NumNodesEdges | libredex/CallGraph.cpp:643-666 | the visited nodes are exactly those reachable from the entry node; the node count is their number, the edge count the sum of their out-degrees, the call-site count the sum of their distinct invoke instructions |
| CallGraph.WalkVisit | libredex/CallGraph.cpp:650-663 | visiting an unvisited front node keeps the walk's invariant and shrinks the unvisited part |
| CallGraph.ClosedAfter | libredex/CallGraph.cpp:649-664 | visited and queued nodes stay inside every set that holds the entry and is closed under edges |
| CallGraph.ArcsAfter | libredex/CallGraph.cpp:652-661 | every edge out of a visited node leads to a visited or queued node |
| CallGraph.WalkSkip | libredex/CallGraph.cpp:652 | popping an already visited node changes nothing else |
| CallGraphBuild.DefinitelyVirtual | libredex/CallGraph.cpp:86-88 | a method is definitely virtual when it is virtual and not among the non-true virtuals |
| CallGraphBuild.SingleSites | libredex/CallGraph.cpp:55-70 | the single-callee call sites are exactly the invokes whose resolved callee is not definitely virtual and is concrete |
| CallGraphBuild.SingleCallSites | libredex/CallGraph.cpp:49-72 | a method without code has no call sites; for a method with code, a site is in the result exactly when some invoke of the body resolves to a callee that is not definitely virtual and is concrete |
| CallGraphBuild.SingleRoots | libredex/CallGraph.cpp:74-84 | the roots are exactly the methods with code that are definitely virtual, roots, static initialisers or argument-less constructors |
| CallGraphBuild.WithCode | libredex/CallGraph.cpp:357-362 | keeps exactly the methods that have code |
| CallGraphBuild.WithCodeAppend | libredex/CallGraph.cpp:357-362 | filtering an extended list appends the new method exactly when it has code |
| CallGraphBuild.CountWithCode | libredex/CallGraph.cpp:357-362 | the override count equals the number of overriding methods with code |
| CallGraphBuild.BigOverrides | libredex/CallGraph.cpp:335-372 | a method is a big override exactly when some invoke resolves to a virtual callee with more overriding methods with code than the threshold, and the method is that callee or one of its overrides |
| CallGraphBuild.InvokeSites | libredex/CallGraph.cpp:383-411 | the sites of one invoke are exactly the multiple-callee targets: the concrete non-virtual callee, or a true virtual callee outside the big overrides with code plus, unless the invoke is invoke-super, each overriding method with code |
| CallGraphBuild.MultiSites | libredex/CallGraph.cpp:380-415 | the sites of a list of invokes are exactly the targets of its invokes |
| CallGraphBuild.MultiCallSites | libredex/CallGraph.cpp:374-417 | a method without code has no call sites; otherwise they are exactly the targets of its invokes, each with code or concrete |
| CallGraphBuild.AdditionalRoots | libredex/CallGraph.cpp:419-430 | the additional roots are big overrides with code that are not external and not already roots, and every such big override is a root afterwards |
| CallGraphBuild.ArcsOf | libredex/CallGraph.cpp:472-545 | the arcs of processing a method are exactly those its work item records, all produced by that method |
| CallGraphBuild.Process | libredex/CallGraph.cpp:465-546 | processing one work item keeps the construction's invariant and marks that method done |
| CallGraphBuild.ProcessKeepsNodes | libredex/CallGraph.cpp:514-527 | the callees of a processed method become nodes |
| CallGraphBuild.ProcessKeepsInsns | libredex/CallGraph.cpp:493-545 | the instruction map records, for each processed instruction, exactly its callees |
| CallGraphBuild.Build | libredex/CallGraph.cpp:435-588 | construction fails exactly when a root is listed twice; otherwise the nodes are the least set holding the roots and closed under call sites; the entry reaches every root, every method without call sites reaches the exit, every call site is an edge, every edge was recorded by a processed method, and the instruction map is exact |
| CallGraphBuild.Finished | libredex/CallGraph.cpp:559 | when no node waits to be processed, the construction's invariant yields the graph's full description |
| CallGraphBuild.Duplicated | libredex/CallGraph.cpp:553-557 | true exactly when the root list holds a method twice |
| CallGraphBuild.LookupBuilt | libredex/CallGraph.cpp:628-637 | in the built graph an invoke instruction resolves to exactly the callees of its call sites |
| SplittingConfig.DefaultConfig | opt/outliner/MethodSplittingConfig.h:15-32 | the default thresholds order hot-cold below hot below cold, and the too-large-for-inlining size below the minimum original size below the huge threshold |
| SplittingConfig.LiveInLimit | opt/outliner/SplittableClosures.cpp:380 | a non-negative live-in limit is used as is; a negative one, cast to an unsigned 64-bit size, becomes at least 2^63 |
| MethodClosures.NeedsPos | opt/outliner/MethodClosures.cpp:64-83 | no position is needed exactly when a position entry comes before any instruction that may throw or throws |
| MethodClosures.FinalFieldBlocks | opt/outliner/MethodClosures.cpp:29-62 | an ordinary method has no excluded blocks; a constructor or static initialiser excludes exactly the reduced blocks holding a put to a final field of its own class, static for the initialiser and instance for the constructor |
| MethodClosures.ScanPreds | opt/outliner/MethodClosures.cpp:153-177 | the scan succeeds on a non-empty edge list exactly when no edge throws or holds a monitor and all enter one target; then the sources are all edge sources and the target is the shared one |
| MethodClosures.DiscoverClosures | opt/outliner/MethodClosures.cpp:131-196 | a method below the size thresholds yields nothing; otherwise the closures are exactly those of the non-entry blocks with clean incoming edges, a target that does not start with a move-result or move-exception, and no reach into an excluded block; no closures yields nothing; the original size is the code size |
| SplittableClosures.KindOf | opt/outliner/SplittableClosures.cpp:98-123 | hot exactly when some source and some target are hot, hot-cold when a source is hot but no target, cold when no source is hot |
| SplittableClosures.SaturatingSub | opt/outliner/SplittableClosures.cpp:131-134 | the subtraction stops at zero instead of wrapping |
| SplittableClosures.Score | opt/outliner/SplittableClosures.cpp:81-166 | a candidate scores exactly when its split size reaches its kind's minimum and the estimated remainder reaches the remaining minimum; the score carries the kind and split size, and the remaining size is the remaining blocks' size minus the switch reduction, floored at zero |
| SplittableClosures.CountInUnion | opt/outliner/SplittableClosures.cpp:171-179 | a block is counted exactly when some keyed closure holds it, at most once per closure |
| SplittableClosures.AddToCounts | opt/outliner/SplittableClosures.cpp:172-176 | each component's count goes up by one, the others stay |
| SplittableClosures.CriticalComponents | opt/outliner/SplittableClosures.cpp:168-187 | a block is critical exactly when some but not all keyed closures hold it and the fallthrough does not |
| SplittableClosures.MinKey | opt/outliner/SplittableClosures.cpp:206-211 | the smallest case key, absent when some edge is the default one |
| SplittableClosures.Keyed | opt/outliner/SplittableClosures.cpp:201-218 | the keyed list holds exactly the eligible closures with a case key, each with its smallest key |
| SplittableClosures.LastDefault | opt/outliner/SplittableClosures.cpp:215-217 | the fallthrough is the last closure reached by a default edge, absent when none is |
| SplittableClosures.Seed | opt/outliner/SplittableClosures.cpp:222-235 | the seed has the largest case key |
| SplittableClosures.Additions | opt/outliner/SplittableClosures.cpp:237-242 | cases are added while the group has at most half of all cases, and stops only when the aggregator runs dry or the group would pass half |
| SplittableClosures.Grown | opt/outliner/SplittableClosures.cpp:230-242 | the group starts with the fallthrough and the seed and stays within half of the cases unless it has just those two |
| SplittableClosures.Aggregate | opt/outliner/SplittableClosures.cpp:190-252 | a single case, no keyed case or no fallthrough gives nothing; otherwise the result is the longest prefix of the grown group, of two or more closures, that scores, or nothing when none does |
| SplittableClosures.PopBack | opt/outliner/SplittableClosures.cpp:243-251 | popping from the back returns the longest scoring prefix, or nothing when no prefix of two or more scores |
| SplittableClosures.FilterOverlaps | opt/outliner/SplittableClosures.cpp:348-409 | a candidate is kept, in order, exactly when it is splittable and no earlier kept candidate's components hold one of its blocks |
| MethodSplitter.SizeSub | opt/outliner/MethodSplitter.cpp:57 | the type-ref budget is computed modulo 2^64, as an unsigned size |
| MethodSplitter.NewDexState | opt/outliner/MethodSplitter.cpp:35-58 | the dex's type refs are its types plus the refined init classes; the method-ref count adds the reserved ones; the type budget is the limit minus the reserved type refs |
| MethodSplitter.UnionCard | opt/outliner/MethodSplitter.cpp:60-66 | the number of new type refs is the size of the union minus the existing ones |
| MethodSplitter.CanInsertTypeRefs | opt/outliner/MethodSplitter.cpp:60-75 | type refs fit exactly when the union stays strictly below the budget |
| MethodSplitter.InsertTypeRefs | opt/outliner/MethodSplitter.cpp:77-81 | the type refs become the union and stay below the budget; nothing else changes |
| MethodSplitter.CanInsertMethodRef | opt/outliner/MethodSplitter.cpp:83-89 | one more method reference fits exactly when the count is below the maximum |
| MethodSplitter.InsertMethodRef | opt/outliner/MethodSplitter.cpp:83-95 | the method-ref count goes up by one and stays within the maximum |
| MethodSplitter.ArgTypes | opt/outliner/MethodSplitter.cpp:106-114 | exactly the types of the arguments that have one |
| MethodSplitter.BaseName | opt/outliner/MethodSplitter.cpp:123-125 | a constructor is named $init$, a static initialiser $clinit$, any other method by its own name |
| MethodSplitter.SplitName | opt/outliner/MethodSplitter.cpp:123-128 | the split method's name starts with the base name followed by "$split$" |
| MethodSplitter.SplitNamesDiffer | opt/outliner/MethodSplitter.cpp:126-128 | two indices give two different names for the same closure |
| MethodSplitter.SplitMethod | opt/outliner/MethodSplitter.cpp:98-128 | splitting fails exactly when the method refs are used up or the argument types do not fit; otherwise it yields the name for the index and a state with one more method ref and the argument types added, within both limits |
| MethodSplitter.Bump | opt/outliner/MethodSplitter.cpp:341 | hands out the current index for the key and advances only that key's counter |
| MethodSplitter.HandedConsecutive | opt/outliner/MethodSplitter.cpp:338-341 | k calls for one key hand out k consecutive indices, starting at its counter |
| MethodSplitter.RankedBefore | opt/outliner/MethodSplitter.cpp:321-334 | higher rank first, then the method order, then a simple closure before a switch, then the higher id first |
| MethodSplitter.RankedBeforeOrder | opt/outliner/MethodSplitter.cpp:320-334 | the ranking comparison is a strict total order |
| MethodSplitter.Insert | opt/outliner/MethodSplitter.cpp:320-334 | inserting into a ranked list gives a ranked permutation with the new candidate |
| MethodSplitter.RankAll | opt/outliner/MethodSplitter.cpp:320-334 | the ranked list is a sorted permutation of the candidates |
| MethodSplitter.Counted | opt/outliner/MethodSplitter.cpp:352-372 | a successful split adds one to the split count and one to exactly one hotness count |
| MethodSplitter.SplitOne | opt/outliner/MethodSplitter.cpp:336-372 | the key's index advances; the split fails exactly when the dex limits are hit, then the state is unchanged and one limit hit is counted; otherwise the name uses the handed index and the state and counts grow by one split |
| MethodSplitter.SplitRanked | opt/outliner/MethodSplitter.cpp:336-376 | splits a prefix of the ranked list, stopping at the first candidate that does not fit, which counts one limit hit; the state grows by that prefix's method and type refs and keeps its type budget; name k is the split name of candidate k under its method's next index plus the earlier candidates of that method; each method's counter advances by its candidates tried, the stopping one included |
| MethodSplitter.SplitLoop | opt/outliner/MethodSplitter.cpp:336-376 | the loop of the walk: the same prefix, stop condition, state growth, names and counter advance as the walk itself |
| MethodSplitter.SplitAt | opt/outliner/MethodSplitter.cpp:337-351 | one turn: either the next candidate is split under its index and the prefix grows by one, or the turn stops exactly when the dex limits are hit, with the state unchanged, one limit hit counted and the index still taken |
| MethodSplitter.ProgressStep | opt/outliner/MethodSplitter.cpp:343-372 | a successful split of the next candidate extends the split prefix by one: method refs, type refs, counts, names and counters all advance by that candidate |
| MethodSplitter.NamedStep | opt/outliner/MethodSplitter.cpp:338-344 | the next name, taken under the counter after the earlier candidates, is the split name of that candidate under its index |
| MethodSplitter.TookStep | opt/outliner/MethodSplitter.cpp:341 | bumping the next candidate's method counter extends the counted prefix by that candidate |
| MethodSplitter.TookAdvanced | opt/outliner/MethodSplitter.cpp:338-341 | after the walk, only methods that have candidates in the list have advanced counters |
| MethodSplitter.KeyCountOutside | opt/outliner/MethodSplitter.cpp:338-341 | a method with no candidate in a list is counted zero times |
| MethodSplitter.RankAllKeys | opt/outliner/MethodSplitter.cpp:320-341 | ranking does not change which methods are split |
| MethodSplitter.ProcessDex | opt/outliner/MethodSplitter.cpp:296-379 | a dex's candidates are ranked, then a prefix of them is split in rank order until the first one that does not fit, which meets the dex limits and counts one hit; the type budget is kept; name k is the split name of the k-th ranked candidate under its method's index; each method's counter advances by its ranked candidates tried |

## Left out

- Parallelism: `walk::parallel`, work queues, concurrent sets and maps. Every fixed point is modelled sequentially, and each result is stated so that it does not depend on visiting order.
- I/O and reporting: file, JSON and stream reading in `ConfigFiles`, trace output, metrics reporting, and `dump_graph`. A line-reading operation takes the file's lines as a parameter. A writer returns its lines and metric instead of writing them.
- Flow-sensitive body gathering in `MethodReferencesGatherer::advance`, `sweep_code` and `sweep_uncallable_virtual_methods`. Method bodies are opaque reference sets, and the CFG walk is not part of this model.
- Type-analysis-aware marking: it needs the global type analyser, which is not part of this model.
- The `relaxed_keep_class_members`, `cfg_gathering_check_instantiable`, `cfg_gathering_check_instance_callable` and `record_reachability` options. The closure is modelled under their default value, false. Seeding models the relaxed decision on its own.
- The dynamically-referenced condition and the gatherer dependencies. These only arise in the options that are left out.
- The integration test's concrete counts (20/39/3 classes, methods and fields before, 7/14/2 after). They need the test's program, which is not part of this model. The general statements are proved instead: mark-all then sweep keeps every count, and a sweep never increases a count.
- The closure invariant that every marked field defined in the program has its references marked. Only the field-reference visitor's closure is carried.
- Floating point. The method splitter's overhead ratios are not modelled. The ART profile's percentage thresholds and the splitter's rank are exact reals, not single-precision floats. The reshuffle pass's `should_stop` quotient is the exact integer comparison 10 * also_moved > 9 * last_moved.
- Integer widths where they never bind in practice: 64-bit gain sums, 32-bit counters, and `size_t` counts. Where a width matters it is modelled explicitly: the 32-bit FNV-1 hash, 16-bit ordinals, `uint32` payloads, the `size_t` type budget, and the signed live-in limit.
- `split_blocks` and the CFG part of `split_method`. These are control-flow-graph surgery.
- The grouping of closures by switch block in `get_scored_closures`, and the sort at the start of `to_splittable_closures`. The candidates arrive in scored order.
- The outliner's type-demand, liveness and uninitialised-object analyses. Their answers appear as booleans and counts on each candidate.
- `ReducedControlFlow.cpp`, `ClosureAggregator.cpp` and `DexLimits.h` are not part of this model. `describe`, the aggregator's hand-out order, `kMaxMethodRefs` and the type-ref limit are parameters.
- `compare_dexmethods` and `compare_dexclasses`. Methods and classes are ordered by their identifiers.
- `MultipleCalleeBaseStrategy::get_roots` and the method override graph. Overriding methods and method resolution are fields of the abstract program.
- The interdex `DexStructure` capacity check and per-class reference lists. A move's fit and each class's gain are parameters.
- `apply_transform` in the const-class branch pass, and everything else that rewrites code. Only the helpers are modelled.
- ReachResolve.Resolve: takes a fuel bound instead of recursing without one, because the source's recursion does not terminate on a cyclic hierarchy. On a layered (acyclic) hierarchy the fuel the closure passes is enough: `ReachVisit.ResolveFuelSuffices` shows that any larger fuel gives the same answer.
- Array types: a type reference is given as its element class. `push` strips array dimensions with `type::get_element_type_if_array` before `type_class` (`libredex/Reachability.cpp:330-340`), and that step is folded into the abstract program.
- UninstantiableTypes.ComputeScopedUninstantiableTypes: the visited set is bounded above by the parent-closed sets, not stated exactly. A class first reached as an interface does not have its superclass chain walked, and a later `while (visit(cls))` for it stops at once. The visited set therefore depends on the order in which the source iterates its unordered set of instantiable classes; the model walks them in scope order.
- ReachMarker.ComputeReachableObjects: requires the options left out above to be at their default, false.
- ReachMarker.ComputeReachableObjects: promises a lower bound only. The result contains the seed classes and the member seeds whose condition holds, and it is closed under every visit, but it is not proved to be the least such set. An upper bound would need every push, visitor and instantiable step to keep the marking inside an arbitrary closed candidate, which is a second invariant over the whole closure layer. The marked objects are only promised to be known to the program.
- ReachMarker.TransitiveClosure: the same lower bound as above. Every marked object is visited and closed, and nothing beyond the program's known objects is marked, but minimality is not proved.
- SplittableClosures.Score: requires the components' size to be at most the original size. The source asserts this only after the split-size checks, so a too-small split with oversized components returns none in the source and is outside the model. The overhead-ratio check is not modelled, so the model accepts some candidates that the source rejects on that ratio.
- InterDexMoves.ComputePlan: `should_stop` and the batch loop are modelled, but whether a move fits a dex is a parameter. The plan is promised to be consistent, not optimal.
- MethodSplitter.ProcessDex: the closures' rank is a key given as input. Stats for added and split code size are not modelled, because they need the split code.

=== FILE: art_profile.dfy ===
/** The ART baseline-profile writer: per-method flags from the method
    profiles, the flag letters, the dexes scanned, and the descriptor
    rewriting of each written line. Profile percentages are `double` in the
    source and `real` here; the output file and the metrics sink are
    outside the model, which returns the lines and the count instead. */
module ArtProfile {
  import opened Wrappers

  type MethodId = nat

  datatype Flags = Flags(hot: bool, startup: bool, notStartup: bool)

  /** The flag letters: "H", "S", "P", in that order, each only if set. */
  function ShowFlags(f: Flags): (r: string)
    ensures |r| <= 3
    ensures 'H' in r <==> f.hot
    ensures 'S' in r <==> f.startup
    ensures 'P' in r <==> f.notStartup
  {
    (if f.hot then "H" else "") + (if f.startup then "S" else "") + (if f.notStartup then "P" else "")
  }

  /** Reads the flag letters back. */
  function ParseFlags(s: string): Flags {
    Flags('H' in s, 'S' in s, 'P' in s)
  }

  /** The letters determine the flags, and they come out in H, S, P order. */
  lemma FlagsRoundTrip(f: Flags)
    ensures ParseFlags(ShowFlags(f)) == f
    ensures forall i, j :: 0 <= i < j < |ShowFlags(f)| ==> Rank(ShowFlags(f)[i]) < Rank(ShowFlags(f)[j])
  {
  }

  function Rank(c: char): nat {
    if c == 'H' then 0 else if c == 'S' then 1 else 2
  }

  /** One method's statistics for one interaction. */
  datatype Stat = Stat(appearPercent: real, callCount: real)

  /** The thresholds the pass is configured with. */
  datatype PerfConfig = PerfConfig(
    appear100Threshold: real,
    coldstartAppear100Threshold: real,
    callCountThreshold: real,
    interactions: seq<string>)

  const ColdStart: string := "ColdStart"

  /** Whether a method's statistics for an interaction make it hot. */
  predicate Qualifies(conf: PerfConfig, interaction: string, st: Stat) {
    && st.appearPercent >= (if interaction == ColdStart then conf.coldstartAppear100Threshold else conf.appear100Threshold)
    && st.callCount >= conf.callCountThreshold
  }

  /** The statistics of one interaction, empty when it has none. */
  function StatsOf(profiles: map<string, map<MethodId, Stat>>, interaction: string): map<MethodId, Stat> {
    if interaction in profiles then profiles[interaction] else map[]
  }

  /** Some configured interaction makes `m` hot; with `coldOnly`, the
      ColdStart interaction does. */
  ghost predicate HotIn(conf: PerfConfig, profiles: map<string, map<MethodId, Stat>>, m: MethodId, coldOnly: bool, upTo: nat)
    requires upTo <= |conf.interactions|
  {
    exists k :: 0 <= k < upTo &&
      var i := conf.interactions[k];
      (!coldOnly || i == ColdStart) && m in StatsOf(profiles, i) && Qualifies(conf, i, StatsOf(profiles, i)[m])
  }

  /** The flags of the methods the profiles make hot. Every hot method gets
      `hot` and `not_startup`; `startup` only through ColdStart. */
  method AssignFlags(conf: PerfConfig, profiles: map<string, map<MethodId, Stat>>)
    returns (flags: map<MethodId, Flags>)
    ensures forall m :: m in flags <==> HotIn(conf, profiles, m, false, |conf.interactions|)
    ensures forall m :: m in flags ==>
      flags[m] == Flags(true, HotIn(conf, profiles, m, true, |conf.interactions|), true)
  {
    flags := map[];
    for k := 0 to |conf.interactions|
      invariant forall m :: m in flags <==> HotIn(conf, profiles, m, false, k)
      invariant forall m :: m in flags ==> flags[m] == Flags(true, HotIn(conf, profiles, m, true, k), true)
    {
      var interaction := conf.interactions[k];
      var startup := interaction == ColdStart;
      var stats := StatsOf(profiles, interaction);
      var todo := stats.Keys;
      ghost var before := flags;
      while todo != {}
        invariant todo <= stats.Keys
        invariant forall m :: m in flags <==> m in before || (m in stats.Keys - todo && Qualifies(conf, interaction, stats[m]))
        invariant forall m :: m in flags ==> flags[m].hot && flags[m].notStartup
        invariant forall m :: m in flags ==> (flags[m].startup <==> StartupSoFar(before, m, startup && m in stats.Keys - todo && Qualifies(conf, interaction, stats[m])))
        decreases todo
      {
        var m :| m in todo;
        if Qualifies(conf, interaction, stats[m]) {
          var mf := if m in flags then flags[m] else Flags(false, false, false);
          mf := mf.(hot := true);
          if startup {
            mf := mf.(startup := true, notStartup := true);
          } else {
            mf := mf.(notStartup := true);
          }
          flags := flags[m := mf];
        }
        todo := todo - {m};
      }
      HotInStep(conf, profiles, k);
    }
  }

  /** A method keeps `startup` once it has it, and gains it from a
      qualifying ColdStart entry. */
  predicate StartupSoFar(before: map<MethodId, Flags>, m: MethodId, gained: bool) {
    (m in before && before[m].startup) || gained
  }

  /** Extending the interactions considered by one adds that interaction's
      hot methods. */
  lemma HotInStep(conf: PerfConfig, profiles: map<string, map<MethodId, Stat>>, k: nat)
    requires k < |conf.interactions|
    ensures forall m, coldOnly :: HotIn(conf, profiles, m, coldOnly, k + 1) <==>
      HotIn(conf, profiles, m, coldOnly, k) ||
      var i := conf.interactions[k];
      (!coldOnly || i == ColdStart) && m in StatsOf(profiles, i) && Qualifies(conf, i, StatsOf(profiles, i)[m])
  {
  }

  /** How many dexes of the first store are scanned: all of them from SDK 21
      on, otherwise only the first; `None` when that first dex is missing
      (`at` throws). */
  function DexEnd(minSdk: int, numDexes: nat): (r: Option<nat>)
    ensures r.Some? ==> r.value <= numDexes
    ensures r.None? <==> minSdk < 21 && numDexes == 0
    ensures r.Some? && minSdk >= 21 ==> r.value == numDexes
    ensures r.Some? && minSdk < 21 ==> r.value == 1
  {
    var end := if minSdk >= 21 then numDexes else 1;
    if end > numDexes then None else Some(end)
  }

  /** Whether `pat` occurs in `s` at position `i`. */
  predicate OccursAt(s: string, pat: string, i: nat) {
    i + |pat| <= |s| && s[i..i + |pat|] == pat
  }

  /** `boost::replace_all`: every occurrence of `pat`, scanning left to right
      and never rescanning a replacement, becomes `rep`. */
  function ReplaceAll(s: string, pat: string, rep: string): (r: string)
    requires pat != []
    decreases |s|
  {
    if |s| < |pat| then s
    else if s[..|pat|] == pat then rep + ReplaceAll(s[|pat|..], pat, rep)
    else [s[0]] + ReplaceAll(s[1..], pat, rep)
  }

  /** Replacing every '.' leaves no '.' behind, keeps every other character,
      and leaves a string without '.' unchanged. */
  lemma {:induction false} ReplaceDots(s: string)
    ensures '.' !in ReplaceAll(s, ".", "->")
    ensures |ReplaceAll(s, ".", "->")| >= |s|
    ensures '.' !in s ==> ReplaceAll(s, ".", "->") == s
    decreases |s|
  {
    if |s| >= 1 {
      ReplaceDots(s[1..]);
      if s[..1] != "." {
        assert s[0] != '.' by { assert s[..1] == [s[0]]; }
      }
    }
  }

  /** Replacing a pattern that contains no '.' by a string without '.' adds
      no '.'. */
  lemma {:induction false} ReplaceKeepsNoDot(s: string, pat: string, rep: string)
    requires pat != [] && '.' !in s && '.' !in rep
    ensures '.' !in ReplaceAll(s, pat, rep)
    decreases |s|
  {
    if |s| >= |pat| {
      if s[..|pat|] == pat {
        ReplaceKeepsNoDot(s[|pat|..], pat, rep);
      } else {
        ReplaceKeepsNoDot(s[1..], pat, rep);
      }
    }
  }

  /** The manual-profile form of a method descriptor: "." becomes "->" and
      ":(" becomes "(". */
  function ProfileDescriptor(descriptor: string): (r: string)
    ensures '.' !in r
  {
    ReplaceDots(descriptor);
    var arrows := ReplaceAll(descriptor, ".", "->");
    ReplaceKeepsNoDot(arrows, ":(", "(");
    ReplaceAll(arrows, ":(", "(")
  }

  /** Without an occurrence of the pattern nothing is replaced. */
  lemma {:induction false} ReplaceAllNoMatch(s: string, pat: string, rep: string)
    requires pat != []
    requires forall i :: 0 <= i <= |s| ==> !OccursAt(s, pat, i)
    ensures ReplaceAll(s, pat, rep) == s
    decreases |s|
  {
    if |s| >= |pat| {
      assert !OccursAt(s, pat, 0);
      forall i | 0 <= i <= |s[1..]|
        ensures !OccursAt(s[1..], pat, i)
      {
        assert !OccursAt(s, pat, i + 1);
        if i + |pat| <= |s[1..]| {
          assert s[1..][i..i + |pat|] == s[i + 1..i + 1 + |pat|];
        }
      }
      ReplaceAllNoMatch(s[1..], pat, rep);
    }
  }

  /** A descriptor already in manual-profile shape, with no '.' and no ":(",
      is written as it is. */
  lemma ProfileDescriptorKeeps(descriptor: string)
    requires '.' !in descriptor
    requires forall i :: 0 <= i <= |descriptor| ==> !OccursAt(descriptor, ":(", i)
    ensures ProfileDescriptor(descriptor) == descriptor
  {
    ReplaceDots(descriptor);
    ReplaceAllNoMatch(descriptor, ":(", "(");
  }

  /** Character by character: each '.' becomes "->", every other character
      is kept. */
  function Arrows(s: string): string {
    if s == [] then [] else (if s[0] == '.' then "->" else [s[0]]) + Arrows(s[1..])
  }

  /** Replacing every "." by "->" is the character-level rewrite `Arrows`. */
  lemma {:induction false} ReplaceDotsIsArrows(s: string)
    ensures ReplaceAll(s, ".", "->") == Arrows(s)
    decreases |s|
  {
    if |s| >= 1 {
      assert s[..1] == [s[0]];
      ReplaceDotsIsArrows(s[1..]);
    }
  }

  lemma {:induction false} ArrowsAppend(a: string, b: string)
    ensures Arrows(a + b) == Arrows(a) + Arrows(b)
    decreases |a|
  {
    if a == [] {
      assert a + b == b;
    } else {
      assert (a + b)[1..] == a[1..] + b;
      ArrowsAppend(a[1..], b);
    }
  }

  lemma {:induction false} ArrowsNoDot(s: string)
    requires '.' !in s
    ensures Arrows(s) == s
    decreases |s|
  {
    if s != [] {
      ArrowsNoDot(s[1..]);
    }
  }

  /** `s` holds no ":(". */
  predicate NoCallParen(s: string) {
    forall i :: 0 <= i <= |s| ==> !OccursAt(s, ":(", i)
  }

  lemma OccursAtCallParen(s: string, i: nat)
    ensures OccursAt(s, ":(", i) <==> i + 2 <= |s| && s[i] == ':' && s[i + 1] == '('
  {
    if i + 2 <= |s| {
      assert s[i..i + 2] == [s[i], s[i + 1]];
    }
  }

  /** A prefix in which no match starts is copied as it is. */
  lemma {:induction false} ReplaceAllSkipsPrefix(x: string, t: string, pat: string, rep: string)
    requires pat != []
    requires forall i :: 0 <= i < |x| ==> !OccursAt(x + t, pat, i)
    ensures ReplaceAll(x + t, pat, rep) == x + ReplaceAll(t, pat, rep)
    decreases |x|
  {
    if x == [] {
      assert x + t == t;
    } else if |x + t| < |pat| {
      assert ReplaceAll(t, pat, rep) == t;
    } else {
      assert !OccursAt(x + t, pat, 0);
      assert (x + t)[1..] == x[1..] + t;
      forall i | 0 <= i < |x[1..]|
        ensures !OccursAt(x[1..] + t, pat, i)
      {
        assert !OccursAt(x + t, pat, i + 1);
        if i + |pat| <= |x[1..] + t| {
          assert (x[1..] + t)[i..i + |pat|] == (x + t)[i + 1..i + 1 + |pat|];
        }
      }
      ReplaceAllSkipsPrefix(x[1..], t, pat, rep);
    }
  }

  /** The dots of a method descriptor `cls.name:(sig` become arrows, and the
      ":(" that opens the signature becomes "(": the descriptor is written as
      `cls->name(sig`. */
  lemma ProfileDescriptorOfMethod(cls: string, name: string, sig: string)
    requires '.' !in cls && '.' !in name && '.' !in sig
    requires NoCallParen(cls) && NoCallParen(name) && NoCallParen(sig)
    ensures ProfileDescriptor(cls + "." + name + ":(" + sig) == cls + "->" + name + "(" + sig
  {
    var x := cls + "->" + name;
    MethodDots(cls, name, sig);
    NoCallParenBefore(cls, name, sig);
    ReplaceAllSkipsPrefix(x, ":(" + sig, ":(", "(");
    assert (":(" + sig)[..2] == ":(" && (":(" + sig)[2..] == sig;
    ReplaceAllNoMatch(sig, ":(", "(");
    assert x + ("(" + sig) == cls + "->" + name + "(" + sig;
  }

  lemma MethodDots(cls: string, name: string, sig: string)
    requires '.' !in cls && '.' !in name && '.' !in sig
    ensures ReplaceAll(cls + "." + name + ":(" + sig, ".", "->") == (cls + "->" + name) + (":(" + sig)
  {
    var tail := name + ":(" + sig;
    assert '.' !in tail by {
      assert '.' !in ":(";
    }
    ReplaceDotsOfDotted(cls, tail);
    assert cls + "." + name + ":(" + sig == cls + ("." + tail);
    assert cls + ("->" + tail) == (cls + "->" + name) + (":(" + sig);
  }

  /** `cls.tail`, with no other dot, becomes `cls->tail`. */
  lemma ReplaceDotsOfDotted(cls: string, tail: string)
    requires '.' !in cls && '.' !in tail
    ensures ReplaceAll(cls + ("." + tail), ".", "->") == cls + ("->" + tail)
  {
    ReplaceDotsIsArrows(cls + ("." + tail));
    ArrowsAppend(cls, "." + tail);
    ArrowsAppend(".", tail);
    assert Arrows(".") == "->" + Arrows([]);
    ArrowsNoDot(cls);
    ArrowsNoDot(tail);
  }

  /** No ":(" starts inside `cls->name` when it is followed by ":(". */
  lemma NoCallParenBefore(cls: string, name: string, sig: string)
    requires NoCallParen(cls) && NoCallParen(name)
    ensures var x := cls + "->" + name;
      forall i :: 0 <= i < |x| ==> !OccursAt(x + (":(" + sig), ":(", i)
  {
    var x := cls + "->" + name;
    var s := x + (":(" + sig);
    forall i | 0 <= i < |x|
      ensures !OccursAt(s, ":(", i)
    {
      OccursAtCallParen(s, i);
      if i + 1 < |cls| {
        OccursAtCallParen(cls, i);
        assert !OccursAt(cls, ":(", i);
      } else if |cls| + 2 <= i && i + 1 < |x| {
        OccursAtCallParen(name, i - |cls| - 2);
        assert !OccursAt(name, ":(", i - |cls| - 2);
      }
    }
  }

  /** A method of a dex, with its deobfuscated descriptor. */
  datatype DexMethod = DexMethod(id: MethodId, descriptor: string)

  /** The methods of a dex that carry flags, in dex order. */
  function Flagged(methods: seq<DexMethod>, flags: map<MethodId, Flags>): (r: seq<DexMethod>)
    ensures forall m :: m in r <==> m in methods && m.id in flags
    ensures |r| == |set i | 0 <= i < |methods| && methods[i].id in flags|
  {
    if methods == [] then []
    else
      var init := methods[..|methods| - 1];
      var last := methods[|methods| - 1];
      FlaggedPositions(methods, flags);
      assert methods == init + [last];
      Flagged(init, flags) + (if last.id in flags then [last] else [])
  }

  /** The flagged positions of a dex are those of all but its last method,
      plus the last one if it is flagged. */
  lemma FlaggedPositions(methods: seq<DexMethod>, flags: map<MethodId, Flags>)
    requires methods != []
    ensures var n := |methods| - 1;
      |set i | 0 <= i < |methods| && methods[i].id in flags| ==
      |set i | 0 <= i < n && methods[..n][i].id in flags| + (if methods[n].id in flags then 1 else 0)
  {
    var n := |methods| - 1;
    var set0 := set i | 0 <= i < n && methods[..n][i].id in flags;
    var set1 := set i | 0 <= i < |methods| && methods[i].id in flags;
    assert set1 == set0 + (if methods[n].id in flags then {n} else {});
  }

  /** The profile line of a flagged method: its flags, then its descriptor in
      manual-profile form. */
  function Line(m: DexMethod, flags: map<MethodId, Flags>): string
    requires m.id in flags
  {
    ShowFlags(flags[m.id]) + ProfileDescriptor(m.descriptor)
  }

  /** The lines for one dex's methods: line `k` belongs to the `k`-th flagged
      method of the dex. */
  function DexLines(methods: seq<DexMethod>, flags: map<MethodId, Flags>): (r: seq<string>)
    ensures |r| == |Flagged(methods, flags)|
    ensures |r| == |set i | 0 <= i < |methods| && methods[i].id in flags|
    ensures forall k :: 0 <= k < |r| ==> r[k] == Line(Flagged(methods, flags)[k], flags)
  {
    if methods == [] then []
    else
      var init := methods[..|methods| - 1];
      var last := methods[|methods| - 1];
      DexLines(init, flags) + (if last.id in flags then [Line(last, flags)] else [])
  }

  /** The profile: the lines of the scanned dexes and the count the metric
      reports, which is exactly the number of lines. */
  method WriteProfile(dexes: seq<seq<DexMethod>>, flags: map<MethodId, Flags>, minSdk: int)
    returns (r: Option<(seq<string>, nat)>)
    ensures r.None? <==> DexEnd(minSdk, |dexes|).None?
    ensures r.Some? ==> r.value.1 == |r.value.0|
    ensures r.Some? ==> r.value.0 == AllLines(dexes[..DexEnd(minSdk, |dexes|).value], flags)
  {
    var end := DexEnd(minSdk, |dexes|);
    if end.None? {
      return None;
    }
    var lines: seq<string> := [];
    var count := 0;
    for d := 0 to end.value
      invariant lines == AllLines(dexes[..d], flags) && count == |lines|
    {
      assert dexes[..d + 1][..d] == dexes[..d];
      var more := DexLines(dexes[d], flags);
      lines := lines + more;
      count := count + |more|;
    }
    r := Some((lines, count));
  }

  function AllLines(dexes: seq<seq<DexMethod>>, flags: map<MethodId, Flags>): seq<string> {
    if dexes == [] then [] else AllLines(dexes[..|dexes| - 1], flags) + DexLines(dexes[|dexes| - 1], flags)
  }
}

=== FILE: call_graph.dfy ===
/** The call graph's storage and the queries over it: one node per method,
    created on first request; edges shared between the caller's successor
    list and the callee's predecessor list; resolution of the callees of an
    invoke; and the breadth-first statistics from the ghost entry. Nodes are
    indices into a node table whose first two entries are the ghost entry
    and the ghost exit; edges are indices into an edge table, so the edge a
    caller lists is the very edge its callee lists. */
module CallGraph {
  import opened Wrappers
  import opened Sets

  type MethodId = nat
  type InsnId = nat
  type NodeId = nat
  type EdgeId = nat

  const Entry: NodeId := 0
  const Exit: NodeId := 1

  /** An edge; `invoke` is the call instruction, `None` on the trivial
      edges from the ghost entry and to the ghost exit. */
  datatype Edge = Edge(caller: NodeId, callee: NodeId, invoke: Option<InsnId>)

  /** A node: its method (`None` for the two ghost nodes) and the edges it
      lists as successors and as predecessors. */
  datatype Node = Node(owner: Option<MethodId>, successors: seq<EdgeId>, predecessors: seq<EdgeId>)

  datatype Graph = Graph(
    table: seq<Node>,
    edges: seq<Edge>,
    nodes: map<MethodId, NodeId>,
    insnToCallee: map<InsnId, set<MethodId>>)

  /** The two ghost nodes come first and every method has exactly one
      node. */
  ghost predicate Indexed(g: Graph) {
    && |g.table| >= 2
    && g.table[Entry].owner == None && g.table[Exit].owner == None
    && (forall m :: m in g.nodes ==> 2 <= g.nodes[m] < |g.table| && g.table[g.nodes[m]].owner == Some(m))
    && (forall n :: 2 <= n < |g.table| ==>
          g.table[n].owner.Some? && g.table[n].owner.value in g.nodes && g.nodes[g.table[n].owner.value] == n)
  }

  /** Every edge joins two nodes of the table. */
  ghost predicate EdgesJoinNodes(g: Graph) {
    forall e :: 0 <= e < |g.edges| ==> g.edges[e].caller < |g.table| && g.edges[e].callee < |g.table|
  }

  /** A node lists as successors only edges it is the caller of. */
  ghost predicate SuccessorsListed(g: Graph) {
    forall n, k :: 0 <= n < |g.table| && 0 <= k < |g.table[n].successors| ==>
      g.table[n].successors[k] < |g.edges| && g.edges[g.table[n].successors[k]].caller == n
  }

  /** A node lists as predecessors only edges it is the callee of. */
  ghost predicate PredecessorsListed(g: Graph) {
    forall n, k :: 0 <= n < |g.table| && 0 <= k < |g.table[n].predecessors| ==>
      g.table[n].predecessors[k] < |g.edges| && g.edges[g.table[n].predecessors[k]].callee == n
  }

  ghost predicate WellFormed(g: Graph) {
    Indexed(g) && EdgesJoinNodes(g) && SuccessorsListed(g) && PredecessorsListed(g)
  }

  /** A graph holding only the ghost entry and the ghost exit. */
  function NewGraph(): (g: Graph)
    ensures WellFormed(g) && g.nodes == map[] && |g.edges| == 0
  {
    Graph([Node(None, [], []), Node(None, [], [])], [], map[], map[])
  }

  /** The node of `m`, created when `m` has none: a method has one node
      however often it is asked for, and asking again changes nothing. */
  function MakeNode(g: Graph, m: MethodId): (r: (Graph, NodeId))
    requires WellFormed(g)
    ensures WellFormed(r.0)
    ensures r.0.nodes == g.nodes[m := r.1]
    ensures m in g.nodes ==> r == (g, g.nodes[m])
    ensures |g.table| <= |r.0.table| <= |g.table| + 1 && r.0.table[..|g.table|] == g.table
    ensures r.1 < |r.0.table| && r.0.table[r.1].owner == Some(m)
    ensures m !in g.nodes ==> r.0.table[r.1].successors == [] && r.0.table[r.1].predecessors == []
    ensures r.0.edges == g.edges && r.0.insnToCallee == g.insnToCallee
  {
    if m in g.nodes then (g, g.nodes[m])
    else
      var n := |g.table|;
      var r := g.(table := g.table + [Node(Some(m), [], [])], nodes := g.nodes[m := n]);
      NewNodeWellFormed(g, m, r);
      (r, n)
  }

  lemma NewNodeWellFormed(g: Graph, m: MethodId, r: Graph)
    requires WellFormed(g) && m !in g.nodes
    requires r == g.(table := g.table + [Node(Some(m), [], [])], nodes := g.nodes[m := |g.table|])
    ensures WellFormed(r) && r.table[..|g.table|] == g.table
  {
    assert forall n :: 0 <= n < |g.table| ==> r.table[n] == g.table[n];
    assert Indexed(r);
    assert SuccessorsListed(r) by {
      forall n, k | 0 <= n < |r.table| && 0 <= k < |r.table[n].successors|
        ensures r.table[n].successors[k] < |r.edges| && r.edges[r.table[n].successors[k]].caller == n
      {
        assert n < |g.table|;
      }
    }
    assert PredecessorsListed(r) by {
      forall n, k | 0 <= n < |r.table| && 0 <= k < |r.table[n].predecessors|
        ensures r.table[n].predecessors[k] < |r.edges| && r.edges[r.table[n].predecessors[k]].callee == n
      {
        assert n < |g.table|;
      }
    }
  }

  /** One new edge, listed once among the caller's successors and once among
      the callee's predecessors; no other list changes. */
  function AddEdge(g: Graph, caller: NodeId, callee: NodeId, invoke: Option<InsnId>): (r: Graph)
    requires WellFormed(g) && caller < |g.table| && callee < |g.table|
    ensures WellFormed(r)
    ensures r.edges == g.edges + [Edge(caller, callee, invoke)]
    ensures |r.table| == |g.table| && r.nodes == g.nodes && r.insnToCallee == g.insnToCallee
    ensures r.table[caller].successors == g.table[caller].successors + [|g.edges|]
    ensures r.table[callee].predecessors == g.table[callee].predecessors + [|g.edges|]
    ensures forall n :: 0 <= n < |g.table| ==> r.table[n].owner == g.table[n].owner
    ensures forall n :: 0 <= n < |g.table| && n != caller ==> r.table[n].successors == g.table[n].successors
    ensures forall n :: 0 <= n < |g.table| && n != callee ==> r.table[n].predecessors == g.table[n].predecessors
  {
    var e := |g.edges|;
    var t1 := g.table[caller := g.table[caller].(successors := g.table[caller].successors + [e])];
    var t2 := t1[callee := t1[callee].(predecessors := t1[callee].predecessors + [e])];
    var r := g.(table := t2, edges := g.edges + [Edge(caller, callee, invoke)]);
    AddEdgeWellFormed(g, r, caller, callee, invoke);
    r
  }

  /** The lists after an edge is added, node by node. */
  ghost predicate Appended(g: Graph, r: Graph, caller: NodeId, callee: NodeId) {
    && |r.table| == |g.table| && r.nodes == g.nodes
    && (forall n :: 0 <= n < |g.table| ==> r.table[n].owner == g.table[n].owner)
    && (forall n :: 0 <= n < |g.table| ==>
          r.table[n].successors == if n == caller then g.table[n].successors + [|g.edges|] else g.table[n].successors)
    && (forall n :: 0 <= n < |g.table| ==>
          r.table[n].predecessors == if n == callee then g.table[n].predecessors + [|g.edges|] else g.table[n].predecessors)
  }

  lemma AddEdgeWellFormed(g: Graph, r: Graph, caller: NodeId, callee: NodeId, invoke: Option<InsnId>)
    requires WellFormed(g) && caller < |g.table| && callee < |g.table|
    requires r.edges == g.edges + [Edge(caller, callee, invoke)]
    requires r.table == g.table[caller := g.table[caller].(successors := g.table[caller].successors + [|g.edges|])]
      [callee := g.table[caller := g.table[caller].(successors := g.table[caller].successors + [|g.edges|])][callee]
        .(predecessors := g.table[callee].predecessors + [|g.edges|])]
    requires r.nodes == g.nodes
    ensures Appended(g, r, caller, callee) && WellFormed(r)
  {
    assert Appended(g, r, caller, callee);
    AppendedSuccessors(g, r, caller, callee, invoke);
    AppendedPredecessors(g, r, caller, callee, invoke);
  }

  /** Successor lists stay consistent when the new edge is listed at its
      caller. */
  lemma AppendedSuccessors(g: Graph, r: Graph, caller: NodeId, callee: NodeId, invoke: Option<InsnId>)
    requires WellFormed(g) && caller < |g.table| && callee < |g.table|
    requires r.edges == g.edges + [Edge(caller, callee, invoke)] && Appended(g, r, caller, callee)
    ensures Indexed(r) && EdgesJoinNodes(r) && SuccessorsListed(r)
  {
    forall n, k | 0 <= n < |r.table| && 0 <= k < |r.table[n].successors|
      ensures r.table[n].successors[k] < |r.edges| && r.edges[r.table[n].successors[k]].caller == n
    {
      if n != caller || k < |g.table[n].successors| {
        assert r.table[n].successors[k] == g.table[n].successors[k];
      }
    }
  }

  /** Predecessor lists stay consistent when the new edge is listed at its
      callee. */
  lemma AppendedPredecessors(g: Graph, r: Graph, caller: NodeId, callee: NodeId, invoke: Option<InsnId>)
    requires WellFormed(g) && caller < |g.table| && callee < |g.table|
    requires r.edges == g.edges + [Edge(caller, callee, invoke)] && Appended(g, r, caller, callee)
    ensures PredecessorsListed(r)
  {
    forall n, k | 0 <= n < |r.table| && 0 <= k < |r.table[n].predecessors|
      ensures r.table[n].predecessors[k] < |r.edges| && r.edges[r.table[n].predecessors[k]].callee == n
    {
      if n != callee || k < |g.table[n].predecessors| {
        assert r.table[n].predecessors[k] == g.table[n].predecessors[k];
      }
    }
  }

  /** The edges node `n` lists as successors, in order. */
  function Callees(g: Graph, n: NodeId): (r: seq<Edge>)
    requires WellFormed(g) && n < |g.table|
    ensures |r| == |g.table[n].successors|
    ensures forall k :: 0 <= k < |r| ==> r[k].caller == n && r[k].callee < |g.table|
    ensures forall k :: 0 <= k < |r| ==> r[k] == g.edges[g.table[n].successors[k]]
  {
    var ids := g.table[n].successors;
    seq(|ids|, k requires 0 <= k < |ids| && ids[k] < |g.edges| => g.edges[ids[k]])
  }

  /** The methods the edges out of `method`'s node reach through the call
      instruction `insn`: exactly the methods whose node is the far end of
      such an edge. The source looks the node up with a checked access, so
      the method must have one. */
  function ResolveCallees(g: Graph, caller: MethodId, insn: InsnId): (r: set<MethodId>)
    requires WellFormed(g) && caller in g.nodes
    ensures forall c :: c in r <==>
      c in g.nodes && Edge(g.nodes[caller], g.nodes[c], Some(insn)) in Callees(g, g.nodes[caller])
  {
    var cs := Callees(g, g.nodes[caller]);
    var r := set k | 0 <= k < |cs| && cs[k].invoke == Some(insn) && g.table[cs[k].callee].owner.Some?
      :: g.table[cs[k].callee].owner.value;
    assert forall c :: c in r ==> c in g.nodes && Edge(g.nodes[caller], g.nodes[c], Some(insn)) in cs by {
      forall c | c in r ensures c in g.nodes && Edge(g.nodes[caller], g.nodes[c], Some(insn)) in cs {
        var k :| 0 <= k < |cs| && cs[k].invoke == Some(insn) && g.table[cs[k].callee].owner == Some(c);
        assert cs[k] == Edge(g.nodes[caller], g.nodes[c], Some(insn));
      }
    }
    r
  }

  /** After an edge from `m`'s node to `c`'s node through `insn` is added,
      resolving `insn` in `m` also yields `c`; every other instruction
      resolves as before. */
  lemma {:induction false} ResolveAfterAddEdge(g: Graph, m: MethodId, c: MethodId, insn: InsnId, other: InsnId)
    requires WellFormed(g) && m in g.nodes && c in g.nodes
    ensures ResolveCallees(AddEdge(g, g.nodes[m], g.nodes[c], Some(insn)), m, insn) == ResolveCallees(g, m, insn) + {c}
    ensures other != insn ==>
      ResolveCallees(AddEdge(g, g.nodes[m], g.nodes[c], Some(insn)), m, other) == ResolveCallees(g, m, other)
  {
    var n := g.nodes[m];
    CalleesAfterAddEdge(g, n, g.nodes[c], Some(insn));
  }

  /** Adding an edge appends it to the caller's callees. */
  lemma CalleesAfterAddEdge(g: Graph, n: NodeId, callee: NodeId, invoke: Option<InsnId>)
    requires WellFormed(g) && n < |g.table| && callee < |g.table|
    ensures Callees(AddEdge(g, n, callee, invoke), n) == Callees(g, n) + [Edge(n, callee, invoke)]
  {
    var g' := AddEdge(g, n, callee, invoke);
    assert |Callees(g', n)| == |Callees(g, n)| + 1;
    forall k | 0 <= k < |Callees(g, n)| ensures Callees(g', n)[k] == Callees(g, n)[k] {
      assert g'.table[n].successors[k] == g.table[n].successors[k];
    }
  }

  /** The callees recorded for `insn` while the graph was built, or none
      when nothing was recorded. */
  function ResolveByInsn(g: Graph, insn: InsnId): (r: set<MethodId>)
    ensures insn in g.insnToCallee ==> r == g.insnToCallee[insn]
    ensures insn !in g.insnToCallee ==> r == {}
  {
    if insn in g.insnToCallee then g.insnToCallee[insn] else {}
  }

  /** Some edge out of `a` ends at `b`. */
  ghost predicate Arc(g: Graph, a: NodeId, b: NodeId) {
    a < |g.table| &&
    exists k :: 0 <= k < |g.table[a].successors| && g.table[a].successors[k] < |g.edges| &&
      g.edges[g.table[a].successors[k]].callee == b
  }

  /** A set of nodes holding the ghost entry and every node an edge out of
      one of its nodes reaches. */
  ghost predicate Closed(g: Graph, s: set<NodeId>) {
    Entry in s && forall a, b :: a in s && Arc(g, a, b) ==> b in s
  }

  /** Every node of `v` lies in each closed set, that is, is reachable from
      the ghost entry. */
  ghost predicate InAllClosed(g: Graph, v: set<NodeId>) {
    forall s :: Closed(g, s) ==> v <= s
  }

  /** The ids `0 .. k - 1`, in order. */
  function Ids(k: nat): (r: seq<NodeId>)
    ensures |r| == k && forall i :: 0 <= i < k ==> r[i] == i
  {
    seq(k, i => i)
  }

  ghost function AllNodes(g: Graph): set<NodeId> {
    set n | n in Ids(|g.table|)
  }

  /** The distinct call instructions on the edges out of `n`. */
  ghost function InsnsAt(g: Graph, n: NodeId): set<InsnId>
    requires WellFormed(g) && n < |g.table|
  {
    var cs := Callees(g, n);
    set k | 0 <= k < |cs| && cs[k].invoke.Some? :: cs[k].invoke.value
  }

  ghost function OutDegree(g: Graph): NodeId -> nat {
    (n: NodeId) => if n < |g.table| then |g.table[n].successors| else 0
  }

  ghost function SiteCount(g: Graph): NodeId -> nat {
    (n: NodeId) => if WellFormed(g) && n < |g.table| then |InsnsAt(g, n)| else 0
  }

  /** The invariant of the breadth-first walk: nodes in the queue or visited
      are reachable, every edge out of a visited node ends at a visited or
      queued node, and the counters are the sums over the visited nodes. */
  ghost predicate Walked(g: Graph, visited: set<NodeId>, queue: seq<NodeId>, edgeCount: nat, callsites: nat) {
    && WellFormed(g)
    && visited <= AllNodes(g)
    && (forall j :: 0 <= j < |queue| ==> queue[j] < |g.table|)
    && (Entry in visited || Entry in queue)
    && (forall a, b :: a in visited && Arc(g, a, b) ==> b in visited || b in queue)
    && (forall s :: Closed(g, s) ==> visited <= s && forall j :: 0 <= j < |queue| ==> queue[j] in s)
    && edgeCount == SumOf(visited, OutDegree(g))
    && callsites == SumOf(visited, SiteCount(g))
  }

  /** Queues the far end of every edge out of `n`, in order, and collects
      the distinct call instructions on those edges. */
  method Expand(g: Graph, n: NodeId, queue: seq<NodeId>) returns (queue': seq<NodeId>, insns: set<InsnId>)
    requires WellFormed(g) && n < |g.table|
    ensures |queue'| == |queue| + |g.table[n].successors|
    ensures forall j :: 0 <= j < |queue| ==> queue'[j] == queue[j]
    ensures forall k :: 0 <= k < |g.table[n].successors| ==> queue'[|queue| + k] == Callees(g, n)[k].callee
    ensures insns == InsnsAt(g, n)
  {
    var cs := Callees(g, n);
    queue' := queue;
    insns := {};
    for i := 0 to |cs|
      invariant |queue'| == |queue| + i
      invariant forall j :: 0 <= j < |queue| ==> queue'[j] == queue[j]
      invariant forall k :: 0 <= k < i ==> queue'[|queue| + k] == cs[k].callee
      invariant insns == set k | 0 <= k < i && cs[k].invoke.Some? :: cs[k].invoke.value
    {
      queue' := queue' + [cs[i].callee];
      if cs[i].invoke.Some? {
        insns := insns + {cs[i].invoke.value};
      }
    }
  }

  /** The statistics of the graph: the nodes reachable from the ghost entry,
      each visited once, the number of edges out of them, and the number of
      distinct call instructions per node, summed. */
  method NumNodesEdges(g: Graph) returns (numNodes: nat, numEdges: nat, numCallsites: nat, visited: set<NodeId>)
    requires WellFormed(g)
    ensures Closed(g, visited) && InAllClosed(g, visited)
    ensures numNodes == |visited|
    ensures numEdges == SumOf(visited, OutDegree(g))
    ensures numCallsites == SumOf(visited, SiteCount(g))
  {
    visited := {};
    var queue := [Entry];
    numEdges, numCallsites := 0, 0;
    while queue != []
      invariant Walked(g, visited, queue, numEdges, numCallsites)
      decreases |AllNodes(g) - visited|, |queue|
    {
      var front := queue[0];
      var rest := queue[1..];
      if front !in visited {
        var queue', insns := Expand(g, front, rest);
        WalkVisit(g, visited, queue, numEdges, numCallsites, front, rest, queue', insns);
        visited := visited + {front};
        numEdges := numEdges + |g.table[front].successors|;
        numCallsites := numCallsites + |insns|;
        queue := queue';
      } else {
        WalkSkip(g, visited, queue, numEdges, numCallsites);
        queue := rest;
      }
    }
    numNodes := |visited|;
  }

  /** Visiting the new node at the head of the queue keeps the invariant
      and leaves fewer nodes to visit. */
  lemma WalkVisit(g: Graph, visited: set<NodeId>, queue: seq<NodeId>, edgeCount: nat, callsites: nat,
                  front: NodeId, rest: seq<NodeId>, queue': seq<NodeId>, insns: set<InsnId>)
    requires Walked(g, visited, queue, edgeCount, callsites)
    requires queue != [] && front == queue[0] && rest == queue[1..] && front !in visited
    requires front < |g.table| && |queue'| == |rest| + |g.table[front].successors|
    requires forall j :: 0 <= j < |rest| ==> queue'[j] == rest[j]
    requires forall k :: 0 <= k < |g.table[front].successors| ==> queue'[|rest| + k] == Callees(g, front)[k].callee
    requires insns == InsnsAt(g, front)
    ensures Walked(g, visited + {front}, queue', edgeCount + |g.table[front].successors|, callsites + |insns|)
    ensures |AllNodes(g) - (visited + {front})| < |AllNodes(g) - visited|
  {
    forall j | 0 <= j < |queue| - 1 ensures queue'[j] == queue[j + 1] {
      assert queue'[j] == rest[j];
    }
    assert Requeued(g, queue, queue');
    BoundsAfter(g, queue, queue');
    ArcsAfter(g, visited, queue, queue');
    ClosedAfter(g, visited, queue, queue');
    EntryAfter(g, visited, queue, queue');
    assert Ids(|g.table|)[front] == front;
    DiffDrop(AllNodes(g), visited, front);
    SumOfAdd(visited, OutDegree(g), front);
    SumOfAdd(visited, SiteCount(g), front);
  }

  /** The part of the queue that a visit keeps, followed by the far ends of
      the edges out of the visited node. */
  ghost predicate Requeued(g: Graph, queue: seq<NodeId>, queue': seq<NodeId>) {
    && WellFormed(g) && queue != [] && queue[0] < |g.table|
    && |queue'| == |queue| - 1 + |g.table[queue[0]].successors|
    && (forall j :: 0 <= j < |queue| - 1 ==> queue'[j] == queue[j + 1])
    && (forall k :: 0 <= k < |g.table[queue[0]].successors| ==> queue'[|queue| - 1 + k] == Callees(g, queue[0])[k].callee)
  }

  lemma BoundsAfter(g: Graph, queue: seq<NodeId>, queue': seq<NodeId>)
    requires Requeued(g, queue, queue')
    requires forall j :: 0 <= j < |queue| ==> queue[j] < |g.table|
    ensures forall j :: 0 <= j < |queue'| ==> queue'[j] < |g.table|
  {
    forall j | 0 <= j < |queue'| ensures queue'[j] < |g.table| {
      if j < |queue| - 1 {
        assert queue'[j] == queue[j + 1];
      } else {
        var k := j - (|queue| - 1);
        assert queue'[j] == Callees(g, queue[0])[k].callee;
      }
    }
  }

  lemma ArcsAfter(g: Graph, visited: set<NodeId>, queue: seq<NodeId>, queue': seq<NodeId>)
    requires Requeued(g, queue, queue')
    requires forall a, b :: a in visited && Arc(g, a, b) ==> b in visited || b in queue
    ensures forall a, b :: a in visited + {queue[0]} && Arc(g, a, b) ==> b in visited + {queue[0]} || b in queue'
  {
    var front := queue[0];
    forall a, b | a in visited + {front} && Arc(g, a, b) ensures b in visited + {front} || b in queue' {
      if a == front {
        var k :| 0 <= k < |g.table[a].successors| && g.table[a].successors[k] < |g.edges|
          && g.edges[g.table[a].successors[k]].callee == b;
        assert Callees(g, front)[k] == g.edges[g.table[front].successors[k]];
        assert queue'[|queue| - 1 + k] == b;
      } else if b !in visited && b != front {
        var j :| 0 <= j < |queue| && queue[j] == b;
        assert queue'[j - 1] == b;
      }
    }
  }

  lemma ClosedAfter(g: Graph, visited: set<NodeId>, queue: seq<NodeId>, queue': seq<NodeId>)
    requires Requeued(g, queue, queue')
    requires forall s :: Closed(g, s) ==> visited <= s && forall j :: 0 <= j < |queue| ==> queue[j] in s
    ensures forall s :: Closed(g, s) ==> visited + {queue[0]} <= s && forall j :: 0 <= j < |queue'| ==> queue'[j] in s
  {
    var front := queue[0];
    forall s | Closed(g, s) ensures visited + {front} <= s && forall j :: 0 <= j < |queue'| ==> queue'[j] in s {
      assert queue[0] in s;
      forall j | 0 <= j < |queue'| ensures queue'[j] in s {
        if j < |queue| - 1 {
          assert queue'[j] == queue[j + 1];
        } else {
          var k := j - (|queue| - 1);
          assert Arc(g, front, Callees(g, front)[k].callee);
        }
      }
    }
  }

  lemma EntryAfter(g: Graph, visited: set<NodeId>, queue: seq<NodeId>, queue': seq<NodeId>)
    requires Requeued(g, queue, queue')
    requires Entry in visited || Entry in queue
    ensures Entry in visited + {queue[0]} || Entry in queue'
  {
    if Entry !in visited && Entry != queue[0] {
      var j :| 0 <= j < |queue| && queue[j] == Entry;
      assert queue'[j - 1] == Entry;
    }
  }

  /** Dropping an already visited node from the head of the queue keeps the
      invariant. */
  lemma WalkSkip(g: Graph, visited: set<NodeId>, queue: seq<NodeId>, edgeCount: nat, callsites: nat)
    requires Walked(g, visited, queue, edgeCount, callsites) && queue != [] && queue[0] in visited
    ensures Walked(g, visited, queue[1..], edgeCount, callsites)
  {
    assert forall j :: 0 <= j < |queue| - 1 ==> queue[1..][j] == queue[j + 1];
    forall a, b | a in visited && Arc(g, a, b) ensures b in visited || b in queue[1..] {
      if b !in visited {
        var j :| 0 <= j < |queue| && queue[j] == b;
        assert queue[1..][j - 1] == b;
      }
    }
  }
}

=== FILE: call_graph_build.dfy ===
/** How the call graph is built: the call sites each strategy reports for a
    method, the virtual methods with too many overriders (the big
    overrides), the roots, and the construction itself, which gives every
    root an edge from the ghost entry, every method without call sites an
    edge to the ghost exit, and every call site an edge to its callee.
    Method resolution is not modelled: an invoke carries the method it
    resolves to. The construction is modelled on sets of edges; the
    source's concurrent work queue and the final sort by method are not. */
module CallGraphBuild {
  import opened Wrappers
  import opened Sets
  import opened CallGraph

  /** What the strategies need to know about a method definition. The
      overriders are those of the method-override graph, in the order the
      source sorts them. */
  datatype MethodDef = MethodDef(
    isVirtual: bool,
    isConcrete: bool,
    isExternal: bool,
    isRoot: bool,
    isClinit: bool,
    isArglessInit: bool,
    overriders: seq<MethodId>)

  /** An invoke instruction: the method it resolves to, the callee found
      through the interface fallback when that resolution fails, and
      whether it is an invoke-super. Other instructions play no part. */
  datatype Invoke = Invoke(insn: InsnId, resolved: Option<MethodId>, interfaceResolved: Option<MethodId>, isSuper: bool)

  /** The definitions, the invokes of every method that has code, and the
      methods the override graph shows are not true virtuals. */
  datatype Program = Program(defs: map<MethodId, MethodDef>, code: map<MethodId, seq<Invoke>>, nonVirtual: set<MethodId>)

  datatype CallSite = CallSite(callee: MethodId, insn: InsnId)

  predicate HasCode(p: Program, m: MethodId) {
    m in p.code
  }

  predicate IsVirtual(p: Program, m: MethodId) {
    m in p.defs && p.defs[m].isVirtual
  }

  predicate IsConcrete(p: Program, m: MethodId) {
    m in p.defs && p.defs[m].isConcrete
  }

  predicate IsExternal(p: Program, m: MethodId) {
    m in p.defs && p.defs[m].isExternal
  }

  function Overriders(p: Program, m: MethodId): seq<MethodId> {
    if m in p.defs then p.defs[m].overriders else []
  }

  /** A virtual method that the override graph does not show to be a
      non-true virtual. */
  predicate DefinitelyVirtual(p: Program, m: MethodId) {
    IsVirtual(p, m) && m !in p.nonVirtual
  }

  // ---------------------------------------------------------------------
  // The single-callee strategy

  /** The call site a single-callee strategy reports for an invoke: its
      resolved callee, when that is concrete and not definitely virtual. */
  predicate SingleTarget(p: Program, i: Invoke, s: CallSite) {
    i.resolved == Some(s.callee) && s.insn == i.insn && !DefinitelyVirtual(p, s.callee) && IsConcrete(p, s.callee)
  }

  /** Some invoke of the run has `s` as its single-callee call site. */
  ghost predicate SingleTargetIn(p: Program, insns: seq<Invoke>, s: CallSite) {
    exists k :: 0 <= k < |insns| && SingleTarget(p, insns[k], s)
  }

  lemma SingleTargetInCons(p: Program, insns: seq<Invoke>)
    requires insns != []
    ensures forall s :: SingleTargetIn(p, insns, s) <==> SingleTarget(p, insns[0], s) || SingleTargetIn(p, insns[1..], s)
  {
    forall s | SingleTargetIn(p, insns, s) && !SingleTarget(p, insns[0], s) ensures SingleTargetIn(p, insns[1..], s) {
      var k :| 0 <= k < |insns| && SingleTarget(p, insns[k], s);
      assert insns[1..][k - 1] == insns[k];
    }
    forall s | SingleTargetIn(p, insns[1..], s) ensures SingleTargetIn(p, insns, s) {
      var k :| 0 <= k < |insns| - 1 && SingleTarget(p, insns[1..][k], s);
      assert insns[k + 1] == insns[1..][k];
    }
  }

  /** The call sites of a run of invokes, in order. */
  function SingleSites(p: Program, insns: seq<Invoke>): (r: seq<CallSite>)
    ensures |r| <= |insns|
    ensures forall s :: s in r <==> SingleTargetIn(p, insns, s)
  {
    if insns == [] then []
    else
      var i := insns[0];
      var rest := SingleSites(p, insns[1..]);
      SingleTargetInCons(p, insns);
      if i.resolved.Some? && !DefinitelyVirtual(p, i.resolved.value) && IsConcrete(p, i.resolved.value)
      then [CallSite(i.resolved.value, i.insn)] + rest
      else rest
  }

  /** The call sites of a method under the single-callee strategy; a method
      without code has none. */
  function SingleCallSites(p: Program, m: MethodId): (r: seq<CallSite>)
    ensures !HasCode(p, m) ==> r == []
    ensures HasCode(p, m) ==> forall s :: s in r <==> SingleTargetIn(p, p.code[m], s)
    ensures forall s :: s in r ==> !DefinitelyVirtual(p, s.callee) && IsConcrete(p, s.callee)
    ensures HasCode(p, m) ==> forall k :: 0 <= k < |p.code[m]| && p.code[m][k].resolved.Some? ==>
      var c := p.code[m][k].resolved.value;
      (CallSite(c, p.code[m][k].insn) in r <==> !DefinitelyVirtual(p, c) && IsConcrete(p, c))
  {
    if HasCode(p, m) then
      var r := SingleSites(p, p.code[m]);
      assert forall s :: s in r ==> !DefinitelyVirtual(p, s.callee) && IsConcrete(p, s.callee) by {
        forall s | s in r ensures !DefinitelyVirtual(p, s.callee) && IsConcrete(p, s.callee) {
          var k :| 0 <= k < |p.code[m]| && SingleTarget(p, p.code[m][k], s);
        }
      }
      assert forall k :: 0 <= k < |p.code[m]| && p.code[m][k].resolved.Some? ==>
        var c := p.code[m][k].resolved.value;
        (!DefinitelyVirtual(p, c) && IsConcrete(p, c) ==> SingleTarget(p, p.code[m][k], CallSite(c, p.code[m][k].insn)));
      r
    else []
  }

  /** A root of the single-callee strategy: a method with code that is
      definitely virtual, a root, a static initializer or an argument-less
      constructor. */
  predicate SingleRoot(p: Program, m: MethodId) {
    HasCode(p, m) &&
    (DefinitelyVirtual(p, m) || (m in p.defs && (p.defs[m].isRoot || p.defs[m].isClinit || p.defs[m].isArglessInit)))
  }

  /** The roots among the methods of the scope, in scope order. */
  function SingleRoots(p: Program, scope: seq<MethodId>): (r: seq<MethodId>)
    ensures |r| <= |scope|
    ensures forall m :: m in r <==> m in scope && SingleRoot(p, m)
  {
    if scope == [] then []
    else
      var rest := SingleRoots(p, scope[1..]);
      assert forall m :: m in scope <==> m == scope[0] || m in scope[1..];
      if SingleRoot(p, scope[0]) then [scope[0]] + rest else rest
  }

  // ---------------------------------------------------------------------
  // The multiple-callee strategy

  /** The callee of an invoke: its resolution, or failing that the
      interface fallback. */
  function Callee(i: Invoke): Option<MethodId> {
    if i.resolved.Some? then i.resolved else i.interfaceResolved
  }

  /** The methods of `ms` that have code, in order. */
  function WithCode(p: Program, ms: seq<MethodId>): (r: seq<MethodId>)
    ensures |r| <= |ms|
    ensures forall m :: m in r <==> m in ms && HasCode(p, m)
  {
    if ms == [] then []
    else
      var rest := WithCode(p, ms[1..]);
      assert forall m :: m in ms <==> m == ms[0] || m in ms[1..];
      if HasCode(p, ms[0]) then [ms[0]] + rest else rest
  }

  lemma {:induction false} WithCodeAppend(p: Program, ms: seq<MethodId>, m: MethodId)
    ensures WithCode(p, ms + [m]) == WithCode(p, ms) + (if HasCode(p, m) then [m] else [])
    decreases |ms|
  {
    if ms == [] {
      assert [m][1..] == [];
    } else {
      assert (ms + [m])[1..] == ms[1..] + [m];
      WithCodeAppend(p, ms[1..], m);
    }
  }

  /** A virtual method that more than `threshold` overriders with code
      override. */
  predicate Big(p: Program, threshold: nat, c: MethodId) {
    IsVirtual(p, c) && |WithCode(p, Overriders(p, c))| > threshold
  }

  /** The big overrides an invoke contributes: its callee, when that is big,
      and all of the callee's overriders. */
  predicate BigFrom(p: Program, threshold: nat, i: Invoke, m: MethodId) {
    Callee(i).Some? && Big(p, threshold, Callee(i).value) &&
    (m == Callee(i).value || m in Overriders(p, Callee(i).value))
  }

  /** The number of overriders with code, counted one by one. */
  method CountWithCode(p: Program, os: seq<MethodId>) returns (n: nat)
    ensures n == |WithCode(p, os)|
  {
    n := 0;
    for k := 0 to |os|
      invariant n == |WithCode(p, os[..k])|
    {
      WithCodeAppend(p, os[..k], os[k]);
      assert os[..k + 1] == os[..k] + [os[k]];
      if HasCode(p, os[k]) {
        n := n + 1;
      }
    }
    assert os[..|os|] == os;
  }

  /** The big overrides over every invoke of the scope: each virtual callee
      with more overriders-with-code than the threshold, together with all
      of its overriders. */
  method BigOverrides(p: Program, threshold: nat, invokes: seq<Invoke>) returns (big: set<MethodId>)
    ensures forall m :: m in big <==> exists k :: 0 <= k < |invokes| && BigFrom(p, threshold, invokes[k], m)
  {
    big := {};
    for k := 0 to |invokes|
      invariant forall m :: m in big <==> exists j :: 0 <= j < k && BigFrom(p, threshold, invokes[j], m)
    {
      var c := Callee(invokes[k]);
      if c.Some? && IsVirtual(p, c.value) {
        var n := CountWithCode(p, Overriders(p, c.value));
        if n > threshold {
          var os := Overriders(p, c.value);
          big := big + {c.value} + set j | 0 <= j < |os| :: os[j];
        }
      }
    }
  }

  /** The call sites the multiple-callee strategy reports for one invoke.
      A definitely virtual callee that is a big override yields none;
      otherwise it yields itself when it has code and, unless the invoke is
      an invoke-super, each of its overriders with code. Any other callee
      yields itself when concrete. */
  predicate MultiTarget(p: Program, big: set<MethodId>, i: Invoke, s: CallSite) {
    s.insn == i.insn && Callee(i).Some? &&
    var c := Callee(i).value;
    if DefinitelyVirtual(p, c) then
      c !in big &&
      ((s.callee == c && HasCode(p, c)) || (!i.isSuper && s.callee in Overriders(p, c) && HasCode(p, s.callee)))
    else
      s.callee == c && IsConcrete(p, c)
  }

  /** The call sites of one invoke, the callee first, then its overriders
      in order. */
  function InvokeSites(p: Program, big: set<MethodId>, i: Invoke): (r: seq<CallSite>)
    ensures forall s :: s in r <==> MultiTarget(p, big, i, s)
  {
    match Callee(i)
    case None => []
    case Some(c) =>
      if DefinitelyVirtual(p, c) then
        if c in big then []
        else
          var os := if i.isSuper then [] else WithCode(p, Overriders(p, c));
          var own := if HasCode(p, c) then [CallSite(c, i.insn)] else [];
          var r := own + seq(|os|, k requires 0 <= k < |os| => CallSite(os[k], i.insn));
          assert forall s :: s in r <==> s in own || exists k :: 0 <= k < |os| && s == CallSite(os[k], i.insn) by {
            forall s | s in r ensures s in own || exists k :: 0 <= k < |os| && s == CallSite(os[k], i.insn) {
              var j :| 0 <= j < |r| && r[j] == s;
              if j >= |own| {
                assert s == CallSite(os[j - |own|], i.insn);
              }
            }
            forall s | exists k :: 0 <= k < |os| && s == CallSite(os[k], i.insn) ensures s in r {
              var k :| 0 <= k < |os| && s == CallSite(os[k], i.insn);
              assert r[|own| + k] == s;
            }
          }
          r
      else if IsConcrete(p, c) then [CallSite(c, i.insn)]
      else []
  }

  /** Some invoke of the run has `s` as a multiple-callee call site. */
  ghost predicate MultiTargetIn(p: Program, big: set<MethodId>, insns: seq<Invoke>, s: CallSite) {
    exists k :: 0 <= k < |insns| && MultiTarget(p, big, insns[k], s)
  }

  lemma MultiTargetInCons(p: Program, big: set<MethodId>, insns: seq<Invoke>)
    requires insns != []
    ensures forall s :: MultiTargetIn(p, big, insns, s) <==> MultiTarget(p, big, insns[0], s) || MultiTargetIn(p, big, insns[1..], s)
  {
    forall s | MultiTargetIn(p, big, insns, s) && !MultiTarget(p, big, insns[0], s) ensures MultiTargetIn(p, big, insns[1..], s) {
      var k :| 0 <= k < |insns| && MultiTarget(p, big, insns[k], s);
      assert insns[1..][k - 1] == insns[k];
    }
    forall s | MultiTargetIn(p, big, insns[1..], s) ensures MultiTargetIn(p, big, insns, s) {
      var k :| 0 <= k < |insns| - 1 && MultiTarget(p, big, insns[1..][k], s);
      assert insns[k + 1] == insns[1..][k];
    }
  }

  /** The call sites of a run of invokes, invoke by invoke. */
  function MultiSites(p: Program, big: set<MethodId>, insns: seq<Invoke>): (r: seq<CallSite>)
    ensures forall s :: s in r <==> MultiTargetIn(p, big, insns, s)
  {
    if insns == [] then []
    else
      var rest := MultiSites(p, big, insns[1..]);
      MultiTargetInCons(p, big, insns);
      InvokeSites(p, big, insns[0]) + rest
  }

  /** The call sites of a method under the multiple-callee strategy. No
      call site has a big override as its resolved, definitely virtual
      callee. */
  function MultiCallSites(p: Program, big: set<MethodId>, m: MethodId): (r: seq<CallSite>)
    ensures !HasCode(p, m) ==> r == []
    ensures HasCode(p, m) ==> forall s :: s in r <==> MultiTargetIn(p, big, p.code[m], s)
    ensures forall s :: s in r ==> HasCode(p, s.callee) || IsConcrete(p, s.callee)
  {
    if HasCode(p, m) then
      var r := MultiSites(p, big, p.code[m]);
      assert forall s :: s in r ==> HasCode(p, s.callee) || IsConcrete(p, s.callee) by {
        forall s | s in r ensures HasCode(p, s.callee) || IsConcrete(p, s.callee) {
          var k :| 0 <= k < |p.code[m]| && MultiTarget(p, big, p.code[m][k], s);
        }
      }
      r
    else []
  }

  /** The big overrides that become extra roots: those that are internal,
      have code and are not roots already. */
  function AdditionalRoots(p: Program, big: set<MethodId>, existing: set<MethodId>): (r: set<MethodId>)
    ensures r <= big && r !! existing
    ensures forall m :: m in r ==> HasCode(p, m) && !IsExternal(p, m)
    ensures forall m :: m in big && HasCode(p, m) && !IsExternal(p, m) ==> m in existing + r
  {
    set m | m in big && !IsExternal(p, m) && m !in existing && HasCode(p, m)
  }

  // ---------------------------------------------------------------------
  // The construction

  /** An end of an edge: one of the two ghost nodes or a method's node. */
  datatype End = GhostEntry | GhostExit | Real(m: MethodId)

  datatype Arc = Arc(caller: End, callee: End, invoke: Option<InsnId>)

  /** The call sites a strategy reports, per method; a method missing from
      the map has none. */
  type Sites = map<MethodId, seq<CallSite>>

  function SitesOf(sites: Sites, m: MethodId): seq<CallSite> {
    if m in sites then sites[m] else []
  }

  /** The edges that processing method `m` records: one from the ghost
      entry when `m` is a root, one to the ghost exit when `m` has no call
      sites, and one per call site otherwise. */
  ghost predicate ArcFrom(sites: Sites, roots: set<MethodId>, m: MethodId, a: Arc) {
    var ss := SitesOf(sites, m);
    || (m in roots && a == Arc(GhostEntry, Real(m), None))
    || (ss == [] && a == Arc(Real(m), GhostExit, None))
    || (exists k :: 0 <= k < |ss| && a == Arc(Real(m), Real(ss[k].callee), Some(ss[k].insn)))
  }

  /** The method whose processing records an edge. */
  function Producer(a: Arc): Option<MethodId> {
    if a.caller.Real? then Some(a.caller.m)
    else if a.callee.Real? then Some(a.callee.m)
    else None
  }

  function ArcsOf(sites: Sites, roots: set<MethodId>, m: MethodId): (r: set<Arc>)
    ensures forall a :: a in r <==> ArcFrom(sites, roots, m, a)
    ensures forall a :: a in r ==> Producer(a) == Some(m)
  {
    var ss := SitesOf(sites, m);
    (if m in roots then {Arc(GhostEntry, Real(m), None)} else {}) +
    (if ss == [] then {Arc(Real(m), GhostExit, None)}
     else set k | 0 <= k < |ss| :: Arc(Real(m), Real(ss[k].callee), Some(ss[k].insn)))
  }

  function Insns(ss: seq<CallSite>): set<InsnId> {
    set k | 0 <= k < |ss| :: ss[k].insn
  }

  function CalleesAt(ss: seq<CallSite>, i: InsnId): set<MethodId> {
    set k | 0 <= k < |ss| && ss[k].insn == i :: ss[k].callee
  }

  function Callees(ss: seq<CallSite>): set<MethodId> {
    set k | 0 <= k < |ss| :: ss[k].callee
  }

  /** The state of the construction: the methods with a node, those
      processed, the edges and the callees recorded per instruction. */
  datatype Built = Built(nodes: set<MethodId>, done: set<MethodId>, arcs: set<Arc>, insnToCallee: map<InsnId, set<MethodId>>)

  /** A set holding the roots and, with every method, the callees of its
      call sites. */
  ghost predicate CallClosed(sites: Sites, roots: set<MethodId>, s: set<MethodId>) {
    roots <= s && forall m, k :: m in s && 0 <= k < |SitesOf(sites, m)| ==> SitesOf(sites, m)[k].callee in s
  }

  ghost function Universe(sites: Sites, roots: set<MethodId>): set<MethodId> {
    roots + set m, k | m in sites && 0 <= k < |sites[m]| :: sites[m][k].callee
  }

  /** The recorded callees of an instruction are those of one processed
      method's call sites through it, and every call instruction of a
      processed method is recorded. */
  ghost predicate InsnsRecorded(sites: Sites, b: Built) {
    && (forall i :: i in b.insnToCallee ==>
          exists m :: m in b.done && i in Insns(SitesOf(sites, m)) && b.insnToCallee[i] == CalleesAt(SitesOf(sites, m), i))
    && (forall m, i :: m in b.done && i in Insns(SitesOf(sites, m)) ==> i in b.insnToCallee)
  }

  /** The roots have nodes, so do the callees of every processed method,
      and every node is reachable from the roots. */
  ghost predicate NodesKept(sites: Sites, roots: set<MethodId>, b: Built) {
    && roots <= b.nodes && b.done <= b.nodes && b.nodes <= Universe(sites, roots)
    && (forall m :: m in b.done ==> Callees(SitesOf(sites, m)) <= b.nodes)
    && (forall s :: CallClosed(sites, roots, s) ==> b.nodes <= s)
  }

  /** The edges are exactly those the processed methods record. */
  ghost predicate ArcsRecorded(sites: Sites, roots: set<MethodId>, b: Built) {
    forall a :: a in b.arcs <==> Producer(a).Some? && Producer(a).value in b.done && ArcFrom(sites, roots, Producer(a).value, a)
  }

  ghost predicate Building(sites: Sites, roots: set<MethodId>, b: Built) {
    NodesKept(sites, roots, b) && ArcsRecorded(sites, roots, b) && InsnsRecorded(sites, b)
  }

  /** Processes method `m`: records its edges, gives its callees nodes and
      records its call instructions unless an earlier method recorded them
      already. */
  function Process(sites: Sites, roots: set<MethodId>, b: Built, m: MethodId): (r: Built)
    requires Building(sites, roots, b) && m in b.nodes - b.done
    ensures Building(sites, roots, r) && r.done == b.done + {m}
  {
    var ss := SitesOf(sites, m);
    var merged := map i | i in b.insnToCallee.Keys + Insns(ss) ::
      if i in b.insnToCallee then b.insnToCallee[i] else CalleesAt(ss, i);
    var r := Built(b.nodes + Callees(ss), b.done + {m}, b.arcs + ArcsOf(sites, roots, m), merged);
    ProcessKeepsNodes(sites, roots, b, m, r);
    ProcessKeepsArcs(sites, roots, b, m, r);
    ProcessKeepsInsns(sites, b, m, r);
    r
  }

  lemma ProcessKeepsNodes(sites: Sites, roots: set<MethodId>, b: Built, m: MethodId, r: Built)
    requires NodesKept(sites, roots, b) && m in b.nodes - b.done
    requires r.nodes == b.nodes + Callees(SitesOf(sites, m)) && r.done == b.done + {m}
    ensures NodesKept(sites, roots, r)
  {
    var ss := SitesOf(sites, m);
    forall c | c in Callees(ss) ensures c in Universe(sites, roots) {
      var k :| 0 <= k < |ss| && ss[k].callee == c;
      assert m in sites;
    }
    forall s | CallClosed(sites, roots, s) ensures r.nodes <= s {
      forall c | c in Callees(ss) ensures c in s {
        var k :| 0 <= k < |ss| && ss[k].callee == c;
        assert m in s;
      }
    }
  }

  lemma ProcessKeepsArcs(sites: Sites, roots: set<MethodId>, b: Built, m: MethodId, r: Built)
    requires ArcsRecorded(sites, roots, b) && m !in b.done
    requires r.done == b.done + {m} && r.arcs == b.arcs + ArcsOf(sites, roots, m)
    ensures ArcsRecorded(sites, roots, r)
  {
  }

  lemma ProcessKeepsInsns(sites: Sites, b: Built, m: MethodId, r: Built)
    requires InsnsRecorded(sites, b) && m !in b.done
    requires r.done == b.done + {m}
    requires forall i :: i in r.insnToCallee <==> i in b.insnToCallee || i in Insns(SitesOf(sites, m))
    requires forall i :: i in r.insnToCallee ==>
      r.insnToCallee[i] == if i in b.insnToCallee then b.insnToCallee[i] else CalleesAt(SitesOf(sites, m), i)
    ensures InsnsRecorded(sites, r)
  {
    forall i | i in r.insnToCallee
      ensures exists x :: x in r.done && i in Insns(SitesOf(sites, x)) && r.insnToCallee[i] == CalleesAt(SitesOf(sites, x), i)
    {
      if i !in b.insnToCallee {
        assert m in r.done && i in Insns(SitesOf(sites, m));
      }
    }
  }

  /** Every instruction belongs to one method only. */
  ghost predicate UniqueInsns(sites: Sites) {
    forall m1, m2, i :: m1 in sites && m2 in sites && i in Insns(sites[m1]) && i in Insns(sites[m2]) ==> m1 == m2
  }

  /** Builds the graph from the roots and the call sites of every method.
      The result holds a node for exactly the methods reachable from the
      roots through call sites; every root has an edge from the ghost
      entry, every reached method without call sites has an edge to the
      ghost exit, every call site of a reached method has an edge through
      its instruction, and there are no other edges. A root listed twice
      trips the source's assertion and gives `None`. */
  method Build(sites: Sites, roots: seq<MethodId>) returns (r: Option<Built>)
    ensures r.None? <==> exists i, j :: 0 <= i < j < |roots| && roots[i] == roots[j]
    ensures r.Some? ==> var b := r.value; var rs := set k | 0 <= k < |roots| :: roots[k];
      && b.done == b.nodes
      && CallClosed(sites, rs, b.nodes)
      && (forall s :: CallClosed(sites, rs, s) ==> b.nodes <= s)
      && (forall m :: m in rs ==> Arc(GhostEntry, Real(m), None) in b.arcs)
      && (forall m :: m in b.nodes && SitesOf(sites, m) == [] ==> Arc(Real(m), GhostExit, None) in b.arcs)
      && (forall m, k :: m in b.nodes && 0 <= k < |SitesOf(sites, m)| ==>
            Arc(Real(m), Real(SitesOf(sites, m)[k].callee), Some(SitesOf(sites, m)[k].insn)) in b.arcs)
      && (forall a :: a in b.arcs ==> Producer(a).Some? && Producer(a).value in b.nodes && ArcFrom(sites, rs, Producer(a).value, a))
      && InsnsRecorded(sites, b)
  {
    var dup := Duplicated(roots);
    if dup {
      return None;
    }
    var rs := set k | 0 <= k < |roots| :: roots[k];
    var b := Built(rs, {}, {}, map[]);
    while b.nodes - b.done != {}
      invariant Building(sites, rs, b)
      decreases |Universe(sites, rs) - b.done|
    {
      var m :| m in b.nodes - b.done;
      DiffDrop(Universe(sites, rs), b.done, m);
      b := Process(sites, rs, b, m);
    }
    Finished(sites, rs, b);
    return Some(b);
  }

  /** With every node processed, the construction has reached a fixpoint:
      the nodes are closed under call sites and every expected edge is
      there. */
  lemma Finished(sites: Sites, rs: set<MethodId>, b: Built)
    requires Building(sites, rs, b) && b.nodes - b.done == {}
    ensures b.done == b.nodes
    ensures CallClosed(sites, rs, b.nodes)
    ensures forall s :: CallClosed(sites, rs, s) ==> b.nodes <= s
    ensures forall m :: m in rs ==> Arc(GhostEntry, Real(m), None) in b.arcs
    ensures forall m :: m in b.nodes && SitesOf(sites, m) == [] ==> Arc(Real(m), GhostExit, None) in b.arcs
    ensures forall m, k :: m in b.nodes && 0 <= k < |SitesOf(sites, m)| ==>
      Arc(Real(m), Real(SitesOf(sites, m)[k].callee), Some(SitesOf(sites, m)[k].insn)) in b.arcs
    ensures forall a :: a in b.arcs ==> Producer(a).Some? && Producer(a).value in b.nodes && ArcFrom(sites, rs, Producer(a).value, a)
  {
    forall x | x in b.nodes ensures x in b.done {
      assert x !in b.nodes - b.done;
    }
    forall m, k | m in b.nodes && 0 <= k < |SitesOf(sites, m)|
      ensures Arc(Real(m), Real(SitesOf(sites, m)[k].callee), Some(SitesOf(sites, m)[k].insn)) in b.arcs
    {
      var a := Arc(Real(m), Real(SitesOf(sites, m)[k].callee), Some(SitesOf(sites, m)[k].insn));
      assert Producer(a) == Some(m) && ArcFrom(sites, rs, m, a);
    }
    forall m | m in rs ensures Arc(GhostEntry, Real(m), None) in b.arcs {
      assert Producer(Arc(GhostEntry, Real(m), None)) == Some(m);
    }
    forall m | m in b.nodes && SitesOf(sites, m) == [] ensures Arc(Real(m), GhostExit, None) in b.arcs {
      assert Producer(Arc(Real(m), GhostExit, None)) == Some(m);
    }
    forall m, k | m in b.nodes && 0 <= k < |SitesOf(sites, m)| ensures SitesOf(sites, m)[k].callee in b.nodes {
      assert SitesOf(sites, m)[k].callee in Callees(SitesOf(sites, m));
    }
  }

  /** Whether some root is listed twice. */
  method Duplicated(roots: seq<MethodId>) returns (dup: bool)
    ensures dup <==> exists i, j :: 0 <= i < j < |roots| && roots[i] == roots[j]
  {
    var seen: set<MethodId> := {};
    for k := 0 to |roots|
      invariant seen == set i | 0 <= i < k :: roots[i]
      invariant forall i, j :: 0 <= i < j < k ==> roots[i] != roots[j]
    {
      if roots[k] in seen {
        var i :| 0 <= i < k && roots[i] == roots[k];
        return true;
      }
      seen := seen + {roots[k]};
    }
    return false;
  }

  /** Looking a call instruction up in the built graph yields exactly the
      callees of its call sites, provided instructions are not shared
      between methods. */
  lemma {:induction false} LookupBuilt(sites: Sites, b: Built, m: MethodId, k: nat)
    requires InsnsRecorded(sites, b) && UniqueInsns(sites)
    requires m in b.done && k < |SitesOf(sites, m)|
    ensures ResolveByInsn(Graph([], [], map[], b.insnToCallee), SitesOf(sites, m)[k].insn) == CalleesAt(SitesOf(sites, m), SitesOf(sites, m)[k].insn)
  {
    var ss := SitesOf(sites, m);
    var i := ss[k].insn;
    assert i in Insns(ss);
    var x :| x in b.done && i in Insns(SitesOf(sites, x)) && b.insnToCallee[i] == CalleesAt(SitesOf(sites, x), i);
    var j :| 0 <= j < |SitesOf(sites, x)| && SitesOf(sites, x)[j].insn == i;
    assert m in sites && x in sites;
  }
}

=== FILE: class_checker.dfy ===
/** The class checker: a concrete class (neither an interface nor abstract)
    must not declare an abstract method. */
module ClassChecker {

  /** A class as the checker sees it: its flags and, per declared method,
      whether that method is abstract. */
  datatype CheckedClass = CheckedClass(
    id: nat,
    name: string,
    isInterface: bool,
    isAbstract: bool,
    dmethodsAbstract: seq<bool>,
    vmethodsAbstract: seq<bool>)

  /** Whether the class violates the rule. */
  predicate Fails(c: CheckedClass) {
    && !c.isInterface && !c.isAbstract
    && (true in c.dmethodsAbstract || true in c.vmethodsAbstract)
  }

  /** The checker's state: the good flag and the failed classes. */
  datatype Checker = Checker(good: bool, failed: set<nat>)

  const Fresh := Checker(true, {})

  /** The per-class step of `run`. */
  function CheckClass(st: Checker, c: CheckedClass): (r: Checker)
    ensures r.failed == st.failed + (if Fails(c) then {c.id} else {})
    ensures r.good == (st.good && !Fails(c))
  {
    if c.isInterface || c.isAbstract then st
    else if true in c.dmethodsAbstract || true in c.vmethodsAbstract then Checker(false, st.failed + {c.id})
    else st
  }

  /** `run` over a scope: a fresh checker ends good exactly when no class
      fails, and its failed set holds exactly the failing classes. The flag
      only ever goes from true to false. */
  method Run(st: Checker, scope: seq<CheckedClass>) returns (r: Checker)
    ensures r.failed == st.failed + (set i | 0 <= i < |scope| && Fails(scope[i]) :: scope[i].id)
    ensures r.good <==> st.good && forall i :: 0 <= i < |scope| ==> !Fails(scope[i])
    ensures !st.good ==> !r.good
  {
    r := st;
    for k := 0 to |scope|
      invariant r.failed == st.failed + (set i | 0 <= i < k && Fails(scope[i]) :: scope[i].id)
      invariant r.good <==> st.good && forall i :: 0 <= i < k ==> !Fails(scope[i])
    {
      r := CheckClass(r, scope[k]);
      assert (set i | 0 <= i < k + 1 && Fails(scope[i]) :: scope[i].id)
        == (set i | 0 <= i < k && Fails(scope[i]) :: scope[i].id) + (if Fails(scope[k]) then {scope[k].id} else {});
    }
  }

  /** The checker's unit scenarios: one class with one method `m`. Only the
      concrete class with the abstract method fails. */
  lemma SingleClassScenarios()
    ensures Fails(CheckedClass(0, "LA;", false, false, [], [true]))
    ensures !Fails(CheckedClass(0, "LA;", false, false, [], [false]))
    ensures !Fails(CheckedClass(0, "LA;", false, true, [], [true]))
    ensures !Fails(CheckedClass(0, "LA;", true, false, [], [true]))
    ensures !Fails(CheckedClass(0, "LA;", false, true, [], [false]))
    ensures !Fails(CheckedClass(0, "LA;", true, false, [], [false]))
  {
  }

  const MaxPrinted := 10
  const TooMany := "Too many errors. Only printing out the first 10\n"
  const Heading := "Nonabstract classes with abstract methods: "

  /** The names, each followed by a newline. */
  function Lines(names: seq<string>): (r: string)
    ensures |r| >= |names|
  {
    if names == [] then "" else names[0] + "\n" + Lines(names[1..])
  }

  lemma {:induction false} LinesAppend(a: seq<string>, n: string)
    ensures Lines(a + [n]) == Lines(a) + n + "\n"
  {
    if a != [] {
      assert (a + [n])[1..] == a[1..] + [n];
      LinesAppend(a[1..], n);
    }
  }

  /** `print_failed_classes` on the failed classes' names in iteration order:
      the warning line appears exactly when more than ten failed, and then
      the first ten names (or all of them) follow the heading. */
  method PrintFailedClasses(names: seq<string>) returns (out: string)
    ensures out == (if |names| > MaxPrinted then TooMany else "") + Heading
      + Lines(names[..if |names| < MaxPrinted then |names| else MaxPrinted])
  {
    var warning := if |names| > MaxPrinted then TooMany else "";
    var start := warning + Heading;
    var printed := "";
    var counter := 0;
    while counter < |names|
      invariant 0 <= counter <= |names| && counter < MaxPrinted
      invariant printed == Lines(names[..counter])
      decreases |names| - counter
    {
      LinesAppend(names[..counter], names[counter]);
      assert names[..counter + 1] == names[..counter] + [names[counter]];
      printed := printed + names[counter] + "\n";
      counter := counter + 1;
      if counter == MaxPrinted {
        break;
      }
    }
    out := start + printed;
  }
}

=== FILE: config_files.dfy ===
/** Line formats of the configuration files: the tab splitter, the base-10
    field parser, the coldstart class list entries, the dead-class list lines
    with their relocated-class handling, and the instruction-size bit width
    check. Strings are byte strings: every char stands for one byte (< 256),
    and a byte from 128 up is a negative `char` in the source. File reading
    and the ProGuard name translation are outside the model; the translation
    is a parameter. */
module ConfigFiles {
  import opened Wrappers

  const Tab: char := '\t'

  /** The first tab at or after `from`, or the end of the line. */
  function FindTab(line: string, from: nat): (e: nat)
    requires from <= |line|
    ensures from <= e <= |line|
    ensures e < |line| ==> line[e] == Tab
    ensures forall i :: from <= i < e ==> line[i] != Tab
    decreases |line| - from
  {
    if from == |line| then |line| else if line[from] == Tab then from else FindTab(line, from + 1)
  }

  /** The tab-separated fields of a line, left to right; a line without tabs
      is one field. */
  function Fields(s: string): (r: seq<string>)
    ensures |r| >= 1
    decreases |s|
  {
    var e := FindTab(s, 0);
    if e == |s| then [s] else [s[..e]] + Fields(s[e + 1..])
  }

  /** The fields joined back with tabs. */
  function JoinTabs(fs: seq<string>): string
    requires |fs| >= 1
  {
    if |fs| == 1 then fs[0] else fs[0] + [Tab] + JoinTabs(fs[1..])
  }

  /** Splitting and joining are inverse: no field holds a tab and joining the
      fields gives the line back. */
  lemma {:induction false} FieldsJoin(s: string)
    ensures JoinTabs(Fields(s)) == s
    ensures forall k :: 0 <= k < |Fields(s)| ==> Tab !in Fields(s)[k]
    decreases |s|
  {
    var e := FindTab(s, 0);
    if e < |s| {
      FieldsJoin(s[e + 1..]);
      assert s == s[..e] + [Tab] + s[e + 1..];
      var fs := Fields(s);
      forall k | 0 <= k < |fs|
        ensures Tab !in fs[k]
      {
        if k > 0 {
          assert fs[k] == Fields(s[e + 1..])[k - 1];
        }
      }
    }
  }

  /** The splitter's state: the line and the current field's bounds. */
  datatype Splitter = Splitter(line: string, start: nat, end: nat)
  {
    ghost predicate Valid() {
      start <= end <= |line| && end == FindTab(line, start)
    }

    /** The current field. */
    function Get(): string
      requires Valid()
    {
      line[start..end]
    }

    /** Moves to the next field; false, with the state unchanged, once the
        current field is the last one. */
    function Next(): (r: (bool, Splitter))
      requires Valid()
      ensures r.1.Valid() && r.1.line == line
      ensures !r.0 ==> r.1 == this
    {
      if end == |line| then (false, this)
      else (true, Splitter(line, end + 1, FindTab(line, end + 1)))
    }
  }

  function NewSplitter(line: string): (sp: Splitter)
    ensures sp.Valid() && sp.start == 0
  {
    Splitter(line, 0, FindTab(line, 0))
  }

  lemma {:induction false} FindTabShift(line: string, start: nat, from: nat)
    requires start <= from <= |line|
    ensures FindTab(line[start..], from - start) == FindTab(line, from) - start
    decreases |line| - from
  {
    if from < |line| && line[from] != Tab {
      FindTabShift(line, start, from + 1);
    }
  }

  /** The splitter walks the fields left to right: its current field is the
      first of the fields from `start` on, and `next` succeeds exactly when
      another field follows, moving to the rest of them. */
  lemma SplitterWalk(sp: Splitter)
    requires sp.Valid()
    ensures Fields(sp.line[sp.start..])[0] == sp.Get()
    ensures sp.Next().0 <==> |Fields(sp.line[sp.start..])| > 1
    ensures sp.Next().0 ==>
      Fields(sp.line[sp.Next().1.start..]) == Fields(sp.line[sp.start..])[1..]
  {
    SplitterFirst(sp);
    if sp.end < |sp.line| {
      SplitterRest(sp);
    }
  }

  /** The current field is the first field from `start` on, and it is the
      last one exactly when it reaches the end of the line. */
  lemma SplitterFirst(sp: Splitter)
    requires sp.Valid()
    ensures Fields(sp.line[sp.start..])[0] == sp.Get()
    ensures |Fields(sp.line[sp.start..])| > 1 <==> sp.end < |sp.line|
  {
    var rest := sp.line[sp.start..];
    FindTabShift(sp.line, sp.start, sp.start);
    FieldsUnfold(rest);
    assert rest[..sp.end - sp.start] == sp.Get();
  }

  /** The fields after the current one are the fields from past its tab. */
  lemma SplitterRest(sp: Splitter)
    requires sp.Valid() && sp.end < |sp.line|
    ensures Fields(sp.line[sp.end + 1..]) == Fields(sp.line[sp.start..])[1..]
  {
    var rest := sp.line[sp.start..];
    FindTabShift(sp.line, sp.start, sp.start);
    var e := sp.end - sp.start;
    assert FindTab(rest, 0) == e;
    FieldsUnfold(rest);
    var after := rest[e + 1..];
    assert after == sp.line[sp.end + 1..];
    assert Fields(rest)[1..] == Fields(after);
  }

  /** One step of `Fields`: the first field runs up to the first tab, and
      the others are the fields after it. */
  lemma FieldsUnfold(s: string)
    ensures Fields(s)[0] == s[..FindTab(s, 0)]
    ensures |Fields(s)| > 1 <==> FindTab(s, 0) < |s|
    ensures FindTab(s, 0) < |s| ==> Fields(s)[1..] == Fields(s[FindTab(s, 0) + 1..])
  {
  }

  /** Characters `isspace` accepts before a number. */
  predicate IsSpace(c: char) {
    c == ' ' || c == '\t' || c == '\n' || c == '\r' || c == 11 as char || c == 12 as char
  }

  predicate IsDigit(c: char) {
    '0' <= c <= '9'
  }

  predicate AllDigits(s: string) {
    forall i :: 0 <= i < |s| ==> IsDigit(s[i])
  }

  /** The value of a string of decimal digits. */
  function DigitsValue(s: string): (v: nat)
    requires AllDigits(s)
  {
    if s == [] then 0 else DigitsValue(s[..|s| - 1]) * 10 + (s[|s| - 1] as int - '0' as int)
  }

  function LeadingSpaces(s: string, i: nat): (j: nat)
    requires i <= |s|
    ensures i <= j <= |s|
    ensures j < |s| ==> !IsSpace(s[j])
    decreases |s| - i
  {
    if i < |s| && IsSpace(s[i]) then LeadingSpaces(s, i + 1) else i
  }

  const Int64Min: int := -0x8000_0000_0000_0000
  const Int64Max: int := 0x7fff_ffff_ffff_ffff

  /** `strtol` saturates at the bounds of its 64-bit result. */
  function Saturate(v: int): (r: int)
    ensures Int64Min <= r <= Int64Max
    ensures Int64Min <= v <= Int64Max ==> r == v
  {
    if v < Int64Min then Int64Min else if v > Int64Max then Int64Max else v
  }

  /** `from_chars`: `strtol` in base 10 must consume the whole field, or the
      source's assertion fails (`None`). When no digit is found `strtol`
      consumes nothing, so only the empty field passes that way, as 0. */
  function FromChars(s: string): (r: Option<int>)
    ensures r.Some? ==> Int64Min <= r.value <= Int64Max
    ensures s == [] ==> r == Some(0)
  {
    if s == [] then Some(0)
    else
      var i := LeadingSpaces(s, 0);
      var negative := i < |s| && s[i] == '-';
      var j := if i < |s| && (s[i] == '+' || s[i] == '-') then i + 1 else i;
      if j < |s| && AllDigits(s[j..]) then
        Some(Saturate(if negative then -(DigitsValue(s[j..]) as int) else DigitsValue(s[j..])))
      else None
  }

  /** The decimal digits of a natural number. */
  function ShowNat(n: nat): (s: string)
    ensures |s| >= 1 && AllDigits(s)
  {
    if n < 10 then [('0' as int + n) as char] else ShowNat(n / 10) + [('0' as int + n % 10) as char]
  }

  /** The decimal rendering of an integer, with a minus sign when negative. */
  function Show(n: int): string {
    if n < 0 then "-" + ShowNat(-n) else ShowNat(n)
  }

  lemma {:induction false} ShowNatValue(n: nat)
    ensures DigitsValue(ShowNat(n)) == n
  {
    if n >= 10 {
      var s := ShowNat(n);
      ShowNatValue(n / 10);
      assert s[..|s| - 1] == ShowNat(n / 10);
    }
  }

  /** Parsing the decimal rendering of any 64-bit value gives the value back. */
  lemma FromCharsShow(n: int)
    requires Int64Min <= n <= Int64Max
    ensures FromChars(Show(n)) == Some(n)
  {
    var s := Show(n);
    ShowNatValue(if n < 0 then -n else n);
    if n < 0 {
      assert s[1..] == ShowNat(-n);
    } else {
      assert s[0..] == s;
    }
  }

  /** A field that is not a base-10 number is refused. */
  lemma FromCharsRefuses()
    ensures FromChars("12a").None? && FromChars("+").None? && FromChars(" ").None?
    ensures FromChars(" -7") == Some(-7)
  {
    assert !AllDigits("12a"[0..]) by { assert !IsDigit("12a"[0..][2]); }
    assert " -7"[2..] == "7";
    assert DigitsValue("7") == 7 by { assert "7"[..0] == []; }
  }

  const ClassTail: string := ".class"

  /** One coldstart entry: it must be longer than ".class" and end in it;
      the tail becomes ";" and an "L" goes in front (no dot replacement).
      `None` is the INVALID_BETAMAP error. */
  function ColdstartEntry(spec: string): (r: Option<string>)
    ensures r.Some? <==> |spec| > |ClassTail| && spec[|spec| - |ClassTail|..] == ClassTail
  {
    if |ClassTail| >= |spec| then None
    else
      var posTail := |spec| - |ClassTail|;
      if spec[posTail..] != ClassTail then None else Some("L" + spec[..posTail] + ";")
  }

  /** The entry conversion is a bijection between "<name>.class" with a
      non-empty name and "L<name>;". */
  lemma ColdstartRoundTrip(name: string, spec: string)
    ensures name != [] ==> ColdstartEntry(name + ClassTail) == Some("L" + name + ";")
    ensures ColdstartEntry(spec).Some? ==>
      var d := ColdstartEntry(spec).value;
      |d| >= 3 && d[0] == 'L' && d[|d| - 1] == ';' && spec == d[1..|d| - 1] + ClassTail
  {
    var full := name + ClassTail;
    if name != [] {
      assert full[|full| - |ClassTail|..] == ClassTail;
      assert full[..|full| - |ClassTail|] == name;
    }
    if ColdstartEntry(spec).Some? {
      var p := spec[..|spec| - |ClassTail|];
      var d := "L" + p + ";";
      assert d[1..|d| - 1] == p;
      assert spec == p + spec[|spec| - |ClassTail|..];
    }
  }

  /** The coldstart list: every token converted and translated in order, or
      the first invalid token. */
  function LoadColdstart(tokens: seq<string>, translate: string -> string): (r: Result<seq<string>, string>)
    ensures r.Success? <==> forall i :: 0 <= i < |tokens| ==> ColdstartEntry(tokens[i]).Some?
    ensures r.Success? ==> |r.value| == |tokens|
    ensures r.Success? ==> forall i :: 0 <= i < |tokens| ==> r.value[i] == translate(ColdstartEntry(tokens[i]).value)
    ensures r.Failure? ==> exists i :: 0 <= i < |tokens| && tokens[i] == r.error && ColdstartEntry(tokens[i]).None?
  {
    if tokens == [] then Success([])
    else match ColdstartEntry(tokens[0])
      case None => Failure(tokens[0])
      case Some(d) =>
        match LoadColdstart(tokens[1..], translate)
        case Failure(bad) => Failure(bad)
        case Success(rest) =>
          assert forall i :: 1 <= i < |tokens| ==> tokens[i] == tokens[1..][i - 1];
          Success([translate(d)] + rest)
  }

  /** The source compares a signed char against ' ', so bytes from 128 up
      count as blank too. */
  predicate AboveSpace(c: char) {
    ' ' < c < 128 as char
  }

  /** The line without its trailing blank bytes: the longest prefix that is
      empty or ends in a byte above ' '. */
  function TrimTrailing(s: string): (r: string)
    ensures r <= s
    ensures r == [] || AboveSpace(r[|r| - 1])
    ensures forall i :: |r| <= i < |s| ==> !AboveSpace(s[i])
  {
    if s == [] || AboveSpace(s[|s| - 1]) then s else TrimTrailing(s[..|s| - 1])
  }

  /** `remove_relocated_part`: drops the suffix length, unless the name is
      shorter than that. */
  function RemoveRelocatedPart(name: string, suffixLen: nat): (r: string)
    ensures |name| < suffixLen ==> r == name
    ensures |name| >= suffixLen ==> |r| == |name| - suffixLen && r + name[|r|..] == name
  {
    if |name| < suffixLen then name else name[..|name| - suffixLen]
  }

  predicate EndsWith(s: string, suffix: string) {
    |suffix| <= |s| && s[|s| - |suffix|..] == suffix
  }

  /** `is_relocated_class` then `remove_relocated_part` strips exactly the
      suffix. */
  lemma RelocatedStrip(base: string, suffix: string)
    ensures EndsWith(base + suffix, suffix)
    ensures RemoveRelocatedPart(base + suffix, |suffix|) == base
  {
    assert (base + suffix)[|base|..] == suffix;
    assert (base + suffix)[..|base|] == base;
  }

  /** Every '.' replaced by '/'. */
  function DotsToSlashes(s: string): (r: string)
    ensures |r| == |s|
    ensures forall i :: 0 <= i < |s| ==> r[i] == (if s[i] == '.' then '/' else s[i])
  {
    if s == [] then [] else [if s[0] == '.' then '/' else s[0]] + DotsToSlashes(s[1..])
  }

  /** The internal form of a dotted class name: "L" + name + ";" with dots
      turned into slashes. */
  function ToDescriptor(name: string): (r: string)
    ensures |r| == |name| + 2 && r[0] == 'L' && r[|r| - 1] == ';'
    ensures '.' !in r
    ensures forall i :: 0 <= i < |name| && name[i] != '.' ==> r[i + 1] == name[i]
  {
    DotsToSlashes("L" + name + ";")
  }

  /** The counts on a dead-class line; `None` where the field is absent and
      the count keeps its default. */
  datatype LoadCounts = LoadCounts(sampled: Option<int>, unsampled: Option<int>)

  /** What one dead-class line contributes. */
  datatype DeadLine =
    | Dead(name: string, counts: LoadCounts)
    | LiveRelocated(name: string)

  /** What a dead-class line means, read off its fields: the first field is
      the class, optional second and third fields are the sampled and
      unsampled counts (further fields are ignored). A relocated class loses
      its suffix and goes to the live set untranslated; any other class is
      translated and goes to the dead map. `None` is a count that fails to
      parse. */
  function DeadLineOfFields(fs: seq<string>, suffix: string, translate: string -> string): Option<DeadLine>
    requires |fs| >= 1
  {
    var counts :- CountsOfFields(fs);
    if EndsWith(fs[0], suffix) then Some(LiveRelocated(ToDescriptor(fs[0][..|fs[0]| - |suffix|])))
    else Some(Dead(translate(ToDescriptor(fs[0])), counts))
  }

  /** Parses one dead-class line as the source does: trim trailing blanks,
      then walk the fields with the splitter. */
  function ParseDeadLine(line: string, suffix: string, translate: string -> string): Option<DeadLine> {
    var sp := NewSplitter(TrimTrailing(line));
    var className := sp.Get();
    var (more, next) := sp.Next();
    var counts :- ReadCounts(next, more);
    if EndsWith(className, suffix) then
      Some(LiveRelocated(ToDescriptor(RemoveRelocatedPart(className, |suffix|))))
    else
      Some(Dead(translate(ToDescriptor(className)), counts))
  }

  /** The optional count fields after the class name. */
  function ReadCounts(sp: Splitter, more: bool): Option<LoadCounts>
    requires sp.Valid()
  {
    if !more then Some(LoadCounts(None, None))
    else
      var sampled :- FromChars(sp.Get());
      var (more2, next) := sp.Next();
      if !more2 then Some(LoadCounts(Some(sampled), None))
      else
        var unsampled :- FromChars(next.Get());
        Some(LoadCounts(Some(sampled), Some(unsampled)))
  }

  /** The counts the second and third fields give, or `None` when one of
      them does not parse. */
  function CountsOfFields(fs: seq<string>): Option<LoadCounts> {
    if |fs| >= 2 && FromChars(fs[1]).None? then None
    else if |fs| >= 3 && FromChars(fs[2]).None? then None
    else Some(LoadCounts(if |fs| >= 2 then FromChars(fs[1]) else None,
                         if |fs| >= 3 then FromChars(fs[2]) else None))
  }

  /** The counts the splitter reads are the ones the second and third fields
      give. */
  lemma ReadCountsFields(sp: Splitter)
    requires sp.Valid() && sp.start == 0
    ensures
      var fs := Fields(sp.line);
      ReadCounts(sp.Next().1, sp.Next().0) == CountsOfFields(fs)
  {
    assert sp.line[sp.start..] == sp.line;
    SplitterWalk(sp);
    var (more, next) := sp.Next();
    if more {
      SecondField(sp.line, next);
    }
  }

  lemma SecondField(line: string, next: Splitter)
    requires next.Valid() && next.line == line && |Fields(line)| > 1
    requires Fields(line[next.start..]) == Fields(line)[1..]
    ensures ReadCounts(next, true) == CountsOfFields(Fields(line))
  {
    var fs := Fields(line);
    SplitterWalk(next);
    assert next.Get() == fs[1];
    var (more2, next2) := next.Next();
    assert more2 <==> |fs| > 2;
    if more2 {
      SplitterWalk(next2);
      assert next2.Get() == fs[2];
      ThreeFields(fs, next.Get(), next2.Get());
    } else {
      TwoFields(fs, next.Get());
    }
  }

  lemma TwoFields(fs: seq<string>, second: string)
    requires |fs| == 2 && fs[1] == second
    ensures CountsOfFields(fs) == (var sampled :- FromChars(second); Some(LoadCounts(Some(sampled), None)))
  {
  }

  lemma ThreeFields(fs: seq<string>, second: string, third: string)
    requires |fs| > 2 && fs[1] == second && fs[2] == third
    ensures CountsOfFields(fs) ==
      (var sampled :- FromChars(second); var unsampled :- FromChars(third); Some(LoadCounts(Some(sampled), Some(unsampled))))
  {
  }

  /** The splitter-based parse agrees with the field-based meaning of a line,
      taken after trimming its trailing blanks. */
  lemma ParseDeadLineFields(line: string, suffix: string, translate: string -> string)
    ensures ParseDeadLine(line, suffix, translate) == DeadLineOfFields(Fields(TrimTrailing(line)), suffix, translate)
  {
    var sp := NewSplitter(TrimTrailing(line));
    ReadCountsFields(sp);
    SplitterWalk(sp);
    assert sp.line[sp.start..] == sp.line;
  }

  /** Line `i` puts `n` into the dead map. */
  predicate DeadAt(parsed: seq<DeadLine>, i: nat, n: string)
    requires i < |parsed|
  {
    parsed[i].Dead? && parsed[i].name == n
  }

  /** Line `i` is the first line that puts `n` into the dead map. */
  predicate FirstDeadAt(parsed: seq<DeadLine>, i: nat, n: string)
    requires i < |parsed|
  {
    DeadAt(parsed, i, n) && forall j :: 0 <= j < i ==> !DeadAt(parsed, j, n)
  }

  /** Files the parsed lines: relocated classes into the live set, the others
      into the dead map, where, as `emplace` does, the first line naming a
      class wins. */
  method FileDeadLines(parsed: seq<DeadLine>) returns (dead: map<string, LoadCounts>, live: set<string>)
    ensures forall n :: n in live <==> exists i :: 0 <= i < |parsed| && parsed[i] == LiveRelocated(n)
    ensures forall n :: n in dead <==> exists i :: 0 <= i < |parsed| && DeadAt(parsed, i, n)
    ensures forall n, i :: 0 <= i < |parsed| && FirstDeadAt(parsed, i, n) ==>
      n in dead && dead[n] == parsed[i].counts
  {
    dead := map[];
    live := {};
    for k := 0 to |parsed|
      invariant forall n :: n in live <==> exists i :: 0 <= i < k && parsed[i] == LiveRelocated(n)
      invariant forall n :: n in dead <==> exists i :: 0 <= i < k && DeadAt(parsed, i, n)
      invariant forall n, i :: 0 <= i < k && FirstDeadAt(parsed, i, n) ==> n in dead && dead[n] == parsed[i].counts
    {
      match parsed[k]
      case LiveRelocated(n) =>
        live := live + {n};
      case Dead(n, counts) =>
        assert DeadAt(parsed, k, n);
        if n !in dead {
          dead := dead[n := counts];
        }
    }
  }

  /** `f` applied to every element, or `None` when it fails on one. */
  function MapAll<A, B>(xs: seq<A>, f: A -> Option<B>): (r: Option<seq<B>>)
    ensures r.Some? ==> |r.value| == |xs|
  {
    if xs == [] then Some([])
    else
      var init :- MapAll(xs[..|xs| - 1], f);
      var last :- f(xs[|xs| - 1]);
      Some(init + [last])
  }

  lemma {:induction false} MapAllEach<A, B>(xs: seq<A>, f: A -> Option<B>)
    ensures MapAll(xs, f).Some? <==> forall i :: 0 <= i < |xs| ==> f(xs[i]).Some?
    ensures MapAll(xs, f).Some? ==> forall i :: 0 <= i < |xs| ==> MapAll(xs, f).value[i] == f(xs[i]).value
  {
    if xs != [] {
      var init := xs[..|xs| - 1];
      MapAllEach(init, f);
      assert forall i :: 0 <= i < |init| ==> init[i] == xs[i];
    }
  }

  /** All lines parsed, or `None` when some line's counts do not parse. */
  function ParseLines(lines: seq<string>, suffix: string, translate: string -> string): (r: Option<seq<DeadLine>>)
    ensures r.Some? ==> |r.value| == |lines|
  {
    MapAll(lines, line => ParseDeadLine(line, suffix, translate))
  }

  /** The parsed lines are the lines parsed one by one. */
  lemma ParseLinesEach(lines: seq<string>, suffix: string, translate: string -> string)
    ensures ParseLines(lines, suffix, translate).Some? <==>
      forall i :: 0 <= i < |lines| ==> ParseDeadLine(lines[i], suffix, translate).Some?
    ensures ParseLines(lines, suffix, translate).Some? ==>
      forall i :: 0 <= i < |lines| ==> ParseLines(lines, suffix, translate).value[i] == ParseDeadLine(lines[i], suffix, translate).value
  {
    MapAllEach(lines, line => ParseDeadLine(line, suffix, translate));
  }

  /** Every line of a prefix that parses as a whole parses on its own. */
  lemma ParsedPrefix(lines: seq<string>, k: nat, suffix: string, translate: string -> string)
    requires k <= |lines| && ParseLines(lines[..k], suffix, translate).Some?
    ensures forall j :: 0 <= j < k ==> ParseDeadLine(lines[j], suffix, translate).Some?
  {
    ParseLinesEach(lines[..k], suffix, translate);
    forall j | 0 <= j < k
      ensures ParseDeadLine(lines[j], suffix, translate).Some?
    {
      assert lines[..k][j] == lines[j];
    }
  }

  /** Parses the lines of the dead-class list one by one, stopping at the
      first line whose counts do not parse. */
  method ParseDeadLines(lines: seq<string>, suffix: string, translate: string -> string)
    returns (r: Result<seq<DeadLine>, nat>)
    ensures r.Failure? ==> r.error < |lines| && ParseDeadLine(lines[r.error], suffix, translate).None?
    ensures r.Failure? ==> forall j :: 0 <= j < r.error ==> ParseDeadLine(lines[j], suffix, translate).Some?
    ensures r.Success? <==> ParseLines(lines, suffix, translate).Some?
    ensures r.Success? ==> r.value == ParseLines(lines, suffix, translate).value
  {
    var parsed: seq<DeadLine> := [];
    for k := 0 to |lines|
      invariant ParseLines(lines[..k], suffix, translate) == Some(parsed)
    {
      var line := ParseDeadLine(lines[k], suffix, translate);
      assert lines[..k + 1][..k] == lines[..k];
      if line.None? {
        ParseLinesEach(lines, suffix, translate);
        ParsedPrefix(lines, k, suffix, translate);
        return Failure(k);
      }
      parsed := parsed + [line.value];
    }
    assert lines[..|lines|] == lines;
    r := Success(parsed);
  }

  /** Builds the dead map and the live relocated set from the lines of the
      dead-class list, or fails at the first line whose counts do not parse. */
  method BuildDeadAndLiveLists(lines: seq<string>, suffix: string, translate: string -> string)
    returns (r: Result<(map<string, LoadCounts>, set<string>), nat>)
    ensures r.Failure? ==> r.error < |lines| && ParseDeadLine(lines[r.error], suffix, translate).None?
    ensures r.Failure? ==> forall j :: 0 <= j < r.error ==> ParseDeadLine(lines[j], suffix, translate).Some?
    ensures r.Success? <==> ParseLines(lines, suffix, translate).Some?
    ensures r.Success? ==> var parsed := ParseLines(lines, suffix, translate).value;
      && (forall n :: n in r.value.1 <==> exists i :: 0 <= i < |parsed| && parsed[i] == LiveRelocated(n))
      && (forall n :: n in r.value.0 <==> exists i :: 0 <= i < |parsed| && DeadAt(parsed, i, n))
      && (forall n, i :: 0 <= i < |parsed| && FirstDeadAt(parsed, i, n) ==>
            n in r.value.0 && r.value.0[n] == parsed[i].counts)
  {
    var parsed := ParseDeadLines(lines, suffix, translate);
    if parsed.Failure? {
      return Failure(parsed.error);
    }
    var dead, live := FileDeadLines(parsed.value);
    r := Success((dead, live));
  }

  /** The configured instruction-size bit width (0 when absent) must be
      below 32; a larger value fails the source's assertion. */
  function InstructionSizeBitwidthLimit(configured: Option<nat>): (r: Option<nat>)
    ensures r.Some? <==> configured.GetOr(0) < 32
    ensures r.Some? ==> r.value == configured.GetOr(0)
  {
    var limit := configured.GetOr(0);
    if limit < 32 then Some(limit) else None
  }
}

=== FILE: const_class_branches.dfy ===
/** Helpers of the const-class branch transform: which methods are looked
    at, when a branch on class constants qualifies, the ordinals given to the
    switched-on types, the string tree that maps their names to the
    ordinals, and the FNV-1 hash of that encoded string. The CFG rewrite
    itself is outside the model. */
module ConstClassBranches {
  import opened Wrappers
  import opened StringTree

  const JavaLangClass: string := "Ljava/lang/Class;"

  /** A method is considered iff some parameter is java.lang.Class and the
      method has code; the scan stops at the first such parameter. */
  function ShouldConsiderMethod(params: seq<string>, hasCode: bool): (r: bool)
    ensures r <==> JavaLangClass in params && hasCode
  {
    if params == [] then false
    else if params[0] == JavaLangClass then hasCode
    else ShouldConsiderMethod(params[1..], hasCode)
  }

  const DefaultMinCases: nat := 5
  const DefaultMaxCases: nat := 2000

  /** The configuration the gate reads. */
  datatype PassState = PassState(considerExternalClasses: bool, minCases: nat, maxCases: nat)

  const DefaultPassState := PassState(false, DefaultMinCases, DefaultMaxCases)

  /** A non-default case key: whether its type has a class definition, and
      whether that class is external. */
  datatype CaseType = CaseType(hasClass: bool, isExternal: bool)

  predicate Relevant(st: PassState, t: CaseType) {
    st.considerExternalClasses || (t.hasClass && !t.isExternal)
  }

  /** The number of relevant non-default cases. */
  function RelevantCaseCount(st: PassState, cases: seq<CaseType>): (n: nat)
    ensures n <= |cases|
    ensures st.considerExternalClasses ==> n == |cases|
    ensures n == |cases| <==> forall i :: 0 <= i < |cases| ==> Relevant(st, cases[i])
  {
    if cases == [] then 0
    else RelevantCaseCount(st, cases[..|cases| - 1]) + (if Relevant(st, cases[|cases| - 1]) then 1 else 0)
  }

  /** A branch qualifies for the transform when it has a default case and its
      relevant case count lies in [minCases, maxCases]. */
  function Qualifies(st: PassState, cases: seq<CaseType>, hasDefault: bool): (r: bool)
    ensures r ==> hasDefault && st.minCases <= RelevantCaseCount(st, cases) <= st.maxCases
    ensures hasDefault && st.minCases <= RelevantCaseCount(st, cases) <= st.maxCases ==> r
  {
    if !hasDefault then false
    else
      var n := RelevantCaseCount(st, cases);
      !(n > st.maxCases || n < st.minCases)
  }

  /** Under the defaults external and unknown classes do not count, so a
      branch needs at least five cases on internal classes. */
  lemma DefaultGate(cases: seq<CaseType>, hasDefault: bool)
    ensures Qualifies(DefaultPassState, cases, hasDefault) ==>
      |set i | 0 <= i < |cases| && cases[i].hasClass && !cases[i].isExternal| >= 5
  {
    if Qualifies(DefaultPassState, cases, hasDefault) {
      RelevantCounted(DefaultPassState, cases);
    }
  }

  /** The relevant count is the number of relevant positions. */
  lemma {:induction false} RelevantCounted(st: PassState, cases: seq<CaseType>)
    requires !st.considerExternalClasses
    ensures RelevantCaseCount(st, cases) == |set i | 0 <= i < |cases| && cases[i].hasClass && !cases[i].isExternal|
  {
    if cases != [] {
      var init := cases[..|cases| - 1];
      RelevantCounted(st, init);
      var a := set i | 0 <= i < |init| && init[i].hasClass && !init[i].isExternal;
      var b := set i | 0 <= i < |cases| && cases[i].hasClass && !cases[i].isExternal;
      var last := |cases| - 1;
      assert b == a + (if Relevant(st, cases[last]) then {last} else {});
    }
  }

  /** `int16_t` narrowing: the value taken modulo 2^16 into [-32768, 32768). */
  function Wrap16(v: int): (r: int)
    ensures -32768 <= r < 32768
    ensures -32768 <= v < 32768 ==> r == v
  {
    (v + 32768) % 65536 - 32768
  }

  /** The ordinal reserved for "no entry", which the lookup also returns for
      a name that is not in the tree. */
  const NoEntry: int := 0

  /** The items of the string tree: the switched-on types' names in sorted
      order, with the 16-bit counter that starts at 1. */
  function OrdinalItems(names: seq<seq<SChar>>): (r: seq<(seq<SChar>, int)>)
    ensures |r| == |names|
    ensures forall i :: 0 <= i < |names| ==> r[i].0 == names[i] && r[i].1 == Wrap16(i + 1)
  {
    if names == [] then []
    else OrdinalItems(names[..|names| - 1]) + [(names[|names| - 1], Wrap16(|names|))]
  }

  /** With fewer than 32767 types the ordinals are 1, 2, 3, … and never the
      reserved 0; the last value stored for a name is its position plus 1. */
  lemma {:induction false} OrdinalsOfNames(names: seq<seq<SChar>>, s: seq<SChar>)
    requires |names| < 32767
    requires forall i, j :: 0 <= i < j < |names| ==> names[i] != names[j]
    ensures forall i :: 0 <= i < |names| ==> OrdinalItems(names)[i].1 == i + 1 != NoEntry
    ensures forall i :: 0 <= i < |names| && names[i] == s ==> LastValue(OrdinalItems(names), s) == Some(i + 1)
    ensures s !in names ==> LastValue(OrdinalItems(names), s) == None
  {
    if names != [] {
      var init := names[..|names| - 1];
      OrdinalsOfNames(init, s);
      assert OrdinalItems(names)[..|names| - 1] == OrdinalItems(init);
      assert forall i :: 0 <= i < |init| ==> init[i] == names[i];
    }
  }

  /** The encoded switch table, when every name can be encoded. */
  function EncodeOrdinals(names: seq<seq<SChar>>): Option<seq<byte>> {
    var items := OrdinalItems(names);
    EncodeStringTreeMap(Int16, items)
  }

  /** What the runtime lookup with default `NoEntry` gives for a name. */
  function LookupOrdinal(encoded: seq<byte>, s: seq<SChar>): int {
    ReadLookup(encoded, 0, s).GetOr(NoEntry)
  }

  /** The switch sees, for each switched-on type's name, exactly that type's
      ordinal, and `NoEntry` (the default branch) for every other name. */
  lemma SwitchLookup(names: seq<seq<SChar>>, s: seq<SChar>)
    requires |names| < 32767
    requires forall i, j :: 0 <= i < j < |names| ==> names[i] != names[j]
    requires EncodeOrdinals(names).Some?
    ensures forall i :: 0 <= i < |names| && names[i] == s ==> LookupOrdinal(EncodeOrdinals(names).value, s) == i + 1
    ensures s !in names ==> LookupOrdinal(EncodeOrdinals(names).value, s) == NoEntry
  {
    var items := OrdinalItems(names);
    OrdinalsOfNames(names, s);
    EncodedMapLookup(Int16, items, s);
  }

  const OffsetBasis: bv32 := 0x811c9dc5
  const Prime: bv32 := 0x01000193

  /** A byte of the encoded string as the source's xor sees it: a signed
      `char`, promoted to `int` and then to `uint32_t`, so a byte from 128 up
      is sign-extended (its upper 24 bits all set). */
  function CharOperand(b: byte): (r: bv32)
    ensures b < 128 ==> r == (b as bv8) as bv32
  {
    if b < 128 then (b as bv8) as bv32 else ((b as bv8) as bv32) | 0xFFFF_FF00
  }

  /** One round: multiply by the prime (mod 2^32), then xor in the operand. */
  function Round(h: bv32, operand: bv32): bv32 {
    (h * Prime) ^ operand
  }

  /** `fnv1` over the encoded string, from the offset basis. */
  function Fnv1(s: seq<byte>): bv32 {
    if s == [] then OffsetBasis else Round(Fnv1(s[..|s| - 1]), CharOperand(s[|s| - 1]))
  }

  /** The textbook 32-bit FNV-1, which xors in the unsigned byte. */
  function StandardFnv1(s: seq<byte>): bv32 {
    if s == [] then OffsetBasis else Round(StandardFnv1(s[..|s| - 1]), (s[|s| - 1] as bv8) as bv32)
  }

  /** On bytes below 128 the source's hash is the textbook FNV-1. */
  lemma {:induction false} Fnv1Ascii(s: seq<byte>)
    requires forall i :: 0 <= i < |s| ==> s[i] < 128
    ensures Fnv1(s) == StandardFnv1(s)
  {
    if s != [] {
      Fnv1Ascii(s[..|s| - 1]);
    }
  }

  lemma RoundXor(h: bv32, c: bv32, m: bv32)
    ensures Round(h, c ^ m) == Round(h, c) ^ m
  {
    var p := h * Prime;
    assert Round(h, c ^ m) == p ^ (c ^ m);
  }

  lemma HighOperand(b: byte)
    requires b >= 128
    ensures CharOperand(b) == ((b as bv8) as bv32) ^ 0xFFFF_FF00
  {
  }

  /** A byte from 128 up makes the two differ: the sign extension flips the
      upper 24 bits of the hash. */
  lemma Fnv1HighByte(b: byte)
    requires b >= 128
    ensures Fnv1([b]) == StandardFnv1([b]) ^ 0xFFFF_FF00
    ensures Fnv1([b]) != StandardFnv1([b])
  {
    assert [b][..0] == [];
    HighOperand(b);
    RoundXor(OffsetBasis, (b as bv8) as bv32, 0xFFFF_FF00);
  }
}

=== FILE: interdex_gains.dfy ===
/** The integer gain function of the inter-dex reshuffle: how much moving a
    class into another dex is worth, counted per reference from the number of
    times the reference already occurs in the source and the target dex. */
module InterDexGains {

  type Ref = nat

  /** 16^n. */
  function Pow16(n: nat): (r: nat)
    ensures r >= 1
  {
    if n == 0 then 1 else 16 * Pow16(n - 1)
  }

  /** `x >> (4 * k)` on a non-negative value: k hexadecimal digits shifted
      out. */
  function ShiftOutNibbles(x: nat, k: nat): (r: nat)
    ensures r <= x
  {
    if k == 0 then x else ShiftOutNibbles(x / 16, k - 1)
  }

  /** `1 << 44`: the top 20 bits of the 64-bit gain stay free so that the
      gains of all of a class's references can be added. */
  const TopGain: nat := 0x1000_0000_0000

  /** Beyond this many occurrences the gain power is 0. */
  const MaxOccurrences: nat := 11

  /** `power_value_for`: 0 above eleven occurrences, otherwise 2^44 shifted
      right by four bits per occurrence. */
  function PowerValueFor(occurrences: nat): (r: nat)
    ensures r <= TopGain
  {
    if occurrences > MaxOccurrences then 0 else ShiftOutNibbles(TopGain, occurrences)
  }

  lemma {:induction false} ShiftPow16(m: nat, k: nat)
    requires k <= m
    ensures ShiftOutNibbles(Pow16(m), k) == Pow16(m - k)
  {
    if k > 0 {
      assert Pow16(m) / 16 == Pow16(m - 1);
      ShiftPow16(m - 1, k - 1);
    }
  }

  lemma {:induction false} Pow16Grows(a: nat, b: nat)
    requires a < b
    ensures Pow16(a) < Pow16(b)
    decreases b
  {
    if a < b - 1 {
      Pow16Grows(a, b - 1);
    }
  }

  /** Up to eleven occurrences the power is 16^(11 - n), that is 2^(44 - 4n);
      each further occurrence divides it by 16, and it ends at 1. */
  lemma PowerValueClosedForm(n: nat)
    requires n <= MaxOccurrences
    ensures PowerValueFor(n) == Pow16(MaxOccurrences - n)
    ensures PowerValueFor(MaxOccurrences) == 1
    ensures 0 < n ==> PowerValueFor(n - 1) == 16 * PowerValueFor(n)
  {
    assert TopGain == Pow16(11);
    ShiftPow16(11, n);
    ShiftPow16(11, 11);
    if 0 < n {
      ShiftPow16(11, n - 1);
    }
  }

  /** The power is strictly decreasing on 0..11, positive there, and 0 from
      12 on. */
  lemma PowerValueDecreasing(i: nat, j: nat)
    ensures i <= MaxOccurrences ==> PowerValueFor(i) > 0
    ensures i < j <= MaxOccurrences ==> PowerValueFor(i) > PowerValueFor(j)
    ensures j > MaxOccurrences ==> PowerValueFor(j) == 0
  {
    if i <= MaxOccurrences {
      PowerValueClosedForm(i);
    }
    if i < j <= MaxOccurrences {
      PowerValueClosedForm(j);
      Pow16Grows(MaxOccurrences - j, MaxOccurrences - i);
    }
  }

  /** `compute_gain`: nothing when the source has no occurrence, otherwise
      the power the source loses minus the power the target gains. */
  function ComputeGain(sourceOccurrences: nat, targetOccurrences: nat): (r: int)
    ensures -(TopGain as int) <= r <= TopGain
  {
    if sourceOccurrences == 0 then 0
    else PowerValueFor(sourceOccurrences - 1) - PowerValueFor(targetOccurrences)
  }

  /** The gain for one reference is positive exactly when the source has
      between 1 and 12 occurrences and the target either has more than
      eleven or at least as many as the source; it is zero exactly when the
      source has none, the target has one fewer than the source, or both are
      past the precision limit. */
  lemma GainSign(src: nat, tgt: nat)
    ensures ComputeGain(src, tgt) > 0 <==> 1 <= src <= MaxOccurrences + 1 && (tgt > MaxOccurrences || src - 1 < tgt)
    ensures ComputeGain(src, tgt) == 0 <==>
      src == 0 || src - 1 == tgt || (src - 1 > MaxOccurrences && tgt > MaxOccurrences)
  {
    if src > 0 {
      var a := src - 1;
      PowerValueDecreasing(a, tgt);
      PowerValueDecreasing(tgt, a);
    }
  }

  /** The occurrences of a key, 0 when it does not occur. */
  function Occurrences<K>(counts: map<K, nat>, k: K): nat {
    if k in counts then counts[k] else 0
  }

  /** The summed gains of a list of references between two dexes' counts. */
  function SumGains<K>(refs: seq<K>, source: map<K, nat>, target: map<K, nat>): (r: int)
    ensures -(TopGain as int) * |refs| <= r <= TopGain * |refs|
  {
    if refs == [] then 0
    else ComputeGain(Occurrences(source, refs[0]), Occurrences(target, refs[0])) + SumGains(refs[1..], source, target)
  }

  /** A positive sum needs some reference with a positive gain. */
  lemma {:induction false} SumGainsPositive<K>(refs: seq<K>, source: map<K, nat>, target: map<K, nat>)
    requires SumGains(refs, source, target) > 0
    ensures exists i :: 0 <= i < |refs| && ComputeGain(Occurrences(source, refs[i]), Occurrences(target, refs[i])) > 0
  {
    if ComputeGain(Occurrences(source, refs[0]), Occurrences(target, refs[0])) <= 0 {
      SumGainsPositive(refs[1..], source, target);
      var i :| 0 <= i < |refs[1..]| && ComputeGain(Occurrences(source, refs[1..][i]), Occurrences(target, refs[1..][i])) > 0;
      assert refs[1..][i] == refs[i + 1];
    }
  }

  /** The references a class makes. */
  datatype Refs = Refs(frefs: seq<Ref>, mrefs: seq<Ref>, trefs: seq<Ref>, srefs: seq<string>)

  /** A dex's reference occurrence counts, as far as the gain reads them. */
  datatype DexCounts = DexCounts(frefs: map<Ref, nat>, mrefs: map<Ref, nat>, trefs: map<Ref, nat>, strings: map<string, nat>)

  /** The number of references a class makes, over all four kinds. */
  function RefCount(refs: Refs): nat {
    |refs.frefs| + |refs.mrefs| + |refs.trefs| + |refs.srefs|
  }

  /** `compute_move_gain`: 0 for a move into the class's own dex, otherwise
      the summed per-reference gains of its field, method, type and string
      references, each bounded by 2^44 in size. */
  function MoveGain(refs: Refs, source: nat, target: nat, dexen: seq<DexCounts>): (r: int)
    requires source < |dexen| && target < |dexen|
    ensures source == target ==> r == 0
    ensures -(TopGain as int) * RefCount(refs) <= r <= TopGain * RefCount(refs)
  {
    if source == target then 0
    else
      var s := dexen[source];
      var t := dexen[target];
      SumGains(refs.frefs, s.frefs, t.frefs) + SumGains(refs.mrefs, s.mrefs, t.mrefs)
        + SumGains(refs.trefs, s.trefs, t.trefs) + SumGains(refs.srefs, s.strings, t.strings)
  }

  /** Some reference of this kind has a positive gain between the two
      dexes. */
  ghost predicate SomeGain<K>(refs: seq<K>, source: map<K, nat>, target: map<K, nat>) {
    exists i :: 0 <= i < |refs| && ComputeGain(Occurrences(source, refs[i]), Occurrences(target, refs[i])) > 0
  }

  /** A move with a positive gain goes to another dex, and some single field,
      method, type or string reference of the class has a positive gain. */
  lemma MoveGainPositive(refs: Refs, source: nat, target: nat, dexen: seq<DexCounts>)
    requires source < |dexen| && target < |dexen|
    requires MoveGain(refs, source, target, dexen) > 0
    ensures source != target
    ensures || SomeGain(refs.frefs, dexen[source].frefs, dexen[target].frefs)
            || SomeGain(refs.mrefs, dexen[source].mrefs, dexen[target].mrefs)
            || SomeGain(refs.trefs, dexen[source].trefs, dexen[target].trefs)
            || SomeGain(refs.srefs, dexen[source].strings, dexen[target].strings)
  {
    var s := dexen[source];
    var t := dexen[target];
    if SumGains(refs.frefs, s.frefs, t.frefs) > 0 {
      SumGainsPositive(refs.frefs, s.frefs, t.frefs);
    } else if SumGains(refs.mrefs, s.mrefs, t.mrefs) > 0 {
      SumGainsPositive(refs.mrefs, s.mrefs, t.mrefs);
    } else if SumGains(refs.trefs, s.trefs, t.trefs) > 0 {
      SumGainsPositive(refs.trefs, s.trefs, t.trefs);
    } else {
      SumGainsPositive(refs.srefs, s.strings, t.strings);
    }
  }
}

=== FILE: interdex_moves.dfy ===
/** Planned moves of the inter-dex reshuffle: the class-to-dex placement and
    the per-dex string reference counts, which a planned move keeps equal to
    the number of classes in the dex referencing each string; and the batch
    loop of `compute_plan` built on them. */
module InterDexMoves {
  import opened Wrappers
  import opened InterDexGains
  import opened InterDexPlan

  /** Where each class sits, and per dex how often each string is
      referenced. */
  datatype Placement = Placement(dexOf: map<ClassId, nat>, strings: seq<map<string, nat>>)

  /** The classes of dex `d` that reference string `s`. */
  ghost function Holders(dexOf: map<ClassId, nat>, classStrings: map<ClassId, set<string>>, d: nat, s: string): set<ClassId> {
    set c | c in dexOf && c in classStrings && dexOf[c] == d && s in classStrings[c]
  }

  /** Every class sits in an existing dex; each string count is the number of
      classes of the dex referencing the string, and no zero count is kept. */
  ghost predicate Consistent(p: Placement, classStrings: map<ClassId, set<string>>) {
    && (forall c :: c in p.dexOf ==> p.dexOf[c] < |p.strings|)
    && (forall d, s :: 0 <= d < |p.strings| ==> Occurrences(p.strings[d], s) == |Holders(p.dexOf, classStrings, d, s)|)
    && (forall d, s :: 0 <= d < |p.strings| && s in p.strings[d] ==> p.strings[d][s] > 0)
  }

  /** The target's counts after the class's strings are added. */
  function Increment(counts: map<string, nat>, srefs: set<string>): (r: map<string, nat>)
    ensures forall s :: Occurrences(r, s) == Occurrences(counts, s) + (if s in srefs then 1 else 0)
    ensures (forall s :: s in counts ==> counts[s] > 0) ==> forall s :: s in r ==> r[s] > 0
  {
    map s | s in counts.Keys + srefs :: Occurrences(counts, s) + (if s in srefs then 1 else 0)
  }

  /** The source's counts after the class's strings are removed, an entry
      that drops to zero being erased. */
  function Decrement(counts: map<string, nat>, srefs: set<string>): (r: map<string, nat>)
    requires forall s :: s in srefs ==> Occurrences(counts, s) >= 1
    ensures forall s :: Occurrences(r, s) == Occurrences(counts, s) - (if s in srefs then 1 else 0)
    ensures (forall s :: s in counts ==> counts[s] > 0) ==> forall s :: s in r ==> r[s] > 0
  {
    assert forall s :: s in srefs ==> s in counts && counts[s] >= 1 by {
      forall s | s in srefs
        ensures s in counts && counts[s] >= 1
      {
        assert Occurrences(counts, s) >= 1;
      }
    }
    map s | s in counts.Keys && !(s in srefs && counts[s] == 1) :: if s in srefs then counts[s] - 1 else counts[s]
  }

  /** `try_plan_move` once the target dex's capacity check has answered
      `fits`: on failure nothing changes (`None`); otherwise the target's
      counts go up, the source's go down, and the class sits in the target
      dex. The source's counts must hold the class's strings (they are
      looked up without a check). */
  function TryPlanMove(p: Placement, classStrings: map<ClassId, set<string>>, c: ClassId, target: nat, fits: bool): (r: Option<Placement>)
    requires c in p.dexOf && c in classStrings
    requires p.dexOf[c] < |p.strings| && target < |p.strings|
    requires p.dexOf[c] == target || forall s :: s in classStrings[c] ==> Occurrences(p.strings[p.dexOf[c]], s) >= 1
    ensures r.None? <==> !fits
    ensures r.Some? ==> r.value.dexOf == p.dexOf[c := target] && |r.value.strings| == |p.strings|
  {
    if !fits then None
    else
      var srefs := classStrings[c];
      var source := p.dexOf[c];
      var raised := p.strings[target := Increment(p.strings[target], srefs)];
      Some(Placement(p.dexOf[c := target], raised[source := Decrement(raised[source], srefs)]))
  }

  /** A class of a consistent placement finds its own strings counted in its
      dex. */
  lemma OwnStringsCounted(p: Placement, classStrings: map<ClassId, set<string>>, c: ClassId)
    requires Consistent(p, classStrings) && c in p.dexOf && c in classStrings
    ensures forall s :: s in classStrings[c] ==> Occurrences(p.strings[p.dexOf[c]], s) >= 1
  {
    forall s | s in classStrings[c]
      ensures Occurrences(p.strings[p.dexOf[c]], s) >= 1
    {
      assert c in Holders(p.dexOf, classStrings, p.dexOf[c], s);
    }
  }

  /** Moving one class changes each holder set by at most that class. */
  lemma HoldersAfterMove(dexOf: map<ClassId, nat>, classStrings: map<ClassId, set<string>>, c: ClassId, target: nat, d: nat, s: string)
    requires c in dexOf && c in classStrings
    ensures |Holders(dexOf[c := target], classStrings, d, s)| + (if d == dexOf[c] && s in classStrings[c] then 1 else 0)
         == |Holders(dexOf, classStrings, d, s)| + (if d == target && s in classStrings[c] then 1 else 0)
  {
    var before := Holders(dexOf, classStrings, d, s);
    var after := Holders(dexOf[c := target], classStrings, d, s);
    var others := before - {c};
    assert after - {c} == others;
    if d == dexOf[c] && s in classStrings[c] {
      assert before == others + {c};
    } else {
      assert before == others;
    }
    if d == target && s in classStrings[c] {
      assert after == others + {c};
    } else {
      assert after == others;
    }
  }

  /** A planned move keeps the placement consistent. */
  lemma TryPlanMoveConsistent(p: Placement, classStrings: map<ClassId, set<string>>, c: ClassId, target: nat, fits: bool)
    requires Consistent(p, classStrings) && c in p.dexOf && c in classStrings && target < |p.strings|
    requires forall s :: s in classStrings[c] ==> Occurrences(p.strings[p.dexOf[c]], s) >= 1
    ensures TryPlanMove(p, classStrings, c, target, fits).Some? ==>
      Consistent(TryPlanMove(p, classStrings, c, target, fits).value, classStrings)
  {
    if fits {
      var q := TryPlanMove(p, classStrings, c, target, fits).value;
      var srefs := classStrings[c];
      var source := p.dexOf[c];
      forall d, s | 0 <= d < |q.strings|
        ensures Occurrences(q.strings[d], s) == |Holders(q.dexOf, classStrings, d, s)|
      {
        HoldersAfterMove(p.dexOf, classStrings, c, target, d, s);
      }
    }
  }

  /** Placing a class not yet placed, and counting its strings in its dex,
      keeps the placement consistent. */
  lemma AddClassConsistent(p: Placement, classStrings: map<ClassId, set<string>>, c: ClassId, d: nat)
    requires Consistent(p, classStrings) && c !in p.dexOf && c in classStrings && d < |p.strings|
    ensures Consistent(Placement(p.dexOf[c := d], p.strings[d := Increment(p.strings[d], classStrings[c])]), classStrings)
  {
    var q := Placement(p.dexOf[c := d], p.strings[d := Increment(p.strings[d], classStrings[c])]);
    forall e, s | 0 <= e < |q.strings|
      ensures Occurrences(q.strings[e], s) == |Holders(q.dexOf, classStrings, e, s)|
    {
      var before := Holders(p.dexOf, classStrings, e, s);
      var after := Holders(q.dexOf, classStrings, e, s);
      assert c !in before;
      if e == d && s in classStrings[c] {
        assert after == before + {c};
      } else {
        assert after == before;
      }
    }
  }

  /** Class `c` sits in one of the dexes `first..d-1`, or among the first `i`
      classes of dex `d`. */
  ghost predicate PlacedSoFar(dexen: seq<seq<ClassId>>, first: nat, d: nat, i: nat, c: ClassId)
    requires d < |dexen| ==> i <= |dexen[d]|
  {
    || (exists e :: first <= e < d && e < |dexen| && c in dexen[e])
    || (d < |dexen| && c in dexen[d][..i])
  }

  /** The placement the planner starts from: every class of the taking-part
      dexes where it sits, with each dex's string counts. A class sits in one
      dex only once. */
  method InitialPlacement(dexen: seq<seq<ClassId>>, first: nat, classStrings: map<ClassId, set<string>>)
    returns (p: Placement)
    requires forall d, c :: first <= d < |dexen| && c in dexen[d] ==> c in classStrings
    requires forall d, e, c :: first <= d < e < |dexen| && c in dexen[d] ==> c !in dexen[e]
    requires forall d, i, j :: first <= d < |dexen| && 0 <= i < j < |dexen[d]| ==> dexen[d][i] != dexen[d][j]
    ensures Consistent(p, classStrings) && |p.strings| == |dexen|
    ensures forall c :: c in p.dexOf <==> exists d :: first <= d < |dexen| && c in dexen[d]
    ensures forall c :: c in p.dexOf ==> c in dexen[p.dexOf[c]]
  {
    p := Placement(map[], seq(|dexen|, _ => map[]));
    var d := first;
    while d < |dexen|
      invariant Consistent(p, classStrings) && |p.strings| == |dexen|
      invariant forall c :: c in p.dexOf <==> PlacedSoFar(dexen, first, d, 0, c)
      invariant forall c :: c in p.dexOf ==> p.dexOf[c] < |dexen| && c in dexen[p.dexOf[c]]
      decreases |dexen| - d
    {
      for i := 0 to |dexen[d]|
        invariant Consistent(p, classStrings) && |p.strings| == |dexen|
        invariant forall c :: c in p.dexOf <==> PlacedSoFar(dexen, first, d, i, c)
        invariant forall c :: c in p.dexOf ==> p.dexOf[c] < |dexen| && c in dexen[p.dexOf[c]]
      {
        var c := dexen[d][i];
        assert c !in p.dexOf by {
          assert c !in dexen[d][..i];
        }
        AddClassConsistent(p, classStrings, c, d);
        p := Placement(p.dexOf[c := d], p.strings[d := Increment(p.strings[d], classStrings[c])]);
        assert dexen[d][..i + 1] == dexen[d][..i] + [c];
      }
      assert dexen[d][..|dexen[d]|] == dexen[d];
      d := d + 1;
    }
  }

  /** Facts the batch loop keeps. */
  ghost predicate PlanInvariant(p: Placement, p0: Placement, classStrings: map<ClassId, set<string>>, movable: seq<ClassId>, firstDex: nat) {
    && Consistent(p, classStrings)
    && p.dexOf.Keys == p0.dexOf.Keys && |p.strings| == |p0.strings|
    && (forall c :: c in p0.dexOf && c !in movable ==> p.dexOf[c] == p0.dexOf[c])
    && (forall c :: c in p0.dexOf && p.dexOf[c] != p0.dexOf[c] ==> firstDex <= p.dexOf[c])
  }

  /** `compute_plan`: batches of moves, each batch recomputing the gains,
      popping moves by gain, rechecking each gain against the current
      placement and planning the move if the target dex has room; a batch
      ends at `maxBatchSize` moves or an empty heap, and the loop stops early
      by `should_stop`. The gain and the capacity check read state outside
      the model and are parameters. No class is added or lost, immovable
      classes stay put, moves go only into taking-part dexes, and the string
      counts stay exact. */
  method ComputePlan(
    p0: Placement, classStrings: map<ClassId, set<string>>, movable: seq<ClassId>, firstDex: nat,
    maxBatches: nat, maxBatchSize: nat,
    gainOf: (Placement, ClassId, nat) -> int, fits: (Placement, ClassId, nat) -> bool)
    returns (p: Placement, batches: nat, totalMoves: nat)
    requires Consistent(p0, classStrings)
    requires forall c :: c in movable ==> c in p0.dexOf && c in classStrings
    ensures PlanInvariant(p, p0, classStrings, movable, firstDex)
    ensures batches <= maxBatches
  {
    p := p0;
    batches := 0;
    totalMoves := 0;
    var st := InitialEpochs;
    while batches < maxBatches
      invariant batches <= maxBatches
      invariant PlanInvariant(p, p0, classStrings, movable, firstDex)
      invariant Stamped(st) && st.epoch >= 1
      decreases maxBatches - batches
    {
      var heap;
      var placed := p;
      heap, st := RecomputeGains(st, movable, firstDex, |p.strings|, (c: ClassId, d: nat) => gainOf(placed, c, d));
      while st.movesThisEpoch < maxBatchSize
        invariant PlanInvariant(p, p0, classStrings, movable, firstDex)
        invariant Stamped(st) && st.epoch >= 1
        invariant forall m :: m in heap ==> m.cls in movable && firstDex <= m.target < |p.strings|
        decreases |heap|
      {
        var popped;
        popped, heap := PopMaxGain(heap, st);
        if popped.None? {
          break;
        }
        var move := popped.value;
        if gainOf(p, move.cls, move.target) <= 0 {
          continue;
        }
        OwnStringsCounted(p, classStrings, move.cls);
        TryPlanMoveConsistent(p, classStrings, move.cls, move.target, fits(p, move.cls, move.target));
        var planned := TryPlanMove(p, classStrings, move.cls, move.target, fits(p, move.cls, move.target));
        if planned.None? {
          continue;
        }
        p := planned.value;
        MovedClassSkips(st, move.cls, move.cls);
        st := MovedClass(st, move.cls);
      }
      totalMoves := totalMoves + st.movesThisEpoch;
      if ShouldStop(st) {
        break;
      }
      batches := batches + 1;
    }
  }
}

=== FILE: interdex_plan.dfy ===
/** The planning bookkeeping of the inter-dex reshuffle: which dexes take
    part, the gains heap and its pop order, the epochs that keep a class from
    moving twice in one batch, and the per-dex string counts that a planned
    move updates. */
module InterDexPlan {
  import opened Wrappers
  import opened InterDexGains

  type ClassId = nat

  /** `can_move`: canaries never move, and neither do betamap-ordered classes
      while the inter-dex order is kept. */
  predicate CanMove(orderInterdex: bool, betamapOrdered: bool, isCanary: bool) {
    (!orderInterdex || !betamapOrdered) && !isCanary
  }

  /** The first dex that takes part: the primary dex (index 0) never does,
      and leading dexes without a movable class are skipped. */
  method FirstDexIndex(dexen: seq<seq<ClassId>>, movable: set<ClassId>) returns (first: nat)
    ensures 1 <= first
    ensures |dexen| >= 1 ==> first <= |dexen|
    ensures forall d :: 1 <= d < first && d < |dexen| ==> forall c :: c in dexen[d] ==> c !in movable
    ensures first < |dexen| ==> exists c :: c in dexen[first] && c in movable
  {
    first := 1;
    var d := 1;
    while d < |dexen|
      invariant 1 <= first <= d
      invariant |dexen| >= 1 ==> d <= |dexen|
      invariant forall e :: 1 <= e < first && e < |dexen| ==> forall c :: c in dexen[e] ==> c !in movable
      invariant first < d ==> first < |dexen| && exists c :: c in dexen[first] && c in movable
      decreases |dexen| - d
    {
      if d == first && forall c :: c in dexen[d] ==> c !in movable {
        first := first + 1;
      }
      d := d + 1;
    }
  }

  /** A suggested move of a class into a target dex, with its gain. */
  datatype Move = Move(cls: ClassId, gain: int, target: nat)

  /** The heap order: by gain, then target index, then class. */
  predicate Below(a: Move, b: Move) {
    || a.gain < b.gain
    || (a.gain == b.gain && a.target < b.target)
    || (a.gain == b.gain && a.target == b.target && a.cls < b.cls)
  }

  lemma BelowOrder(a: Move, b: Move, c: Move)
    ensures !Below(a, a)
    ensures Below(a, b) && Below(b, c) ==> Below(a, c)
    ensures !Below(a, b) && !Below(b, a) ==> a == b
  {
  }

  /** The epoch bookkeeping. Epoch 1 is the start, as if every class had
      moved in epoch 0. */
  datatype Epochs = Epochs(
    epoch: nat,
    moveEpoch: map<ClassId, nat>,
    movesThisEpoch: nat,
    movesLastEpoch: nat,
    alsoMovedInLastEpoch: nat)

  const InitialEpochs := Epochs(1, map[], 0, 0, 0)

  /** No class carries a stamp from the future. */
  predicate Stamped(st: Epochs) {
    forall c :: c in st.moveEpoch ==> st.moveEpoch[c] <= st.epoch
  }

  /** Whether the class has already moved in the current epoch. */
  predicate MovedNow(st: Epochs, c: ClassId) {
    c in st.moveEpoch && st.moveEpoch[c] >= st.epoch
  }

  /** `recompute_gains`: the heap holds exactly the moves of movable classes
      into the taking-part dexes whose gain is strictly positive; a new epoch
      starts, in which no class has moved yet. */
  method RecomputeGains(st: Epochs, movable: seq<ClassId>, firstDex: nat, numDexes: nat, gainOf: (ClassId, nat) -> int)
    returns (heap: seq<Move>, next: Epochs)
    requires Stamped(st)
    ensures forall m :: m in heap <==>
      m.cls in movable && firstDex <= m.target < numDexes && m.gain == gainOf(m.cls, m.target) && m.gain > 0
    ensures next.epoch == st.epoch + 1 && next.moveEpoch == st.moveEpoch
    ensures next.movesThisEpoch == 0 && next.movesLastEpoch == st.movesThisEpoch && next.alsoMovedInLastEpoch == 0
    ensures Stamped(next) && forall c :: !MovedNow(next, c)
  {
    heap := [];
    for i := 0 to |movable|
      invariant forall m :: m in heap <==>
        m.cls in movable[..i] && firstDex <= m.target < numDexes && m.gain == gainOf(m.cls, m.target) && m.gain > 0
    {
      var cls := movable[i];
      var found: seq<Move> := [];
      var d := firstDex;
      while d < numDexes
        invariant forall m :: m in found <==> m.cls == cls && firstDex <= m.target < d && m.target < numDexes && m.gain == gainOf(cls, m.target) && m.gain > 0
        decreases numDexes - d
      {
        var gain := gainOf(cls, d);
        if gain > 0 {
          found := found + [Move(cls, gain, d)];
        }
        d := d + 1;
      }
      assert movable[..i + 1] == movable[..i] + [cls];
      heap := heap + found;
    }
    assert movable[..|movable|] == movable;
    next := Epochs(st.epoch + 1, st.moveEpoch, 0, st.movesThisEpoch, 0);
  }

  /** The position of a maximal move. */
  method ArgMax(h: seq<Move>) returns (best: nat)
    requires h != []
    ensures best < |h| && forall j :: 0 <= j < |h| ==> !Below(h[best], h[j])
  {
    best := 0;
    for j := 1 to |h|
      invariant best < j && forall k :: 0 <= k < j ==> !Below(h[best], h[k])
    {
      if Below(h[best], h[j]) {
        forall k | 0 <= k < j
          ensures !Below(h[j], h[k])
        {
          BelowOrder(h[best], h[j], h[k]);
        }
        BelowOrder(h[j], h[j], h[j]);
        best := j;
      }
    }
  }

  /** `pop_max_gain`: takes maximal moves off the heap, skipping those of
      classes that already moved in this epoch. The move returned is at
      least every move left and at most every move skipped, so successive
      pops come in non-increasing order; with no move left, every remaining
      move was skipped. */
  method PopMaxGain(heap: seq<Move>, st: Epochs) returns (r: Option<Move>, rest: seq<Move>)
    ensures |rest| <= |heap| && forall m :: m in rest ==> m in heap
    ensures r.Some? ==> |rest| < |heap| && r.value in heap && !MovedNow(st, r.value.cls)
    ensures r.Some? ==> forall m :: m in rest ==> !Below(r.value, m)
    ensures r.None? ==> rest == [] && forall m :: m in heap ==> MovedNow(st, m.cls)
    ensures forall m :: m in heap && m !in rest && r != Some(m) ==> MovedNow(st, m.cls)
    ensures r.Some? ==> forall m :: m in heap && m !in rest && r != Some(m) ==> !Below(m, r.value)
  {
    rest := heap;
    while rest != []
      invariant |rest| <= |heap| && forall m :: m in rest ==> m in heap
      invariant forall m :: m in heap && m !in rest ==> MovedNow(st, m.cls) && forall x :: x in rest ==> !Below(m, x)
      decreases |rest|
    {
      var i := ArgMax(rest);
      var m := rest[i];
      var left := rest[..i] + rest[i + 1..];
      assert forall x :: x in left ==> x in rest;
      assert forall x :: x in rest ==> x in left || x == m;
      if MovedNow(st, m.cls) {
        rest := left;
      } else {
        forall x | x in left
          ensures !Below(m, x)
        {
          var k :| 0 <= k < |rest| && rest[k] == x;
        }
        return Some(m), left;
      }
    }
    r := None;
  }

  /** `moved_class`: stamps the class with the current epoch and counts the
      move, and also counts it as a repeat when the class moved in the
      previous epoch (a class never moved counts as moved in epoch 0). */
  function MovedClass(st: Epochs, c: ClassId): (r: Epochs)
    requires st.epoch >= 1
    ensures r.epoch == st.epoch && r.movesLastEpoch == st.movesLastEpoch
    ensures r.movesThisEpoch == st.movesThisEpoch + 1
    ensures r.alsoMovedInLastEpoch == st.alsoMovedInLastEpoch + (if Occurrences(st.moveEpoch, c) == st.epoch - 1 then 1 else 0)
  {
    var classEpoch := if c in st.moveEpoch then st.moveEpoch[c] else 0;
    var wasMovedLastEpoch := classEpoch == st.epoch - 1;
    Epochs(st.epoch, st.moveEpoch[c := st.epoch], st.movesThisEpoch + 1, st.movesLastEpoch,
      st.alsoMovedInLastEpoch + (if wasMovedLastEpoch then 1 else 0))
  }

  /** After a move the class is skipped for the rest of the epoch, no other
      class's status changes, and no stamp lies in the future. */
  lemma MovedClassSkips(st: Epochs, c: ClassId, other: ClassId)
    requires st.epoch >= 1 && Stamped(st)
    ensures MovedNow(MovedClass(st, c), c)
    ensures other != c ==> (MovedNow(MovedClass(st, c), other) <==> MovedNow(st, other))
    ensures Stamped(MovedClass(st, c))
  {
  }

  /** `should_stop`: no move in this epoch, or more than 90% of them repeat
      a move of the previous epoch (the float quotient compared exactly). */
  predicate ShouldStop(st: Epochs) {
    st.movesThisEpoch == 0 || 10 * st.alsoMovedInLastEpoch > 9 * st.movesLastEpoch
  }
}

=== FILE: method_closures.dfy ===
/** Closure discovery for the method splitter: which reduced blocks of a
    method's control-flow graph may be split off, together with the blocks
    they reach, into a method of their own. */
module MethodClosures {
  import opened Wrappers
  import opened SplittingConfig

  type TypeId = nat
  /** Id of a block of the control-flow graph. */
  type CfgId = nat
  /** Id of a reduced block (a strongly connected group of blocks). */
  type BlockId = nat

  // ---------------------------------------------------------------------
  // Positions before the first throwing instruction

  /** An entry of an instruction list, as far as positions are concerned. */
  datatype ListEntry = Opcode(mayThrow: bool, isThrow: bool) | Position | OtherEntry

  predicate Throwing(e: ListEntry) {
    e.Opcode? && (e.mayThrow || e.isThrow)
  }

  /** Some position entry comes before every throwing opcode. */
  ghost predicate PositionFirst(es: seq<ListEntry>) {
    exists p :: 0 <= p < |es| && es[p].Position? && NoneThrowBefore(es, p)
  }

  ghost predicate NoneThrowBefore(es: seq<ListEntry>, p: nat)
    requires p <= |es|
  {
    forall q :: 0 <= q < p ==> !Throwing(es[q])
  }

  /** Whether a freshly split block needs a position inserted: it does unless
      a position precedes the first instruction that may throw. */
  method NeedsPos(es: seq<ListEntry>) returns (r: bool)
    ensures !r <==> PositionFirst(es)
  {
    for i := 0 to |es|
      invariant NoneThrowBefore(es, i)
      invariant forall q :: 0 <= q < i ==> !es[q].Position?
    {
      match es[i]
      case Opcode(mayThrow, isThrow) =>
        if mayThrow || isThrow {
          forall p | 0 <= p < |es| && es[p].Position?
            ensures !NoneThrowBefore(es, p)
          {
            assert i < p && Throwing(es[i]);
          }
          return true;
        }
      case Position =>
        assert NoneThrowBefore(es, i);
        return false;
      case OtherEntry =>
    }
    return true;
  }

  // ---------------------------------------------------------------------
  // Blocks that write final fields in constructors

  datatype MethodKind = Init | Clinit | Ordinary

  /** A resolved field: its declaring class and whether it is final. */
  datatype Field = Field(owner: TypeId, isFinal: bool)

  /** A field write; `field` is None when the reference does not resolve. */
  datatype Insn = Sput(field: Option<Field>) | Iput(field: Option<Field>) | OtherInsn

  /** A reduced block: its own cfg blocks (as instruction lists), code size,
      hotness, and the incoming cfg edges from outside it. */
  datatype PredEdge = PredEdge(isThrow: bool, monitorZero: bool, src: CfgId, target: CfgId)
  datatype ReducedBlock = ReducedBlock(id: BlockId, blocks: seq<seq<Insn>>, size: nat, isHot: bool, preds: seq<PredEdge>)

  /** A write that a constructor of `owner` must keep: a static put in a class
      initialiser, or an instance put in an instance constructor, to a final
      field declared by the method's own class. */
  predicate Unsplittable(kind: MethodKind, owner: TypeId, insn: Insn) {
    && (if kind == Clinit then insn.Sput? else insn.Iput?)
    && insn.field.Some?
    && insn.field.value.owner == owner
    && insn.field.value.isFinal
  }

  predicate HasUnsplittable(kind: MethodKind, owner: TypeId, rb: ReducedBlock) {
    exists b, k :: 0 <= b < |rb.blocks| && 0 <= k < |rb.blocks[b]| && Unsplittable(kind, owner, rb.blocks[b][k])
  }

  /** The reduced blocks holding a final-field write of the constructor's own
      class; none for methods that are no constructors. */
  function FinalFieldBlocks(kind: MethodKind, owner: TypeId, rbs: seq<ReducedBlock>): (r: set<BlockId>)
    ensures kind == Ordinary ==> r == {}
    ensures kind != Ordinary ==> forall b :: b in r <==> exists k :: 0 <= k < |rbs| && rbs[k].id == b && HasUnsplittable(kind, owner, rbs[k])
  {
    if kind == Ordinary then {}
    else set k | 0 <= k < |rbs| && HasUnsplittable(kind, owner, rbs[k]) :: rbs[k].id
  }

  // ---------------------------------------------------------------------
  // Candidate closures

  /** A splittable region: the reduced block it starts at, everything that
      block reaches, the sources of the entering edges and their common
      target block. */
  datatype Closure = Closure(block: BlockId, components: set<BlockId>, srcs: set<CfgId>, target: CfgId)

  datatype MethodClosures = MethodClosures(originalSize: nat, closures: seq<Closure>)

  /** The facts about a method that discovery consults: its kind and class,
      its reduced graph, the entry block, the reachability of the reduced
      graph, and the cfg blocks starting with a move-result or
      move-exception. */
  datatype MethodInfo = MethodInfo(
    kind: MethodKind,
    owner: TypeId,
    tooLargeForInlining: bool,
    blocks: seq<ReducedBlock>,
    entry: BlockId,
    reach: map<BlockId, set<BlockId>>,
    moveStarts: set<CfgId>)

  function Reach(m: MethodInfo, b: BlockId): set<BlockId> {
    if b in m.reach then m.reach[b] else {}
  }

  function CodeSize(rbs: seq<ReducedBlock>): nat {
    if rbs == [] then 0 else CodeSize(rbs[..|rbs| - 1]) + rbs[|rbs| - 1].size
  }

  /** Too small to be worth splitting: below the size threshold, unless the
      method is too large for inlining and meets the lower alternate one. */
  predicate TooSmall(c: Config, m: MethodInfo) {
    var size := CodeSize(m.blocks);
    size < c.minOriginalSize && (!m.tooLargeForInlining || size < c.minOriginalSizeTooLargeForInlining)
  }

  /** Every incoming edge is a normal edge leaving a block with no monitor
      held, and all of them enter the same cfg block. */
  ghost predicate CleanPreds(es: seq<PredEdge>) {
    && |es| > 0
    && forall j :: 0 <= j < |es| ==> !es[j].isThrow && es[j].monitorZero && es[j].target == es[0].target
  }

  ghost predicate Viable(m: MethodInfo, excluded: set<BlockId>, rb: ReducedBlock) {
    && rb.id != m.entry
    && CleanPreds(rb.preds)
    && rb.preds[0].target !in m.moveStarts
    && Reach(m, rb.id) !! excluded
  }

  function ClosureOf(m: MethodInfo, rb: ReducedBlock): Closure
    requires |rb.preds| > 0
  {
    Closure(rb.id, Reach(m, rb.id), set j | 0 <= j < |rb.preds| :: rb.preds[j].src, rb.preds[0].target)
  }

  /** Only the entry block may lack incoming edges: unreachable blocks are
      removed before discovery. */
  predicate Connected(m: MethodInfo) {
    forall k :: 0 <= k < |m.blocks| && m.blocks[k].id != m.entry ==> |m.blocks[k].preds| > 0
  }

  /** Walks the incoming edges of a block, stopping at the first throw edge,
      held monitor, or second target. */
  method ScanPreds(es: seq<PredEdge>) returns (ok: bool, srcs: set<CfgId>, target: Option<CfgId>)
    ensures ok && |es| > 0 <==> CleanPreds(es)
    ensures ok && |es| > 0 ==> srcs == (set j | 0 <= j < |es| :: es[j].src) && target == Some(es[0].target)
    ensures |es| == 0 ==> target == None
  {
    srcs := {};
    target := None;
    for i := 0 to |es|
      invariant i == 0 <==> target == None
      invariant i > 0 ==> target == Some(es[0].target)
      invariant srcs == set j | 0 <= j < i :: es[j].src
      invariant forall j :: 0 <= j < i ==> !es[j].isThrow && es[j].monitorZero && es[j].target == es[0].target
    {
      var e := es[i];
      if e.isThrow || !e.monitorZero {
        return false, srcs, target;
      }
      srcs := srcs + {e.src};
      if target.Some? && target.value != e.target {
        return false, srcs, target;
      }
      target := Some(e.target);
    }
    ok := true;
  }

  /** The closures of a method, in block order, or None when the method is
      too small or has no closure at all. */
  method DiscoverClosures(c: Config, m: MethodInfo) returns (r: Option<MethodClosures>)
    requires Connected(m)
    ensures TooSmall(c, m) ==> r.None?
    ensures r.Some? ==> r.value.originalSize == CodeSize(m.blocks)
    ensures r.Some? ==> |r.value.closures| > 0
    ensures r.Some? ==> forall x :: x in r.value.closures ==> x.block != m.entry
    ensures r.Some? ==> forall x :: x in r.value.closures <==>
      exists k :: 0 <= k < |m.blocks| && Viable(m, FinalFieldBlocks(m.kind, m.owner, m.blocks), m.blocks[k]) && x == ClosureOf(m, m.blocks[k])
    ensures !TooSmall(c, m) && r.None? ==> forall k :: 0 <= k < |m.blocks| ==> !Viable(m, FinalFieldBlocks(m.kind, m.owner, m.blocks), m.blocks[k])
  {
    var size := CodeSize(m.blocks);
    if size < c.minOriginalSize && (!m.tooLargeForInlining || size < c.minOriginalSizeTooLargeForInlining) {
      return None;
    }
    var excluded := FinalFieldBlocks(m.kind, m.owner, m.blocks);
    var closures: seq<Closure> := [];
    for k := 0 to |m.blocks|
      invariant forall x :: x in closures <==>
        exists j :: 0 <= j < k && Viable(m, excluded, m.blocks[j]) && x == ClosureOf(m, m.blocks[j])
    {
      var rb := m.blocks[k];
      if rb.id == m.entry {
        continue;
      }
      var ok, srcs, target := ScanPreds(rb.preds);
      if !ok || target.value in m.moveStarts || !(Reach(m, rb.id) !! excluded) {
        assert !Viable(m, excluded, rb);
        continue;
      }
      closures := closures + [Closure(rb.id, Reach(m, rb.id), srcs, target.value)];
    }
    forall k | 0 <= k < |m.blocks| && Viable(m, excluded, m.blocks[k])
      ensures ClosureOf(m, m.blocks[k]) in closures
    {
    }
    if closures == [] {
      return None;
    }
    return Some(MethodClosures(size, closures));
  }
}

=== FILE: method_fixup.dfy ===
/** Forwarding references to removed virtual methods: each removed method maps
    to a replacement, chains of replacements are compressed in place, and then
    every invoke-virtual naming a removed method is retargeted. Methods are
    opaque ids. */
module MethodFixup {
  import opened Wrappers

  type MethodRef = nat

  /** The removed-method map: removed method to its replacement. */
  type Forwarding = map<MethodRef, MethodRef>

  /** The recursion in the source has no guard, so the model asks for an
      acyclic map, witnessed by a rank that strictly drops along each step
      from one removed method to another. */
  ghost predicate Ranked(m: Forwarding, rank: map<MethodRef, nat>) {
    && m.Keys <= rank.Keys
    && forall k :: k in m && m[k] in m ==> rank[m[k]] < rank[k]
  }

  /** Where the chain starting at `x` ends: the first method that was not
      removed. */
  ghost function End(m: Forwarding, rank: map<MethodRef, nat>, x: MethodRef): (e: MethodRef)
    requires Ranked(m, rank)
    ensures e !in m
    ensures x !in m ==> e == x
    decreases if x in m then rank[x] + 1 else 0
  {
    if x in m then End(m, rank, m[x]) else x
  }

  /** Replacing one key's value by the end of its own chain keeps the map
      ranked and changes no chain's end. */
  lemma {:induction false} ShortcutKeepsEnds(m: Forwarding, rank: map<MethodRef, nat>, k: MethodRef, x: MethodRef)
    requires Ranked(m, rank) && k in m
    ensures Ranked(m[k := End(m, rank, k)], rank)
    ensures End(m[k := End(m, rank, k)], rank, x) == End(m, rank, x)
    decreases if x in m then rank[x] + 1 else 0
  {
    var m' := m[k := End(m, rank, k)];
    assert Ranked(m', rank);
    if x in m && x != k {
      ShortcutKeepsEnds(m, rank, k, m[x]);
    }
  }

  /** The recursive `forward` of the source on key `k`: compresses the chain
      behind `k` and returns the updated map with the chain's end. */
  method Forward(m: Forwarding, ghost rank: map<MethodRef, nat>, k: MethodRef)
    returns (r: Forwarding, e: MethodRef)
    requires Ranked(m, rank) && k in m
    ensures r.Keys == m.Keys && Ranked(r, rank)
    ensures e == End(m, rank, k) && r[k] == e
    ensures forall x :: End(r, rank, x) == End(m, rank, x)
    ensures forall x :: x in m && m[x] !in m ==> r[x] == m[x]
    decreases rank[k]
  {
    var next := m[k];
    if next in m {
      var m1, e1 := Forward(m, rank, next);
      assert End(m1, rank, k) == e1 by {
        assert End(m, rank, k) == End(m, rank, next);
      }
      r := m1[k := e1];
      e := e1;
      forall x
        ensures End(r, rank, x) == End(m, rank, x)
      {
        ShortcutKeepsEnds(m1, rank, k, x);
      }
    } else {
      r, e := m, next;
    }
  }

  /** Forwards every key, visiting them in the map's (unspecified) iteration
      order: afterwards every removed method maps straight to the end of its
      chain, so no replacement is itself removed, and the keys are unchanged. */
  method ForwardChains(m: Forwarding, ghost rank: map<MethodRef, nat>) returns (r: Forwarding)
    requires Ranked(m, rank)
    ensures r.Keys == m.Keys
    ensures forall k :: k in r ==> r[k] == End(m, rank, k)
    ensures forall k :: k in r ==> r[k] !in r
  {
    r := m;
    var todo := m.Keys;
    while todo != {}
      invariant todo <= m.Keys && r.Keys == m.Keys && Ranked(r, rank)
      invariant forall x :: End(r, rank, x) == End(m, rank, x)
      invariant forall k :: k in m.Keys - todo ==> r[k] !in r
      decreases todo
    {
      var k :| k in todo;
      ghost var before := r;
      var end;
      r, end := Forward(r, rank, k);
      assert forall j :: j in m.Keys - todo ==> r[j] == before[j];
      todo := todo - {k};
    }
    forall k | k in r
      ensures r[k] == End(m, rank, k)
    {
      assert End(r, rank, k) == End(r, rank, r[k]);
    }
  }

  /** An instruction, reduced to whether it is an invoke-virtual and the
      method it references, if any. */
  datatype Insn = Insn(invokeVirtual: bool, target: Option<MethodRef>)

  /** The retargeting of one instruction: only an invoke-virtual whose target
      was removed changes, to the target's replacement. */
  function Retarget(r: Forwarding, insn: Insn): (out: Insn)
    ensures out.invokeVirtual == insn.invokeVirtual
    ensures out.target.Some? == insn.target.Some?
    ensures out != insn ==> insn.invokeVirtual && insn.target.Some? && insn.target.value in r
  {
    if insn.invokeVirtual && insn.target.Some? && insn.target.value in r then
      insn.(target := Some(r[insn.target.value]))
    else insn
  }

  /** The rewritten code, or the first instruction that still references a
      removed method (the source asserts there is none). */
  function FixupCode(r: Forwarding, code: seq<Insn>): (res: Result<seq<Insn>, Insn>)
    ensures res.Success? ==> |res.value| == |code|
    ensures res.Success? ==> forall i :: 0 <= i < |code| ==> res.value[i] == Retarget(r, code[i])
  {
    if code == [] then Success([])
    else
      var out := Retarget(r, code[0]);
      if out.target.Some? && out.target.value in r then Failure(out)
      else match FixupCode(r, code[1..])
        case Success(rest) => Success([out] + rest)
        case Failure(bad) => Failure(bad)
  }

  /** After forwarding, the rewrite fails exactly when some instruction that
      is not an invoke-virtual references a removed method; when it
      succeeds, no instruction references a removed method and every
      retargeted invoke-virtual points to the end of its chain. */
  lemma {:induction false} FixupCodeMeaning(m: Forwarding, rank: map<MethodRef, nat>, r: Forwarding, code: seq<Insn>)
    requires Ranked(m, rank) && r.Keys == m.Keys
    requires forall k :: k in r ==> r[k] == End(m, rank, k)
    ensures FixupCode(r, code).Success? <==>
      forall i :: 0 <= i < |code| && code[i].target.Some? && code[i].target.value in r ==> code[i].invokeVirtual
    ensures FixupCode(r, code).Success? ==> forall i :: 0 <= i < |code| ==>
      var out := FixupCode(r, code).value[i];
      && (out.target.Some? ==> out.target.value !in r)
      && (code[i].invokeVirtual && code[i].target.Some? ==> out.target == Some(End(m, rank, code[i].target.value)))
  {
    if code != [] {
      FixupCodeMeaning(m, rank, r, code[1..]);
      assert forall i :: 1 <= i < |code| ==> code[i] == code[1..][i - 1];
    }
  }
}

=== FILE: method_splitter.dfy ===
/** The splitting phase of the method splitter: the per-dex reference
    budget, the naming of split methods, their ranking, and the walk over one
    dex that splits closures until a reference limit is reached. The code
    transformation itself is not modelled; a split yields its name. */
module MethodSplitter {
  import opened Wrappers
  import opened SplittingConfig
  import ConfigFiles
  import SplittableClosures
  import MethodClosures

  type TypeId = nat
  type MethodRefId = nat

  // ---------------------------------------------------------------------
  // The reference budget of a dex

  /** The type references of a dex, its method-reference count (reserved
      references included) and the bound the type-reference count must stay
      below. */
  datatype DexState = DexState(typeRefs: set<TypeId>, methodRefs: nat, maxTypeRefs: nat)

  /** `a - b` on 64-bit unsigned sizes, wrapping around below zero. */
  function SizeSub(a: nat, b: nat): (r: nat)
    requires a < SizeMax && b < SizeMax
    ensures r < SizeMax
    ensures b <= a ==> r + b == a
    ensures a < b ==> r + b == a + SizeMax
  {
    (a - b) % SizeMax
  }

  /** The state of a dex before splitting: the types it references plus the
      refined init classes that exist, its distinct method references plus
      the reserved ones, and the platform type-reference limit
      `typeLimit` less the reserved type references. */
  function NewDexState(types: set<TypeId>, refinedInitClasses: seq<Option<TypeId>>, methodRefs: set<MethodRefId>,
                       reservedTrefs: nat, reservedMrefs: nat, typeLimit: nat): (st: DexState)
    requires typeLimit < SizeMax && reservedTrefs < SizeMax
    ensures types <= st.typeRefs
    ensures forall t :: t in st.typeRefs <==> t in types || Some(t) in refinedInitClasses
    ensures st.methodRefs == |methodRefs| + reservedMrefs
    ensures reservedTrefs <= typeLimit ==> st.maxTypeRefs + reservedTrefs == typeLimit
  {
    var refined := set k | 0 <= k < |refinedInitClasses| && refinedInitClasses[k].Some? :: refinedInitClasses[k].value;
    DexState(types + refined, |methodRefs| + reservedMrefs, SizeSub(typeLimit, reservedTrefs))
  }

  lemma UnionCard(a: set<TypeId>, b: set<TypeId>)
    ensures |a + b| == |a| + |b - a|
  {
    assert a + b == a + (b - a);
  }

  /** Whether `types` fit: the reference count, with the types not yet
      referenced added, must stay strictly below the maximum. */
  function CanInsertTypeRefs(st: DexState, types: set<TypeId>): (ok: bool)
    ensures ok <==> |st.typeRefs + types| < st.maxTypeRefs
  {
    UnionCard(st.typeRefs, types);
    |st.typeRefs| + |types - st.typeRefs| < st.maxTypeRefs
  }

  function InsertTypeRefs(st: DexState, types: set<TypeId>): (r: DexState)
    requires CanInsertTypeRefs(st, types)
    ensures r.typeRefs == st.typeRefs + types
    ensures |r.typeRefs| < r.maxTypeRefs
    ensures r.methodRefs == st.methodRefs && r.maxTypeRefs == st.maxTypeRefs
  {
    st.(typeRefs := st.typeRefs + types)
  }

  /** Whether one more method reference fits below `maxMethodRefs`. */
  predicate CanInsertMethodRef(st: DexState, maxMethodRefs: nat) {
    st.methodRefs < maxMethodRefs
  }

  function InsertMethodRef(st: DexState, maxMethodRefs: nat): (r: DexState)
    requires CanInsertMethodRef(st, maxMethodRefs)
    ensures r.methodRefs == st.methodRefs + 1 <= maxMethodRefs
    ensures r.typeRefs == st.typeRefs && r.maxTypeRefs == st.maxTypeRefs
  {
    st.(methodRefs := st.methodRefs + 1)
  }

  // ---------------------------------------------------------------------
  // Split methods and their names

  /** What splitting needs of a selected closure: the class and name of its
      method, whether that is a constructor, the types of its arguments
      (None for an argument that is a constant), how hot it is, and how many
      closures it spans. */
  datatype Splittable = Splittable(
    owner: string,
    name: string,
    kind: MethodClosures.MethodKind,
    args: seq<Option<TypeId>>,
    hot: SplittableClosures.HotSplitKind,
    closures: nat)

  function ArgTypes(args: seq<Option<TypeId>>): (ts: set<TypeId>)
    ensures forall t :: t in ts <==> Some(t) in args
  {
    set k | 0 <= k < |args| && args[k].Some? :: args[k].value
  }

  /** Constructors are named after their kind, other methods after themselves. */
  function BaseName(kind: MethodClosures.MethodKind, name: string): string {
    match kind
    case Init => "$init$"
    case Clinit => "$clinit$"
    case Ordinary => name
  }

  /** `describe` names a hotness kind; its texts live outside this model. */
  function SplitName(s: Splittable, describe: SplittableClosures.HotSplitKind -> string, infix: string, index: nat): (n: string)
    ensures |n| > |BaseName(s.kind, s.name)| + 7
    ensures n[..|BaseName(s.kind, s.name)| + 7] == BaseName(s.kind, s.name) + "$split$"
  {
    BaseName(s.kind, s.name) + "$split$" + describe(s.hot) + infix + ConfigFiles.ShowNat(index)
  }

  /** Different indices give different names. */
  lemma SplitNamesDiffer(s: Splittable, describe: SplittableClosures.HotSplitKind -> string, infix: string, i: nat, j: nat)
    requires i != j
    ensures SplitName(s, describe, infix, i) != SplitName(s, describe, infix, j)
  {
    var p := BaseName(s.kind, s.name) + "$split$" + describe(s.hot) + infix;
    var a, b := ConfigFiles.ShowNat(i), ConfigFiles.ShowNat(j);
    assert SplitName(s, describe, infix, i) == p + a;
    assert SplitName(s, describe, infix, j) == p + b;
    if p + a == p + b {
      assert a == (p + a)[|p|..];
      assert b == (p + b)[|p|..];
      ConfigFiles.ShowNatValue(i);
      ConfigFiles.ShowNatValue(j);
      assert false;
    }
  }

  /** Splits a closure off, or gives None when a method reference or its
      argument types no longer fit; the dex state is then left as it was. */
  function SplitMethod(s: Splittable, describe: SplittableClosures.HotSplitKind -> string, infix: string, index: nat,
                       st: DexState, maxMethodRefs: nat): (r: Option<(string, DexState)>)
    ensures r.None? <==> st.methodRefs >= maxMethodRefs || |st.typeRefs + ArgTypes(s.args)| >= st.maxTypeRefs
    ensures r.Some? ==> r.value.0 == SplitName(s, describe, infix, index)
    ensures r.Some? ==> r.value.1 == DexState(st.typeRefs + ArgTypes(s.args), st.methodRefs + 1, st.maxTypeRefs)
    ensures r.Some? ==> r.value.1.methodRefs <= maxMethodRefs && |r.value.1.typeRefs| < r.value.1.maxTypeRefs
  {
    if !CanInsertMethodRef(st, maxMethodRefs) then None
    else
      var types := ArgTypes(s.args);
      if !CanInsertTypeRefs(st, types) then None
      else Some((SplitName(s, describe, infix, index), InsertTypeRefs(InsertMethodRef(st, maxMethodRefs), types)))
  }

  // ---------------------------------------------------------------------
  // Uniquifiers

  /** The next index per "class.method" key. */
  type Uniquifiers = map<string, nat>

  function Next(u: Uniquifiers, key: string): nat {
    if key in u then u[key] else 0
  }

  /** Hands out the key's next index and advances it. */
  function Bump(u: Uniquifiers, key: string): (r: (nat, Uniquifiers))
    ensures r.0 == Next(u, key)
    ensures Next(r.1, key) == r.0 + 1
    ensures forall k :: k != key ==> Next(r.1, k) == Next(u, k)
  {
    var index := Next(u, key);
    (index, u[key := index + 1])
  }

  /** The indices `k` successive requests for `key` receive. */
  function Handed(u: Uniquifiers, key: string, k: nat): seq<nat>
    decreases k
  {
    if k == 0 then [] else
      var (index, u') := Bump(u, key);
      [index] + Handed(u', key, k - 1)
  }

  /** A key receives consecutive indices, from 0 for a key not seen before. */
  lemma {:induction false} HandedConsecutive(u: Uniquifiers, key: string, k: nat)
    ensures |Handed(u, key, k)| == k
    ensures forall i :: 0 <= i < k ==> Handed(u, key, k)[i] == Next(u, key) + i
    decreases k
  {
    if k > 0 {
      var (index, u') := Bump(u, key);
      HandedConsecutive(u', key, k - 1);
    }
  }

  function MethodKey(s: Splittable): string {
    s.owner + "." + s.name
  }

  // ---------------------------------------------------------------------
  // Ranking

  /** A split candidate's ranking key: its rank (higher first), the position
      of its method in the order of methods, whether it is a switch, and its
      id. */
  datatype RankKey = RankKey(rank: real, order: nat, isSwitch: bool, id: nat)

  /** Higher rank first, then method order, then simple closures before
      switches, then higher id first. */
  predicate RankedBefore(c: RankKey, d: RankKey) {
    if c.rank != d.rank then c.rank > d.rank
    else if c.order != d.order then c.order < d.order
    else if c.isSwitch != d.isSwitch then !c.isSwitch
    else c.id > d.id
  }

  /** The ranking is a strict total order on keys. */
  lemma RankedBeforeOrder(c: RankKey, d: RankKey, e: RankKey)
    ensures !RankedBefore(c, c)
    ensures RankedBefore(c, d) ==> !RankedBefore(d, c)
    ensures RankedBefore(c, d) && RankedBefore(d, e) ==> RankedBefore(c, e)
    ensures c != d ==> RankedBefore(c, d) || RankedBefore(d, c)
  {
  }

  datatype Candidate = Candidate(key: RankKey, split: Splittable)

  predicate Ranked(cs: seq<Candidate>) {
    forall i, j :: 0 <= i < j < |cs| ==> !RankedBefore(cs[j].key, cs[i].key)
  }

  function Insert(c: Candidate, cs: seq<Candidate>): (r: seq<Candidate>)
    requires Ranked(cs)
    ensures Ranked(r)
    ensures |r| == |cs| + 1
    ensures multiset(r) == multiset(cs) + multiset{c}
  {
    if cs == [] || !RankedBefore(cs[0].key, c.key) then
      RankedBeforeAll(c, cs);
      [c] + cs
    else
      var rest := Insert(c, cs[1..]);
      assert cs == [cs[0]] + cs[1..];
      InsertKeepsHead(cs[0], c, cs[1..], rest);
      [cs[0]] + rest
  }

  lemma RankedBeforeAll(c: Candidate, cs: seq<Candidate>)
    requires Ranked(cs)
    requires cs == [] || !RankedBefore(cs[0].key, c.key)
    ensures Ranked([c] + cs)
  {
    forall j | 0 < j < |[c] + cs|
      ensures !RankedBefore(([c] + cs)[j].key, c.key)
    {
      RankedBeforeOrder(cs[j - 1].key, cs[0].key, c.key);
    }
  }

  lemma InsertKeepsHead(h: Candidate, c: Candidate, tail: seq<Candidate>, rest: seq<Candidate>)
    requires Ranked([h] + tail) && Ranked(rest)
    requires RankedBefore(h.key, c.key)
    requires multiset(rest) == multiset(tail) + multiset{c}
    ensures Ranked([h] + rest)
  {
    forall j | 0 <= j < |rest|
      ensures !RankedBefore(rest[j].key, h.key)
    {
      assert rest[j] in multiset(rest);
      if rest[j] == c {
        RankedBeforeOrder(h.key, c.key, h.key);
      } else {
        assert rest[j] in multiset(tail);
        assert rest[j] in tail;
        var k :| 0 <= k < |tail| && tail[k] == rest[j];
        assert ([h] + tail)[k + 1] == rest[j] && ([h] + tail)[0] == h;
      }
    }
  }

  /** The candidates of a dex in ranked order. */
  function RankAll(cs: seq<Candidate>): (r: seq<Candidate>)
    ensures Ranked(r)
    ensures |r| == |cs|
    ensures multiset(r) == multiset(cs)
  {
    if cs == [] then [] else
      assert cs == [cs[0]] + cs[1..];
      Insert(cs[0], RankAll(cs[1..]))
  }

  // ---------------------------------------------------------------------
  // Splitting the closures of one dex

  datatype Stats = Stats(
    dexLimitsHit: nat,
    splitCountSimple: nat,
    splitCountSwitches: nat,
    splitCountSwitchCases: nat,
    hotSplitCount: nat,
    hotColdSplitCount: nat,
    coldSplitCount: nat)

  /** The split counts added for `s`. */
  function Counted(stats: Stats, s: Splittable): (r: Stats)
    ensures r.dexLimitsHit == stats.dexLimitsHit
    ensures r.splitCountSimple + r.splitCountSwitches == stats.splitCountSimple + stats.splitCountSwitches + 1
    ensures r.hotSplitCount + r.hotColdSplitCount + r.coldSplitCount == stats.hotSplitCount + stats.hotColdSplitCount + stats.coldSplitCount + 1
  {
    var stats := if s.closures == 1 then stats.(splitCountSimple := stats.splitCountSimple + 1)
      else stats.(splitCountSwitches := stats.splitCountSwitches + 1, splitCountSwitchCases := stats.splitCountSwitchCases + s.closures);
    match s.hot
    case Hot => stats.(hotSplitCount := stats.hotSplitCount + 1)
    case HotCold => stats.(hotColdSplitCount := stats.hotColdSplitCount + 1)
    case Cold => stats.(coldSplitCount := stats.coldSplitCount + 1)
  }

  function Splits(st: Stats): nat {
    st.splitCountSimple + st.splitCountSwitches
  }

  function KeysOf(cs: seq<Candidate>): set<string> {
    set c | c in cs :: MethodKey(c.split)
  }

  function TypesOf(cs: seq<Candidate>): set<TypeId> {
    if cs == [] then {} else TypesOf(cs[..|cs| - 1]) + ArgTypes(cs[|cs| - 1].split.args)
  }

  /** `u'` only advances keys, and only keys of `keys`. */
  ghost predicate Advanced(u: Uniquifiers, u': Uniquifiers, keys: set<string>) {
    forall k :: Next(u', k) >= Next(u, k) && (k !in keys ==> Next(u', k) == Next(u, k))
  }

  /** How many candidates of `cs` belong to the method `key`. */
  function KeyCount(cs: seq<Candidate>, key: string): nat {
    if cs == [] then 0
    else KeyCount(cs[..|cs| - 1], key) + (if MethodKey(cs[|cs| - 1].split) == key then 1 else 0)
  }

  /** The index the uniquifiers `u` hand to candidate `k` of `ranked` when
      every earlier candidate took one: its method's next index plus the
      earlier candidates of the same method. */
  function IndexOf(u: Uniquifiers, ranked: seq<Candidate>, k: nat): nat
    requires k < |ranked|
  {
    var key := MethodKey(ranked[k].split);
    Next(u, key) + KeyCount(ranked[..k], key)
  }

  /** One split attempt: the method's next index is taken whether or not the
      split fits; a split that does not fit counts as a limit hit. */
  method SplitOne(s: Splittable, describe: SplittableClosures.HotSplitKind -> string, infix: string,
                  maxMethodRefs: nat, st: DexState, u: Uniquifiers, stats: Stats)
    returns (name: Option<string>, st': DexState, u': Uniquifiers, stats': Stats)
    ensures Next(u', MethodKey(s)) == Next(u, MethodKey(s)) + 1
    ensures forall k :: k != MethodKey(s) ==> Next(u', k) == Next(u, k)
    ensures name.None? <==> st.methodRefs >= maxMethodRefs || |st.typeRefs + ArgTypes(s.args)| >= st.maxTypeRefs
    ensures name.None? ==> st' == st && stats' == stats.(dexLimitsHit := stats.dexLimitsHit + 1)
    ensures name.Some? ==> name.value == SplitName(s, describe, infix, Next(u, MethodKey(s)))
    ensures name.Some? ==> st' == DexState(st.typeRefs + ArgTypes(s.args), st.methodRefs + 1, st.maxTypeRefs)
    ensures name.Some? ==> stats'.dexLimitsHit == stats.dexLimitsHit && Splits(stats') == Splits(stats) + 1
  {
    var (index, next) := Bump(u, MethodKey(s));
    u' := next;
    var r := SplitMethod(s, describe, infix, index, st, maxMethodRefs);
    if r.None? {
      return None, st, u', stats.(dexLimitsHit := stats.dexLimitsHit + 1);
    }
    name, st', stats' := Some(r.value.0), r.value.1, Counted(stats, s);
  }

  /** Splits `ranked` in order, each under an index from its method's
      uniquifier, until the first split that does not fit; that one stops the
      walk and counts as a limit hit. */
  method SplitRanked(ranked: seq<Candidate>, describe: SplittableClosures.HotSplitKind -> string, infix: string,
                     maxMethodRefs: nat, st: DexState, u: Uniquifiers, stats: Stats)
    returns (names: seq<string>, st': DexState, u': Uniquifiers, stats': Stats)
    ensures |names| <= |ranked|
    ensures st'.methodRefs == st.methodRefs + |names|
    ensures st'.typeRefs == st.typeRefs + TypesOf(ranked[..|names|])
    ensures st'.maxTypeRefs == st.maxTypeRefs
    ensures |names| < |ranked| ==>
      st'.methodRefs >= maxMethodRefs || |st'.typeRefs + ArgTypes(ranked[|names|].split.args)| >= st'.maxTypeRefs
    ensures stats'.dexLimitsHit == stats.dexLimitsHit + (if |names| < |ranked| then 1 else 0)
    ensures Splits(stats') == Splits(stats) + |names|
    ensures forall k :: 0 <= k < |names| ==> names[k] == SplitName(ranked[k].split, describe, infix, IndexOf(u, ranked, k))
    ensures forall key :: Next(u', key) == Next(u, key) + KeyCount(ranked[..Tried(|names|, |ranked|)], key)
    ensures Advanced(u, u', KeysOf(ranked))
  {
    names, st', u', stats' := SplitLoop(ranked, describe, infix, maxMethodRefs, st, u, stats);
  }

  /** The loop of `SplitRanked`. */
  method SplitLoop(ranked: seq<Candidate>, describe: SplittableClosures.HotSplitKind -> string, infix: string,
                   maxMethodRefs: nat, st: DexState, u: Uniquifiers, stats: Stats)
    returns (names: seq<string>, st': DexState, u': Uniquifiers, stats': Stats)
    ensures |names| <= |ranked|
    ensures st'.methodRefs == st.methodRefs + |names|
    ensures st'.typeRefs == st.typeRefs + TypesOf(ranked[..|names|])
    ensures st'.maxTypeRefs == st.maxTypeRefs
    ensures |names| < |ranked| ==>
      st'.methodRefs >= maxMethodRefs || |st'.typeRefs + ArgTypes(ranked[|names|].split.args)| >= st'.maxTypeRefs
    ensures stats'.dexLimitsHit == stats.dexLimitsHit + (if |names| < |ranked| then 1 else 0)
    ensures Splits(stats') == Splits(stats) + |names|
    ensures Named(names, ranked, describe, infix, u)
    ensures Took(u, u', ranked, Tried(|names|, |ranked|))
    ensures Advanced(u, u', KeysOf(ranked))
  {
    names, st', u', stats' := [], st, u, stats;
    while |names| < |ranked|
      invariant Progress(ranked, describe, infix, st, u, stats, names, st', u', stats')
      decreases |ranked| - |names|
    {
      var stop;
      stop, names, st', u', stats' := SplitAt(ranked, describe, infix, maxMethodRefs, st, u, stats, names, st', u', stats');
      if stop {
        TookAdvanced(u, u', ranked, |names| + 1);
        return;
      }
    }
    TookAdvanced(u, u', ranked, |names|);
  }

  /** The first `|names|` candidates of `ranked` are split. */
  ghost predicate Progress(ranked: seq<Candidate>, describe: SplittableClosures.HotSplitKind -> string, infix: string,
                           st: DexState, u: Uniquifiers, stats: Stats,
                           names: seq<string>, st': DexState, u': Uniquifiers, stats': Stats) {
    |names| <= |ranked| &&
    st'.methodRefs == st.methodRefs + |names| &&
    st'.typeRefs == st.typeRefs + TypesOf(ranked[..|names|]) &&
    st'.maxTypeRefs == st.maxTypeRefs &&
    stats'.dexLimitsHit == stats.dexLimitsHit &&
    Splits(stats') == Splits(stats) + |names| &&
    Named(names, ranked, describe, infix, u) &&
    Took(u, u', ranked, |names|)
  }

  /** One turn of the loop: splits the next candidate, or stops when it does
      not fit. */
  method SplitAt(ranked: seq<Candidate>, describe: SplittableClosures.HotSplitKind -> string, infix: string,
                 maxMethodRefs: nat, st: DexState, u: Uniquifiers, stats: Stats,
                 names: seq<string>, st0: DexState, u0: Uniquifiers, stats0: Stats)
    returns (stop: bool, names1: seq<string>, st1: DexState, u1: Uniquifiers, stats1: Stats)
    requires Progress(ranked, describe, infix, st, u, stats, names, st0, u0, stats0) && |names| < |ranked|
    ensures !stop ==> |names1| == |names| + 1 && Progress(ranked, describe, infix, st, u, stats, names1, st1, u1, stats1)
    ensures stop ==> names1 == names && st1 == st0 && Named(names, ranked, describe, infix, u)
    ensures stop ==> st0.methodRefs >= maxMethodRefs || |st0.typeRefs + ArgTypes(ranked[|names|].split.args)| >= st0.maxTypeRefs
    ensures stop ==> stats1.dexLimitsHit == stats0.dexLimitsHit + 1 && Splits(stats1) == Splits(stats0)
    ensures stop ==> Took(u, u1, ranked, |names| + 1)
  {
    var i := |names|;
    var s := ranked[i].split;
    var name;
    name, st1, u1, stats1 := SplitOne(s, describe, infix, maxMethodRefs, st0, u0, stats0);
    TookStep(u, u0, u1, ranked, i);
    if name.None? {
      return true, names, st1, u1, stats1;
    }
    ProgressStep(ranked, describe, infix, st, u, stats, names, st0, u0, stats0, name.value, st1, u1, stats1);
    stop, names1 := false, names + [name.value];
  }

  lemma ProgressStep(ranked: seq<Candidate>, describe: SplittableClosures.HotSplitKind -> string, infix: string,
                     st: DexState, u: Uniquifiers, stats: Stats,
                     names: seq<string>, st0: DexState, u0: Uniquifiers, stats0: Stats,
                     name: string, st1: DexState, u1: Uniquifiers, stats1: Stats)
    requires Progress(ranked, describe, infix, st, u, stats, names, st0, u0, stats0) && |names| < |ranked|
    requires name == SplitName(ranked[|names|].split, describe, infix, Next(u0, MethodKey(ranked[|names|].split)))
    requires st1 == DexState(st0.typeRefs + ArgTypes(ranked[|names|].split.args), st0.methodRefs + 1, st0.maxTypeRefs)
    requires stats1.dexLimitsHit == stats0.dexLimitsHit && Splits(stats1) == Splits(stats0) + 1
    requires Took(u, u1, ranked, |names| + 1)
    ensures Progress(ranked, describe, infix, st, u, stats, names + [name], st1, u1, stats1)
  {
    var i := |names|;
    NamedStep(names, ranked, describe, infix, u, u0, name);
    assert ranked[..i + 1][..i] == ranked[..i];
    assert TypesOf(ranked[..i + 1]) == TypesOf(ranked[..i]) + ArgTypes(ranked[i].split.args);
  }

  /** A method with no candidate among the first `i` keeps its next index. */
  lemma {:induction false} KeyCountOutside(cs: seq<Candidate>, key: string)
    requires key !in KeysOf(cs)
    ensures KeyCount(cs, key) == 0
    decreases |cs|
  {
    if cs != [] {
      assert KeysOf(cs[..|cs| - 1]) <= KeysOf(cs) by {
        forall c | c in cs[..|cs| - 1] ensures c in cs {
        }
      }
      KeyCountOutside(cs[..|cs| - 1], key);
      assert cs[|cs| - 1] in cs;
    }
  }

  lemma TookAdvanced(u: Uniquifiers, u': Uniquifiers, ranked: seq<Candidate>, i: nat)
    requires Took(u, u', ranked, i)
    ensures Advanced(u, u', KeysOf(ranked))
  {
    forall key | key !in KeysOf(ranked) ensures Next(u', key) == Next(u, key) {
      assert KeysOf(ranked[..i]) <= KeysOf(ranked) by {
        forall c | c in ranked[..i] ensures c in ranked {
        }
      }
      KeyCountOutside(ranked[..i], key);
    }
  }

  /** The names are those of the first candidates, each under its index. */
  ghost predicate Named(names: seq<string>, ranked: seq<Candidate>, describe: SplittableClosures.HotSplitKind -> string,
                        infix: string, u: Uniquifiers) {
    |names| <= |ranked| &&
    forall k :: 0 <= k < |names| ==> names[k] == SplitName(ranked[k].split, describe, infix, IndexOf(u, ranked, k))
  }

  /** The first `i` candidates have each taken an index. */
  ghost predicate Took(u: Uniquifiers, u': Uniquifiers, ranked: seq<Candidate>, i: nat) {
    i <= |ranked| && forall key :: Next(u', key) == Next(u, key) + KeyCount(ranked[..i], key)
  }

  lemma TookStep(u: Uniquifiers, u': Uniquifiers, u1: Uniquifiers, ranked: seq<Candidate>, i: nat)
    requires Took(u, u', ranked, i) && i < |ranked|
    requires Next(u1, MethodKey(ranked[i].split)) == Next(u', MethodKey(ranked[i].split)) + 1
    requires forall k :: k != MethodKey(ranked[i].split) ==> Next(u1, k) == Next(u', k)
    ensures Took(u, u1, ranked, i + 1)
  {
    KeyCountStep(ranked, i);
  }

  lemma NamedStep(names: seq<string>, ranked: seq<Candidate>, describe: SplittableClosures.HotSplitKind -> string,
                  infix: string, u: Uniquifiers, u': Uniquifiers, name: string)
    requires Named(names, ranked, describe, infix, u) && Took(u, u', ranked, |names|) && |names| < |ranked|
    requires name == SplitName(ranked[|names|].split, describe, infix, Next(u', MethodKey(ranked[|names|].split)))
    ensures Named(names + [name], ranked, describe, infix, u)
  {
    var i := |names|;
    var key := MethodKey(ranked[i].split);
    assert Next(u', key) == Next(u, key) + KeyCount(ranked[..i], key);
    forall k | 0 <= k < i + 1
      ensures (names + [name])[k] == SplitName(ranked[k].split, describe, infix, IndexOf(u, ranked, k))
    {
      if k < i {
        assert (names + [name])[k] == names[k];
      }
    }
  }

  /** The candidates that took an index: those split, plus the one that did
      not fit, if any. */
  function Tried(split: nat, total: nat): nat {
    if split < total then split + 1 else total
  }

  lemma KeyCountStep(ranked: seq<Candidate>, i: nat)
    requires i < |ranked|
    ensures forall key :: KeyCount(ranked[..i + 1], key) == KeyCount(ranked[..i], key) + (if MethodKey(ranked[i].split) == key then 1 else 0)
  {
    assert ranked[..i + 1][..i] == ranked[..i];
  }

  lemma RankAllKeys(cs: seq<Candidate>)
    ensures KeysOf(RankAll(cs)) == KeysOf(cs)
  {
    var r := RankAll(cs);
    forall c
      ensures c in r <==> c in cs
    {
      assert c in r <==> c in multiset(r);
    }
  }

  /** Splits the closures of one dex in ranked order. */
  method ProcessDex(cs: seq<Candidate>, describe: SplittableClosures.HotSplitKind -> string, infix: string,
                    maxMethodRefs: nat, st: DexState, u: Uniquifiers, stats: Stats)
    returns (names: seq<string>, st': DexState, u': Uniquifiers, stats': Stats)
    ensures Ranked(RankAll(cs))
    ensures |names| <= |cs|
    ensures st'.methodRefs == st.methodRefs + |names|
    ensures st'.typeRefs == st.typeRefs + TypesOf(RankAll(cs)[..|names|])
    ensures st'.maxTypeRefs == st.maxTypeRefs
    ensures |names| < |cs| ==>
      st'.methodRefs >= maxMethodRefs || |st'.typeRefs + ArgTypes(RankAll(cs)[|names|].split.args)| >= st'.maxTypeRefs
    ensures stats'.dexLimitsHit == stats.dexLimitsHit + (if |names| < |cs| then 1 else 0)
    ensures Splits(stats') == Splits(stats) + |names|
    ensures forall k :: 0 <= k < |names| ==>
      names[k] == SplitName(RankAll(cs)[k].split, describe, infix, IndexOf(u, RankAll(cs), k))
    ensures forall key :: Next(u', key) == Next(u, key) + KeyCount(RankAll(cs)[..Tried(|names|, |cs|)], key)
    ensures Advanced(u, u', KeysOf(cs))
  {
    RankAllKeys(cs);
    names, st', u', stats' := SplitRanked(RankAll(cs), describe, infix, maxMethodRefs, st, u, stats);
  }
}

=== FILE: reach_closure.dfy ===
/** The transitive-closure marker: the push operations, the instantiability
    closure and the per-object visitors, as functions on an immutable marking
    state. The options are the defaults (no relaxed class-member keeping, no
    CFG gathering checks), under which gatherers have no pending dependencies
    and "dynamically referenced" is never triggered. The source pushes a new
    field's references before enqueueing the field; here the field is enqueued
    first, since the work queue is processed in no particular order. */
module ReachClosure {
  import opened Wrappers
  import opened Sets
  import opened ReachProgram
  import opened ReachObjects
  import opened ReachResolve
  import opened ReachSeed

  function FieldObject(f: FieldId): ReachableObject {
    ReachableObject(FieldObj, f)
  }

  function MethodObject(m: MethodId): ReachableObject {
    ReachableObject(MethodObj, m)
  }

  /** The marking state shared by the workers: marked objects, conditionally
      marked members, instantiable classes, the pending work queue and the
      `num_ignore_check_strings` statistic. */
  datatype MarkState = MarkState(
    objs: ReachableObjects,
    cond: ConditionallyMarked,
    instantiable: set<ClassId>,
    queue: seq<ReachableObject>,
    ignoredStrings: nat)

  /** `x` is a class, field or method of the program (not a null reference). */
  predicate Known(p: Program, x: ReachableObject) {
    match x.kind
    case ClassObj => x.ptr in p.classes
    case FieldObj => x.ptr in p.fields
    case MethodObj => x.ptr in p.methods
    case _ => false
  }

  ghost function Universe(p: Program): set<ReachableObject> {
    (set c | c in p.classes :: ClassObject(c)) +
    (set f | f in p.fields :: FieldObject(f)) +
    (set m | m in p.methods :: MethodObject(m))
  }

  lemma KnownInUniverse(p: Program, x: ReachableObject)
    requires Known(p, x)
    ensures x in Universe(p)
  {
    match x.kind
    case ClassObj => assert x == ClassObject(x.ptr);
    case FieldObj => assert x == FieldObject(x.ptr);
    case MethodObj => assert x == MethodObject(x.ptr);
  }

  /** The queue holds exactly the marked objects not yet visited (`done`),
      each once, and only known objects are ever marked. */
  ghost predicate QueueInv(p: Program, w: MarkState, done: set<ReachableObject>) {
    (forall x :: w.objs.Marked(x) ==> Known(p, x)) &&
    (forall x :: x in done ==> w.objs.Marked(x)) &&
    (forall x :: x in w.queue <==> w.objs.Marked(x) && x !in done) &&
    Distinct(w.queue)
  }

  /** `r` extends `w`: nothing is unmarked, no class stops being instantiable,
      and the conditional slots only grow (the "retained" slot is fixed once
      seeding is over). */
  ghost predicate Le(w: MarkState, r: MarkState) {
    w.objs.Below(r.objs) &&
    w.instantiable <= r.instantiable &&
    r.cond.ifClassRetained == w.cond.ifClassRetained &&
    r.cond.ifClassDynamicallyReferenced == w.cond.ifClassDynamicallyReferenced &&
    r.cond.ifInstanceMethodCallable == w.cond.ifInstanceMethodCallable &&
    w.cond.ifClassInstantiable.fields <= r.cond.ifClassInstantiable.fields &&
    w.cond.ifClassInstantiable.methods <= r.cond.ifClassInstantiable.methods &&
    w.cond.ifClassInstantiable.directlyInstantiableTypes == r.cond.ifClassInstantiable.directlyInstantiableTypes &&
    w.ignoredStrings <= r.ignoredStrings
  }

  /** A step extends the state and enqueues exactly what it newly marks. */
  ghost predicate Step(p: Program, w: MarkState, r: MarkState) {
    Le(w, r) && forall done :: QueueInv(p, w, done) ==> QueueInv(p, r, done)
  }

  /** A step of the push layer: only marks and enqueues. */
  ghost predicate PushStep(p: Program, w: MarkState, r: MarkState) {
    Step(p, w, r) && r.instantiable == w.instantiable && r.cond == w.cond &&
    r.ignoredStrings == w.ignoredStrings
  }

  /** The number of known objects not yet marked. */
  function Unmarked(p: Program, w: MarkState): nat {
    |p.classes.Keys - w.objs.classes| + |p.fields.Keys - w.objs.fields| +
    |p.methods.Keys - w.objs.methods|
  }

  /** The number of known classes not yet instantiable. */
  function Uninstantiable(p: Program, w: MarkState): nat {
    |p.classes.Keys - w.instantiable|
  }

  lemma UnmarkedMono(p: Program, w: MarkState, r: MarkState)
    requires w.objs.Below(r.objs)
    ensures Unmarked(p, r) <= Unmarked(p, w)
  {
    DiffMono(p.classes.Keys, w.objs.classes, r.objs.classes);
    DiffMono(p.fields.Keys, w.objs.fields, r.objs.fields);
    DiffMono(p.methods.Keys, w.objs.methods, r.objs.methods);
  }

  lemma UninstantiableMono(p: Program, w: MarkState, r: MarkState)
    requires w.instantiable <= r.instantiable
    ensures Uninstantiable(p, r) <= Uninstantiable(p, w)
  {
    DiffMono(p.classes.Keys, w.instantiable, r.instantiable);
  }

  /** Appending a newly marked known object keeps the queue invariant. */
  lemma EnqueueKeepsQueueInv(p: Program, w: MarkState, r: MarkState, x: ReachableObject, done: set<ReachableObject>)
    requires QueueInv(p, w, done)
    requires Known(p, x) && !w.objs.Marked(x)
    requires forall y :: r.objs.Marked(y) <==> w.objs.Marked(y) || y == x
    requires r.queue == w.queue + [x]
    ensures QueueInv(p, r, done)
  {
    assert forall i :: 0 <= i < |w.queue| ==> r.queue[i] == w.queue[i];
    assert x !in w.queue;
  }

  lemma MarkDropsUnmarked(p: Program, w: MarkState, r: MarkState, x: ReachableObject)
    requires Known(p, x) && !w.objs.Marked(x)
    requires r.objs == w.objs.Mark(x).0
    ensures w.objs.Below(r.objs)
    ensures Unmarked(p, r) < Unmarked(p, w)
  {
    match x.kind
    case ClassObj => DiffDrop(p.classes.Keys, w.objs.classes, x.ptr);
    case FieldObj => DiffDrop(p.fields.Keys, w.objs.fields, x.ptr);
    case MethodObj => DiffDrop(p.methods.Keys, w.objs.methods, x.ptr);
  }

  /** Marks a known object and enqueues it if it is new. */
  function MarkAndEnqueue(p: Program, w: MarkState, x: ReachableObject): (r: MarkState)
    requires Known(p, x)
    ensures PushStep(p, w, r)
    ensures forall y :: r.objs.Marked(y) <==> w.objs.Marked(y) || y == x
    ensures r.queue == if w.objs.Marked(x) then w.queue else w.queue + [x]
    ensures Unmarked(p, r) <= Unmarked(p, w)
    ensures !w.objs.Marked(x) ==> Unmarked(p, r) < Unmarked(p, w)
  {
    var (objs, isNew) := w.objs.Mark(x);
    if !isNew then w
    else
      var r := w.(objs := objs, queue := w.queue + [x]);
      MarkDropsUnmarked(p, w, r, x);
      assert forall done :: QueueInv(p, w, done) ==> QueueInv(p, r, done) by {
        forall done | QueueInv(p, w, done) ensures QueueInv(p, r, done) {
          EnqueueKeepsQueueInv(p, w, r, x, done);
        }
      }
      r
  }

  lemma StepTrans(p: Program, a: MarkState, b: MarkState, c: MarkState)
    requires Step(p, a, b) && Step(p, b, c)
    ensures Step(p, a, c)
  {
  }

  lemma PushStepTrans(p: Program, a: MarkState, b: MarkState, c: MarkState)
    requires PushStep(p, a, b) && PushStep(p, b, c)
    ensures PushStep(p, a, c)
  {
    StepTrans(p, a, b, c);
  }

  lemma MarkedMono(w: ReachableObjects, r: ReachableObjects)
    requires w.Below(r)
    ensures forall x :: w.Marked(x) ==> r.Marked(x)
  {
  }

  lemma RefsMarkedMono(p: Program, w: MarkState, r: MarkState, refs: Refs, checkStrings: bool)
    requires RefsMarked(p, w, refs, checkStrings) && w.objs.Below(r.objs)
    ensures RefsMarked(p, r, refs, checkStrings)
  {
    MarkedMono(w.objs, r.objs);
  }

  /** Every reference of a body that names a known object is marked; strings
      count only when they are scanned. */
  ghost predicate RefsMarked(p: Program, w: MarkState, refs: Refs, checkStrings: bool) {
    (checkStrings ==> forall s :: s in refs.strings && s in p.typeNames && p.typeNames[s] in p.classes ==>
       w.objs.Marked(ClassObject(p.typeNames[s]))) &&
    (forall c :: c in refs.types && c in p.classes ==> w.objs.Marked(ClassObject(c))) &&
    (forall f :: f in refs.fields && f in p.fields ==> w.objs.Marked(FieldObject(f))) &&
    (forall m :: m in refs.methods && m in p.methods ==> w.objs.Marked(MethodObject(m)))
  }

  /** `push(parent, cls)`: a null class is ignored; otherwise the class is
      marked and enqueued only if it was not marked before. */
  function PushClass(p: Program, w: MarkState, c: ClassId): (r: MarkState)
    ensures PushStep(p, w, r)
    ensures Unmarked(p, r) <= Unmarked(p, w)
    ensures c !in p.classes ==> r == w
    ensures c in p.classes ==> r.objs.Marked(ClassObject(c))
    ensures c in p.classes ==> r.queue == if w.objs.Marked(ClassObject(c)) then w.queue else w.queue + [ClassObject(c)]
  {
    if c in p.classes then MarkAndEnqueue(p, w, ClassObject(c)) else w
  }

  function PushClasses(p: Program, w: MarkState, cs: seq<ClassId>): (r: MarkState)
    ensures PushStep(p, w, r)
    ensures Unmarked(p, r) <= Unmarked(p, w)
    ensures forall c :: c in cs && c in p.classes ==> r.objs.Marked(ClassObject(c))
    decreases |cs|
  {
    if |cs| == 0 then w else PushClasses(p, PushClass(p, w, cs[0]), cs[1..])
  }

  /** `push(parent, method)`: as for classes. */
  function PushMethod(p: Program, w: MarkState, m: MethodId): (r: MarkState)
    ensures PushStep(p, w, r)
    ensures Unmarked(p, r) <= Unmarked(p, w)
    ensures m !in p.methods ==> r == w
    ensures m in p.methods ==> r.objs.Marked(MethodObject(m))
    ensures m in p.methods ==> r.queue == if w.objs.Marked(MethodObject(m)) then w.queue else w.queue + [MethodObject(m)]
  {
    if m in p.methods then MarkAndEnqueue(p, w, MethodObject(m)) else w
  }

  function PushMethods(p: Program, w: MarkState, ms: seq<MethodId>): (r: MarkState)
    ensures PushStep(p, w, r)
    ensures Unmarked(p, r) <= Unmarked(p, w)
    ensures forall m :: m in ms && m in p.methods ==> r.objs.Marked(MethodObject(m))
    decreases |ms|
  {
    if |ms| == 0 then w else PushMethods(p, PushMethod(p, w, ms[0]), ms[1..])
  }

  /** `push_typelike_strings`: a string that names no known type is skipped. */
  function PushStrings(p: Program, w: MarkState, ss: seq<string>): (r: MarkState)
    ensures PushStep(p, w, r)
    ensures Unmarked(p, r) <= Unmarked(p, w)
    ensures forall s :: s in ss && s in p.typeNames && p.typeNames[s] in p.classes ==>
      r.objs.Marked(ClassObject(p.typeNames[s]))
    decreases |ss|
  {
    if |ss| == 0 then w
    else
      var w1 := if ss[0] in p.typeNames then PushClass(p, w, p.typeNames[ss[0]]) else w;
      PushStrings(p, w1, ss[1..])
  }

  /** `push(parent, field)`: a new field is marked and enqueued, and a field
      definition also has its own references pushed. */
  function PushField(p: Program, w: MarkState, f: FieldId): (r: MarkState)
    decreases Unmarked(p, w), 0, 0
    ensures PushStep(p, w, r)
    ensures Unmarked(p, r) <= Unmarked(p, w)
    ensures f !in p.fields || w.objs.Marked(FieldObject(f)) ==> r == w
    ensures f in p.fields ==> r.objs.Marked(FieldObject(f))
    ensures f in p.fields && !w.objs.Marked(FieldObject(f)) && p.fields[f].isDef ==>
      RefsMarked(p, r, p.fields[f].refs, true)
  {
    if f !in p.fields || w.objs.Marked(FieldObject(f)) then w
    else
      var w1 := MarkAndEnqueue(p, w, FieldObject(f));
      if p.fields[f].isDef then PushRefs(p, w1, p.fields[f].refs, true) else w1
  }

  function PushFields(p: Program, w: MarkState, fs: seq<FieldId>): (r: MarkState)
    decreases Unmarked(p, w), 1, |fs|
    ensures PushStep(p, w, r)
    ensures Unmarked(p, r) <= Unmarked(p, w)
    ensures forall f :: f in fs && f in p.fields ==> r.objs.Marked(FieldObject(f))
  {
    if |fs| == 0 then w
    else
      var w1 := PushField(p, w, fs[0]);
      PushFields(p, w1, fs[1..])
  }

  /** Pushes the references of a body: type-like strings (when scanned),
      types, fields, then methods. */
  function PushRefs(p: Program, w: MarkState, refs: Refs, checkStrings: bool): (r: MarkState)
    decreases Unmarked(p, w), 2, 0
    ensures PushStep(p, w, r)
    ensures Unmarked(p, r) <= Unmarked(p, w)
    ensures RefsMarked(p, r, refs, checkStrings)
  {
    var w1 := if checkStrings then PushStrings(p, w, refs.strings) else w;
    var w2 := PushClasses(p, w1, refs.types);
    var w3 := PushFields(p, w2, refs.fields);
    var r := PushMethods(p, w3, refs.methods);
    PushStepTrans(p, w, w1, w2);
    PushStepTrans(p, w, w2, w3);
    PushStepTrans(p, w, w3, r);
    MarkedMono(w1.objs, r.objs);
    MarkedMono(w2.objs, r.objs);
    MarkedMono(w3.objs, r.objs);
    r
  }

  /** Only known, non-external classes can become instantiable. */
  predicate CanBeInstantiable(p: Program, c: ClassId) {
    c in p.classes && !p.classes[c].isExternal
  }

  /** The superclass and interfaces of instantiable class `c` are
      instantiable too (when they can be). */
  ghost predicate InstClosedAt(p: Program, w: MarkState, c: ClassId)
    requires c in p.classes
  {
    var k := p.classes[c];
    (k.superClass.Some? && CanBeInstantiable(p, k.superClass.value) ==> k.superClass.value in w.instantiable) &&
    (forall i :: i in k.interfaces && CanBeInstantiable(p, i) ==> i in w.instantiable)
  }

  /** Members of class `c` waiting for it to be instantiable are marked. */
  ghost predicate InstPromotedAt(p: Program, w: MarkState, c: ClassId)
    requires c in p.classes
  {
    var k := p.classes[c];
    (forall f :: f in k.ifields && f in p.fields && f in w.cond.ifClassInstantiable.fields ==> w.objs.Marked(FieldObject(f))) &&
    (forall m :: m in k.Methods() && m in p.methods && m in w.cond.ifClassInstantiable.methods ==> w.objs.Marked(MethodObject(m)))
  }

  /** The instantiable set is upward closed and its classes' conditional
      members have been promoted. */
  ghost predicate InstClosedFor(p: Program, w: MarkState, c: ClassId) {
    CanBeInstantiable(p, c) && InstClosedAt(p, w, c) && InstPromotedAt(p, w, c)
  }

  ghost predicate InstClosed(p: Program, w: MarkState) {
    forall c :: c in w.instantiable ==> InstClosedFor(p, w, c)
  }

  lemma InstClosedForMono(p: Program, w: MarkState, r: MarkState, c: ClassId)
    requires InstClosedFor(p, w, c)
    requires w.objs.Below(r.objs) && w.instantiable <= r.instantiable && r.cond == w.cond
    ensures InstClosedFor(p, r, c)
  {
    MarkedMono(w.objs, r.objs);
  }

  /** The instantiability step of a class: new instantiable classes are
      closed, and the class itself is instantiable if it can be. */
  ghost predicate InstStep(p: Program, w: MarkState, r: MarkState) {
    Step(p, w, r) && r.cond == w.cond && r.ignoredStrings == w.ignoredStrings &&
    (forall d :: d in r.instantiable && d !in w.instantiable ==> InstClosedFor(p, r, d))
  }

  lemma InstStepTrans(p: Program, a: MarkState, b: MarkState, c: MarkState)
    requires InstStep(p, a, b) && InstStep(p, b, c)
    ensures InstStep(p, a, c)
  {
    StepTrans(p, a, b, c);
    forall d | d in c.instantiable && d !in a.instantiable ensures InstClosedFor(p, c, d) {
      if d in b.instantiable {
        InstClosedForMono(p, b, c, d);
      }
    }
  }

  lemma PushIsInstStep(p: Program, w: MarkState, r: MarkState)
    requires PushStep(p, w, r)
    ensures InstStep(p, w, r)
  {
  }

  /** `instantiable(type)`: null and external classes are ignored, and a class
      is inserted once; on insertion its superclass and interfaces become
      instantiable and its conditionally marked instance fields and methods
      are pushed. */
  function Instantiable(p: Program, w: MarkState, c: ClassId): (r: MarkState)
    decreases Uninstantiable(p, w), 1, 0
    ensures InstStep(p, w, r)
    ensures Uninstantiable(p, r) <= Uninstantiable(p, w)
    ensures CanBeInstantiable(p, c) ==> c in r.instantiable
    ensures !CanBeInstantiable(p, c) || c in w.instantiable ==> r == w
  {
    if !CanBeInstantiable(p, c) || c in w.instantiable then w
    else InsertInstantiable(p, w, c)
  }

  /** The insertion of a class not yet instantiable, followed by its
      superclass, its interfaces and its waiting members. */
  function InsertInstantiable(p: Program, w: MarkState, c: ClassId): (r: MarkState)
    requires CanBeInstantiable(p, c) && c !in w.instantiable
    decreases Uninstantiable(p, w), 0, 0
    ensures InstStep(p, w, r)
    ensures Uninstantiable(p, r) <= Uninstantiable(p, w)
    ensures c in r.instantiable
  {
    var w1 := w.(instantiable := w.instantiable + {c});
    DiffDrop(p.classes.Keys, w.instantiable, c);
    var r := CloseInstantiable(p, w1, c);
    InstantiableInsertion(p, w, w1, r, c);
    r
  }

  /** Makes the parents of the freshly inserted class `c` instantiable and
      pushes its waiting members. */
  function CloseInstantiable(p: Program, w: MarkState, c: ClassId): (r: MarkState)
    requires CanBeInstantiable(p, c) && c in w.instantiable
    decreases Uninstantiable(p, w), 4, 0
    ensures InstStep(p, w, r)
    ensures Uninstantiable(p, r) <= Uninstantiable(p, w)
    ensures InstClosedFor(p, r, c)
  {
    var w1 := ParentsInstantiable(p, w, c);
    var r := PromoteInstantiable(p, w1, c);
    PromotionCloses(p, w, w1, r, c);
    r
  }

  /** Makes the superclass and the interfaces of `c` instantiable. */
  function ParentsInstantiable(p: Program, w: MarkState, c: ClassId): (r: MarkState)
    requires c in p.classes
    decreases Uninstantiable(p, w), 3, 0
    ensures InstStep(p, w, r)
    ensures Uninstantiable(p, r) <= Uninstantiable(p, w)
    ensures InstClosedAt(p, r, c)
  {
    var k := p.classes[c];
    var w1 := if k.superClass.Some? then Instantiable(p, w, k.superClass.value) else w;
    var r := InstantiableAll(p, w1, k.interfaces);
    InstStepTrans(p, w, w1, r);
    r
  }

  /** Promoting the waiting members after the parents closes `c`. */
  lemma PromotionCloses(p: Program, w: MarkState, w1: MarkState, r: MarkState, c: ClassId)
    requires CanBeInstantiable(p, c) && c in w.instantiable
    requires InstStep(p, w, w1) && PushStep(p, w1, r)
    requires InstClosedAt(p, w1, c) && InstPromotedAt(p, r, c)
    ensures InstStep(p, w, r)
    ensures InstClosedFor(p, r, c)
  {
    PushIsInstStep(p, w1, r);
    InstStepTrans(p, w, w1, r);
  }

  /** The bookkeeping of one insertion into the instantiable set. */
  lemma InstantiableInsertion(p: Program, w: MarkState, w1: MarkState, r: MarkState, c: ClassId)
    requires CanBeInstantiable(p, c) && c !in w.instantiable
    requires w1 == w.(instantiable := w.instantiable + {c})
    requires InstStep(p, w1, r) && InstClosedFor(p, r, c)
    ensures InstStep(p, w, r)
    ensures Uninstantiable(p, r) <= Uninstantiable(p, w)
  {
    assert Step(p, w, w1) by {
      forall done | QueueInv(p, w, done) ensures QueueInv(p, w1, done) {
      }
    }
    StepTrans(p, w, w1, r);
    UninstantiableMono(p, w, r);
  }

  function InstantiableAll(p: Program, w: MarkState, cs: seq<ClassId>): (r: MarkState)
    decreases Uninstantiable(p, w), 2, |cs|
    ensures InstStep(p, w, r)
    ensures Uninstantiable(p, r) <= Uninstantiable(p, w)
    ensures forall i :: i in cs && CanBeInstantiable(p, i) ==> i in r.instantiable
  {
    if |cs| == 0 then w
    else
      var w1 := Instantiable(p, w, cs[0]);
      var r := InstantiableAll(p, w1, cs[1..]);
      InstStepTrans(p, w, w1, r);
      r
  }

  /** Pushes the instance fields and the methods of `c` that wait for it to
      be instantiable. */
  function PromoteInstantiable(p: Program, w: MarkState, c: ClassId): (r: MarkState)
    requires c in p.classes
    ensures PushStep(p, w, r)
    ensures Unmarked(p, r) <= Unmarked(p, w)
    ensures InstPromotedAt(p, r, c)
  {
    var k := p.classes[c];
    var pending := w.cond.ifClassInstantiable;
    var fs := FilterIds(k.ifields, (f: nat) => f in pending.fields);
    var ds := FilterIds(k.dmethods, (m: nat) => m in pending.methods);
    var vs := FilterIds(k.vmethods, (m: nat) => m in pending.methods);
    var w1 := PushFields(p, w, fs);
    var w2 := PushMethods(p, w1, ds);
    var r := PushMethods(p, w2, vs);
    PushStepTrans(p, w, w1, w2);
    PushStepTrans(p, w, w2, r);
    PromotedFromPushes(p, w, w1, w2, r, c, fs, ds, vs);
    r
  }

  lemma PromotedFromPushes(p: Program, w: MarkState, w1: MarkState, w2: MarkState, r: MarkState,
                           c: ClassId, fs: seq<FieldId>, ds: seq<MethodId>, vs: seq<MethodId>)
    requires c in p.classes
    requires PushStep(p, w, w1) && PushStep(p, w1, w2) && PushStep(p, w2, r)
    requires forall f :: f in fs && f in p.fields ==> w1.objs.Marked(FieldObject(f))
    requires forall m :: m in ds && m in p.methods ==> w2.objs.Marked(MethodObject(m))
    requires forall m :: m in vs && m in p.methods ==> r.objs.Marked(MethodObject(m))
    requires forall f :: f in fs <==> f in p.classes[c].ifields && f in w.cond.ifClassInstantiable.fields
    requires forall m :: m in ds <==> m in p.classes[c].dmethods && m in w.cond.ifClassInstantiable.methods
    requires forall m :: m in vs <==> m in p.classes[c].vmethods && m in w.cond.ifClassInstantiable.methods
    ensures InstPromotedAt(p, r, c)
  {
    MarkedMono(w1.objs, r.objs);
    MarkedMono(w2.objs, r.objs);
  }
}

=== FILE: reach_marker.dfy ===
/** The work-queue loop of `compute_reachable_objects` and what its result
    guarantees: every marked object has been visited, so the marking is
    closed under every visitor. */
module ReachMarker {
  import opened Wrappers
  import opened Sets
  import opened ReachProgram
  import opened ReachObjects
  import opened ReachSeed
  import opened ReachClosure
  import opened ReachVisit

  /** What visiting `x` guarantees, by kind. */
  ghost predicate Closed(p: Program, ign: IgnoreSets, w: MarkState, x: ReachableObject) {
    match x.kind
    case ClassObj => x.ptr in p.classes && ClassClosed(p, ign, w, x.ptr)
    case FieldObj => x.ptr in p.fields && FieldClosed(p, w, x.ptr)
    case MethodObj => x.ptr in p.methods && MethodClosed(p, ign, w, x.ptr)
    case _ => false
  }

  lemma ClosedMono(p: Program, ign: IgnoreSets, w: MarkState, r: MarkState, x: ReachableObject)
    requires Closed(p, ign, w, x) && Le(w, r)
    ensures Closed(p, ign, r, x)
  {
    MarkedMono(w.objs, r.objs);
    match x.kind
    case ClassObj =>
      var k := p.classes[x.ptr];
      forall a | a in k.annos && a.annoType !in ign.systemAnnos ensures RefsMarked(p, r, a.refs, true) {
        RefsMarkedMono(p, w, r, a.refs, true);
      }
    case FieldObj =>
    case MethodObj =>
      if ResolveRef(p, x.ptr) == Some(x.ptr) {
        GatheredMono(p, ign, w, r, x.ptr);
      }
  }

  /** `visit(obj)`: dispatches on the kind of a queued object. */
  function Visit(p: Program, ign: IgnoreSets, w: MarkState, x: ReachableObject): (r: MarkState)
    requires Known(p, x)
    ensures Grows(p, w, r)
    ensures Closed(p, ign, r, x)
  {
    match x.kind
    case ClassObj => VisitClass(p, ign, w, x.ptr)
    case FieldObj =>
      var r := VisitField(p, w, x.ptr);
      PushGrows(p, w, r);
      r
    case MethodObj => VisitMethod(p, ign, w, x.ptr)
  }

  /** Taking the head of the queue moves it to the visited set. */
  lemma PopKeepsQueueInv(p: Program, w: MarkState, done: set<ReachableObject>)
    requires QueueInv(p, w, done) && |w.queue| > 0
    ensures Known(p, w.queue[0]) && w.queue[0] !in done
    ensures QueueInv(p, w.(queue := w.queue[1..]), done + {w.queue[0]})
  {
    var x := w.queue[0];
    var q := w.queue[1..];
    forall y | y in q ensures w.objs.Marked(y) && y !in done && y != x {
      var j :| 0 <= j < |q| && q[j] == y;
      assert w.queue[j + 1] == y;
    }
    forall y | w.objs.Marked(y) && y !in done && y != x ensures y in q {
      var j :| 0 <= j < |w.queue| && w.queue[j] == y;
      assert j != 0;
      assert q[j - 1] == y;
    }
  }

  lemma LeTrans(a: MarkState, b: MarkState, c: MarkState)
    requires Le(a, b) && Le(b, c)
    ensures Le(a, c)
  {
  }

  /** The invariant of the marker loop, relative to its start `w0`. */
  ghost predicate LoopInv(p: Program, ign: IgnoreSets, w0: MarkState, w: MarkState, done: set<ReachableObject>) {
    QueueInv(p, w, done) &&
    Le(w0, w) &&
    (WellFormed(p) && InstClosed(p, w0) ==> InstClosed(p, w)) &&
    (forall x :: x in done ==> Closed(p, ign, w, x))
  }

  /** One turn of the loop: pop the head `x`, visit it (giving `w2`), and
      record it as visited. */
  lemma VisitKeepsLoopInv(p: Program, ign: IgnoreSets, w0: MarkState, w: MarkState, done: set<ReachableObject>,
                          w2: MarkState)
    requires LoopInv(p, ign, w0, w, done) && |w.queue| > 0
    requires Grows(p, w.(queue := w.queue[1..]), w2) && Closed(p, ign, w2, w.queue[0])
    ensures |Universe(p) - (done + {w.queue[0]})| < |Universe(p) - done|
    ensures LoopInv(p, ign, w0, w2, done + {w.queue[0]})
  {
    var x := w.queue[0];
    var w1 := w.(queue := w.queue[1..]);
    PopKeepsQueueInv(p, w, done);
    assert QueueInv(p, w2, done + {x});
    KnownInUniverse(p, x);
    DiffDrop(Universe(p), done, x);
    assert InstClosed(p, w) ==> InstClosed(p, w1) by {
      forall c | InstClosedFor(p, w, c) ensures InstClosedFor(p, w1, c) {
        InstClosedForMono(p, w, w1, c);
      }
    }
    forall y | y in done ensures Closed(p, ign, w2, y) {
      ClosedMono(p, ign, w, w2, y);
    }
    LeTrans(w0, w, w2);
  }

  /** The loop of the marker: visits queued objects until the queue is empty.
      Afterwards every marked object is known and closed, nothing marked,
      instantiable or conditional was dropped, and the instantiable set is
      still closed on a well-formed program. */
  method TransitiveClosure(p: Program, ign: IgnoreSets, w0: MarkState) returns (r: MarkState)
    requires QueueInv(p, w0, {})
    ensures Le(w0, r) && r.queue == []
    ensures forall x :: r.objs.Marked(x) ==> Known(p, x) && Closed(p, ign, r, x)
    ensures WellFormed(p) && InstClosed(p, w0) ==> InstClosed(p, r)
  {
    var w := w0;
    var done: set<ReachableObject> := {};
    while |w.queue| > 0
      invariant LoopInv(p, ign, w0, w, done)
      decreases |Universe(p) - done|
    {
      var x := w.queue[0];
      PopKeepsQueueInv(p, w, done);
      var w2 := Visit(p, ign, w.(queue := w.queue[1..]), x);
      VisitKeepsLoopInv(p, ign, w0, w, done, w2);
      w := w2;
      done := done + {x};
    }
    forall x | w.objs.Marked(x) ensures Known(p, x) && Closed(p, ign, w, x) {
      assert x !in w.queue;
    }
    r := w;
  }

  /** The options under which the marker is modelled: no relaxed keeping of
      class members and no CFG-based gathering checks. */
  predicate ModelledOptions(opts: ReachOptions) {
    !opts.relaxedKeepClassMembers && !opts.cfgGatheringCheckInstantiable &&
    !opts.cfgGatheringCheckInstanceCallable
  }

  /** The marking state the loop starts from: the seeds, with the root set as
      the initial work queue. */
  function InitialState(s: Seeds): (w: MarkState)
    ensures w.objs == s.objs && w.cond == s.cond && w.queue == s.roots
    ensures w.instantiable == {} && w.ignoredStrings == 0
  {
    MarkState(s.objs, s.cond, {}, s.roots, 0)
  }

  /** The members seeded under "if class retained" are marked once their
      class of `cs` is. */
  ghost predicate RetainedSeedsKept(p: Program, opts: ReachOptions, cs: seq<ClassId>, r: MarkState)
    requires forall c :: c in cs ==> c in p.classes
  {
    (forall c, f :: c in cs && r.objs.Marked(ClassObject(c)) && f in p.fields && IsFieldSeed(p, opts, p.classes[c], ClassRetained, f) ==>
       r.objs.Marked(FieldObject(f))) &&
    (forall c, m :: c in cs && r.objs.Marked(ClassObject(c)) && m in p.methods && IsMethodSeed(p, opts, p.classes[c], ClassRetained, m) ==>
       r.objs.Marked(MethodObject(m)))
  }

  /** The members seeded under "if class instantiable", and the internal
      overriders of external methods, are marked once their class of `cs` is
      instantiable. */
  ghost predicate InstantiableSeedsKept(p: Program, opts: ReachOptions, cs: seq<ClassId>, r: MarkState)
    requires forall c :: c in cs ==> c in p.classes
  {
    (forall c, f :: c in cs && c in r.instantiable && f in p.fields && IsFieldSeed(p, opts, p.classes[c], ClassInstantiable, f) ==>
       r.objs.Marked(FieldObject(f))) &&
    (forall c, m :: c in cs && c in r.instantiable && m in p.methods && IsMethodSeed(p, opts, p.classes[c], ClassInstantiable, m) ==>
       r.objs.Marked(MethodObject(m))) &&
    (forall c, m :: c in cs && c in r.instantiable && m in p.classes[c].Methods() && IsExternalOverrider(p, m) ==>
       r.objs.Marked(MethodObject(m)))
  }

  /** The closure keeps every conditional seed of `RootSetMarker::mark`: a
      retained-class seed is marked when its class is, and an
      instantiable-class seed when its class is instantiable. */
  lemma SeedsKept(p: Program, ign: IgnoreSets, opts: ReachOptions, s: Seeds, r: MarkState)
    requires forall c :: c in Scope(p) ==> c in p.classes
    requires SeedSlots(p, opts, s) && Le(InitialState(s), r)
    requires forall x :: r.objs.Marked(x) ==> Closed(p, ign, r, x)
    requires WellFormed(p) ==> InstClosed(p, r)
    ensures RetainedSeedsKept(p, opts, Scope(p), r)
    ensures WellFormed(p) ==> InstantiableSeedsKept(p, opts, Scope(p), r)
  {
    RetainedFieldSeedsKept(p, ign, opts, s, r);
    RetainedMethodSeedsKept(p, ign, opts, s, r);
    if WellFormed(p) {
      InstantiableFieldSeedsKept(p, opts, s, r);
      InstantiableMethodSeedsKept(p, opts, s, r);
    }
  }

  lemma RetainedFieldSeedsKept(p: Program, ign: IgnoreSets, opts: ReachOptions, s: Seeds, r: MarkState)
    requires forall c :: c in Scope(p) ==> c in p.classes
    requires SeedSlots(p, opts, s) && r.cond.ifClassRetained == s.cond.ifClassRetained
    requires forall x :: r.objs.Marked(x) ==> Closed(p, ign, r, x)
    ensures forall c, f :: c in Scope(p) && r.objs.Marked(ClassObject(c)) && f in p.fields && IsFieldSeed(p, opts, p.classes[c], ClassRetained, f) ==>
      r.objs.Marked(FieldObject(f))
  {
    forall c, f | c in Scope(p) && r.objs.Marked(ClassObject(c)) && f in p.fields &&
      IsFieldSeed(p, opts, p.classes[c], ClassRetained, f)
      ensures r.objs.Marked(FieldObject(f))
    {
      assert f in s.cond.Slot(ClassRetained).fields;
      assert Closed(p, ign, r, ClassObject(c));
    }
  }

  lemma RetainedMethodSeedsKept(p: Program, ign: IgnoreSets, opts: ReachOptions, s: Seeds, r: MarkState)
    requires forall c :: c in Scope(p) ==> c in p.classes
    requires SeedSlots(p, opts, s) && r.cond.ifClassRetained == s.cond.ifClassRetained
    requires forall x :: r.objs.Marked(x) ==> Closed(p, ign, r, x)
    ensures forall c, m :: c in Scope(p) && r.objs.Marked(ClassObject(c)) && m in p.methods && IsMethodSeed(p, opts, p.classes[c], ClassRetained, m) ==>
      r.objs.Marked(MethodObject(m))
  {
    forall c, m | c in Scope(p) && r.objs.Marked(ClassObject(c)) && m in p.methods &&
      IsMethodSeed(p, opts, p.classes[c], ClassRetained, m)
      ensures r.objs.Marked(MethodObject(m))
    {
      assert m in s.cond.Slot(ClassRetained).methods;
      assert Closed(p, ign, r, ClassObject(c));
    }
  }

  lemma InstantiableFieldSeedsKept(p: Program, opts: ReachOptions, s: Seeds, r: MarkState)
    requires forall c :: c in Scope(p) ==> c in p.classes
    requires SeedSlots(p, opts, s) && s.cond.ifClassInstantiable.fields <= r.cond.ifClassInstantiable.fields
    requires InstClosed(p, r)
    ensures forall c, f :: c in Scope(p) && c in r.instantiable && f in p.fields && IsFieldSeed(p, opts, p.classes[c], ClassInstantiable, f) ==>
      r.objs.Marked(FieldObject(f))
  {
    forall c, f | c in Scope(p) && c in r.instantiable && f in p.fields &&
      IsFieldSeed(p, opts, p.classes[c], ClassInstantiable, f)
      ensures r.objs.Marked(FieldObject(f))
    {
      assert f in s.cond.Slot(ClassInstantiable).fields;
      assert InstClosedFor(p, r, c);
    }
  }

  lemma InstantiableMethodSeedsKept(p: Program, opts: ReachOptions, s: Seeds, r: MarkState)
    requires forall c :: c in Scope(p) ==> c in p.classes
    requires SeedSlots(p, opts, s) && s.cond.ifClassInstantiable.methods <= r.cond.ifClassInstantiable.methods
    requires InstClosed(p, r)
    ensures forall c, m :: c in Scope(p) && c in r.instantiable && m in p.methods && IsMethodSeed(p, opts, p.classes[c], ClassInstantiable, m) ==>
      r.objs.Marked(MethodObject(m))
    ensures forall c, m :: c in Scope(p) && c in r.instantiable && m in p.classes[c].Methods() && IsExternalOverrider(p, m) ==>
      r.objs.Marked(MethodObject(m))
  {
    forall c, m | c in Scope(p) && c in r.instantiable && m in p.methods &&
      IsMethodSeed(p, opts, p.classes[c], ClassInstantiable, m)
      ensures r.objs.Marked(MethodObject(m))
    {
      assert m in s.cond.Slot(ClassInstantiable).methods;
      assert InstClosedFor(p, r, c);
    }
    forall c, m | c in Scope(p) && c in r.instantiable && m in p.classes[c].Methods() && IsExternalOverrider(p, m)
      ensures r.objs.Marked(MethodObject(m))
    {
      assert m in s.cond.Slot(ClassInstantiable).methods;
      assert InstClosedFor(p, r, c);
    }
  }

  /** `compute_reachable_objects`: seeds the marking (every class of the scope
      under `should_mark_all_as_seed`, the root-like classes and members
      otherwise), then runs the closure loop. The result is a fixpoint: every
      marked object is closed under its visitor, the seed classes are marked,
      every conditional member seed is marked once its condition holds, and
      under mark-all every member of a scope class is marked. */
  method ComputeReachableObjects(p: Program, ign: IgnoreSets, opts: ReachOptions) returns (r: MarkState)
    requires forall c :: c in Scope(p) ==> c in p.classes
    requires ModelledOptions(opts)
    ensures r.queue == []
    ensures forall x :: r.objs.Marked(x) ==> Known(p, x) && Closed(p, ign, r, x)
    ensures WellFormed(p) ==> InstClosed(p, r)
    ensures forall c :: c in Scope(p) && (opts.shouldMarkAllAsSeed || ShouldMarkCls(p.classes[c])) ==>
      r.objs.Marked(ClassObject(c))
    ensures opts.shouldMarkAllAsSeed ==> forall c, f :: c in Scope(p) && f in p.classes[c].Fields() && f in p.fields ==>
      r.objs.Marked(FieldObject(f))
    ensures opts.shouldMarkAllAsSeed ==> forall c, m :: c in Scope(p) && m in p.classes[c].Methods() && m in p.methods ==>
      r.objs.Marked(MethodObject(m))
    ensures !opts.shouldMarkAllAsSeed ==> RetainedSeedsKept(p, opts, Scope(p), r)
    ensures !opts.shouldMarkAllAsSeed && WellFormed(p) ==> InstantiableSeedsKept(p, opts, Scope(p), r)
  {
    var s: Seeds;
    if opts.shouldMarkAllAsSeed {
      s := MarkAllAsSeed(p);
    } else {
      s := MarkRoots(p, opts);
      forall c | c in Scope(p) && ShouldMarkCls(p.classes[c]) ensures s.objs.Marked(ClassObject(c)) {
        assert ClassObject(c) in s.roots;
      }
    }
    var w0 := InitialState(s);
    forall x | s.objs.Marked(x) ensures Known(p, x) {
      assert x in s.roots;
    }
    r := TransitiveClosure(p, ign, w0);
    MarkedMono(w0.objs, r.objs);
    if !opts.shouldMarkAllAsSeed {
      SeedsKept(p, ign, opts, s, r);
    }
    if opts.shouldMarkAllAsSeed {
      forall c, f | c in Scope(p) && f in p.classes[c].Fields() && f in p.fields
        ensures r.objs.Marked(FieldObject(f))
      {
        assert Closed(p, ign, r, ClassObject(c));
      }
      forall c, m | c in Scope(p) && m in p.classes[c].Methods() && m in p.methods
        ensures r.objs.Marked(MethodObject(m))
      {
        assert Closed(p, ign, r, ClassObject(c));
      }
    }
  }
}

=== FILE: reach_objects.dfy ===
/** The shared marking state: the three marked sets, one per kind, and the
    conditionally marked members, one slot per class condition. */
module ReachObjects {
  import opened ReachProgram

  /** Only classes, fields and methods are ever marked. */
  predicate Markable(o: ReachableObject) {
    o.kind == ClassObj || o.kind == FieldObj || o.kind == MethodObj
  }

  datatype ReachableObjects = ReachableObjects(
    classes: set<ClassId>,
    fields: set<FieldId>,
    methods: set<MethodId>)
  {
    /** Membership in the marked set of the object's own kind. */
    predicate Marked(o: ReachableObject) {
      match o.kind
      case ClassObj => o.ptr in classes
      case FieldObj => o.ptr in fields
      case MethodObj => o.ptr in methods
      case _ => false
    }

    /** Insert-if-absent into the set of the object's kind; the flag says
        whether the object was new. */
    function Mark(o: ReachableObject): (r: (ReachableObjects, bool))
      requires Markable(o)
      ensures r.1 <==> !Marked(o)
      ensures forall x :: r.0.Marked(x) <==> Marked(x) || x == o
    {
      match o.kind
      case ClassObj => (this.(classes := classes + {o.ptr}), o.ptr !in classes)
      case FieldObj => (this.(fields := fields + {o.ptr}), o.ptr !in fields)
      case MethodObj => (this.(methods := methods + {o.ptr}), o.ptr !in methods)
    }

    /** Every object marked here is also marked in `other`. */
    predicate Below(other: ReachableObjects) {
      classes <= other.classes && fields <= other.fields && methods <= other.methods
    }
  }

  /** No element occurs twice. */
  predicate Distinct(q: seq<ReachableObject>) {
    forall i, j :: 0 <= i < j < |q| ==> q[i] != q[j]
  }

  function NoneMarked(): ReachableObjects {
    ReachableObjects({}, {}, {})
  }

  /** Marking is insert-once: the first call reports a new object, a repeated
      call reports nothing new and changes nothing, and the object is marked
      from then on. */
  lemma MarkIsInsertOnce(r: ReachableObjects, o: ReachableObject)
    requires Markable(o)
    ensures r.Mark(o).0.Marked(o)
    ensures r.Mark(o).0.Mark(o).0 == r.Mark(o).0
    ensures !r.Mark(o).0.Mark(o).1
    ensures r.Mark(o).1 == !r.Marked(o)
  {
  }

  /** One slot of conditionally marked members. */
  datatype MarkedItems = MarkedItems(
    fields: set<FieldId>,
    methods: set<MethodId>,
    directlyInstantiableTypes: set<ClassId>)

  function NoItems(): MarkedItems {
    MarkedItems({}, {}, {})
  }

  /** Members waiting for a condition on their class, plus the methods whose
      gatherer waits for them to become callable. */
  datatype ConditionallyMarked = ConditionallyMarked(
    ifClassRetained: MarkedItems,
    ifClassDynamicallyReferenced: MarkedItems,
    ifClassInstantiable: MarkedItems,
    ifInstanceMethodCallable: set<MethodId>)
  {
    /** The slot of a condition; each condition has its own. */
    function Slot(c: Condition): MarkedItems {
      match c
      case ClassRetained => ifClassRetained
      case ClassDynamicallyReferenced => ifClassDynamicallyReferenced
      case ClassInstantiable => ifClassInstantiable
    }

    /** Records a field under a condition, leaving the other slots alone. */
    function WithField(f: FieldId, c: Condition): (r: ConditionallyMarked)
      ensures r.Slot(c).fields == Slot(c).fields + {f}
      ensures r.Slot(c).methods == Slot(c).methods
      ensures r.Slot(c).directlyInstantiableTypes == Slot(c).directlyInstantiableTypes
      ensures forall d :: d != c ==> r.Slot(d) == Slot(d)
      ensures r.ifInstanceMethodCallable == ifInstanceMethodCallable
    {
      match c
      case ClassRetained =>
        this.(ifClassRetained := ifClassRetained.(fields := ifClassRetained.fields + {f}))
      case ClassDynamicallyReferenced =>
        this.(ifClassDynamicallyReferenced :=
          ifClassDynamicallyReferenced.(fields := ifClassDynamicallyReferenced.fields + {f}))
      case ClassInstantiable =>
        this.(ifClassInstantiable := ifClassInstantiable.(fields := ifClassInstantiable.fields + {f}))
    }

    /** Records a method under a condition, leaving the other slots alone. */
    function WithMethod(m: MethodId, c: Condition): (r: ConditionallyMarked)
      ensures r.Slot(c).methods == Slot(c).methods + {m}
      ensures r.Slot(c).fields == Slot(c).fields
      ensures r.Slot(c).directlyInstantiableTypes == Slot(c).directlyInstantiableTypes
      ensures forall d :: d != c ==> r.Slot(d) == Slot(d)
      ensures r.ifInstanceMethodCallable == ifInstanceMethodCallable
    {
      match c
      case ClassRetained =>
        this.(ifClassRetained := ifClassRetained.(methods := ifClassRetained.methods + {m}))
      case ClassDynamicallyReferenced =>
        this.(ifClassDynamicallyReferenced :=
          ifClassDynamicallyReferenced.(methods := ifClassDynamicallyReferenced.methods + {m}))
      case ClassInstantiable =>
        this.(ifClassInstantiable := ifClassInstantiable.(methods := ifClassInstantiable.methods + {m}))
    }
  }

  function NothingConditional(): ConditionallyMarked {
    ConditionallyMarked(NoItems(), NoItems(), NoItems(), {})
  }
}

=== FILE: reach_program.dfy ===
/** The program that reachability works over: classes, fields and methods are
    opaque ids, and each class has a superclass, interfaces, annotations,
    member lists and flags. A method or field body is an opaque set of
    references. An id that is not a key of the program's maps stands for the
    null reference that `type_class` returns for an unknown type. */
module ReachProgram {
  import opened Wrappers

  type ClassId = nat
  type FieldId = nat
  type MethodId = nat

  /** What a body (method code, field value or annotation) refers to. */
  datatype Refs = Refs(
    types: seq<ClassId>,
    fields: seq<FieldId>,
    methods: seq<MethodId>,
    strings: seq<string>,
    vmethodsIfInstantiable: seq<MethodId>)

  datatype Anno = Anno(annoType: ClassId, refs: Refs)

  datatype ClassInfo = ClassInfo(
    name: string,
    superClass: Option<ClassId>,
    interfaces: seq<ClassId>,
    annos: seq<Anno>,
    ifields: seq<FieldId>,
    sfields: seq<FieldId>,
    dmethods: seq<MethodId>,
    vmethods: seq<MethodId>,
    isInterface: bool,
    isAbstract: bool,
    isExternal: bool,
    isAnnotation: bool,
    isRoot: bool,
    canRename: bool)
  {
    function Fields(): seq<FieldId> { ifields + sfields }
    function Methods(): seq<MethodId> { dmethods + vmethods }
  }

  /** A field reference; `isDef` tells whether it is a definition, and
      `resolved` is what `resolve_field` finds for a non-concrete reference. */
  datatype FieldInfo = FieldInfo(
    owner: ClassId,
    fieldType: ClassId,
    isDef: bool,
    isConcrete: bool,
    resolved: Option<FieldId>,
    refs: Refs,
    isRoot: bool,
    isVolatile: bool)

  /** A method reference; `overriders` are its overriding methods in the
      method override graph. */
  datatype MethodInfo = MethodInfo(
    owner: ClassId,
    sig: string,
    rtype: ClassId,
    args: seq<ClassId>,
    isDef: bool,
    isVirtual: bool,
    isConcrete: bool,
    isStatic: bool,
    isInit: bool,
    isArglessInit: bool,
    isClinit: bool,
    isTrivialClinit: bool,
    hasCode: bool,
    isRoot: bool,
    canRename: bool,
    isExternal: bool,
    callsForName: bool,
    refs: Refs,
    overriders: seq<MethodId>)

  /** `dexes` lists the classes of each dex file in order; `typeNames` maps an
      external class name appearing in a string to its type. */
  datatype Program = Program(
    classes: map<ClassId, ClassInfo>,
    fields: map<FieldId, FieldInfo>,
    methods: map<MethodId, MethodInfo>,
    typeNames: map<string, ClassId>,
    dexes: seq<seq<ClassId>>)

  /** The classes of all dex files, in order (`build_class_scope`). */
  function Scope(p: Program): seq<ClassId> {
    Flatten(p.dexes)
  }

  function Flatten(xss: seq<seq<ClassId>>): (r: seq<ClassId>)
    ensures forall x :: x in r <==> exists i :: 0 <= i < |xss| && x in xss[i]
    ensures |r| == TotalLength(xss)
  {
    if |xss| == 0 then []
    else
      var rest := Flatten(xss[1..]);
      assert forall i :: 1 <= i < |xss| ==> xss[i] == xss[1..][i - 1];
      xss[0] + rest
  }

  function TotalLength(xss: seq<seq<ClassId>>): nat {
    if |xss| == 0 then 0 else |xss[0]| + TotalLength(xss[1..])
  }

  /** Every member a class lists is a definition owned by that class, and every
      definition is listed by its owner. */
  ghost predicate WellFormed(p: Program) {
    (forall c, f :: c in p.classes && f in p.classes[c].Fields() ==>
       f in p.fields && p.fields[f].isDef && p.fields[f].owner == c) &&
    (forall c, m :: c in p.classes && m in p.classes[c].Methods() ==>
       m in p.methods && p.methods[m].isDef && p.methods[m].owner == c) &&
    (forall f :: f in p.fields && p.fields[f].isDef ==>
       p.fields[f].owner in p.classes && f in p.classes[p.fields[f].owner].Fields()) &&
    (forall m :: m in p.methods && p.methods[m].isDef ==>
       p.methods[m].owner in p.classes && m in p.classes[p.methods[m].owner].Methods())
  }

  /** The kind tag of a reachable object. */
  datatype ReachableObjectType = AnnoObj | ClassObj | FieldObj | MethodObj | SeedObj

  /** A tagged address; classes, fields and methods are the ids above. */
  datatype ReachableObject = ReachableObject(kind: ReachableObjectType, ptr: nat)

  /** Type lists of the string checker and the annotation filter. */
  datatype IgnoreSets = IgnoreSets(
    stringLiterals: set<ClassId>,
    stringLiteralAnnos: set<ClassId>,
    systemAnnos: set<ClassId>,
    keepClassInString: bool)

  function DefaultIgnoreSets(): (r: IgnoreSets)
    ensures r.stringLiterals == {} && r.stringLiteralAnnos == {} && r.systemAnnos == {}
    ensures r.keepClassInString
  {
    IgnoreSets({}, {}, {}, true)
  }

  /** The boolean options of `compute_reachable_objects`. */
  datatype ReachOptions = ReachOptions(
    recordReachability: bool,
    relaxedKeepClassMembers: bool,
    cfgGatheringCheckInstantiable: bool,
    cfgGatheringCheckInstanceCallable: bool,
    shouldMarkAllAsSeed: bool,
    removeNoArgumentConstructors: bool)

  function DefaultOptions(): (r: ReachOptions)
    ensures !r.recordReachability && !r.relaxedKeepClassMembers
    ensures !r.cfgGatheringCheckInstantiable && !r.cfgGatheringCheckInstanceCallable
    ensures !r.shouldMarkAllAsSeed && !r.removeNoArgumentConstructors
  {
    ReachOptions(false, false, false, false, false, false)
  }

  /** The three class conditions a member can be retained under. */
  datatype Condition = ClassRetained | ClassDynamicallyReferenced | ClassInstantiable

  /** How a method-references gatherer is advanced; only the last kind names
      the class whose instantiability resolved the dependency. */
  datatype AdvanceKind = Initial | Callable | InstantiableDependencyResolved(cls: ClassId)

  function InstantiableCls(a: AdvanceKind): (r: Option<ClassId>)
    ensures r.Some? <==> a.InstantiableDependencyResolved?
    ensures r.Some? ==> r.value == a.cls
  {
    match a
    case InstantiableDependencyResolved(c) => Some(c)
    case _ => None
  }

  datatype ObjectCounts = ObjectCounts(numClasses: nat, numFields: nat, numMethods: nat)

  function EmptyCounts(): (r: ObjectCounts)
    ensures r.numClasses == 0 && r.numFields == 0 && r.numMethods == 0
  {
    ObjectCounts(0, 0, 0)
  }
}

=== FILE: reach_resolve.dfy ===
/** Method resolution without a calling context: look in the class's virtual
    methods, then its direct methods, then recursively in the superclass, then
    in each interface in order. The source has no visited guard, so the model
    bounds the depth of the search with fuel; the search gives up, returning
    null, when the fuel runs out. */
module ReachResolve {
  import opened Wrappers
  import opened ReachProgram

  /** `m` is a known method whose signature is `sig`. */
  predicate HasSig(p: Program, m: MethodId, sig: string) {
    m in p.methods && p.methods[m].sig == sig
  }

  /** The first method of `ms` with signature `sig`. */
  function FindSig(p: Program, sig: string, ms: seq<MethodId>): (r: Option<MethodId>)
    ensures r.None? <==> forall i :: 0 <= i < |ms| ==> !HasSig(p, ms[i], sig)
    ensures r.Some? ==> exists i :: 0 <= i < |ms| && ms[i] == r.value && HasSig(p, ms[i], sig) &&
                                    forall j :: 0 <= j < i ==> !HasSig(p, ms[j], sig)
  {
    if |ms| == 0 then None
    else if HasSig(p, ms[0], sig) then Some(ms[0])
    else
      var r := FindSig(p, sig, ms[1..]);
      assert forall i :: 1 <= i < |ms| ==> ms[i] == ms[1..][i - 1];
      r
  }

  /** `resolve_without_context` for the signature `sig` starting at class `c`
      (`None` or an unknown id is the null class). */
  function Resolve(p: Program, sig: string, c: Option<ClassId>, fuel: nat): (r: Option<MethodId>)
    decreases fuel, 1, 0
    ensures c.None? || c.value !in p.classes ==> r.None?
    ensures r.Some? ==> HasSig(p, r.value, sig)
  {
    if c.None? || c.value !in p.classes || fuel == 0 then None
    else
      var cls := p.classes[c.value];
      match FindSig(p, sig, cls.vmethods)
      case Some(m) => Some(m)
      case None =>
        match FindSig(p, sig, cls.dmethods)
        case Some(m) => Some(m)
        case None =>
          match Resolve(p, sig, cls.superClass, fuel - 1)
          case Some(m) => Some(m)
          case None => ResolveAny(p, sig, cls.interfaces, fuel - 1)
  }

  /** The first interface, in order, from which resolution succeeds. */
  function ResolveAny(p: Program, sig: string, ifs: seq<ClassId>, fuel: nat): (r: Option<MethodId>)
    decreases fuel, 2, |ifs|
    ensures r.Some? ==> HasSig(p, r.value, sig)
  {
    if |ifs| == 0 then None
    else
      match Resolve(p, sig, Some(ifs[0]), fuel)
      case Some(m) => Some(m)
      case None => ResolveAny(p, sig, ifs[1..], fuel)
  }

  /** The order in which resolution inspects methods: virtual methods, direct
      methods, the superclass's order, then each interface's order. */
  ghost function SearchOrder(p: Program, c: Option<ClassId>, fuel: nat): seq<MethodId>
    decreases fuel, 1, 0
  {
    if c.None? || c.value !in p.classes || fuel == 0 then []
    else
      var cls := p.classes[c.value];
      cls.vmethods + cls.dmethods + SearchOrder(p, cls.superClass, fuel - 1) +
      SearchOrderAll(p, cls.interfaces, fuel - 1)
  }

  ghost function SearchOrderAll(p: Program, ifs: seq<ClassId>, fuel: nat): seq<MethodId>
    decreases fuel, 2, |ifs|
  {
    if |ifs| == 0 then [] else SearchOrder(p, Some(ifs[0]), fuel) + SearchOrderAll(p, ifs[1..], fuel)
  }

  /** The first match in a concatenation is the first match of the left part,
      or else of the right part. */
  lemma {:induction false} FindSigAppend(p: Program, sig: string, a: seq<MethodId>, b: seq<MethodId>)
    ensures FindSig(p, sig, a + b) == (if FindSig(p, sig, a).Some? then FindSig(p, sig, a) else FindSig(p, sig, b))
    decreases |a|
  {
    if |a| == 0 {
      assert a + b == b;
    } else {
      assert (a + b)[0] == a[0];
      assert (a + b)[1..] == a[1..] + b;
      FindSigAppend(p, sig, a[1..], b);
    }
  }

  /** The first match in four lists laid end to end is the first match of
      the first list that has one. */
  lemma FindSigFour(p: Program, sig: string, a: seq<MethodId>, b: seq<MethodId>, c: seq<MethodId>, d: seq<MethodId>)
    ensures var fa, fb, fc := FindSig(p, sig, a), FindSig(p, sig, b), FindSig(p, sig, c);
      FindSig(p, sig, a + (b + (c + d))) ==
        if fa.Some? then fa else if fb.Some? then fb else if fc.Some? then fc else FindSig(p, sig, d)
  {
    FindSigAppend(p, sig, a, b + (c + d));
    FindSigAppend(p, sig, b, c + d);
    FindSigAppend(p, sig, c, d);
  }

  /** Resolution returns exactly the first method with the signature in the
      search order. */
  lemma {:induction false} ResolveIsFirstInSearchOrder(p: Program, sig: string, c: Option<ClassId>, fuel: nat)
    ensures Resolve(p, sig, c, fuel) == FindSig(p, sig, SearchOrder(p, c, fuel))
    decreases fuel, 1, 0
  {
    if c.None? || c.value !in p.classes || fuel == 0 {
    } else {
      var cls := p.classes[c.value];
      ResolveIsFirstInSearchOrder(p, sig, cls.superClass, fuel - 1);
      ResolveAnyIsFirstInSearchOrder(p, sig, cls.interfaces, fuel - 1);
      ResolveStep(p, sig, c, fuel);
    }
  }

  /** One class of the search: its own methods, then the superclass, then the
      interfaces, in both `Resolve` and `SearchOrder`. */
  lemma ResolveStep(p: Program, sig: string, c: Option<ClassId>, fuel: nat)
    requires c.Some? && c.value in p.classes && fuel > 0
    requires var cls := p.classes[c.value];
      Resolve(p, sig, cls.superClass, fuel - 1) == FindSig(p, sig, SearchOrder(p, cls.superClass, fuel - 1)) &&
      ResolveAny(p, sig, cls.interfaces, fuel - 1) == FindSig(p, sig, SearchOrderAll(p, cls.interfaces, fuel - 1))
    ensures Resolve(p, sig, c, fuel) == FindSig(p, sig, SearchOrder(p, c, fuel))
  {
    var cls := p.classes[c.value];
    var sup := SearchOrder(p, cls.superClass, fuel - 1);
    var itf := SearchOrderAll(p, cls.interfaces, fuel - 1);
    assert SearchOrder(p, c, fuel) == cls.vmethods + (cls.dmethods + (sup + itf));
    FindSigFour(p, sig, cls.vmethods, cls.dmethods, sup, itf);
  }

  lemma {:induction false} ResolveAnyIsFirstInSearchOrder(p: Program, sig: string, ifs: seq<ClassId>, fuel: nat)
    ensures ResolveAny(p, sig, ifs, fuel) == FindSig(p, sig, SearchOrderAll(p, ifs, fuel))
    decreases fuel, 2, |ifs|
  {
    if |ifs| > 0 {
      ResolveIsFirstInSearchOrder(p, sig, Some(ifs[0]), fuel);
      ResolveAnyIsFirstInSearchOrder(p, sig, ifs[1..], fuel);
      FindSigAppend(p, sig, SearchOrder(p, Some(ifs[0]), fuel), SearchOrderAll(p, ifs[1..], fuel));
    }
  }

  /** `rank` layers the hierarchy: every known class has a rank, and its
      known superclass and interfaces rank strictly lower. An acyclic
      hierarchy has such a layering, by the length of its longest chain of
      parents. */
  predicate Layered(p: Program, rank: map<ClassId, nat>) {
    p.classes.Keys <= rank.Keys &&
    forall c :: c in p.classes ==>
      var k := p.classes[c];
      (k.superClass.Some? && k.superClass.value in p.classes ==> rank[k.superClass.value] < rank[c]) &&
      (forall i :: i in k.interfaces && i in p.classes ==> rank[i] < rank[c])
  }

  /** On a layered hierarchy, any fuel above the rank of the start class gives
      the same answer: the fuel bound is never what stops the search. */
  lemma {:induction false} ResolveFuelIrrelevant(p: Program, sig: string, c: Option<ClassId>, rank: map<ClassId, nat>,
                                                 f1: nat, f2: nat)
    requires Layered(p, rank)
    requires c.Some? && c.value in p.classes ==> rank[c.value] < f1 && rank[c.value] < f2
    ensures Resolve(p, sig, c, f1) == Resolve(p, sig, c, f2)
    decreases f1 + f2, 1, 0
  {
    if c.Some? && c.value in p.classes {
      var k := p.classes[c.value];
      ResolveFuelIrrelevant(p, sig, k.superClass, rank, f1 - 1, f2 - 1);
      ResolveAnyFuelIrrelevant(p, sig, k.interfaces, rank, f1 - 1, f2 - 1);
    }
  }

  lemma {:induction false} ResolveAnyFuelIrrelevant(p: Program, sig: string, ifs: seq<ClassId>, rank: map<ClassId, nat>,
                                                    f1: nat, f2: nat)
    requires Layered(p, rank)
    requires forall i :: i in ifs && i in p.classes ==> rank[i] < f1 && rank[i] < f2
    ensures ResolveAny(p, sig, ifs, f1) == ResolveAny(p, sig, ifs, f2)
    decreases f1 + f2, 2, |ifs|
  {
    if |ifs| > 0 {
      ResolveFuelIrrelevant(p, sig, Some(ifs[0]), rank, f1, f2);
      ResolveAnyFuelIrrelevant(p, sig, ifs[1..], rank, f1, f2);
    }
  }
}

=== FILE: reach_seed.dfy ===
/** The root-set marker: marks seed classes and records seed members
    conditionally, either from the keep rules or, for the "mark everything"
    mode, for every class and member. */
module ReachSeed {
  import opened Wrappers
  import opened ReachProgram
  import opened ReachObjects

  /** `t` occurs in `s` at position `i`. */
  predicate OccursAt(s: string, t: string, i: nat) {
    i + |t| <= |s| && s[i..i + |t|] == t
  }

  /** `t` occurs in `s` (the `strstr` test). */
  function HasSubstring(s: string, t: string): (r: bool)
    ensures r <==> exists i: nat :: OccursAt(s, t, i)
    decreases |s|
  {
    if |s| < |t| then false
    else if s[..|t|] == t then assert OccursAt(s, t, 0); true
    else
      var r := HasSubstring(s[1..], t);
      assert forall i: nat :: OccursAt(s, t, i + 1) <==> OccursAt(s[1..], t, i) by {
        forall i: nat ensures OccursAt(s, t, i + 1) <==> OccursAt(s[1..], t, i) {
          if i + 1 + |t| <= |s| {
            var a, b := s[i + 1..i + 1 + |t|], s[1..][i..i + |t|];
            assert forall j :: 0 <= j < |a| ==> a[j] == b[j];
            assert a == b;
          }
        }
      }
      assert !OccursAt(s, t, 0);
      assert (exists i: nat :: OccursAt(s, t, i)) ==> exists i: nat :: OccursAt(s[1..], t, i) by {
        if exists i: nat :: OccursAt(s, t, i) {
          var i: nat :| OccursAt(s, t, i);
          assert i > 0;
          assert OccursAt(s[1..], t, i - 1);
        }
      }
      r
  }

  predicate IsCanary(k: ClassInfo) {
    HasSubstring(k.name, "Canary")
  }

  predicate ShouldMarkCls(k: ClassInfo) {
    k.isRoot || IsCanary(k)
  }

  /** The DelInit exclusions: roots, interfaces and annotations are never
      treated as dynamically referenced. */
  predicate ConsiderDynamicallyReferenced(k: ClassInfo) {
    !k.isRoot && !k.isInterface && !k.isAnnotation
  }

  function ClassObject(c: ClassId): ReachableObject {
    ReachableObject(ClassObj, c)
  }

  /** Marked objects, conditionally marked members, and the root set in
      insertion order (each element once). */
  datatype Seeds = Seeds(objs: ReachableObjects, cond: ConditionallyMarked, roots: seq<ReachableObject>)

  function NoSeeds(): Seeds {
    Seeds(NoneMarked(), NothingConditional(), [])
  }

  /** `push_seed(cls)`: a null class is ignored; otherwise the class is marked
      and added to the root set. */
  function PushSeedClass(p: Program, s: Seeds, c: ClassId): (r: Seeds)
    ensures c !in p.classes ==> r == s
    ensures r.cond == s.cond
    ensures forall x :: x in r.roots <==> x in s.roots || (c in p.classes && x == ClassObject(c))
    ensures forall x :: r.objs.Marked(x) <==> s.objs.Marked(x) || (c in p.classes && x == ClassObject(c))
    ensures Distinct(s.roots) ==> Distinct(r.roots)
  {
    if c !in p.classes then s
    else
      var o := ClassObject(c);
      Seeds(s.objs.Mark(o).0, s.cond, if o in s.roots then s.roots else s.roots + [o])
  }

  /** Records every field of `fs` under `cond`. */
  function SeedFields(s: Seeds, fs: seq<FieldId>, cond: Condition): (r: Seeds)
    ensures r.objs == s.objs && r.roots == s.roots
    ensures forall f :: f in r.cond.Slot(cond).fields <==> f in s.cond.Slot(cond).fields || f in fs
    ensures r.cond.Slot(cond).methods == s.cond.Slot(cond).methods
    ensures forall d :: d != cond ==> r.cond.Slot(d) == s.cond.Slot(d)
    decreases |fs|
  {
    if |fs| == 0 then s
    else SeedFields(s.(cond := s.cond.WithField(fs[0], cond)), fs[1..], cond)
  }

  /** Records every method of `ms` under `cond`. */
  function SeedMethods(s: Seeds, ms: seq<MethodId>, cond: Condition): (r: Seeds)
    ensures r.objs == s.objs && r.roots == s.roots
    ensures forall m :: m in r.cond.Slot(cond).methods <==> m in s.cond.Slot(cond).methods || m in ms
    ensures r.cond.Slot(cond).fields == s.cond.Slot(cond).fields
    ensures forall d :: d != cond ==> r.cond.Slot(d) == s.cond.Slot(d)
    decreases |ms|
  {
    if |ms| == 0 then s
    else SeedMethods(s.(cond := s.cond.WithMethod(ms[0], cond)), ms[1..], cond)
  }

  /** `mark_all_as_seed`: every class of the scope is a seed, and every member
      of every class is retained if its class is. */
  method MarkAllAsSeed(p: Program) returns (s: Seeds)
    requires forall c :: c in Scope(p) ==> c in p.classes
    ensures forall c :: s.objs.Marked(ClassObject(c)) <==> c in Scope(p)
    ensures forall x :: x in s.roots <==> exists c :: c in Scope(p) && x == ClassObject(c)
    ensures forall x :: x in s.roots <==> s.objs.Marked(x)
    ensures Distinct(s.roots)
    ensures s.objs.fields == {} && s.objs.methods == {}
    ensures forall c, f :: c in Scope(p) && f in p.classes[c].Fields() ==> f in s.cond.ifClassRetained.fields
    ensures forall c, m :: c in Scope(p) && m in p.classes[c].Methods() ==> m in s.cond.ifClassRetained.methods
  {
    var scope := Scope(p);
    s := NoSeeds();
    var i := 0;
    while i < |scope|
      invariant 0 <= i <= |scope|
      invariant forall c :: s.objs.Marked(ClassObject(c)) <==> c in scope[..i]
      invariant forall x :: x in s.roots <==> exists c :: c in scope[..i] && x == ClassObject(c)
      invariant forall x :: x in s.roots <==> s.objs.Marked(x)
      invariant Distinct(s.roots)
      invariant s.objs.fields == {} && s.objs.methods == {}
      invariant forall c, f :: c in scope[..i] && f in p.classes[c].Fields() ==> f in s.cond.ifClassRetained.fields
      invariant forall c, m :: c in scope[..i] && m in p.classes[c].Methods() ==> m in s.cond.ifClassRetained.methods
    {
      var c := scope[i];
      var k := p.classes[c];
      assert scope[..i + 1] == scope[..i] + [c];
      s := PushSeedClass(p, s, c);
      s := SeedFields(s, k.ifields, ClassRetained);
      s := SeedFields(s, k.sfields, ClassRetained);
      s := SeedMethods(s, k.dmethods, ClassRetained);
      s := SeedMethods(s, k.vmethods, ClassRetained);
      i := i + 1;
    }
    assert scope[..i] == scope;
  }

  /** Keeps the ids of `xs` that satisfy `keep`, in order. */
  function FilterIds(xs: seq<nat>, keep: nat -> bool): (r: seq<nat>)
    ensures forall x :: x in r <==> x in xs && keep(x)
  {
    if |xs| == 0 then []
    else if keep(xs[0]) then [xs[0]] + FilterIds(xs[1..], keep)
    else FilterIds(xs[1..], keep)
  }

  /** The conditions of an instance-field or virtual-method seed: both
      "dynamically referenced" and "instantiable" in relaxed mode, otherwise
      "retained". */
  function IVConds(relaxed: bool): set<Condition> {
    if relaxed then {ClassDynamicallyReferenced, ClassInstantiable} else {ClassRetained}
  }

  /** Relaxed mode applies to a class when the option is on and the class is
      not excluded. */
  predicate Relaxed(opts: ReachOptions, k: ClassInfo) {
    opts.relaxedKeepClassMembers && ConsiderDynamicallyReferenced(k)
  }

  predicate IFieldIsSeed(p: Program, opts: ReachOptions, f: FieldId) {
    f in p.fields && (p.fields[f].isRoot || (p.fields[f].isVolatile && !opts.relaxedKeepClassMembers))
  }

  predicate SFieldIsSeed(p: Program, f: FieldId) {
    f in p.fields && p.fields[f].isRoot
  }

  /** A static initializer that is missing or does real work. */
  predicate IsRootlikeClinit(mi: MethodInfo) {
    mi.isClinit && (!mi.hasCode || !mi.isTrivialClinit)
  }

  /** The no-argument constructor, kept for reflection unless disabled. */
  predicate IsRootlikeInit(opts: ReachOptions, mi: MethodInfo) {
    !opts.removeNoArgumentConstructors && mi.isArglessInit
  }

  predicate DMethodIsSeed(p: Program, opts: ReachOptions, m: MethodId) {
    m in p.methods &&
    (IsRootlikeClinit(p.methods[m]) || IsRootlikeInit(opts, p.methods[m]) || p.methods[m].isRoot)
  }

  /** The condition of a direct-method seed. */
  function DSeedCond(mi: MethodInfo, relaxed: bool): Condition {
    if mi.hasCode && !mi.isClinit && relaxed then ClassDynamicallyReferenced else ClassRetained
  }

  predicate VMethodIsSeed(p: Program, m: MethodId) {
    m in p.methods && p.methods[m].isRoot
  }

  /** Field `f` of class `k` is recorded under `cond` by `RootSetMarker::mark`. */
  predicate IsFieldSeed(p: Program, opts: ReachOptions, k: ClassInfo, cond: Condition, f: FieldId) {
    (f in k.ifields && IFieldIsSeed(p, opts, f) && cond in IVConds(Relaxed(opts, k))) ||
    (f in k.sfields && SFieldIsSeed(p, f) && cond == ClassRetained)
  }

  /** Method `m` of class `k` is recorded under `cond` by `RootSetMarker::mark`. */
  predicate IsMethodSeed(p: Program, opts: ReachOptions, k: ClassInfo, cond: Condition, m: MethodId) {
    (m in k.dmethods && DMethodIsSeed(p, opts, m) && DSeedCond(p.methods[m], Relaxed(opts, k)) == cond) ||
    (m in k.vmethods && VMethodIsSeed(p, m) && cond in IVConds(Relaxed(opts, k)))
  }

  /** Records each id of `fs` under every condition of `IVConds(relaxed)`. */
  function SeedFieldsUnder(s: Seeds, fs: seq<FieldId>, relaxed: bool): (r: Seeds)
    ensures r.objs == s.objs && r.roots == s.roots
    ensures forall cond, f :: f in r.cond.Slot(cond).fields <==> f in s.cond.Slot(cond).fields || (cond in IVConds(relaxed) && f in fs)
    ensures forall cond :: r.cond.Slot(cond).methods == s.cond.Slot(cond).methods
  {
    if relaxed then
      SeedFields(SeedFields(s, fs, ClassDynamicallyReferenced), fs, ClassInstantiable)
    else SeedFields(s, fs, ClassRetained)
  }

  function SeedMethodsUnder(s: Seeds, ms: seq<MethodId>, relaxed: bool): (r: Seeds)
    ensures r.objs == s.objs && r.roots == s.roots
    ensures forall cond, m :: m in r.cond.Slot(cond).methods <==> m in s.cond.Slot(cond).methods || (cond in IVConds(relaxed) && m in ms)
    ensures forall cond :: r.cond.Slot(cond).fields == s.cond.Slot(cond).fields
  {
    if relaxed then
      SeedMethods(SeedMethods(s, ms, ClassDynamicallyReferenced), ms, ClassInstantiable)
    else SeedMethods(s, ms, ClassRetained)
  }

  /** The field part of the per-class visitor of `RootSetMarker::mark`. */
  function SeedClassFields(p: Program, opts: ReachOptions, s: Seeds, k: ClassInfo): (r: Seeds)
    ensures r.objs == s.objs && r.roots == s.roots
    ensures forall cond, f :: f in r.cond.Slot(cond).fields <==> f in s.cond.Slot(cond).fields || IsFieldSeed(p, opts, k, cond, f)
    ensures forall cond :: r.cond.Slot(cond).methods == s.cond.Slot(cond).methods
  {
    var ifs := FilterIds(k.ifields, (f: nat) => IFieldIsSeed(p, opts, f));
    var sfs := FilterIds(k.sfields, (f: nat) => SFieldIsSeed(p, f));
    SeedFields(SeedFieldsUnder(s, ifs, Relaxed(opts, k)), sfs, ClassRetained)
  }

  /** The direct-method part: each seed goes under its own condition. */
  function SeedClassDMethods(p: Program, opts: ReachOptions, s: Seeds, k: ClassInfo): (r: Seeds)
    ensures r.objs == s.objs && r.roots == s.roots
    ensures forall cond :: r.cond.Slot(cond).fields == s.cond.Slot(cond).fields
    ensures forall cond, m :: m in r.cond.Slot(cond).methods <==>
      (m in s.cond.Slot(cond).methods ||
       (m in k.dmethods && DMethodIsSeed(p, opts, m) && DSeedCond(p.methods[m], Relaxed(opts, k)) == cond))
  {
    var relaxed := Relaxed(opts, k);
    var dDyn := FilterIds(k.dmethods, (m: nat) => DMethodIsSeed(p, opts, m) && DSeedCond(p.methods[m], relaxed) == ClassDynamicallyReferenced);
    var dRet := FilterIds(k.dmethods, (m: nat) => DMethodIsSeed(p, opts, m) && DSeedCond(p.methods[m], relaxed) == ClassRetained);
    SeedMethods(SeedMethods(s, dDyn, ClassDynamicallyReferenced), dRet, ClassRetained)
  }

  /** The method part of the per-class visitor. */
  function SeedClassMethods(p: Program, opts: ReachOptions, s: Seeds, k: ClassInfo): (r: Seeds)
    ensures r.objs == s.objs && r.roots == s.roots
    ensures forall cond :: r.cond.Slot(cond).fields == s.cond.Slot(cond).fields
    ensures forall cond, m :: m in r.cond.Slot(cond).methods <==> m in s.cond.Slot(cond).methods || IsMethodSeed(p, opts, k, cond, m)
  {
    var vms := FilterIds(k.vmethods, (m: nat) => VMethodIsSeed(p, m));
    SeedMethodsUnder(SeedClassDMethods(p, opts, s, k), vms, Relaxed(opts, k))
  }

  /** The per-class visitor of `RootSetMarker::mark`. */
  function SeedClass(p: Program, opts: ReachOptions, s: Seeds, c: ClassId): (r: Seeds)
    requires c in p.classes
    ensures forall x :: x in r.roots <==> x in s.roots || (ShouldMarkCls(p.classes[c]) && x == ClassObject(c))
    ensures forall x :: r.objs.Marked(x) <==> s.objs.Marked(x) || (ShouldMarkCls(p.classes[c]) && x == ClassObject(c))
    ensures Distinct(s.roots) ==> Distinct(r.roots)
    ensures forall cond, f :: f in r.cond.Slot(cond).fields <==> f in s.cond.Slot(cond).fields || IsFieldSeed(p, opts, p.classes[c], cond, f)
    ensures forall cond, m :: m in r.cond.Slot(cond).methods <==> m in s.cond.Slot(cond).methods || IsMethodSeed(p, opts, p.classes[c], cond, m)
  {
    var k := p.classes[c];
    var s1 := if ShouldMarkCls(k) then PushSeedClass(p, s, c) else s;
    SeedClassMethods(p, opts, SeedClassFields(p, opts, s1, k), k)
  }

  /** `m` is an internal method overriding or implementing an external one. */
  predicate IsExternalOverrider(p: Program, m: MethodId) {
    m in p.methods && !p.methods[m].isExternal &&
    exists e :: e in p.methods && p.methods[e].isExternal && m in p.methods[e].overriders
  }

  /** `mark_external_method_overriders`: every internal overrider of an
      external method is retained if its class is instantiable. The source's
      visited set only skips external methods whose overriders were already
      recorded, so it does not change the result and is not modelled. */
  method MarkExternalMethodOverriders(p: Program, s0: Seeds) returns (s: Seeds)
    ensures s.objs == s0.objs && s.roots == s0.roots
    ensures forall d :: d != ClassInstantiable ==> s.cond.Slot(d) == s0.cond.Slot(d)
    ensures s.cond.ifClassInstantiable.fields == s0.cond.ifClassInstantiable.fields
    ensures forall m :: m in s.cond.ifClassInstantiable.methods <==>
      (m in s0.cond.ifClassInstantiable.methods || IsExternalOverrider(p, m))
  {
    s := s0;
    var todo := p.methods.Keys;
    while todo != {}
      invariant todo <= p.methods.Keys
      invariant s.objs == s0.objs && s.roots == s0.roots
      invariant forall d :: d != ClassInstantiable ==> s.cond.Slot(d) == s0.cond.Slot(d)
      invariant s.cond.ifClassInstantiable.fields == s0.cond.ifClassInstantiable.fields
      invariant forall m :: m in s.cond.ifClassInstantiable.methods <==>
        (m in s0.cond.ifClassInstantiable.methods ||
         (m in p.methods && !p.methods[m].isExternal &&
          exists e :: e in p.methods.Keys - todo && p.methods[e].isExternal && m in p.methods[e].overriders))
      decreases todo
    {
      var e :| e in todo;
      if p.methods[e].isExternal {
        var internal := FilterIds(p.methods[e].overriders, (o: nat) => o in p.methods && !p.methods[o].isExternal);
        s := SeedMethods(s, internal, ClassInstantiable);
      }
      todo := todo - {e};
    }
  }

  /** `s` holds exactly the seeds of the classes `cs`. */
  ghost predicate SeededFrom(p: Program, opts: ReachOptions, s: Seeds, cs: seq<ClassId>)
    requires forall c :: c in cs ==> c in p.classes
  {
    (forall x :: x in s.roots <==> s.objs.Marked(x)) &&
    Distinct(s.roots) &&
    (forall x :: x in s.roots <==> exists c :: c in cs && ShouldMarkCls(p.classes[c]) && x == ClassObject(c)) &&
    (forall cond, f :: f in s.cond.Slot(cond).fields <==>
      exists c :: c in cs && IsFieldSeed(p, opts, p.classes[c], cond, f)) &&
    (forall cond, m :: m in s.cond.Slot(cond).methods <==>
      exists c :: c in cs && IsMethodSeed(p, opts, p.classes[c], cond, m))
  }

  /** Visiting one more class adds exactly its seeds. */
  lemma SeedClassStep(p: Program, opts: ReachOptions, s: Seeds, cs: seq<ClassId>, c: ClassId)
    requires (forall d :: d in cs ==> d in p.classes) && c in p.classes
    requires SeededFrom(p, opts, s, cs)
    ensures SeededFrom(p, opts, SeedClass(p, opts, s, c), cs + [c])
  {
    var r := SeedClass(p, opts, s, c);
    forall x ensures x in r.roots <==> exists d :: d in cs + [c] && ShouldMarkCls(p.classes[d]) && x == ClassObject(d) {
      if x in r.roots && !(x in s.roots) {
        assert c in cs + [c];
      }
    }
    forall cond, f ensures f in r.cond.Slot(cond).fields <==> exists d :: d in cs + [c] && IsFieldSeed(p, opts, p.classes[d], cond, f) {
      if f in r.cond.Slot(cond).fields && !(f in s.cond.Slot(cond).fields) {
        assert c in cs + [c];
      }
    }
    forall cond, m ensures m in r.cond.Slot(cond).methods <==> exists d :: d in cs + [c] && IsMethodSeed(p, opts, p.classes[d], cond, m) {
      if m in r.cond.Slot(cond).methods && !(m in s.cond.Slot(cond).methods) {
        assert c in cs + [c];
      }
    }
  }

  /** The per-class part of `RootSetMarker::mark`, over the whole scope. */
  method SeedScope(p: Program, opts: ReachOptions) returns (s: Seeds)
    requires forall c :: c in Scope(p) ==> c in p.classes
    ensures forall x :: x in s.roots <==> s.objs.Marked(x)
    ensures Distinct(s.roots)
    ensures forall x :: x in s.roots <==> exists c :: c in Scope(p) && ShouldMarkCls(p.classes[c]) && x == ClassObject(c)
    ensures forall cond, f :: f in s.cond.Slot(cond).fields <==>
      exists c :: c in Scope(p) && IsFieldSeed(p, opts, p.classes[c], cond, f)
    ensures forall cond, m :: m in s.cond.Slot(cond).methods <==>
      exists c :: c in Scope(p) && IsMethodSeed(p, opts, p.classes[c], cond, m)
  {
    var scope := Scope(p);
    s := NoSeeds();
    var i := 0;
    while i < |scope|
      invariant 0 <= i <= |scope|
      invariant SeededFrom(p, opts, s, scope[..i])
    {
      assert scope[..i + 1] == scope[..i] + [scope[i]];
      SeedClassStep(p, opts, s, scope[..i], scope[i]);
      s := SeedClass(p, opts, s, scope[i]);
      i := i + 1;
    }
    assert scope[..i] == scope;
  }

  /** The conditional slots of `s` hold exactly the member seeds of the
      scope, plus the external overriders under "if class instantiable". */
  ghost predicate SeedSlots(p: Program, opts: ReachOptions, s: Seeds)
    requires forall c :: c in Scope(p) ==> c in p.classes
  {
    (forall cond, f {:trigger f in s.cond.Slot(cond).fields} :: f in s.cond.Slot(cond).fields <==>
      exists c :: c in Scope(p) && IsFieldSeed(p, opts, p.classes[c], cond, f)) &&
    (forall cond, m {:trigger m in s.cond.Slot(cond).methods} :: m in s.cond.Slot(cond).methods <==>
      ((exists c :: c in Scope(p) && IsMethodSeed(p, opts, p.classes[c], cond, m)) ||
       (cond == ClassInstantiable && IsExternalOverrider(p, m))))
  }

  /** `RootSetMarker::mark`: seed classes are the roots and the canaries;
      members are recorded under the conditions the keep rules and options
      call for; then the external overriders are recorded. */
  method MarkRoots(p: Program, opts: ReachOptions) returns (s: Seeds)
    requires forall c :: c in Scope(p) ==> c in p.classes
    ensures forall x :: x in s.roots <==> s.objs.Marked(x)
    ensures Distinct(s.roots)
    ensures forall x :: x in s.roots <==> exists c :: c in Scope(p) && ShouldMarkCls(p.classes[c]) && x == ClassObject(c)
    ensures forall cond, f :: f in s.cond.Slot(cond).fields <==>
      exists c :: c in Scope(p) && IsFieldSeed(p, opts, p.classes[c], cond, f)
    ensures forall cond, m :: m in s.cond.Slot(cond).methods <==>
      ((exists c :: c in Scope(p) && IsMethodSeed(p, opts, p.classes[c], cond, m)) ||
       (cond == ClassInstantiable && IsExternalOverrider(p, m)))
    ensures SeedSlots(p, opts, s)
  {
    var before := SeedScope(p, opts);
    s := MarkExternalMethodOverriders(p, before);
    forall cond ensures s.cond.Slot(cond).fields == before.cond.Slot(cond).fields {
      if cond != ClassInstantiable {
        assert s.cond.Slot(cond) == before.cond.Slot(cond);
      }
    }
    forall cond, m ensures m in s.cond.Slot(cond).methods <==>
      (m in before.cond.Slot(cond).methods || (cond == ClassInstantiable && IsExternalOverrider(p, m)))
    {
      if cond != ClassInstantiable {
        assert s.cond.Slot(cond) == before.cond.Slot(cond);
      }
    }
  }
}

=== FILE: reach_sweep.dfy ===
/** `sweep` and `count_objects`: removing what the marker left unmarked, and
    counting the classes, fields and methods that remain in the dexes. */
module ReachSweep {
  import opened ReachProgram
  import opened ReachObjects
  import opened ReachSeed
  import opened ReachClosure
  import opened ReachMarker

  /** `sweep_if_unmarked` on a member or class list: keeps exactly the marked
      elements, each as often as it occurred. (The source partitions the list
      in place, which leaves the kept elements in an unspecified order; the
      model keeps them in their original order.) */
  function KeepMarked(xs: seq<nat>, marked: set<nat>): (r: seq<nat>)
    ensures forall x :: x in r <==> x in xs && x in marked
    ensures |r| <= |xs|
  {
    if |xs| == 0 then []
    else if xs[0] in marked then [xs[0]] + KeepMarked(xs[1..], marked)
    else KeepMarked(xs[1..], marked)
  }

  /** Each marked element is kept as often as it occurs, and no unmarked
      element is kept. */
  lemma {:induction false} KeepMarkedMultiset(xs: seq<nat>, marked: set<nat>)
    ensures forall x :: multiset(KeepMarked(xs, marked))[x] == if x in marked then multiset(xs)[x] else 0
  {
    if |xs| > 0 {
      KeepMarkedMultiset(xs[1..], marked);
      assert xs == [xs[0]] + xs[1..];
    }
  }

  /** Sweeping a list whose elements are all marked changes nothing. */
  lemma {:induction false} KeepMarkedAll(xs: seq<nat>, marked: set<nat>)
    requires forall x :: x in xs ==> x in marked
    ensures KeepMarked(xs, marked) == xs
  {
    if |xs| > 0 {
      KeepMarkedAll(xs[1..], marked);
      assert xs == [xs[0]] + xs[1..];
    }
  }

  /** Sweeping twice is sweeping once. */
  lemma KeepMarkedIdempotent(xs: seq<nat>, marked: set<nat>)
    ensures KeepMarked(KeepMarked(xs, marked), marked) == KeepMarked(xs, marked)
  {
    KeepMarkedAll(KeepMarked(xs, marked), marked);
  }

  /** Sweeping the dexes one by one is sweeping the whole scope. */
  lemma {:induction false} FlattenKeepMarked(dexes: seq<seq<ClassId>>, marked: set<ClassId>)
    ensures Flatten(SweepDexes(dexes, marked)) == KeepMarked(Flatten(dexes), marked)
  {
    if |dexes| > 0 {
      FlattenKeepMarked(dexes[1..], marked);
      assert SweepDexes(dexes, marked)[1..] == SweepDexes(dexes[1..], marked);
      KeepMarkedAppend(dexes[0], Flatten(dexes[1..]), marked);
    }
  }

  lemma {:induction false} KeepMarkedAppend(xs: seq<nat>, ys: seq<nat>, marked: set<nat>)
    ensures KeepMarked(xs + ys, marked) == KeepMarked(xs, marked) + KeepMarked(ys, marked)
  {
    if |xs| > 0 {
      KeepMarkedAppend(xs[1..], ys, marked);
      assert (xs + ys)[0] == xs[0];
      assert (xs + ys)[1..] == xs[1..] + ys;
      if xs[0] in marked {
        assert KeepMarked(xs + ys, marked) == [xs[0]] + KeepMarked(xs[1..] + ys, marked);
        assert KeepMarked(xs, marked) == [xs[0]] + KeepMarked(xs[1..], marked);
      } else {
        assert KeepMarked(xs + ys, marked) == KeepMarked(xs[1..] + ys, marked);
      }
    } else {
      assert xs + ys == ys;
    }
  }

  function SweepDexes(dexes: seq<seq<ClassId>>, marked: set<ClassId>): (r: seq<seq<ClassId>>)
    ensures |r| == |dexes|
    ensures forall i :: 0 <= i < |dexes| ==> r[i] == KeepMarked(dexes[i], marked)
  {
    if |dexes| == 0 then [] else [KeepMarked(dexes[0], marked)] + SweepDexes(dexes[1..], marked)
  }

  /** A swept class loses all its members; a kept class loses its unmarked
      members. Nothing else about the class changes. */
  function SweepClass(k: ClassInfo, swept: bool, objs: ReachableObjects): (r: ClassInfo)
    ensures r == k.(ifields := r.ifields, sfields := r.sfields, dmethods := r.dmethods, vmethods := r.vmethods)
    ensures swept ==> r.Fields() == [] && r.Methods() == []
    ensures !swept ==> forall f :: f in r.Fields() <==> f in k.Fields() && f in objs.fields
    ensures !swept ==> forall m :: m in r.Methods() <==> m in k.Methods() && m in objs.methods
    ensures |r.Fields()| <= |k.Fields()| && |r.Methods()| <= |k.Methods()|
  {
    if swept then k.(ifields := [], sfields := [], dmethods := [], vmethods := [])
    else
      k.(ifields := KeepMarked(k.ifields, objs.fields), sfields := KeepMarked(k.sfields, objs.fields),
         dmethods := KeepMarked(k.dmethods, objs.methods), vmethods := KeepMarked(k.vmethods, objs.methods))
  }

  /** `sweep`: unmarked classes leave their dex; the classes of the scope that
      left have every member deleted, and the others keep only their marked
      members. Deleting from the global field and method registries is not
      modelled, so the maps are unchanged. */
  function Sweep(p: Program, objs: ReachableObjects): (r: Program)
    ensures forall c :: c in Scope(r) <==> c in Scope(p) && c in objs.classes
    ensures r.classes.Keys == p.classes.Keys
    ensures forall c :: c in Scope(p) && c in p.classes && c !in objs.classes ==>
      r.classes[c].Fields() == [] && r.classes[c].Methods() == []
    ensures forall c, f :: c in Scope(r) && c in p.classes ==>
      (f in r.classes[c].Fields() <==> f in p.classes[c].Fields() && f in objs.fields)
    ensures forall c, m :: c in Scope(r) && c in p.classes ==>
      (m in r.classes[c].Methods() <==> m in p.classes[c].Methods() && m in objs.methods)
    ensures forall c :: c in p.classes && c !in Scope(p) ==> r.classes[c] == p.classes[c]
    ensures r.fields == p.fields && r.methods == p.methods && r.typeNames == p.typeNames
  {
    var r := Program(SweepClasses(p.classes, Scope(p), objs), p.fields, p.methods, p.typeNames,
                     SweepDexes(p.dexes, objs.classes));
    FlattenKeepMarked(p.dexes, objs.classes);
    r
  }

  /** The classes of `scope` after the sweep; the others are untouched. */
  function SweepClasses(classes: map<ClassId, ClassInfo>, scope: seq<ClassId>, objs: ReachableObjects)
    : (r: map<ClassId, ClassInfo>)
    ensures r.Keys == classes.Keys
    ensures forall c :: c in classes ==>
      r[c] == if c in scope then SweepClass(classes[c], c !in objs.classes, objs) else classes[c]
  {
    map c | c in classes :: if c in scope then SweepClass(classes[c], c !in objs.classes, objs) else classes[c]
  }

  /** After a sweep every class left in a dex is marked, and so is every
      member of such a class. */
  lemma SweepLeavesOnlyMarked(p: Program, objs: ReachableObjects)
    requires forall c :: c in Scope(p) ==> c in p.classes
    ensures var r := Sweep(p, objs);
      forall c :: c in Scope(r) ==> (objs.Marked(ClassObject(c)) &&
        (forall f :: f in r.classes[c].Fields() ==> objs.Marked(FieldObject(f))) &&
        (forall m :: m in r.classes[c].Methods() ==> objs.Marked(MethodObject(m))))
  {
  }

  /** Sweeping twice is sweeping once. */
  lemma SweepIdempotent(p: Program, objs: ReachableObjects)
    ensures Sweep(Sweep(p, objs), objs) == Sweep(p, objs)
  {
    var r := Sweep(p, objs);
    var rr := Sweep(r, objs);
    assert rr.dexes == r.dexes by {
      forall i | 0 <= i < |p.dexes| ensures rr.dexes[i] == r.dexes[i] {
        KeepMarkedIdempotent(p.dexes[i], objs.classes);
      }
    }
    assert rr.classes == r.classes by {
      forall c | c in p.classes ensures rr.classes[c] == r.classes[c] {
        SweepClassIdempotent(p, objs, c);
      }
    }
  }

  lemma SweepClassIdempotent(p: Program, objs: ReachableObjects, c: ClassId)
    requires c in p.classes
    ensures Sweep(Sweep(p, objs), objs).classes[c] == Sweep(p, objs).classes[c]
  {
    var r := Sweep(p, objs);
    var k := p.classes[c];
    if c in Scope(r) {
      assert c in Scope(p) && c in objs.classes;
      assert r.classes[c] == SweepClass(k, false, objs);
      KeepMarkedIdempotent(k.ifields, objs.fields);
      KeepMarkedIdempotent(k.sfields, objs.fields);
      KeepMarkedIdempotent(k.dmethods, objs.methods);
      KeepMarkedIdempotent(k.vmethods, objs.methods);
    }
  }

  /** The members of the classes of the scope are known fields and methods
      (as on a well-formed program). */
  ghost predicate ScopeMembersKnown(p: Program) {
    (forall c, f :: c in Scope(p) && c in p.classes && f in p.classes[c].Fields() ==> f in p.fields) &&
    (forall c, m :: c in Scope(p) && c in p.classes && m in p.classes[c].Methods() ==> m in p.methods)
  }

  lemma WellFormedScopeMembersKnown(p: Program)
    requires WellFormed(p)
    ensures ScopeMembersKnown(p)
  {
  }

  /** When every class of the scope and every member of those classes is
      marked, sweeping changes nothing. */
  lemma SweepAllMarkedIsIdentity(p: Program, objs: ReachableObjects)
    requires ScopeMembersKnown(p)
    requires forall c :: c in Scope(p) ==> c in p.classes && objs.Marked(ClassObject(c))
    requires forall c, f :: c in Scope(p) && f in p.classes[c].Fields() && f in p.fields ==> objs.Marked(FieldObject(f))
    requires forall c, m :: c in Scope(p) && m in p.classes[c].Methods() && m in p.methods ==> objs.Marked(MethodObject(m))
    ensures Sweep(p, objs) == p
  {
    var r := Sweep(p, objs);
    assert r.dexes == p.dexes by {
      forall i | 0 <= i < |p.dexes| ensures r.dexes[i] == p.dexes[i] {
        forall c | c in p.dexes[i] ensures c in objs.classes {
          assert c in Scope(p);
          assert objs.Marked(ClassObject(c));
        }
        KeepMarkedAll(p.dexes[i], objs.classes);
      }
    }
    assert r.classes == p.classes by {
      forall c | c in p.classes ensures r.classes[c] == p.classes[c] {
        if c in Scope(p) {
          AllMarkedClassKept(p, objs, c);
        }
      }
    }
  }

  lemma AllMarkedClassKept(p: Program, objs: ReachableObjects, c: ClassId)
    requires c in p.classes
    requires forall f :: f in p.classes[c].Fields() ==> objs.Marked(FieldObject(f))
    requires forall m :: m in p.classes[c].Methods() ==> objs.Marked(MethodObject(m))
    ensures SweepClass(p.classes[c], false, objs) == p.classes[c]
  {
    var k := p.classes[c];
    assert forall f :: f in k.ifields ==> f in k.Fields();
    assert forall f :: f in k.sfields ==> f in k.Fields();
    assert forall m :: m in k.dmethods ==> m in k.Methods();
    assert forall m :: m in k.vmethods ==> m in k.Methods();
    KeepMarkedAll(k.ifields, objs.fields);
    KeepMarkedAll(k.sfields, objs.fields);
    KeepMarkedAll(k.dmethods, objs.methods);
    KeepMarkedAll(k.vmethods, objs.methods);
  }

  // --------------------------------------------------------------- counting

  /** Fields (instance and static) of the classes in `cs`. */
  function FieldCount(classes: map<ClassId, ClassInfo>, cs: seq<ClassId>): nat
    requires forall c :: c in cs ==> c in classes
  {
    if |cs| == 0 then 0 else |classes[cs[0]].Fields()| + FieldCount(classes, cs[1..])
  }

  /** Methods (direct and virtual) of the classes in `cs`. */
  function MethodCount(classes: map<ClassId, ClassInfo>, cs: seq<ClassId>): nat
    requires forall c :: c in cs ==> c in classes
  {
    if |cs| == 0 then 0 else |classes[cs[0]].Methods()| + MethodCount(classes, cs[1..])
  }

  /** `count_objects`: the classes of all dexes, with their fields and
      methods. */
  function CountObjects(p: Program): (r: ObjectCounts)
    requires forall c :: c in Scope(p) ==> c in p.classes
    ensures r.numClasses == |Scope(p)|
    ensures r.numFields == FieldCount(p.classes, Scope(p)) && r.numMethods == MethodCount(p.classes, Scope(p))
  {
    ObjectCounts(|Scope(p)|, FieldCount(p.classes, Scope(p)), MethodCount(p.classes, Scope(p)))
  }

  lemma {:induction false} SweptCountsNoMore(p: Program, objs: ReachableObjects, cs: seq<ClassId>)
    requires forall c :: c in cs ==> c in p.classes && c in Scope(p)
    ensures var r := Sweep(p, objs);
      FieldCount(r.classes, KeepMarked(cs, objs.classes)) <= FieldCount(p.classes, cs) &&
      MethodCount(r.classes, KeepMarked(cs, objs.classes)) <= MethodCount(p.classes, cs)
  {
    if |cs| > 0 {
      SweptCountsNoMore(p, objs, cs[1..]);
    }
  }

  /** A sweep never adds classes, fields or methods. */
  lemma SweepCountsNoMore(p: Program, objs: ReachableObjects)
    requires forall c :: c in Scope(p) ==> c in p.classes
    ensures var r := Sweep(p, objs);
      CountObjects(r).numClasses <= CountObjects(p).numClasses &&
      CountObjects(r).numFields <= CountObjects(p).numFields &&
      CountObjects(r).numMethods <= CountObjects(p).numMethods
  {
    FlattenKeepMarked(p.dexes, objs.classes);
    SweptCountsNoMore(p, objs, Scope(p));
  }

  /** Marking everything as a seed and sweeping leaves the program, and so
      every count, unchanged. */
  method MarkAllThenSweep(p: Program, ign: IgnoreSets, opts: ReachOptions) returns (r: Program)
    requires WellFormed(p)
    requires forall c :: c in Scope(p) ==> c in p.classes
    requires ModelledOptions(opts) && opts.shouldMarkAllAsSeed
    ensures r == p
    ensures CountObjects(r) == CountObjects(p)
  {
    var marking := ComputeReachableObjects(p, ign, opts);
    WellFormedScopeMembersKnown(p);
    SweepAllMarkedIsIdentity(p, marking.objs);
    r := Sweep(p, marking.objs);
  }

  /** The marker followed by a sweep: the root-like classes of the scope
      survive, every class that survives was marked and visited, and no count
      grows. */
  method ReachabilityThenSweep(p: Program, ign: IgnoreSets, opts: ReachOptions) returns (r: Program)
    requires forall c :: c in Scope(p) ==> c in p.classes
    requires ModelledOptions(opts)
    ensures forall c :: c in Scope(p) && ShouldMarkCls(p.classes[c]) ==> c in Scope(r)
    ensures forall c :: c in Scope(r) ==> c in Scope(p) && c in r.classes
    ensures CountObjects(r).numClasses <= CountObjects(p).numClasses
    ensures CountObjects(r).numFields <= CountObjects(p).numFields
    ensures CountObjects(r).numMethods <= CountObjects(p).numMethods
  {
    var marking := ComputeReachableObjects(p, ign, opts);
    r := SweepMarked(p, marking.objs);
  }

  /** The sweep seen from the marking: marked classes of the scope survive,
      only classes of the scope survive, and no count grows. */
  function SweepMarked(p: Program, objs: ReachableObjects): (r: Program)
    requires forall c :: c in Scope(p) ==> c in p.classes
    ensures forall c :: c in Scope(p) && objs.Marked(ClassObject(c)) ==> c in Scope(r)
    ensures forall c :: c in Scope(r) ==> c in Scope(p) && c in r.classes
    ensures CountObjects(r).numClasses <= CountObjects(p).numClasses
    ensures CountObjects(r).numFields <= CountObjects(p).numFields
    ensures CountObjects(r).numMethods <= CountObjects(p).numMethods
  {
    SweepCountsNoMore(p, objs);
    Sweep(p, objs)
  }
}

=== FILE: reach_visit.dfy ===
/** The per-object visitors of the transitive-closure marker (`visit_cls`,
    `visit_field_ref`, `visit_method_ref`) and the conditional pushes they
    use, together with what a visited object guarantees about the marking. */
module ReachVisit {
  import opened Wrappers
  import opened ReachProgram
  import opened ReachObjects
  import opened ReachResolve
  import opened ReachSeed
  import opened ReachClosure

  /** A step that also keeps the instantiable set closed on well-formed
      programs. */
  ghost predicate Grows(p: Program, w: MarkState, r: MarkState) {
    Step(p, w, r) && (WellFormed(p) && InstClosed(p, w) ==> InstClosed(p, r))
  }

  lemma GrowsTrans(p: Program, a: MarkState, b: MarkState, c: MarkState)
    requires Grows(p, a, b) && Grows(p, b, c)
    ensures Grows(p, a, c)
  {
    StepTrans(p, a, b, c);
  }

  lemma PushGrows(p: Program, w: MarkState, r: MarkState)
    requires PushStep(p, w, r)
    ensures Grows(p, w, r)
  {
    forall c | c in r.instantiable && InstClosedFor(p, w, c) ensures InstClosedFor(p, r, c) {
      InstClosedForMono(p, w, r, c);
    }
  }

  lemma InstGrows(p: Program, w: MarkState, r: MarkState)
    requires InstStep(p, w, r)
    ensures Grows(p, w, r)
  {
    forall c | c in w.instantiable && InstClosedFor(p, w, c) ensures InstClosedFor(p, r, c) {
      InstClosedForMono(p, w, r, c);
    }
  }

  /** `push_if_class_instantiable(method)`: a null or marked method is
      ignored; otherwise the method is recorded as waiting for its class, and
      pushed at once if the class is already instantiable. */
  function PushIfInstantiableMethod(p: Program, w: MarkState, m: MethodId): (r: MarkState)
    ensures Grows(p, w, r)
    ensures r.instantiable == w.instantiable && r.ignoredStrings == w.ignoredStrings
    ensures r.cond.ifClassInstantiable.fields == w.cond.ifClassInstantiable.fields
    ensures m !in p.methods || w.objs.Marked(MethodObject(m)) ==> r == w
    ensures m in p.methods && !w.objs.Marked(MethodObject(m)) ==>
      r.cond.ifClassInstantiable.methods == w.cond.ifClassInstantiable.methods + {m} &&
      (r.objs.Marked(MethodObject(m)) <==> p.methods[m].owner in w.instantiable)
  {
    if m !in p.methods || w.objs.Marked(MethodObject(m)) then w
    else
      var w1 := w.(cond := w.cond.WithMethod(m, ClassInstantiable));
      var r := if p.methods[m].owner in w.instantiable then PushMethod(p, w1, m) else w1;
      WaitingMethodGrows(p, w, w1, r, m);
      r
  }

  lemma WaitingMethodGrows(p: Program, w: MarkState, w1: MarkState, r: MarkState, m: MethodId)
    requires m in p.methods
    requires w1 == w.(cond := w.cond.WithMethod(m, ClassInstantiable))
    requires PushStep(p, w1, r)
    requires p.methods[m].owner in w.instantiable ==> r.objs.Marked(MethodObject(m))
    ensures Grows(p, w, r)
  {
    assert Step(p, w, w1) by {
      forall done | QueueInv(p, w, done) ensures QueueInv(p, w1, done) {
      }
    }
    StepTrans(p, w, w1, r);
    MarkedMono(w.objs, r.objs);
    if WellFormed(p) && InstClosed(p, w) {
      forall c | c in r.instantiable ensures InstClosedFor(p, r, c) {
        assert InstClosedFor(p, w, c);
        var k := p.classes[c];
        forall n | n in k.Methods() && n in p.methods && n in r.cond.ifClassInstantiable.methods
          ensures r.objs.Marked(MethodObject(n))
        {
          if n == m {
            assert p.methods[m].owner == c;
          }
        }
      }
    }
  }

  /** `push_if_class_instantiable(field)`: as for methods. */
  function PushIfInstantiableField(p: Program, w: MarkState, f: FieldId): (r: MarkState)
    ensures Grows(p, w, r)
    ensures r.instantiable == w.instantiable && r.ignoredStrings == w.ignoredStrings
    ensures r.cond.ifClassInstantiable.methods == w.cond.ifClassInstantiable.methods
    ensures f !in p.fields || w.objs.Marked(FieldObject(f)) ==> r == w
    ensures f in p.fields && !w.objs.Marked(FieldObject(f)) ==>
      r.cond.ifClassInstantiable.fields == w.cond.ifClassInstantiable.fields + {f} &&
      (r.objs.Marked(FieldObject(f)) <==> p.fields[f].owner in w.instantiable)
  {
    if f !in p.fields || w.objs.Marked(FieldObject(f)) then w
    else
      var w1 := w.(cond := w.cond.WithField(f, ClassInstantiable));
      var r := if p.fields[f].owner in w.instantiable then PushField(p, w1, f) else w1;
      WaitingFieldGrows(p, w, w1, r, f);
      r
  }

  lemma WaitingFieldGrows(p: Program, w: MarkState, w1: MarkState, r: MarkState, f: FieldId)
    requires f in p.fields
    requires w1 == w.(cond := w.cond.WithField(f, ClassInstantiable))
    requires PushStep(p, w1, r)
    requires p.fields[f].owner in w.instantiable ==> r.objs.Marked(FieldObject(f))
    ensures Grows(p, w, r)
  {
    assert Step(p, w, w1) by {
      forall done | QueueInv(p, w, done) ensures QueueInv(p, w1, done) {
      }
    }
    StepTrans(p, w, w1, r);
    MarkedMono(w.objs, r.objs);
    if WellFormed(p) && InstClosed(p, w) {
      forall c | c in r.instantiable ensures InstClosedFor(p, r, c) {
        assert InstClosedFor(p, w, c);
        var k := p.classes[c];
        forall g | g in k.ifields && g in p.fields && g in r.cond.ifClassInstantiable.fields
          ensures r.objs.Marked(FieldObject(g))
        {
          if g == f {
            assert g in k.Fields();
            assert p.fields[f].owner == c;
          }
        }
      }
    }
  }

  /** A method is either marked or waits for its class to be instantiable. */
  ghost predicate MarkedOrWaiting(p: Program, w: MarkState, m: MethodId) {
    m in p.methods ==> w.objs.Marked(MethodObject(m)) || m in w.cond.ifClassInstantiable.methods
  }

  function PushIfInstantiableMethods(p: Program, w: MarkState, ms: seq<MethodId>): (r: MarkState)
    decreases |ms|
    ensures Grows(p, w, r)
    ensures r.instantiable == w.instantiable && r.ignoredStrings == w.ignoredStrings
    ensures forall m :: m in ms ==> MarkedOrWaiting(p, r, m)
  {
    if |ms| == 0 then w
    else
      var w1 := PushIfInstantiableMethod(p, w, ms[0]);
      var r := PushIfInstantiableMethods(p, w1, ms[1..]);
      GrowsTrans(p, w, w1, r);
      MarkedMono(w1.objs, r.objs);
      r
  }

  /** `push_if_class_retained(method)`: a null or marked method is ignored;
      otherwise the method is recorded as waiting for its class to be
      retained, and pushed at once if the class is already marked. (Only
      reached when class members are kept relaxedly, so the closure above
      never calls it.) */
  function PushIfRetainedMethod(p: Program, w: MarkState, m: MethodId): (r: MarkState)
    ensures w.objs.Below(r.objs) && r.instantiable == w.instantiable
    ensures forall done :: QueueInv(p, w, done) ==> QueueInv(p, r, done)
    ensures m !in p.methods || w.objs.Marked(MethodObject(m)) ==> r == w
    ensures m in p.methods && !w.objs.Marked(MethodObject(m)) ==>
      r.cond.ifClassRetained.methods == w.cond.ifClassRetained.methods + {m} &&
      (r.objs.Marked(MethodObject(m)) <==> w.objs.Marked(ClassObject(p.methods[m].owner)))
  {
    if m !in p.methods || w.objs.Marked(MethodObject(m)) then w
    else
      var w1 := w.(cond := w.cond.WithMethod(m, ClassRetained));
      assert forall done :: QueueInv(p, w, done) ==> QueueInv(p, w1, done);
      if w.objs.Marked(ClassObject(p.methods[m].owner)) then PushMethod(p, w1, m) else w1
  }

  /** `push_if_class_retained(field)`: as for methods. */
  function PushIfRetainedField(p: Program, w: MarkState, f: FieldId): (r: MarkState)
    ensures w.objs.Below(r.objs) && r.instantiable == w.instantiable
    ensures forall done :: QueueInv(p, w, done) ==> QueueInv(p, r, done)
    ensures f !in p.fields || w.objs.Marked(FieldObject(f)) ==> r == w
    ensures f in p.fields && !w.objs.Marked(FieldObject(f)) ==>
      r.cond.ifClassRetained.fields == w.cond.ifClassRetained.fields + {f} &&
      (r.objs.Marked(FieldObject(f)) <==> w.objs.Marked(ClassObject(p.fields[f].owner)))
  {
    if f !in p.fields || w.objs.Marked(FieldObject(f)) then w
    else
      var w1 := w.(cond := w.cond.WithField(f, ClassRetained));
      assert forall done :: QueueInv(p, w, done) ==> QueueInv(p, w1, done);
      if w.objs.Marked(ClassObject(p.fields[f].owner)) then PushField(p, w1, f) else w1
  }

  /** Retention works in either order: a method recorded after its class was
      marked is marked at once, and one recorded before is marked when the
      class is visited and its retained members are promoted. */
  lemma RetainedMethodEitherOrder(p: Program, w: MarkState, m: MethodId)
    requires m in p.methods && p.methods[m].owner in p.classes
    requires m in p.classes[p.methods[m].owner].Methods()
    ensures w.objs.Marked(ClassObject(p.methods[m].owner)) ==>
      PushIfRetainedMethod(p, w, m).objs.Marked(MethodObject(m))
    ensures PromoteRetained(p, PushIfRetainedMethod(p, w, m), p.methods[m].owner).objs.Marked(MethodObject(m))
  {
    var r := PushIfRetainedMethod(p, w, m);
    var c := p.methods[m].owner;
    var r2 := PromoteRetained(p, r, c);
    MarkedMono(r.objs, r2.objs);
    MarkedMono(w.objs, r.objs);
  }

  lemma RetainedFieldEitherOrder(p: Program, w: MarkState, f: FieldId)
    requires f in p.fields && p.fields[f].owner in p.classes
    requires f in p.classes[p.fields[f].owner].Fields()
    ensures w.objs.Marked(ClassObject(p.fields[f].owner)) ==>
      PushIfRetainedField(p, w, f).objs.Marked(FieldObject(f))
    ensures PromoteRetained(p, PushIfRetainedField(p, w, f), p.fields[f].owner).objs.Marked(FieldObject(f))
  {
    var r := PushIfRetainedField(p, w, f);
    var c := p.fields[f].owner;
    var r2 := PromoteRetained(p, r, c);
    MarkedMono(r.objs, r2.objs);
    MarkedMono(w.objs, r.objs);
  }

  // ---------------------------------------------------------------- classes

  /** The interface-instantiability test of `visit_cls`: annotations, roots
      and unrenamable interfaces, and interfaces with a root or unrenamable
      virtual method, are assumed to be implemented somewhere unseen. */
  predicate InterfaceInstantiable(p: Program, k: ClassInfo) {
    k.isAnnotation || k.isRoot || !k.canRename ||
    exists m :: m in k.vmethods && m in p.methods && (p.methods[m].isRoot || !p.methods[m].canRename)
  }

  /** Members of class `c` waiting for it to be retained are marked. */
  ghost predicate RetainedPromotedAt(p: Program, w: MarkState, c: ClassId)
    requires c in p.classes
  {
    var k := p.classes[c];
    (forall f :: f in k.Fields() && f in p.fields && f in w.cond.ifClassRetained.fields ==> w.objs.Marked(FieldObject(f))) &&
    (forall m :: m in k.Methods() && m in p.methods && m in w.cond.ifClassRetained.methods ==> w.objs.Marked(MethodObject(m)))
  }

  /** What visiting class `c` guarantees. */
  ghost predicate ClassClosed(p: Program, ign: IgnoreSets, w: MarkState, c: ClassId)
    requires c in p.classes
  {
    var k := p.classes[c];
    (k.isInterface && InterfaceInstantiable(p, k) && !k.isExternal ==> c in w.instantiable) &&
    (k.superClass.Some? && k.superClass.value in p.classes ==> w.objs.Marked(ClassObject(k.superClass.value))) &&
    (forall i :: i in k.interfaces && i in p.classes ==> w.objs.Marked(ClassObject(i))) &&
    (forall a :: a in k.annos && a.annoType !in ign.systemAnnos ==> RefsMarked(p, w, a.refs, true)) &&
    RetainedPromotedAt(p, w, c)
  }

  /** The annotations of a class: system annotations stop marking, the
      others have all their references pushed, strings included. */
  function PushAnnos(p: Program, ign: IgnoreSets, w: MarkState, annos: seq<Anno>): (r: MarkState)
    decreases |annos|
    ensures PushStep(p, w, r)
    ensures forall a :: a in annos && a.annoType !in ign.systemAnnos ==> RefsMarked(p, r, a.refs, true)
  {
    if |annos| == 0 then w
    else
      var w1 := if annos[0].annoType in ign.systemAnnos then w else PushRefs(p, w, annos[0].refs, true);
      var r := PushAnnos(p, ign, w1, annos[1..]);
      PushStepTrans(p, w, w1, r);
      if annos[0].annoType in ign.systemAnnos then r
      else
        RefsMarkedMono(p, w1, r, annos[0].refs, true);
        r
  }

  /** Pushes the members of `c` that wait for it to be retained. */
  function PromoteRetained(p: Program, w: MarkState, c: ClassId): (r: MarkState)
    requires c in p.classes
    ensures PushStep(p, w, r)
    ensures RetainedPromotedAt(p, r, c)
  {
    var k := p.classes[c];
    var pending := w.cond.ifClassRetained;
    var fs := FilterIds(k.Fields(), (f: nat) => f in pending.fields);
    var ms := FilterIds(k.Methods(), (m: nat) => m in pending.methods);
    var w1 := PushFields(p, w, fs);
    var r := PushMethods(p, w1, ms);
    PushStepTrans(p, w, w1, r);
    MarkedMono(w1.objs, r.objs);
    r
  }

  /** `instantiable(c)` when `cond` holds. */
  function InstantiableIf(p: Program, w: MarkState, c: ClassId, cond: bool): (r: MarkState)
    ensures InstStep(p, w, r)
    ensures cond && CanBeInstantiable(p, c) ==> c in r.instantiable
  {
    if cond then Instantiable(p, w, c)
    else
      assert Step(p, w, w) by {
        forall done | QueueInv(p, w, done) ensures QueueInv(p, w, done) {
        }
      }
      w
  }

  /** Pushes the superclass, if any. */
  function PushSuper(p: Program, w: MarkState, s: Option<ClassId>): (r: MarkState)
    ensures PushStep(p, w, r)
    ensures s.Some? && s.value in p.classes ==> r.objs.Marked(ClassObject(s.value))
  {
    match s
    case Some(c) => PushClass(p, w, c)
    case None => PushClasses(p, w, [])
  }

  /** `visit_cls`. */
  function VisitClass(p: Program, ign: IgnoreSets, w: MarkState, c: ClassId): (r: MarkState)
    requires c in p.classes
    ensures Grows(p, w, r) && r.ignoredStrings == w.ignoredStrings
    ensures ClassClosed(p, ign, r, c)
  {
    var k := p.classes[c];
    var w1 := InstantiableIf(p, w, c, k.isInterface && InterfaceInstantiable(p, k));
    var w2 := PushSuper(p, w1, k.superClass);
    var w3 := PushClasses(p, w2, k.interfaces);
    var w4 := PushAnnos(p, ign, w3, k.annos);
    var r := PromoteRetained(p, w4, c);
    VisitClassBookkeeping(p, ign, w, w1, w2, w3, w4, r, c);
    r
  }

  lemma VisitClassBookkeeping(p: Program, ign: IgnoreSets, w: MarkState, w1: MarkState, w2: MarkState,
                              w3: MarkState, w4: MarkState, r: MarkState, c: ClassId)
    requires c in p.classes
    requires InstStep(p, w, w1) && PushStep(p, w1, w2) && PushStep(p, w2, w3)
    requires PushStep(p, w3, w4) && PushStep(p, w4, r)
    requires var k := p.classes[c];
      k.isInterface && InterfaceInstantiable(p, k) && !k.isExternal ==> c in w1.instantiable
    requires var k := p.classes[c];
      k.superClass.Some? && k.superClass.value in p.classes ==> w2.objs.Marked(ClassObject(k.superClass.value))
    requires forall i :: i in p.classes[c].interfaces && i in p.classes ==> w3.objs.Marked(ClassObject(i))
    requires forall a :: a in p.classes[c].annos && a.annoType !in ign.systemAnnos ==> RefsMarked(p, w4, a.refs, true)
    requires RetainedPromotedAt(p, r, c)
    ensures Grows(p, w, r) && r.ignoredStrings == w.ignoredStrings
    ensures ClassClosed(p, ign, r, c)
  {
    InstGrows(p, w, w1);
    PushStepTrans(p, w1, w2, w3);
    PushStepTrans(p, w1, w3, w4);
    PushStepTrans(p, w1, w4, r);
    PushGrows(p, w1, r);
    GrowsTrans(p, w, w1, r);
    MarkedMono(w2.objs, r.objs);
    MarkedMono(w3.objs, r.objs);
    forall a | a in p.classes[c].annos && a.annoType !in ign.systemAnnos ensures RefsMarked(p, r, a.refs, true) {
      RefsMarkedMono(p, w4, r, a.refs, true);
    }
  }

  // ----------------------------------------------------------------- fields

  /** What visiting field `f` guarantees: the field it resolves to (when it
      is not concrete), its class and its type are marked. */
  ghost predicate FieldClosed(p: Program, w: MarkState, f: FieldId)
    requires f in p.fields
  {
    var fi := p.fields[f];
    (!fi.isConcrete && fi.resolved.Some? && fi.resolved.value in p.fields ==>
       w.objs.Marked(FieldObject(fi.resolved.value))) &&
    (fi.owner in p.classes ==> w.objs.Marked(ClassObject(fi.owner))) &&
    (fi.fieldType in p.classes ==> w.objs.Marked(ClassObject(fi.fieldType)))
  }

  /** `visit_field_ref`. */
  function VisitField(p: Program, w: MarkState, f: FieldId): (r: MarkState)
    requires f in p.fields
    ensures PushStep(p, w, r)
    ensures FieldClosed(p, r, f)
  {
    var fi := p.fields[f];
    var w1 := if !fi.isConcrete && fi.resolved.Some? then PushField(p, w, fi.resolved.value) else w;
    var w2 := PushClass(p, w1, fi.owner);
    var r := PushClass(p, w2, fi.fieldType);
    PushStepTrans(p, w, w1, w2);
    PushStepTrans(p, w, w2, r);
    MarkedMono(w1.objs, r.objs);
    MarkedMono(w2.objs, r.objs);
    r
  }

  // ---------------------------------------------------------------- methods

  /** The class has an annotation of one of the given types. */
  predicate HasAnnoIn(k: ClassInfo, annoTypes: set<ClassId>) {
    exists a :: a in k.annos && a.annoType in annoTypes
  }

  /** Whether the strings of method `m` are scanned for type names, and how
      much `num_ignore_check_strings` grows: scanning is on when every class
      name in strings is kept, or when the method has strings and calls
      `Class.forName`; it is then switched off, counting once, when the
      declaring class is listed in the string-literal ignore set or (if it is
      known) carries one of the string-literal ignore annotations. */
  function CheckStrings(p: Program, ign: IgnoreSets, m: MethodId): (r: (bool, nat))
    requires m in p.methods
    ensures var mi := p.methods[m];
      var wanted := ign.keepClassInString || (|mi.refs.strings| > 0 && mi.callsForName);
      var ignoredClass := mi.owner in ign.stringLiterals;
      var ignoredAnno := mi.owner in p.classes && HasAnnoIn(p.classes[mi.owner], ign.stringLiteralAnnos);
      (r.0 <==> wanted && !ignoredClass && !ignoredAnno) &&
      (r.1 == 1 <==> ignoredClass || (wanted && ignoredAnno)) &&
      r.1 <= 1
  {
    var mi := p.methods[m];
    var wanted := ign.keepClassInString || (|mi.refs.strings| > 0 && mi.callsForName);
    if mi.owner in ign.stringLiterals then (false, 1)
    else if wanted && mi.owner in p.classes && HasAnnoIn(p.classes[mi.owner], ign.stringLiteralAnnos) then (false, 1)
    else (wanted, 0)
  }

  /** What gathering the body of method `m` guarantees. */
  ghost predicate Gathered(p: Program, ign: IgnoreSets, w: MarkState, m: MethodId)
    requires m in p.methods
  {
    var refs := p.methods[m].refs;
    RefsMarked(p, w, refs, CheckStrings(p, ign, m).0) &&
    (forall v :: v in refs.vmethodsIfInstantiable ==> MarkedOrWaiting(p, w, v))
  }

  /** `gather_and_push(method)`: string scanning as decided above, then the
      referenced types, fields and methods, then the virtual methods kept only
      if their class is instantiable. */
  function GatherMethod(p: Program, ign: IgnoreSets, w: MarkState, m: MethodId): (r: MarkState)
    requires m in p.methods
    ensures Grows(p, w, r) && r.instantiable == w.instantiable
    ensures r.ignoredStrings == w.ignoredStrings + CheckStrings(p, ign, m).1
    ensures Gathered(p, ign, r, m)
  {
    var refs := p.methods[m].refs;
    var decision := CheckStrings(p, ign, m);
    var w1 := w.(ignoredStrings := w.ignoredStrings + decision.1);
    var w2 := PushRefs(p, w1, refs, decision.0);
    var r := PushIfInstantiableMethods(p, w2, refs.vmethodsIfInstantiable);
    CountGrows(p, w, w1);
    PushGrows(p, w1, w2);
    GrowsTrans(p, w, w1, w2);
    GrowsTrans(p, w, w2, r);
    RefsMarkedMono(p, w2, r, refs, decision.0);
    r
  }

  lemma CountGrows(p: Program, w: MarkState, r: MarkState)
    requires r == w.(ignoredStrings := r.ignoredStrings) && w.ignoredStrings <= r.ignoredStrings
    ensures Grows(p, w, r)
  {
    forall done | QueueInv(p, w, done) ensures QueueInv(p, r, done) {
    }
    assert forall c :: InstClosedFor(p, w, c) ==> InstClosedFor(p, r, c);
  }

  /** The fuel for resolution: an acyclic hierarchy is never deeper than the
      number of classes. */
  function ResolveFuel(p: Program): nat {
    |p.classes| + 1
  }

  /** On a hierarchy layered with ranks below the number of classes, the fuel
      the closure passes gives the same resolution as any larger fuel. */
  lemma ResolveFuelSuffices(p: Program, sig: string, c: Option<ClassId>, rank: map<ClassId, nat>, fuel: nat)
    requires Layered(p, rank) && forall d :: d in p.classes ==> rank[d] < |p.classes|
    requires fuel >= ResolveFuel(p)
    ensures Resolve(p, sig, c, ResolveFuel(p)) == Resolve(p, sig, c, fuel)
  {
    ResolveFuelIrrelevant(p, sig, c, rank, ResolveFuel(p), fuel);
  }

  /** The method a reference to `m` resolves to, from its declaring class. */
  function ResolveRef(p: Program, m: MethodId): (r: Option<MethodId>)
    requires m in p.methods
    ensures r.Some? ==> HasSig(p, r.value, p.methods[m].sig)
    ensures p.methods[m].owner !in p.classes ==> r.None?
  {
    Resolve(p, p.methods[m].sig, Some(p.methods[m].owner), ResolveFuel(p))
  }

  /** A constructor of a concrete class makes the class instantiable. */
  predicate MakesInstantiable(p: Program, m: MethodId)
    requires m in p.methods
  {
    var mi := p.methods[m];
    mi.owner in p.classes && !p.classes[mi.owner].isAbstract && mi.isInit
  }

  /** An interface method or a virtual method keeps its overriders, as far
      as their classes are instantiable. */
  predicate KeepsOverriders(p: Program, m: MethodId)
    requires m in p.methods
  {
    var mi := p.methods[m];
    mi.isDef && (mi.isVirtual || !mi.isConcrete)
  }

  /** What visiting method `m` guarantees. */
  ghost predicate MethodClosed(p: Program, ign: IgnoreSets, w: MarkState, m: MethodId)
    requires m in p.methods
  {
    var mi := p.methods[m];
    var res := ResolveRef(p, m);
    (res.Some? ==> w.objs.Marked(MethodObject(res.value))) &&
    (res == Some(m) ==> Gathered(p, ign, w, m)) &&
    (mi.owner in p.classes ==> w.objs.Marked(ClassObject(mi.owner))) &&
    (mi.rtype in p.classes ==> w.objs.Marked(ClassObject(mi.rtype))) &&
    (forall t :: t in mi.args && t in p.classes ==> w.objs.Marked(ClassObject(t))) &&
    (MakesInstantiable(p, m) && CanBeInstantiable(p, mi.owner) ==> mi.owner in w.instantiable) &&
    (KeepsOverriders(p, m) ==> forall o :: o in mi.overriders ==> MarkedOrWaiting(p, w, o))
  }

  /** The first half of `visit_method_ref`: the resolved method is pushed,
      and gathered when the reference is to itself. */
  function VisitResolved(p: Program, ign: IgnoreSets, w: MarkState, m: MethodId): (r: MarkState)
    requires m in p.methods
    ensures Grows(p, w, r) && r.instantiable == w.instantiable
    ensures r.ignoredStrings == w.ignoredStrings + (if ResolveRef(p, m) == Some(m) then CheckStrings(p, ign, m).1 else 0)
    ensures ResolveRef(p, m).Some? ==> r.objs.Marked(MethodObject(ResolveRef(p, m).value))
    ensures ResolveRef(p, m) == Some(m) ==> Gathered(p, ign, r, m)
  {
    var res := ResolveRef(p, m);
    if res.None? then w
    else
      var w1 := PushMethod(p, w, res.value);
      PushGrows(p, w, w1);
      if res.value == m then
        var r := GatherMethod(p, ign, w1, m);
        GrowsTrans(p, w, w1, r);
        MarkedMono(w1.objs, r.objs);
        r
      else w1
  }

  /** `visit_method_ref`. */
  function VisitMethod(p: Program, ign: IgnoreSets, w: MarkState, m: MethodId): (r: MarkState)
    requires m in p.methods
    ensures Grows(p, w, r)
    ensures r.ignoredStrings == w.ignoredStrings + (if ResolveRef(p, m) == Some(m) then CheckStrings(p, ign, m).1 else 0)
    ensures MethodClosed(p, ign, r, m)
  {
    var mi := p.methods[m];
    var w1 := VisitResolved(p, ign, w, m);
    var w2 := PushClass(p, w1, mi.owner);
    var w3 := PushClass(p, w2, mi.rtype);
    var w4 := PushClasses(p, w3, mi.args);
    var w5 := InstantiableIf(p, w4, mi.owner, MakesInstantiable(p, m));
    var r := PushIfInstantiableMethods(p, w5, if KeepsOverriders(p, m) then mi.overriders else []);
    VisitMethodBookkeeping(p, ign, w, w1, w2, w3, w4, w5, r, m);
    r
  }

  lemma VisitMethodBookkeeping(p: Program, ign: IgnoreSets, w: MarkState, w1: MarkState, w2: MarkState,
                               w3: MarkState, w4: MarkState, w5: MarkState, r: MarkState, m: MethodId)
    requires m in p.methods
    requires Grows(p, w, w1) && PushStep(p, w1, w2) && PushStep(p, w2, w3) && PushStep(p, w3, w4)
    requires InstStep(p, w4, w5) && Grows(p, w5, r) && r.ignoredStrings == w5.ignoredStrings
    requires ResolveRef(p, m).Some? ==> w1.objs.Marked(MethodObject(ResolveRef(p, m).value))
    requires ResolveRef(p, m) == Some(m) ==> Gathered(p, ign, w1, m)
    requires var mi := p.methods[m]; mi.owner in p.classes ==> w2.objs.Marked(ClassObject(mi.owner))
    requires var mi := p.methods[m]; mi.rtype in p.classes ==> w3.objs.Marked(ClassObject(mi.rtype))
    requires forall t :: t in p.methods[m].args && t in p.classes ==> w4.objs.Marked(ClassObject(t))
    requires MakesInstantiable(p, m) && CanBeInstantiable(p, p.methods[m].owner) ==> p.methods[m].owner in w5.instantiable
    requires KeepsOverriders(p, m) ==> forall o :: o in p.methods[m].overriders ==> MarkedOrWaiting(p, r, o)
    ensures Grows(p, w, r)
    ensures r.ignoredStrings == w1.ignoredStrings
    ensures MethodClosed(p, ign, r, m)
  {
    PushStepTrans(p, w1, w2, w3);
    PushStepTrans(p, w1, w3, w4);
    PushGrows(p, w1, w4);
    InstGrows(p, w4, w5);
    GrowsTrans(p, w, w1, w4);
    GrowsTrans(p, w, w4, w5);
    GrowsTrans(p, w, w5, r);
    MarkedMono(w1.objs, r.objs);
    MarkedMono(w2.objs, r.objs);
    MarkedMono(w3.objs, r.objs);
    MarkedMono(w4.objs, r.objs);
    if ResolveRef(p, m) == Some(m) {
      GatheredMono(p, ign, w1, r, m);
    }
  }

  lemma GatheredMono(p: Program, ign: IgnoreSets, w: MarkState, r: MarkState, m: MethodId)
    requires m in p.methods
    requires Gathered(p, ign, w, m) && Le(w, r)
    ensures Gathered(p, ign, r, m)
  {
    MarkedMono(w.objs, r.objs);
    RefsMarkedMono(p, w, r, p.methods[m].refs, CheckStrings(p, ign, m).0);
  }
}

=== FILE: redex_properties.dfy ===
/** Pass properties: each pass declares, per named code property, whether it
    establishes, requires, preserves or finally requires it; the manager tracks
    the established set along the pass list and verifies the whole pipeline
    before anything runs. Property names are strings, as in the source, so a
    pass may mention names outside the predefined nine. */
module RedexProperties {
  import opened Wrappers

  /** How one pass interacts with one property. A pass "destroys" a property
      it neither establishes nor preserves. */
  datatype Interaction = Interaction(
    establishes: bool,
    requiresBefore: bool,
    preserves: bool,
    requiresFinally: bool)
  {
    /** Establishing a required property must also preserve it, and only an
        establishing pass may demand the property at the end. */
    predicate IsValid() {
      !(requiresBefore && establishes && !preserves) && !(requiresFinally && !establishes)
    }
  }

  const Destroys := Interaction(false, false, false, false)
  const Preserves := Interaction(false, false, true, false)
  const Requires := Interaction(false, true, false, false)
  const Establishes := Interaction(true, false, false, false)
  const RequiresAndEstablishes := Interaction(true, true, true, false)
  const EstablishesAndRequiresFinally := Interaction(true, false, false, true)

  /** The six predefined interactions. */
  const Predefined: seq<Interaction> :=
    [Destroys, Preserves, Requires, Establishes, RequiresAndEstablishes, EstablishesAndRequiresFinally]

  const NoInitClassInstructions: string := "NoInitClassInstructions"
  const DexLimitsObeyed: string := "DexLimitsObeyed"
  const NeedsEverythingPublic: string := "NeedsEverythingPublic"
  const NeedsInjectionIdLowering: string := "NeedsInjectionIdLowering"
  const HasSourceBlocks: string := "HasSourceBlocks"
  const NoResolvablePureRefs: string := "NoResolvablePureRefs"
  const NoSpuriousGetClassCalls: string := "NoSpuriousGetClassCalls"
  const RenameClass: string := "RenameClass"
  const UltralightCodePatterns: string := "UltralightCodePatterns"

  /** The predefined property names. */
  const Names: set<string> := {
    NoInitClassInstructions, DexLimitsObeyed, NeedsEverythingPublic,
    NeedsInjectionIdLowering, HasSourceBlocks, NoResolvablePureRefs,
    NoSpuriousGetClassCalls, RenameClass, UltralightCodePatterns }

  /** The list the manager walks for the must-not check; it leaves out
      NoResolvablePureRefs. */
  const AllProperties: seq<string> := [
    NoInitClassInstructions, DexLimitsObeyed, NeedsEverythingPublic,
    NeedsInjectionIdLowering, HasSourceBlocks, NoSpuriousGetClassCalls,
    RenameClass, UltralightCodePatterns ]

  /** A pass's interactions, keyed by property name. */
  type Interactions = map<string, Interaction>

  /** A pass name with its interactions. */
  type PassInteractions = (string, Interactions)

  /** Every predefined interaction is valid, and exactly Destroys and
      Requires neither establish nor preserve, so a pass declaring either one
      drops the property. */
  lemma PredefinedValid()
    ensures forall k :: 0 <= k < |Predefined| ==> Predefined[k].IsValid()
    ensures forall k :: 0 <= k < |Predefined| ==>
      (!Predefined[k].establishes && !Predefined[k].preserves <==>
         Predefined[k] == Destroys || Predefined[k] == Requires)
  {
  }

  /** What validity means for a pass that requires a property at the end, or
      that both requires and establishes it. */
  lemma ValidMeaning(i: Interaction)
    requires i.IsValid()
    ensures i.requiresFinally ==> i.establishes
    ensures i.requiresBefore && !i.preserves ==> !i.establishes
  {
  }

  /** The interactions of a plain analysis pass: every predefined name is
      preserved. */
  function PreservesAll(): (r: Interactions)
    ensures r.Keys == Names
    ensures forall p :: p in r ==> r[p] == Preserves
  {
    map[NoInitClassInstructions := Preserves, DexLimitsObeyed := Preserves,
        NeedsEverythingPublic := Preserves, NeedsInjectionIdLowering := Preserves,
        HasSourceBlocks := Preserves, NoResolvablePureRefs := Preserves,
        NoSpuriousGetClassCalls := Preserves, RenameClass := Preserves,
        UltralightCodePatterns := Preserves]
  }

  /** A "must not hold at the end" property: it stays established across a
      pass that does not mention it. */
  predicate IsNegative(p: string) {
    p == NeedsEverythingPublic || p == NeedsInjectionIdLowering
  }

  /** The negative names among the predefined ones are exactly the two, and
      both are on the manager's list, so the must-not check misses none. */
  lemma NegativeNames()
    ensures (set p | p in Names && IsNegative(p)) == {NeedsEverythingPublic, NeedsInjectionIdLowering}
    ensures forall p :: IsNegative(p) ==> p in AllProperties
    ensures NoResolvablePureRefs in Names && NoResolvablePureRefs !in AllProperties
  {
  }

  /** The part of the configuration that decides whether a pass is enabled:
      the configured pass list and the passes whose own section sets
      "disabled" to true. */
  datatype Config = Config(passList: seq<string>, disabledPasses: set<string>)

  predicate PassIsEnabled(conf: Config, pass: string) {
    pass in conf.passList && pass !in conf.disabledPasses
  }

  /** Only HasSourceBlocks depends on the configuration: it is enabled iff
      the source-block insertion pass is. */
  function PropertyIsEnabled(conf: Config, p: string): (r: bool)
    ensures !r ==> p == HasSourceBlocks
    ensures p == HasSourceBlocks ==> (r <==> PassIsEnabled(conf, "InsertSourceBlocksPass"))
  {
    if p == HasSourceBlocks then PassIsEnabled(conf, "InsertSourceBlocksPass") else true
  }

  function FilterEnabled(conf: Config, s: set<string>): (r: set<string>)
    ensures r <= s
    ensures forall p :: p in s && p != HasSourceBlocks ==> p in r
  {
    set p | p in s && PropertyIsEnabled(conf, p)
  }

  const DefaultInitial: set<string> := {UltralightCodePatterns}
  const DefaultFinal: set<string> := {NoInitClassInstructions, DexLimitsObeyed}

  /** The properties established before the first pass. */
  function Initial(conf: Config): set<string> {
    FilterEnabled(conf, DefaultInitial)
  }

  /** The properties every pipeline must end with, before adding the names
      some pass requires finally. */
  function Final(conf: Config): set<string> {
    FilterEnabled(conf, DefaultFinal)
  }

  /** No default name can be disabled, so the configuration never changes the
      initial or the default final set. */
  lemma DefaultsAlwaysEnabled(conf: Config)
    ensures Initial(conf) == {UltralightCodePatterns}
    ensures Final(conf) == {NoInitClassInstructions, DexLimitsObeyed}
  {
  }

  /** The names a pass needs established before it runs. */
  function Required(ints: Interactions): (r: set<string>)
    ensures r <= ints.Keys
    ensures forall p :: p in ints && ints[p].requiresBefore ==> p in r
    ensures forall p :: p in r ==> ints[p].requiresBefore
  {
    set p | p in ints && ints[p].requiresBefore
  }

  /** The names a pass needs established at the end of the pipeline. */
  function RequiredFinally(ints: Interactions): set<string> {
    set p | p in ints && ints[p].requiresFinally
  }

  /** Whether the established property `p` is dropped by a pass. */
  predicate Dropped(ints: Interactions, p: string) {
    if p in ints then !ints[p].preserves else !IsNegative(p)
  }

  /** The established set after a pass: first drop what the pass does not
      keep, then add what it establishes. */
  function Apply(est: set<string>, ints: Interactions): (r: set<string>)
    ensures forall p :: p in r <==>
      (p in est && ((p in ints && ints[p].preserves) || (p !in ints && IsNegative(p))))
      || (p in ints && ints[p].establishes)
  {
    (set p | p in est && !Dropped(ints, p)) + (set p | p in ints && ints[p].establishes)
  }

  /** Running the same pass twice in a row is the same as running it once. */
  lemma ApplyIdempotent(est: set<string>, ints: Interactions)
    ensures Apply(Apply(est, ints), ints) == Apply(est, ints)
  {
    var once := Apply(est, ints);
    forall p | p in Apply(once, ints)
      ensures p in once
    {
    }
    forall p | p in once
      ensures p in Apply(once, ints)
    {
    }
  }

  /** A larger established set stays larger after any pass. */
  lemma ApplyMonotone(a: set<string>, b: set<string>, ints: Interactions)
    requires a <= b
    ensures Apply(a, ints) <= Apply(b, ints)
  {
  }

  /** A plain analysis pass changes nothing among the predefined names. */
  lemma PreservesAllKeeps(est: set<string>)
    requires est <= Names
    ensures Apply(est, PreservesAll()) == est
  {
    var ints := PreservesAll();
    forall p | p in est
      ensures p in Apply(est, ints)
    {
      assert p in ints;
    }
  }

  /** The established set before pass `i` runs. */
  function StateBefore(conf: Config, passes: seq<PassInteractions>, i: nat): set<string>
    requires i <= |passes|
  {
    if i == 0 then Initial(conf) else Apply(StateBefore(conf, passes, i - 1), passes[i - 1].1)
  }

  /** The names the first `i` passes require finally. */
  function FinallyUpTo(passes: seq<PassInteractions>, i: nat): set<string>
    requires i <= |passes|
  {
    if i == 0 then {} else FinallyUpTo(passes, i - 1) + RequiredFinally(passes[i - 1].1)
  }

  /** The names the whole pipeline must end with. */
  function Finals(conf: Config, passes: seq<PassInteractions>): set<string> {
    Final(conf) + FinallyUpTo(passes, |passes|)
  }

  /** The end state of the pipeline. */
  function EndState(conf: Config, passes: seq<PassInteractions>): set<string> {
    StateBefore(conf, passes, |passes|)
  }

  /** A pipeline is accepted when every pass finds its required names already
      established, every final name is established at the end, and no
      listed negative name is. */
  ghost predicate Accepted(conf: Config, passes: seq<PassInteractions>) {
    && (forall i, p :: 0 <= i < |passes| && p in Required(passes[i].1) ==> p in StateBefore(conf, passes, i))
    && Finals(conf, passes) <= EndState(conf, passes)
    && (forall k :: 0 <= k < |AllProperties| && IsNegative(AllProperties[k]) ==>
          AllProperties[k] !in EndState(conf, passes))
  }

  /** One logged problem: a name missing before pass `step`, a final name
      missing at the end, or a negative name still established. */
  datatype Failure =
    | NotEstablished(step: nat, name: string)
    | MissingFinal(name: string)
    | MustNotHold(name: string)

  /** Whether `f` describes a real problem of the pipeline. */
  ghost predicate IsViolation(conf: Config, passes: seq<PassInteractions>, f: Failure) {
    match f
    case NotEstablished(i, p) =>
      i < |passes| && p in Required(passes[i].1) && p !in StateBefore(conf, passes, i)
    case MissingFinal(p) =>
      p in Finals(conf, passes) && p !in EndState(conf, passes)
    case MustNotHold(p) =>
      p in AllProperties && IsNegative(p) && p in EndState(conf, passes)
  }

  /** A pipeline is accepted exactly when it has no violation. */
  lemma AcceptedIffNoViolation(conf: Config, passes: seq<PassInteractions>)
    ensures Accepted(conf, passes) <==> forall f :: !IsViolation(conf, passes, f)
  {
    if !Accepted(conf, passes) {
      if i, p :| 0 <= i < |passes| && p in Required(passes[i].1) && p !in StateBefore(conf, passes, i) {
        assert IsViolation(conf, passes, NotEstablished(i, p));
      } else if p :| p in Finals(conf, passes) && p !in EndState(conf, passes) {
        assert IsViolation(conf, passes, MissingFinal(p));
      } else {
        var k :| 0 <= k < |AllProperties| && IsNegative(AllProperties[k]) &&
          AllProperties[k] in EndState(conf, passes);
        assert IsViolation(conf, passes, MustNotHold(AllProperties[k]));
      }
    }
  }

  /** Checks the whole pass list without running anything: `None` when it is
      accepted, otherwise the set of problems the log reports. */
  method VerifyPassInteractions(conf: Config, passes: seq<PassInteractions>)
    returns (r: Option<set<Failure>>)
    ensures r.None? <==> Accepted(conf, passes)
    ensures r.Some? ==> r.value != {} && forall f :: f in r.value <==> IsViolation(conf, passes, f)
  {
    var established, finals, failed := CheckPasses(conf, passes);
    failed := failed + EndFailures(conf, passes, established, finals);
    AcceptedIffNoViolation(conf, passes);
    if failed == {} {
      r := None;
    } else {
      r := Some(failed);
    }
  }

  /** The pass-by-pass part of the check: the state and the finals it
      reaches at the end, and exactly the names found missing before some
      pass. */
  method CheckPasses(conf: Config, passes: seq<PassInteractions>)
    returns (established: set<string>, finals: set<string>, failed: set<Failure>)
    ensures established == EndState(conf, passes) && finals == Finals(conf, passes)
    ensures forall f :: f in failed <==> f.NotEstablished? && IsViolation(conf, passes, f)
  {
    established := Initial(conf);
    finals := Final(conf);
    failed := {};
    for i := 0 to |passes|
      invariant established == StateBefore(conf, passes, i)
      invariant finals == Final(conf) + FinallyUpTo(passes, i)
      invariant forall f :: f in failed <==> f.NotEstablished? && f.step < i && IsViolation(conf, passes, f)
    {
      failed := failed + MissingBefore(conf, passes, i, established);
      established := Apply(established, passes[i].1);
      finals := finals + RequiredFinally(passes[i].1);
    }
  }

  /** The names pass `i` requires that are not established before it. */
  function MissingBefore(conf: Config, passes: seq<PassInteractions>, i: nat, established: set<string>): (r: set<Failure>)
    requires i < |passes| && established == StateBefore(conf, passes, i)
    ensures forall f :: f in r <==> f.NotEstablished? && f.step == i && IsViolation(conf, passes, f)
  {
    set p | p in Required(passes[i].1) && p !in established :: NotEstablished(i, p)
  }

  /** The end-of-pipeline part of the check, given the end state and the
      finals: exactly the missing finals and the negative names still
      established. */
  function EndFailures(conf: Config, passes: seq<PassInteractions>, established: set<string>, finals: set<string>): (r: set<Failure>)
    requires established == EndState(conf, passes) && finals == Finals(conf, passes)
    ensures forall f :: f in r <==> !f.NotEstablished? && IsViolation(conf, passes, f)
  {
    (set p | p in finals && p !in established :: MissingFinal(p)) +
    (set p | p in AllProperties && IsNegative(p) && p in established :: MustNotHold(p))
  }
}

=== FILE: sets.dfy ===
/** Cardinality facts about finite sets, used by the termination measures
    of the worklists (the number of elements not yet visited) and by the
    counting that stands for an intersection. */
module Sets {

  lemma SubsetCard<T>(x: set<T>, y: set<T>)
    requires x <= y
    ensures |x| <= |y|
  {
    if x != {} {
      var e :| e in x;
      SubsetCard(x - {e}, y - {e});
    }
  }

  lemma DiffMono<T>(u: set<T>, a: set<T>, b: set<T>)
    requires a <= b
    ensures |u - b| <= |u - a|
  {
    SubsetCard(u - b, u - a);
  }

  lemma DiffDrop<T>(u: set<T>, a: set<T>, e: T)
    requires e in u && e !in a
    ensures |u - (a + {e})| < |u - a|
  {
    assert u - (a + {e}) == (u - a) - {e};
  }

  /** A subset as large as the whole set is the whole set. */
  lemma SubsetEqCard<T>(x: set<T>, y: set<T>)
    requires x <= y && |x| == |y|
    ensures x == y
  {
    if x != y {
      var e :| e in y && e !in x;
      SubsetCard(x, y - {e});
    }
  }

  /** The sum of `f` over a finite set, taking the elements in an arbitrary
      order. */
  ghost function SumOf<T>(s: set<T>, f: T -> nat): nat
    decreases |s|
  {
    if s == {} then 0 else var x :| x in s; f(x) + SumOf(s - {x}, f)
  }

  /** The sum does not depend on which element is taken out first. */
  lemma {:induction false} SumOfRemove<T>(s: set<T>, f: T -> nat, y: T)
    requires y in s
    ensures SumOf(s, f) == f(y) + SumOf(s - {y}, f)
    decreases |s|
  {
    var x :| x in s && SumOf(s, f) == f(x) + SumOf(s - {x}, f);
    if x != y {
      SumOfRemove(s - {x}, f, y);
      SumOfRemove(s - {y}, f, x);
      assert s - {x} - {y} == s - {y} - {x};
    }
  }

  /** Adding a new element adds its value. */
  lemma SumOfAdd<T>(s: set<T>, f: T -> nat, y: T)
    requires y !in s
    ensures SumOf(s + {y}, f) == SumOf(s, f) + f(y)
  {
    SumOfRemove(s + {y}, f, y);
    assert s + {y} - {y} == s;
  }
}

=== FILE: splittable_closures.dfy ===
/** Scoring and selection of the closures the method splitter will split
    off: integer size scoring, aggregation of switch cases, and the filter
    that keeps the selected closures from overlapping. */
module SplittableClosures {
  import opened Wrappers
  import opened SplittingConfig

  type BlockId = nat
  type ClosureId = nat

  datatype HotSplitKind = Hot | HotCold | Cold

  // ---------------------------------------------------------------------
  // Scoring

  /** What scoring needs to know of one closure: whether its first block is
      hot and whether a source of an edge entering it is hot. */
  datatype Heat = Heat(targetHot: bool, srcHot: bool)

  function KindOf(hs: seq<Heat>): (k: HotSplitKind)
    ensures k == Hot <==> (exists i :: 0 <= i < |hs| && hs[i].srcHot) && (exists i :: 0 <= i < |hs| && hs[i].targetHot)
    ensures k == HotCold <==> (exists i :: 0 <= i < |hs| && hs[i].srcHot) && forall i :: 0 <= i < |hs| ==> !hs[i].targetHot
    ensures k == Cold <==> forall i :: 0 <= i < |hs| ==> !hs[i].srcHot
  {
    if AnySrcHot(hs) then (if AnyTargetHot(hs) then Hot else HotCold) else Cold
  }

  function AnySrcHot(hs: seq<Heat>): (b: bool)
    ensures b <==> exists i :: 0 <= i < |hs| && hs[i].srcHot
  {
    if hs == [] then false else hs[0].srcHot || AnySrcHot(hs[1..])
  }

  function AnyTargetHot(hs: seq<Heat>): (b: bool)
    ensures b <==> exists i :: 0 <= i < |hs| && hs[i].targetHot
  {
    if hs == [] then false else hs[0].targetHot || AnyTargetHot(hs[1..])
  }

  /** The smallest split worth doing, per kind. */
  function MinSplitSize(c: Config, k: HotSplitKind): nat {
    match k
    case Hot => c.minHotSplitSize
    case HotCold => c.minHotColdSplitSize
    case Cold => c.minColdSplitSize
  }

  /** The smallest remainder worth leaving behind, per kind: a hot-cold split
      must leave as much as a hot one. */
  function MinRemainingSize(c: Config, k: HotSplitKind): nat {
    if k == Cold then c.minColdSplitSize else c.minHotSplitSize
  }

  /** The estimated size of the split-off method: its body plus the cost of a
      method and, for several closures, of a switch with one case each. */
  function SplitSize(c: Config, componentsSize: nat, n: nat): nat {
    c.costSplitMethod + componentsSize + (if n > 1 then c.costSplitSwitch + c.costSplitSwitchCase * n else 0)
  }

  /** The switch cases that disappear from the original method when several
      cases are split off together. */
  function SwitchReduction(c: Config, n: nat): nat {
    if n > 1 then c.costSplitSwitchCase * (n - 1) else 0
  }

  /** Unsigned subtraction guarded against underflow: zero when `b` exceeds `a`. */
  function SaturatingSub(a: nat, b: nat): (r: nat)
    ensures r <= a
    ensures b <= a ==> r + b == a
    ensures a < b ==> r == 0
  {
    if a < b then 0 else a - b
  }

  datatype Scored = Scored(splitSize: nat, remainingSize: nat, kind: HotSplitKind)

  /** Scores splitting off the closures `hs` of a method of `originalSize`
      code units, whose components together measure `componentsSize` and
      whose blocks still reachable after the split measure
      `remainingBlocksSize`. The components are blocks of the method, so
      they never measure more than the method itself. */
  function Score(c: Config, originalSize: nat, componentsSize: nat, hs: seq<Heat>, remainingBlocksSize: nat): (r: Option<Scored>)
    requires |hs| > 0
    requires componentsSize <= originalSize
    ensures r.Some? <==>
      && SplitSize(c, componentsSize, |hs|) >= MinSplitSize(c, KindOf(hs))
      && SaturatingSub(originalSize - componentsSize, SwitchReduction(c, |hs|)) >= MinRemainingSize(c, KindOf(hs))
    ensures r.Some? ==> r.value.kind == KindOf(hs) && r.value.splitSize == SplitSize(c, componentsSize, |hs|)
    ensures r.Some? ==> r.value.splitSize >= c.costSplitMethod + componentsSize
    ensures r.Some? ==> r.value.remainingSize == SaturatingSub(remainingBlocksSize, SwitchReduction(c, |hs|))
    ensures r.Some? ==> r.value.remainingSize <= remainingBlocksSize
    ensures r.Some? && |hs| == 1 ==> r.value.remainingSize == remainingBlocksSize
  {
    var n := |hs|;
    var split := c.costSplitMethod + componentsSize + (if n > 1 then c.costSplitSwitch + c.costSplitSwitchCase * n else 0);
    var kind := if AnySrcHot(hs) then (if AnyTargetHot(hs) then Hot else HotCold) else Cold;
    if split < MinSplitSize(c, kind) then None
    else
      var reduction := if n > 1 then c.costSplitSwitchCase * (n - 1) else 0;
      var estimated := SaturatingSub(originalSize - componentsSize, reduction);
      if estimated < MinRemainingSize(c, kind) then None
      else Some(Scored(split, SaturatingSub(remainingBlocksSize, reduction), kind))
  }

  // ---------------------------------------------------------------------
  // Critical components

  /** How many of the closures' component sets contain `b`. */
  function Count(keyed: seq<set<BlockId>>, b: BlockId): nat {
    if keyed == [] then 0 else Count(keyed[..|keyed| - 1], b) + (if b in keyed[|keyed| - 1] then 1 else 0)
  }

  function Union(keyed: seq<set<BlockId>>): set<BlockId> {
    if keyed == [] then {} else Union(keyed[..|keyed| - 1]) + keyed[|keyed| - 1]
  }

  lemma {:induction false} CountInUnion(keyed: seq<set<BlockId>>, b: BlockId)
    ensures Count(keyed, b) > 0 <==> b in Union(keyed)
    ensures Count(keyed, b) <= |keyed|
  {
    if keyed != [] {
      CountInUnion(keyed[..|keyed| - 1], b);
    }
  }

  function GetCount(counts: map<BlockId, nat>, b: BlockId): nat {
    if b in counts then counts[b] else 0
  }

  /** `r` is `counts` with one added for every block of `done`. */
  ghost predicate Counted(r: map<BlockId, nat>, counts: map<BlockId, nat>, done: set<BlockId>) {
    && r.Keys == counts.Keys + done
    && forall b :: b in r ==> r[b] == GetCount(counts, b) + (if b in done then 1 else 0)
  }

  lemma CountedStep(r: map<BlockId, nat>, counts: map<BlockId, nat>, done: set<BlockId>, b: BlockId)
    requires Counted(r, counts, done) && b !in done
    ensures Counted(r[b := GetCount(counts, b) + 1], counts, done + {b})
  {
  }

  /** Adds one to the count of every block of `comps`. */
  method AddToCounts(counts: map<BlockId, nat>, comps: set<BlockId>) returns (r: map<BlockId, nat>)
    ensures Counted(r, counts, comps)
  {
    r := counts;
    var done: set<BlockId> := {};
    while done != comps
      invariant done <= comps
      invariant Counted(r, counts, done)
      decreases comps - done
    {
      assert comps - done != {};
      var b :| b in comps - done;
      CountedStep(r, counts, done, b);
      r := r[b := GetCount(counts, b) + 1];
      done := done + {b};
    }
  }

  /** The components that some keyed case does not share and the
      fallthrough case does not contain. */
  method CriticalComponents(keyed: seq<set<BlockId>>, fallthrough: set<BlockId>) returns (r: set<BlockId>)
    ensures forall b :: b in r <==> 0 < Count(keyed, b) < |keyed| && b !in fallthrough
  {
    var counts: map<BlockId, nat> := map[];
    for i := 0 to |keyed|
      invariant counts.Keys == Union(keyed[..i])
      invariant forall b :: b in counts ==> counts[b] == Count(keyed[..i], b)
    {
      assert keyed[..i + 1][..i] == keyed[..i];
      counts := AddToCounts(counts, keyed[i]);
      forall b | b !in Union(keyed[..i])
        ensures Count(keyed[..i], b) == 0
      {
        CountInUnion(keyed[..i], b);
      }
    }
    assert keyed[..|keyed|] == keyed;
    r := set b | b in counts && counts[b] < |keyed| && b !in fallthrough;
    forall b
      ensures b in r <==> 0 < Count(keyed, b) < |keyed| && b !in fallthrough
    {
      CountInUnion(keyed, b);
    }
  }

  // ---------------------------------------------------------------------
  // Aggregating switch cases

  /** A closure entered from a switch, with the case keys of its entering
      edges; None stands for the default edge. */
  datatype Switched = Switched(closure: ClosureId, isHot: bool, keys: seq<Option<int>>)

  /** The smallest key, where the default edge counts as smaller than any
      case key. */
  function MinKey(keys: seq<Option<int>>): (r: Option<int>)
    requires |keys| > 0
    ensures r.None? <==> exists i :: 0 <= i < |keys| && keys[i].None?
    ensures r.Some? ==> exists i :: 0 <= i < |keys| && keys[i] == r
    ensures r.Some? ==> forall i :: 0 <= i < |keys| ==> keys[i].Some? && r.value <= keys[i].value
  {
    if |keys| == 1 then keys[0]
    else
      var rest := MinKey(keys[1..]);
      if keys[0].None? || rest.None? then None
      else if keys[0].value <= rest.value then keys[0] else rest
  }

  /** The keyed cases the eligibility test admits, as (smallest key, closure). */
  function Keyed(sw: seq<Switched>, eligible: ClosureId -> bool): (r: seq<(int, ClosureId)>)
    requires forall i :: 0 <= i < |sw| ==> |sw[i].keys| > 0
    ensures forall k :: 0 <= k < |r| ==> exists i :: 0 <= i < |sw| && MinKey(sw[i].keys) == Some(r[k].0) && r[k].1 == sw[i].closure && eligible(sw[i].closure)
    ensures forall i :: 0 <= i < |sw| && MinKey(sw[i].keys).Some? && eligible(sw[i].closure) ==> (MinKey(sw[i].keys).value, sw[i].closure) in r
  {
    if sw == [] then []
    else
      var rest := Keyed(sw[1..], eligible);
      var key := MinKey(sw[0].keys);
      if key.Some? && eligible(sw[0].closure) then [(key.value, sw[0].closure)] + rest else rest
  }

  /** The index of the last case, among the first `k`, that the default
      edge enters. */
  function LastDefault(sw: seq<Switched>, k: nat): (r: Option<nat>)
    requires k <= |sw|
    requires forall i :: 0 <= i < |sw| ==> |sw[i].keys| > 0
    ensures r.None? <==> forall i :: 0 <= i < k ==> MinKey(sw[i].keys).Some?
    ensures r.Some? ==> r.value < k && MinKey(sw[r.value].keys).None?
    ensures r.Some? ==> forall j :: r.value < j < k ==> MinKey(sw[j].keys).Some?
  {
    if k == 0 then None
    else if MinKey(sw[k - 1].keys).None? then Some(k - 1)
    else LastDefault(sw, k - 1)
  }

  /** The fallthrough case: the last one the default edge enters. */
  function Fallthrough(sw: seq<Switched>): Option<ClosureId>
    requires forall i :: 0 <= i < |sw| ==> |sw[i].keys| > 0
  {
    match LastDefault(sw, |sw|)
    case None => None
    case Some(i) => Some(sw[i].closure)
  }

  /** The seed: the keyed case with the largest key (the first such one). */
  function Seed(keyed: seq<(int, ClosureId)>): (r: nat)
    requires |keyed| > 0
    ensures r < |keyed| && forall k :: 0 <= k < |keyed| ==> keyed[k].0 <= keyed[r].0
  {
    if |keyed| == 1 then 0
    else
      var s := Seed(keyed[1..]) + 1;
      if keyed[0].0 >= keyed[s].0 then 0 else s
  }

  /** How many further cases join the seed: while the list holds at most half
      of all `n` cases and the aggregator still offers some. */
  function Additions(n: nat, offered: nat): (m: nat)
    ensures m <= offered
    ensures 2 * (m + 1) <= n || m == 0
    ensures m < offered ==> n < 2 * (m + 2)
  {
    if offered == 0 || n < 4 then 0 else Additions(n, offered - 1) + (if 2 * (Additions(n, offered - 1) + 2) <= n then 1 else 0)
  }

  /** The list aggregation grows before trying shorter and shorter prefixes:
      fallthrough, seed, then the cases the aggregator hands out. */
  function Grown(fall: ClosureId, seed: ClosureId, fronts: seq<ClosureId>, n: nat): (g: seq<ClosureId>)
    ensures |g| >= 2 && g[0] == fall && g[1] == seed
    ensures 2 * (|g| - 1) <= n || |g| == 2
  {
    [fall, seed] + fronts[..Additions(n, |fronts|)]
  }

  /** The grown list of a switch that has keyed cases and a fallthrough. */
  function Order(sw: seq<Switched>, eligible: ClosureId -> bool, fronts: seq<ClosureId>): (g: seq<ClosureId>)
    requires forall i :: 0 <= i < |sw| ==> |sw[i].keys| > 0
    requires Keyed(sw, eligible) != [] && Fallthrough(sw).Some?
  {
    var keyed := Keyed(sw, eligible);
    Grown(Fallthrough(sw).value, keyed[Seed(keyed)].1, fronts, |sw|)
  }

  /** `a` is the longest prefix of `g`, of two or more closures, that
      `accept` admits. */
  ghost predicate LongestAccepted(g: seq<ClosureId>, a: seq<ClosureId>, accept: seq<ClosureId> -> bool) {
    && 2 <= |a| <= |g|
    && a == g[..|a|]
    && accept(a)
    && forall l :: |a| < l <= |g| ==> !accept(g[..l])
  }

  /** No prefix of `g` of two or more closures is admitted. */
  ghost predicate NoneAccepted(g: seq<ClosureId>, accept: seq<ClosureId> -> bool) {
    forall l :: 2 <= l <= |g| ==> !accept(g[..l])
  }

  /** Aggregates the cases of one switch into the longest acceptable group.
      `fronts` is the order in which the closure aggregator hands out the
      remaining keyed cases and `accept` is the scoring of a candidate group;
      both are inputs here. */
  method Aggregate(sw: seq<Switched>, eligible: ClosureId -> bool, fronts: seq<ClosureId>, accept: seq<ClosureId> -> bool)
    returns (r: Option<seq<ClosureId>>)
    requires |sw| > 0
    requires forall i :: 0 <= i < |sw| ==> |sw[i].keys| > 0
    ensures |sw| == 1 || Keyed(sw, eligible) == [] || Fallthrough(sw).None? ==> r.None?
    ensures r.Some? ==> |sw| > 1 && Keyed(sw, eligible) != [] && Fallthrough(sw).Some?
    ensures r.Some? ==> LongestAccepted(Order(sw, eligible, fronts), r.value, accept)
    ensures r.None? && |sw| > 1 && Keyed(sw, eligible) != [] && Fallthrough(sw).Some? ==>
      NoneAccepted(Order(sw, eligible, fronts), accept)
  {
    if |sw| == 1 {
      return None;
    }
    var keyed := Keyed(sw, eligible);
    var fall := Fallthrough(sw);
    if keyed == [] || fall.None? {
      return None;
    }
    var seed := keyed[Seed(keyed)].1;
    var agg := Grow(fall.value, seed, fronts, |sw|);
    r := PopBack(agg, accept);
  }

  /** The growing phase: the fallthrough and the seed, then further cases
      while at most half of all `n` cases are taken. */
  method Grow(fall: ClosureId, seed: ClosureId, fronts: seq<ClosureId>, n: nat) returns (agg: seq<ClosureId>)
    ensures agg == Grown(fall, seed, fronts, n)
  {
    agg := [fall, seed];
    var m := 0;
    while m < |fronts| && |agg| * 2 <= n
      invariant m <= |fronts| && agg == [fall, seed] + fronts[..m]
      invariant m <= Additions(n, |fronts|)
    {
      agg := agg + [fronts[m]];
      m := m + 1;
    }
  }

  /** The shrinking phase: drops the last case until `accept` admits the
      list, giving up when only one closure is left. */
  method PopBack(g: seq<ClosureId>, accept: seq<ClosureId> -> bool) returns (r: Option<seq<ClosureId>>)
    requires |g| >= 2
    ensures r.Some? ==> LongestAccepted(g, r.value, accept)
    ensures r.None? ==> NoneAccepted(g, accept)
  {
    var agg := g;
    while |agg| > 1
      invariant 1 <= |agg| <= |g| && agg == g[..|agg|]
      invariant forall l :: |agg| < l <= |g| ==> !accept(g[..l])
    {
      if accept(agg) {
        return Some(agg);
      }
      agg := agg[..|agg| - 1];
    }
    return None;
  }

  // ---------------------------------------------------------------------
  // Overlap filtering

  /** A scored candidate, in the order scoring ranked it: the reduced blocks
      its closures start at, all reduced blocks it spans, whether it is a
      switch, whether its (single) target block is empty, the number of
      registers live into it, and whether the argument types it needs can be
      determined and are initialised objects. */
  datatype Candidate = Candidate(blocks: set<BlockId>, components: set<BlockId>, isSwitch: bool, targetEmpty: bool, liveIn: nat, typeable: bool)

  predicate Splittable(c: Config, x: Candidate) {
    && !(x.targetEmpty && !x.isSwitch)
    && x.liveIn <= LiveInLimit(c)
    && x.typeable
  }

  predicate Increasing(ks: seq<nat>) {
    forall a, b :: 0 <= a < b < |ks| ==> ks[a] < ks[b]
  }

  /** Keeps, in order, each splittable candidate whose blocks no earlier
      kept candidate covers; returns the indices kept. */
  method FilterOverlaps(c: Config, xs: seq<Candidate>) returns (kept: seq<nat>)
    ensures Increasing(kept)
    ensures forall k :: 0 <= k < |kept| ==> kept[k] < |xs|
    ensures forall i :: 0 <= i < |xs| ==>
      (i in kept <==> Splittable(c, xs[i]) && forall j :: j in kept && j < i ==> xs[i].blocks !! xs[j].components)
  {
    kept := [];
    var covered: set<BlockId> := {};
    for i := 0 to |xs|
      invariant Increasing(kept) && forall k :: 0 <= k < |kept| ==> kept[k] < i
      invariant covered == set j, b | j in kept && b in xs[j].components :: b
      invariant forall i' :: 0 <= i' < i ==>
        (i' in kept <==> Splittable(c, xs[i']) && forall j :: j in kept && j < i' ==> xs[i'].blocks !! xs[j].components)
    {
      var x := xs[i];
      if !(x.blocks !! covered) {
        var b :| b in x.blocks && b in covered;
        continue;
      }
      if !Splittable(c, x) {
        continue;
      }
      kept := kept + [i];
      covered := covered + x.components;
    }
  }
}

=== FILE: splitting_config.dfy ===
/** The method splitter's configuration and its defaults. The two overhead
    ratios are single-precision floats in the source and are not part of this
    model. */
module SplittingConfig {

  datatype Config = Config(
    splitBlockSize: nat,
    minOriginalSize: nat,
    minOriginalSizeTooLargeForInlining: nat,
    minHotColdSplitSize: nat,
    minHotSplitSize: nat,
    minColdSplitSize: nat,
    hugeThreshold: nat,
    maxLiveIn: int,
    maxIteration: nat,
    costSplitMethod: nat,
    costSplitSwitch: nat,
    costSplitSwitchCase: nat)

  /** The defaults of the configuration record. */
  function DefaultConfig(): (c: Config)
    ensures c.minHotColdSplitSize < c.minHotSplitSize < c.minColdSplitSize
    ensures c.minOriginalSizeTooLargeForInlining < c.minOriginalSize < c.hugeThreshold
  {
    Config(100, 5000, 1500, 300, 400, 500, 9000, 32, 7, 16, 6, 4)
  }

  const SizeMax: nat := 0x1_0000_0000_0000_0000

  /** The live-in limit as the unsigned 64-bit size the source compares
      against: a negative (64-bit signed) setting wraps around to a limit no
      smaller than 2^63. */
  function LiveInLimit(c: Config): (n: nat)
    ensures c.maxLiveIn >= 0 ==> n == c.maxLiveIn
    ensures -0x8000_0000_0000_0000 <= c.maxLiveIn < 0 ==> n == c.maxLiveIn + SizeMax && n >= 0x8000_0000_0000_0000
  {
    if c.maxLiveIn >= 0 then c.maxLiveIn else (c.maxLiveIn % SizeMax) as nat
  }
}

=== FILE: string_tree.dfy ===
/** The string-tree encoder: a trie of strings with integer values, written
    as a byte string with a header byte per node, 6-bit payload units for the
    value, and base-127 offsets to every child but the first. The source's
    `char` is signed (as on the usual targets), which fixes both the child
    order of its `std::map<char, ...>` and the meaning of the `c >= 32` check. */
module StringTree {
  import opened Wrappers

  newtype byte = x: int | 0 <= x < 256
  newtype SChar = x: int | -128 <= x < 128

  const BitsPerPayloadUnit: nat := 6
  const FlagPayloadUnit: byte := 64
  const PayloadMask: nat := 63
  const FlagNonterminal: byte := 16
  const FlagNoPayload: byte := 8
  const OffsetBase: nat := 127
  const MaxOffset: nat := 127 * 127 * 127

  /** The byte `oss.put(c)` writes for a signed character. */
  function CharByte(c: SChar): (b: byte)
    ensures b as int % 256 == (c as int + 256) % 256
    ensures c >= 0 ==> b as int == c as int
  {
    if c < 0 then (c as int + 256) as byte else c as byte
  }

  // ------------------------------------------------------------- the values

  /** The two value types the encoder is instantiated with. */
  datatype ValueWidth = Int16 | Int32

  function Bits(w: ValueWidth): (b: nat)
    ensures b >= 16
  {
    match w
    case Int16 => 16
    case Int32 => 32
  }

  /** `v` is a value of the type: -2^15 <= v < 2^15 or -2^31 <= v < 2^31. */
  predicate InRange(w: ValueWidth, v: int) {
    match w
    case Int16 => -32768 <= v < 32768
    case Int32 => -2147483648 <= v < 2147483648
  }

  function Pow64(n: nat): (r: nat)
    ensures r >= 1
  {
    if n == 0 then 1 else 64 * Pow64(n - 1)
  }

  /** `ceil(bits / 6)`: the units needed for any value of the type. */
  function MaxUnits(w: ValueWidth): nat {
    match w
    case Int16 => 3
    case Int32 => 6
  }

  lemma MaxUnitsCeil(w: ValueWidth)
    ensures (MaxUnits(w) - 1) * BitsPerPayloadUnit < Bits(w) <= MaxUnits(w) * BitsPerPayloadUnit
  {
  }

  /** `payload_unit_count`: zero needs no unit, a negative value needs the
      maximum, and a positive value the fewest 6-bit units that hold it. */
  function PayloadUnitCount(w: ValueWidth, v: int): (n: nat)
    requires InRange(w, v)
    ensures n == 0 <==> v == 0
    ensures v < 0 ==> n == MaxUnits(w)
    ensures n <= MaxUnits(w) && n < FlagNoPayload as int
  {
    if v < 0 then MaxUnits(w)
    else if v == 0 then 0
    else if v < 64 then 1
    else if v < 4096 then 2
    else if v < 262144 then 3
    else if v < 16777216 then 4
    else if v < 1073741824 then 5
    else MaxUnits(w)
  }

  /** A positive value takes the fewest units that hold it. */
  lemma UnitsHold(w: ValueWidth, v: int)
    requires InRange(w, v) && v > 0
    ensures Pow64(PayloadUnitCount(w, v) - 1) <= v < Pow64(PayloadUnitCount(w, v))
  {
    PowFacts();
  }

  lemma PowFacts()
    ensures Pow64(0) == 1 && Pow64(1) == 64 && Pow64(2) == 4096 && Pow64(3) == 262144
    ensures Pow64(4) == 16777216 && Pow64(5) == 1073741824 && Pow64(6) == 68719476736
  {
  }

  /** The value as the unsigned 32-bit number `m_value & 0xFFFFFFFF`. */
  function Low32(v: int): (u: nat)
    ensures u < 4294967296
    ensures 0 <= v < 4294967296 ==> u == v
  {
    v % 4294967296
  }

  /** The payload: `n` units of 6 bits of `u`, lowest first, each with the
      0x40 flag set. */
  function Payload(u: nat, n: nat): (r: seq<byte>)
    ensures |r| == n
    ensures forall i :: 0 <= i < n ==> 64 <= r[i] as int < 128
  {
    if n == 0 then [] else [(64 + u % 64) as byte] + Payload(u / 64, n - 1)
  }

  /** Reads payload units back, lowest first. */
  function DecodePayload(bs: seq<byte>): int {
    if |bs| == 0 then 0 else (bs[0] as int - 64) + 64 * DecodePayload(bs[1..])
  }

  /** A number below 64^n is read back exactly from its `n` units. */
  lemma {:induction false} PayloadRoundTrip(u: nat, n: nat)
    requires u < Pow64(n)
    ensures DecodePayload(Payload(u, n)) == u
  {
    if n > 0 {
      assert u / 64 < Pow64(n - 1);
      PayloadRoundTrip(u / 64, n - 1);
      assert Payload(u, n)[1..] == Payload(u / 64, n - 1);
    }
  }

  /** A positive value is read back exactly from its payload; a negative
      32-bit value is read back as its two's-complement bit pattern. */
  lemma PayloadOfValue(w: ValueWidth, v: int)
    requires InRange(w, v) && v != 0 && (v < 0 ==> w == Int32)
    ensures DecodePayload(Payload(Low32(v), PayloadUnitCount(w, v))) == if v > 0 then v else v + 4294967296
  {
    PowFacts();
    var n := PayloadUnitCount(w, v);
    if v > 0 {
      UnitsHold(w, v);
    }
    PayloadRoundTrip(Low32(v), n);
  }

  // ------------------------------------------------------------ the offsets

  /** The three offset bytes of a child position: base-127 digits, lowest
      first, each plus one so that no byte is zero. */
  function OffsetBytes(q: nat): (r: seq<byte>)
    requires q < MaxOffset
    ensures |r| == 3
    ensures forall i :: 0 <= i < 3 ==> 1 <= r[i] as int <= 127
  {
    [(q % 127 + 1) as byte, ((q / 127) % 127 + 1) as byte, (q / (127 * 127) + 1) as byte]
  }

  function DecodeOffset(bs: seq<byte>): int
    requires |bs| == 3
  {
    (bs[0] as int - 1) + 127 * (bs[1] as int - 1) + 127 * 127 * (bs[2] as int - 1)
  }

  lemma OffsetRoundTrip(q: nat)
    requires q < MaxOffset
    ensures DecodeOffset(OffsetBytes(q)) == q
  {
    var a := q % 127;
    var b := (q / 127) % 127;
    var c := q / (127 * 127);
    assert q / 127 == 127 * c + b;
    assert q == 127 * (q / 127) + a;
  }

  // --------------------------------------------------------------- the trie

  /** A trie node: terminal nodes carry a value; the children are kept by
      character. */
  datatype Node = Node(terminal: bool, value: int, edges: seq<Edge>)
  datatype Edge = Edge(c: SChar, kid: Node)

  function Empty(): Node {
    Node(false, 0, [])
  }

  /** The child reached by character `c`, if any. */
  function FindKid(edges: seq<Edge>, c: SChar): (r: Option<Node>)
    ensures r.None? <==> forall i :: 0 <= i < |edges| ==> edges[i].c != c
    ensures r.Some? ==> Edge(c, r.value) in edges
  {
    if |edges| == 0 then None
    else if edges[0].c == c then Some(edges[0].kid)
    else FindKid(edges[1..], c)
  }

  /** The value stored for string `s`. */
  function Lookup(n: Node, s: seq<SChar>): Option<int>
    decreases |s|
  {
    if |s| == 0 then (if n.terminal then Some(n.value) else None)
    else
      match FindKid(n.edges, s[0])
      case None => None
      case Some(k) => Lookup(k, s[1..])
  }

  predicate SortedEdges(edges: seq<Edge>) {
    forall i, j :: 0 <= i < j < |edges| ==> edges[i].c < edges[j].c
  }

  /** Every node's children are in character order (as in `std::map`). */
  predicate Sorted(n: Node) {
    SortedEdges(n.edges) && forall i :: 0 <= i < |n.edges| ==> Sorted(n.edges[i].kid)
  }

  /** `insert(s, value, start)`: walks (creating as needed) the path of `s`
      and makes its end terminal with `value`, overwriting any old value.
      The children stay in character order. */
  function Insert(n: Node, s: seq<SChar>, v: int): (r: Node)
    requires Sorted(n)
    decreases |s|, 1, 0
    ensures Sorted(r)
  {
    if |s| == 0 then n.(terminal := true, value := v)
    else n.(edges := InsertEdge(n.edges, s[0], s[1..], v))
  }

  /** Children whose nodes are all sorted, in character order. */
  predicate SortedKids(edges: seq<Edge>) {
    SortedEdges(edges) && forall i :: 0 <= i < |edges| ==> Sorted(edges[i].kid)
  }

  /** The child for `c` with `rest` inserted below it; a new child is placed
      in character order. */
  function InsertEdge(edges: seq<Edge>, c: SChar, rest: seq<SChar>, v: int): (r: seq<Edge>)
    requires SortedKids(edges)
    decreases |rest| + 1, 0, |edges|
    ensures SortedKids(r)
    ensures |r| > 0 && r[0].c == (if |edges| > 0 && edges[0].c < c then edges[0].c else c)
  {
    if |edges| == 0 then [Edge(c, Insert(Empty(), rest, v))]
    else if edges[0].c == c then [Edge(c, Insert(edges[0].kid, rest, v))] + edges[1..]
    else if c < edges[0].c then [Edge(c, Insert(Empty(), rest, v))] + edges
    else
      var tail := InsertEdge(edges[1..], c, rest, v);
      ConsSorted(edges[0], tail);
      [edges[0]] + tail
  }

  lemma ConsSorted(e: Edge, xs: seq<Edge>)
    requires SortedKids(xs) && Sorted(e.kid) && (|xs| > 0 ==> e.c < xs[0].c)
    ensures SortedKids([e] + xs)
  {
    var r := [e] + xs;
    forall i, j | 0 <= i < j < |r| ensures r[i].c < r[j].c {
      if i > 0 {
        assert r[i] == xs[i - 1] && r[j] == xs[j - 1];
      } else {
        assert r[j] == xs[j - 1];
        assert j - 1 == 0 || xs[0].c < xs[j - 1].c;
      }
    }
  }

  lemma FindKidCons(e: Edge, xs: seq<Edge>, d: SChar)
    ensures FindKid([e] + xs, d) == if e.c == d then Some(e.kid) else FindKid(xs, d)
  {
    assert ([e] + xs)[1..] == xs;
  }

  /** In sorted children, a character below the first is not present. */
  lemma SortedFindKid(edges: seq<Edge>, c: SChar)
    requires SortedEdges(edges) && |edges| > 0 && c < edges[0].c
    ensures FindKid(edges, c).None?
  {
  }

  /** After an insert, `s` maps to the inserted value and every other string
      keeps its value. */
  lemma {:induction false} InsertLookup(n: Node, s: seq<SChar>, v: int, t: seq<SChar>)
    requires Sorted(n)
    decreases |s|, 1, 0
    ensures Lookup(Insert(n, s, v), t) == if t == s then Some(v) else Lookup(n, t)
  {
    if |s| > 0 && |t| > 0 {
      var m := Insert(n, s, v);
      assert m.edges == InsertEdge(n.edges, s[0], s[1..], v);
      InsertEdgeFind(n.edges, s[0], s[1..], v, t[0]);
      if t[0] == s[0] {
        var k := OrEmpty(FindKid(n.edges, s[0]));
        KidSorted(n, s[0]);
        assert Lookup(m, t) == Lookup(Insert(k, s[1..], v), t[1..]);
        InsertLookup(k, s[1..], v, t[1..]);
        if t != s {
          TailsDiffer(s, t);
          if FindKid(n.edges, s[0]).None? {
            EmptyLookup(t[1..]);
          } else {
            assert Lookup(n, t) == Lookup(k, t[1..]);
          }
        }
      } else {
        assert FindKid(m.edges, t[0]) == FindKid(n.edges, t[0]);
      }
    }
  }

  /** Two different strings with the same first character differ after it. */
  lemma TailsDiffer(s: seq<SChar>, t: seq<SChar>)
    requires |s| > 0 && |t| > 0 && s[0] == t[0] && s != t
    ensures s[1..] != t[1..]
  {
    assert s == [s[0]] + s[1..] && t == [t[0]] + t[1..];
  }

  /** The child for `c` of a sorted node (or the empty node) is sorted. */
  lemma KidSorted(n: Node, c: SChar)
    requires Sorted(n)
    ensures Sorted(OrEmpty(FindKid(n.edges, c)))
  {
    var r := FindKid(n.edges, c);
    if r.Some? {
      var i :| 0 <= i < |n.edges| && n.edges[i] == Edge(c, r.value);
    }
  }

  lemma EmptyLookup(t: seq<SChar>)
    ensures Lookup(Empty(), t).None?
  {
  }

  lemma {:induction false} InsertEdgeFind(edges: seq<Edge>, c: SChar, rest: seq<SChar>, v: int, d: SChar)
    requires SortedKids(edges)
    decreases |rest| + 1, 0, |edges|
    ensures FindKid(InsertEdge(edges, c, rest, v), d) ==
      if d == c then Some(Insert(OrEmpty(FindKid(edges, c)), rest, v)) else FindKid(edges, d)
  {
    if |edges| == 0 {
      FindKidCons(Edge(c, Insert(Empty(), rest, v)), [], d);
    } else if edges[0].c == c {
      FindKidCons(Edge(c, Insert(edges[0].kid, rest, v)), edges[1..], d);
      FindKidCons(edges[0], edges[1..], d);
      FindKidCons(edges[0], edges[1..], c);
    } else if c < edges[0].c {
      FindKidCons(Edge(c, Insert(Empty(), rest, v)), edges, d);
      SortedFindKid(edges, c);
    } else {
      var tail := InsertEdge(edges[1..], c, rest, v);
      InsertEdgeFind(edges[1..], c, rest, v, d);
      FindKidCons(edges[0], tail, d);
      FindKidCons(edges[0], edges[1..], d);
      FindKidCons(edges[0], edges[1..], c);
    }
  }

  function OrEmpty(k: Option<Node>): Node {
    match k
    case None => Empty()
    case Some(n) => n
  }

  /** Insertion of every entry, in order. */
  function Build(entries: seq<(seq<SChar>, int)>): (r: Node)
    ensures Sorted(r)
  {
    if |entries| == 0 then Empty()
    else Insert(Build(entries[..|entries| - 1]), entries[|entries| - 1].0, entries[|entries| - 1].1)
  }

  /** The value the last entry for `s` gives it. */
  function LastValue(entries: seq<(seq<SChar>, int)>, s: seq<SChar>): Option<int> {
    if |entries| == 0 then None
    else if entries[|entries| - 1].0 == s then Some(entries[|entries| - 1].1)
    else LastValue(entries[..|entries| - 1], s)
  }

  /** The trie built from the entries maps each string to its last value and
      holds nothing else. */
  lemma {:induction false} BuildLookup(entries: seq<(seq<SChar>, int)>, s: seq<SChar>)
    ensures Lookup(Build(entries), s) == LastValue(entries, s)
  {
    if |entries| > 0 {
      BuildLookup(entries[..|entries| - 1], s);
      InsertLookup(Build(entries[..|entries| - 1]), entries[|entries| - 1].0, entries[|entries| - 1].1, s);
    }
  }

  // ----------------------------------------------------------- the encoding

  /** The header byte: a terminal node gives 8 when its value is zero and the
      payload unit count otherwise; an inner node gives 16. */
  function Header(w: ValueWidth, n: Node): (b: byte)
    requires InRange(w, n.value)
    ensures n.terminal && n.value == 0 ==> b == FlagNoPayload
    ensures n.terminal && n.value != 0 ==> 1 <= b as int <= MaxUnits(w)
    ensures !n.terminal ==> b == FlagNonterminal
    ensures 0 < b as int < 32
  {
    if n.terminal then (if n.value == 0 then FlagNoPayload else PayloadUnitCount(w, n.value) as byte)
    else FlagNonterminal
  }

  /** The header followed by the payload of a non-zero terminal value. */
  function HeaderBytes(w: ValueWidth, n: Node): (r: seq<byte>)
    requires InRange(w, n.value)
    ensures |r| >= 1 && r[0] == Header(w, n)
    ensures n.terminal && n.value != 0 ==> r[1..] == Payload(Low32(n.value), PayloadUnitCount(w, n.value))
    ensures !(n.terminal && n.value != 0) ==> |r| == 1
  {
    [Header(w, n)] + (if n.terminal && n.value != 0 then Payload(Low32(n.value), PayloadUnitCount(w, n.value)) else [])
  }

  /** Every value in the trie fits the value type. */
  predicate ValuesInRange(w: ValueWidth, n: Node) {
    InRange(w, n.value) && forall i :: 0 <= i < |n.edges| ==> ValuesInRange(w, n.edges[i].kid)
  }

  /** Bytes of the child table for `k` children: a character each, and three
      offset bytes for every child but the first. */
  function TableLength(k: nat): nat {
    if k == 0 then 0 else 4 * k - 3
  }

  /** `encode(oss)` for a node whose encoding starts at stream position
      `pos`; `None` where the source's assertions fail (a chained character
      below 32, an inner node without children, 127 or more children, or an
      offset of 127^3 or more). */
  function Encode(w: ValueWidth, n: Node, pos: nat): (r: Option<seq<byte>>)
    requires ValuesInRange(w, n)
    decreases n, 1, 0
  {
    if !n.terminal && |n.edges| == 1 then
      if n.edges[0].c < 32 then None
      else
        match Encode(w, n.edges[0].kid, pos + 1)
        case None => None
        case Some(rest) => Some([CharByte(n.edges[0].c)] + rest)
    else if !n.terminal && |n.edges| == 0 then None
    else if |n.edges| + 1 >= 128 then None
    else
      var head := HeaderBytes(w, n) + [(|n.edges| + 1) as byte];
      var bodyStart := pos + |head| + TableLength(|n.edges|);
      match EncodeKids(w, n, 0, bodyStart)
      case None => None
      case Some(kids) =>
        match Table(n.edges, kids.starts, 0)
        case None => None
        case Some(table) => Some(head + table + kids.bytes)
  }

  /** The encodings of children `i..` placed one after another from `start`:
      the bytes, where each child begins, and each child's own encoding. */
  datatype Placed = Placed(bytes: seq<byte>, starts: seq<nat>, parts: seq<seq<byte>>)

  /** `parts` laid end to end from position `start` make up `bytes`, part
      `j` beginning at `starts[j]`. */
  predicate Laid(bytes: seq<byte>, starts: seq<nat>, parts: seq<seq<byte>>, start: nat)
    decreases |parts|
  {
    |starts| == |parts| &&
    if |parts| == 0 then bytes == []
    else
      starts[0] == start && |parts[0]| <= |bytes| && bytes[..|parts[0]|] == parts[0] &&
      Laid(bytes[|parts[0]|..], starts[1..], parts[1..], start + |parts[0]|)
  }

  function EncodeKids(w: ValueWidth, n: Node, i: nat, start: nat): (r: Option<Placed>)
    requires ValuesInRange(w, n) && i <= |n.edges|
    decreases n, 0, |n.edges| - i
    ensures r.Some? ==> |r.value.starts| == |r.value.parts| == |n.edges| - i
    ensures r.Some? ==> Laid(r.value.bytes, r.value.starts, r.value.parts, start)
  {
    if i == |n.edges| then Some(Placed([], [], []))
    else
      match Encode(w, n.edges[i].kid, start)
      case None => None
      case Some(k) =>
        match EncodeKids(w, n, i + 1, start + |k|)
        case None => None
        case Some(more) =>
          var r := Placed(k + more.bytes, [start] + more.starts, [k] + more.parts);
          assert r.bytes[..|k|] == k && r.bytes[|k|..] == more.bytes;
          assert r.starts[1..] == more.starts && r.parts[1..] == more.parts;
          Some(r)
  }

  /** The child table from entry `j` on; entry 0 has no offset. */
  function Table(edges: seq<Edge>, starts: seq<nat>, j: nat): (r: Option<seq<byte>>)
    requires |starts| == |edges| && j <= |edges|
    decreases |edges| - j
    ensures r.Some? ==> |r.value| == TableLength(|edges|) - TableLength(j)
  {
    if j == |edges| then Some([])
    else if j > 0 && starts[j] >= MaxOffset then None
    else
      var entry := [CharByte(edges[j].c)] + (if j > 0 then OffsetBytes(starts[j]) else []);
      match Table(edges, starts, j + 1)
      case None => None
      case Some(more) => Some(entry + more)
  }

  /** `encode_string_tree_map`: insert every entry of the (sorted, distinct)
      map, then encode from position 0. */
  function EncodeStringTreeMap(w: ValueWidth, entries: seq<(seq<SChar>, int)>): Option<seq<byte>>
    requires forall i :: 0 <= i < |entries| ==> InRange(w, entries[i].1)
  {
    BuildInRange(w, entries);
    Encode(w, Build(entries), 0)
  }

  lemma {:induction false} BuildInRange(w: ValueWidth, entries: seq<(seq<SChar>, int)>)
    requires forall i :: 0 <= i < |entries| ==> InRange(w, entries[i].1)
    ensures ValuesInRange(w, Build(entries))
  {
    if |entries| > 0 {
      BuildInRange(w, entries[..|entries| - 1]);
      InsertInRange(w, Build(entries[..|entries| - 1]), entries[|entries| - 1].0, entries[|entries| - 1].1);
    }
  }

  lemma {:induction false} InsertInRange(w: ValueWidth, n: Node, s: seq<SChar>, v: int)
    requires Sorted(n) && ValuesInRange(w, n) && InRange(w, v)
    ensures ValuesInRange(w, Insert(n, s, v))
    decreases |s|, 1, 0
  {
    if |s| > 0 {
      InsertEdgeInRange(w, n.edges, s[0], s[1..], v);
    }
  }

  lemma {:induction false} InsertEdgeInRange(w: ValueWidth, edges: seq<Edge>, c: SChar, rest: seq<SChar>, v: int)
    requires SortedKids(edges) && forall i :: 0 <= i < |edges| ==> ValuesInRange(w, edges[i].kid)
    requires InRange(w, v)
    ensures forall i :: 0 <= i < |InsertEdge(edges, c, rest, v)| ==> ValuesInRange(w, InsertEdge(edges, c, rest, v)[i].kid)
    decreases |rest| + 1, 0, |edges|
  {
    PowFacts();
    if |edges| == 0 {
      InsertInRange(w, Empty(), rest, v);
    } else if edges[0].c == c {
      InsertInRange(w, edges[0].kid, rest, v);
    } else if c < edges[0].c {
      InsertInRange(w, Empty(), rest, v);
    } else {
      InsertEdgeInRange(w, edges[1..], c, rest, v);
    }
  }

  /** `StringTreeSet`: every string is inserted with value 0 into a 16-bit
      map. */
  function SetEntries(strings: seq<seq<SChar>>): (r: seq<(seq<SChar>, int)>)
    ensures |r| == |strings|
    ensures forall i :: 0 <= i < |r| ==> r[i] == (strings[i], 0)
  {
    if |strings| == 0 then [] else SetEntries(strings[..|strings| - 1]) + [(strings[|strings| - 1], 0)]
  }

  function EncodeStringTreeSet(strings: seq<seq<SChar>>): Option<seq<byte>> {
    PowFacts();
    EncodeStringTreeMap(Int16, SetEntries(strings))
  }

  /** Every value in the trie is zero. */
  predicate AllZero(n: Node) {
    n.value == 0 && forall i :: 0 <= i < |n.edges| ==> AllZero(n.edges[i].kid)
  }

  /** The set encoding stores zero everywhere, so every terminal node gets
      the no-payload header. */
  lemma {:induction false} SetTreeAllZero(strings: seq<seq<SChar>>)
    ensures AllZero(Build(SetEntries(strings)))
  {
    var e := SetEntries(strings);
    BuildZero(e);
  }

  lemma {:induction false} BuildZero(entries: seq<(seq<SChar>, int)>)
    requires forall i :: 0 <= i < |entries| ==> entries[i].1 == 0
    ensures AllZero(Build(entries))
  {
    if |entries| > 0 {
      BuildZero(entries[..|entries| - 1]);
      InsertZero(Build(entries[..|entries| - 1]), entries[|entries| - 1].0);
    }
  }

  lemma {:induction false} InsertZero(n: Node, s: seq<SChar>)
    requires Sorted(n) && AllZero(n)
    ensures AllZero(Insert(n, s, 0))
    decreases |s|, 1, 0
  {
    if |s| > 0 {
      InsertEdgeZero(n.edges, s[0], s[1..]);
    }
  }

  lemma {:induction false} InsertEdgeZero(edges: seq<Edge>, c: SChar, rest: seq<SChar>)
    requires SortedKids(edges) && forall i :: 0 <= i < |edges| ==> AllZero(edges[i].kid)
    ensures forall i :: 0 <= i < |InsertEdge(edges, c, rest, 0)| ==> AllZero(InsertEdge(edges, c, rest, 0)[i].kid)
    decreases |rest| + 1, 0, |edges|
  {
    if |edges| == 0 {
      InsertZero(Empty(), rest);
    } else if edges[0].c == c {
      InsertZero(edges[0].kid, rest);
    } else if c < edges[0].c {
      InsertZero(Empty(), rest);
    } else {
      InsertEdgeZero(edges[1..], c, rest);
    }
  }

  /** In a trie of zeros, every header is the no-payload or the inner-node
      flag, and no node has payload bytes. */
  lemma ZeroHeaders(w: ValueWidth, n: Node)
    requires AllZero(n)
    ensures InRange(w, n.value)
    ensures Header(w, n) == (if n.terminal then FlagNoPayload else FlagNonterminal)
    ensures |HeaderBytes(w, n)| == 1
  {
    PowFacts();
  }

  // ------------------------------------------------------------ the reading

  /** `bs[off..]` starts with `b`. */
  predicate At(bs: seq<byte>, off: nat, b: seq<byte>) {
    off + |b| <= |bs| && bs[off..off + |b|] == b
  }

  lemma AtSplit(bs: seq<byte>, off: nat, x: seq<byte>, y: seq<byte>)
    requires At(bs, off, x + y)
    ensures At(bs, off, x) && At(bs, off + |x|, y)
  {
    assert bs[off..off + |x|] == (x + y)[..|x|];
    assert bs[off + |x|..off + |x| + |y|] == (x + y)[|x|..];
  }

  lemma AtSlice(bs: seq<byte>, off: nat, b: seq<byte>, i: nat, j: nat)
    requires At(bs, off, b) && i <= j <= |b|
    ensures At(bs, off + i, b[i..j])
  {
    forall k | 0 <= k < j - i ensures bs[off + i..off + j][k] == b[i..j][k] {
      assert bs[off + i + k] == bs[off..off + |b|][i + k];
    }
  }

  lemma AtShift(x: seq<byte>, ys: seq<byte>, off: nat, b: seq<byte>)
    requires At(ys, off, b)
    ensures At(x + ys, |x| + off, b)
  {
    assert (x + ys)[|x| + off..|x| + off + |b|] == ys[off..off + |b|];
  }

  lemma AtPrefix(x: seq<byte>, ys: seq<byte>)
    ensures At(x + ys, 0, x)
  {
    assert (x + ys)[..|x|] == x;
  }

  /** Where entry `j` of a child table at `t` has its character and, for
      `j > 0`, its three offset bytes: all inside `bs`. */
  predicate EntryInside(bs: seq<byte>, t: nat, j: nat) {
    t + TableLength(j) + (if j > 0 then 3 else 0) < |bs|
  }

  /** The first entry from `j` on, of the `k` in the child table at `t`,
      whose character byte is `b`. */
  function FindEntry(bs: seq<byte>, t: nat, k: nat, j: nat, b: byte): (r: Option<nat>)
    decreases k - j
    ensures r.Some? ==> j <= r.value < k && EntryInside(bs, t, r.value) && bs[t + TableLength(r.value)] == b
  {
    if j >= k || !EntryInside(bs, t, j) then None
    else if bs[t + TableLength(j)] == b then Some(j)
    else FindEntry(bs, t, k, j + 1, b)
  }

  /** Where child `j` of the `k` in the table at `t` is encoded: the first
      right after the table, the others at the position their offset bytes
      give. */
  function ChildPos(bs: seq<byte>, t: nat, k: nat, j: nat): int
    requires EntryInside(bs, t, j)
  {
    if j == 0 then t + TableLength(k)
    else DecodeOffset(bs[t + TableLength(j) + 1..t + TableLength(j) + 4])
  }

  /** The payload units a header byte announces. */
  function HeaderUnits(h: byte): nat {
    if h == FlagNoPayload || h == FlagNonterminal then 0 else h as nat
  }

  /** The value the reader finds for `s` in the node encoded at `q`: a byte
      of 32 or more is a chained character, anything below is a header,
      followed by the payload, the child count plus one, and the child
      table. */
  function ReadLookup(bs: seq<byte>, q: nat, s: seq<SChar>): Option<int>
    decreases |s|
  {
    if q >= |bs| then None
    else if bs[q] >= 32 then
      if |s| == 0 || CharByte(s[0]) != bs[q] then None
      else ReadLookup(bs, q + 1, s[1..])
    else
      var h := bs[q];
      var sizeAt := q + 1 + HeaderUnits(h);
      if |s| == 0 then
        if h == FlagNonterminal || sizeAt > |bs| then None
        else Some(DecodePayload(bs[q + 1..sizeAt]))
      else if sizeAt >= |bs| || bs[sizeAt] == 0 then None
      else
        var k := bs[sizeAt] as nat - 1;
        var t := sizeAt + 1;
        match FindEntry(bs, t, k, 0, CharByte(s[0]))
        case None => None
        case Some(j) =>
          var childAt := ChildPos(bs, t, k, j);
          if childAt < 0 then None else ReadLookup(bs, childAt, s[1..])
  }

  /** The value the reader gives back for a stored value: its low 32 bits. */
  function Stored(v: Option<int>): Option<int> {
    match v
    case None => None
    case Some(x) => Some(Low32(x))
  }

  /** Every value can be read back: non-negative, or a 32-bit value (16-bit
      negative values get fewer units than their 32-bit pattern needs). */
  predicate Readable(w: ValueWidth, n: Node) {
    (n.value >= 0 || w == Int32) && forall i :: 0 <= i < |n.edges| ==> Readable(w, n.edges[i].kid)
  }

  /** The first index from `j` on whose character is `c`. */
  function KidIndex(edges: seq<Edge>, c: SChar, j: nat): (r: Option<nat>)
    requires j <= |edges|
    decreases |edges| - j
    ensures r.Some? ==> j <= r.value < |edges| && edges[r.value].c == c
  {
    if j == |edges| then None
    else if edges[j].c == c then Some(j)
    else KidIndex(edges, c, j + 1)
  }

  lemma {:induction false} FindKidIndex(edges: seq<Edge>, c: SChar, j: nat)
    requires j <= |edges|
    decreases |edges| - j
    ensures FindKid(edges[j..], c) == match KidIndex(edges, c, j) case None => None case Some(i) => Some(edges[i].kid)
  {
    if j < |edges| {
      FindKidIndex(edges, c, j + 1);
      assert edges[j..][1..] == edges[j + 1..];
    }
  }

  lemma CharByteInjective(c: SChar, d: SChar)
    ensures CharByte(c) == CharByte(d) <==> c == d
  {
  }

  /** Where entry `j0..` of the table lies, relative to entry `j0`. */
  lemma {:induction false} TableAt(edges: seq<Edge>, starts: seq<nat>, j0: nat, j: nat)
    requires |starts| == |edges| && j0 <= j < |edges| && Table(edges, starts, j0).Some?
    decreases j - j0
    ensures var tb := Table(edges, starts, j0).value;
      var o := TableLength(j) - TableLength(j0);
      0 <= o && o + (if j > 0 then 4 else 1) <= |tb| && tb[o] == CharByte(edges[j].c) &&
      (j > 0 ==> starts[j] < MaxOffset && tb[o + 1..o + 4] == OffsetBytes(starts[j]))
  {
    var tb := Table(edges, starts, j0).value;
    var entry := [CharByte(edges[j0].c)] + (if j0 > 0 then OffsetBytes(starts[j0]) else []);
    var more := Table(edges, starts, j0 + 1).value;
    assert tb == entry + more;
    if j > j0 {
      TableAt(edges, starts, j0 + 1, j);
      var o := TableLength(j) - TableLength(j0 + 1);
      assert TableLength(j0 + 1) - TableLength(j0) == |entry|;
      assert tb[|entry| + o] == more[o];
      if j > 0 {
        assert tb[|entry| + o + 1..|entry| + o + 4] == more[o + 1..o + 4];
      }
    }
  }

  /** Every entry of the table at `t` lies inside `bs` and carries the
      character of its child. */
  predicate TableNames(bs: seq<byte>, t: nat, edges: seq<Edge>) {
    forall i :: 0 <= i < |edges| ==> EntryInside(bs, t, i) && bs[t + TableLength(i)] == CharByte(edges[i].c)
  }

  /** The reader's table search finds the same child as `FindKid`. */
  lemma {:induction false} FindEntryIndex(bs: seq<byte>, t: nat, edges: seq<Edge>, j: nat, c: SChar)
    requires j <= |edges| && TableNames(bs, t, edges)
    decreases |edges| - j
    ensures FindEntry(bs, t, |edges|, j, CharByte(c)) == KidIndex(edges, c, j)
  {
    if j < |edges| {
      CharByteInjective(c, edges[j].c);
      FindEntryIndex(bs, t, edges, j + 1, c);
    }
  }

  /** One step of `EncodeKids`: child `i` first, then the rest. */
  lemma KidsUnfold(w: ValueWidth, n: Node, i: nat, start: nat, pl: Placed) returns (k: seq<byte>, more: Placed)
    requires ValuesInRange(w, n) && i < |n.edges| && EncodeKids(w, n, i, start) == Some(pl)
    ensures Encode(w, n.edges[i].kid, start) == Some(k)
    ensures EncodeKids(w, n, i + 1, start + |k|) == Some(more)
    ensures pl == Placed(k + more.bytes, [start] + more.starts, [k] + more.parts)
  {
    k := Encode(w, n.edges[i].kid, start).value;
    more := EncodeKids(w, n, i + 1, start + |k|).value;
  }

  /** Each part is the encoding of its child at the position it is placed. */
  lemma {:induction false} KidEncoded(w: ValueWidth, n: Node, i: nat, start: nat, j: nat, pl: Placed)
    requires ValuesInRange(w, n) && i <= j < |n.edges| && EncodeKids(w, n, i, start) == Some(pl)
    decreases j - i
    ensures Encode(w, n.edges[j].kid, pl.starts[j - i]) == Some(pl.parts[j - i])
  {
    var k, more := KidsUnfold(w, n, i, start, pl);
    if j > i {
      KidEncoded(w, n, i + 1, start + |k|, j, more);
      assert pl.parts[j - i] == more.parts[j - i - 1] && pl.starts[j - i] == more.starts[j - i - 1];
    }
  }

  /** Part `j` of parts laid from `start` lies at `starts[j] - start`. */
  lemma {:induction false} LaidAt(bytes: seq<byte>, starts: seq<nat>, parts: seq<seq<byte>>, start: nat, j: nat)
    requires Laid(bytes, starts, parts, start) && j < |parts|
    decreases j
    ensures start <= starts[j] && At(bytes, starts[j] - start, parts[j])
    ensures j == 0 ==> starts[0] == start
  {
    if j == 0 {
      assert bytes[0..|parts[0]|] == parts[0];
    } else {
      var rest := bytes[|parts[0]|..];
      LaidAt(rest, starts[1..], parts[1..], start + |parts[0]|, j - 1);
      AtShift(bytes[..|parts[0]|], rest, starts[j] - start - |parts[0]|, parts[j]);
      assert bytes[..|parts[0]|] + rest == bytes;
    }
  }

  /** The header tells the reader how many payload units follow and whether
      the node is terminal. */
  lemma HeaderRead(w: ValueWidth, n: Node)
    requires InRange(w, n.value)
    ensures var h := Header(w, n);
      |HeaderBytes(w, n)| == 1 + HeaderUnits(h) && (h == FlagNonterminal <==> !n.terminal) && h < 32
  {
  }

  /** The header, its payload and the child count plus one sit at `pos`. */
  predicate HeadAt(w: ValueWidth, n: Node, bs: seq<byte>, pos: nat)
    requires InRange(w, n.value)
  {
    At(bs, pos, HeaderBytes(w, n)) &&
    pos + |HeaderBytes(w, n)| < |bs| && bs[pos + |HeaderBytes(w, n)|] as int == |n.edges| + 1
  }

  /** Node `n` is laid out in `bs` at `pos` the way the reader expects: a
      chained character, or a header with its payload, the child count plus
      one, and a table whose entries name each child and lead to it. */
  ghost predicate NodeAt(w: ValueWidth, n: Node, bs: seq<byte>, pos: nat)
    decreases n, 2
  {
    if !n.terminal && |n.edges| == 1 then
      pos < |bs| && 32 <= n.edges[0].c && bs[pos] == CharByte(n.edges[0].c) &&
      NodeAt(w, n.edges[0].kid, bs, pos + 1)
    else
      InRange(w, n.value) && HeadAt(w, n, bs, pos) && KidsLaid(w, n, bs, pos + |HeaderBytes(w, n)| + 1)
  }

  /** Every child of `n` is laid out as `KidLaid` says, for the table at `t`. */
  ghost predicate KidsLaid(w: ValueWidth, n: Node, bs: seq<byte>, t: nat)
    decreases n, 1
  {
    forall j :: 0 <= j < |n.edges| ==> KidLaid(w, n, bs, t, j)
  }

  /** Entry `j` of the table at `t` carries the character of child `j`, and
      the child is laid out where the entry leads. */
  ghost predicate KidLaid(w: ValueWidth, n: Node, bs: seq<byte>, t: nat, j: nat)
    requires j < |n.edges|
    decreases n, 0
  {
    EntryInside(bs, t, j) && bs[t + TableLength(j)] == CharByte(n.edges[j].c) &&
    ChildPos(bs, t, |n.edges|, j) >= 0 && NodeAt(w, n.edges[j].kid, bs, ChildPos(bs, t, |n.edges|, j))
  }

  /** Reading a laid-out node gives what the trie holds: for every string,
      the value found through the headers, child tables and offsets is the
      stored value (as its low 32 bits), and a string that is not in the trie
      is not found. */
  lemma {:induction false} ReadNodeAt(w: ValueWidth, n: Node, pos: nat, bs: seq<byte>, s: seq<SChar>)
    requires NodeAt(w, n, bs, pos) && Readable(w, n)
    decreases |s|, 1
    ensures ReadLookup(bs, pos, s) == Stored(Lookup(n, s))
  {
    if !n.terminal && |n.edges| == 1 {
      ReadChain(w, n, pos, bs, s);
    } else if |s| == 0 {
      ReadValue(w, n, pos, bs);
    } else {
      ReadChild(w, n, pos, bs, s);
    }
  }

  /** A chained node: the character byte must match the next character. */
  lemma {:induction false} ReadChain(w: ValueWidth, n: Node, pos: nat, bs: seq<byte>, s: seq<SChar>)
    requires !n.terminal && |n.edges| == 1 && NodeAt(w, n, bs, pos) && Readable(w, n)
    decreases |s|, 0
    ensures ReadLookup(bs, pos, s) == Stored(Lookup(n, s))
  {
    var e := n.edges[0];
    assert n.edges == [e] + [];
    if |s| > 0 {
      CharByteInjective(s[0], e.c);
      FindKidCons(e, [], s[0]);
      if s[0] == e.c {
        ReadNodeAt(w, e.kid, pos + 1, bs, s[1..]);
      }
    }
  }

  /** The empty string at a node with a header reads its payload. */
  lemma ReadValue(w: ValueWidth, n: Node, pos: nat, bs: seq<byte>)
    requires !(!n.terminal && |n.edges| == 1) && InRange(w, n.value) && At(bs, pos, HeaderBytes(w, n))
    requires n.value >= 0 || w == Int32
    ensures ReadLookup(bs, pos, []) == Stored(Lookup(n, []))
  {
    var hb := HeaderBytes(w, n);
    HeaderRead(w, n);
    assert bs[pos] == hb[0];
    if n.terminal {
      assert bs[pos + 1..pos + |hb|] == hb[1..];
      if n.value != 0 {
        PayloadOfValue(w, n.value);
      }
    }
  }

  /** A non-empty string at a node with a header: the reader follows the
      table entry of the first character, exactly when the trie has that
      child. */
  lemma {:induction false} ReadChild(w: ValueWidth, n: Node, pos: nat, bs: seq<byte>, s: seq<SChar>)
    requires !(!n.terminal && |n.edges| == 1) && |s| > 0 && NodeAt(w, n, bs, pos) && Readable(w, n)
    decreases |s|, 0
    ensures ReadLookup(bs, pos, s) == Stored(Lookup(n, s))
  {
    var t := pos + |HeaderBytes(w, n)| + 1;
    LaidNames(w, n, bs, t);
    ReadStep(w, n, pos, bs, s);
    LookupStep(n, s);
    match KidIndex(n.edges, s[0], 0)
    case None =>
    case Some(j) =>
      assert KidLaid(w, n, bs, t, j);
      ReadNodeAt(w, n.edges[j].kid, ChildPos(bs, t, |n.edges|, j), bs, s[1..]);
  }

  /** Laid-out children name their characters in the table. */
  lemma LaidNames(w: ValueWidth, n: Node, bs: seq<byte>, t: nat)
    requires KidsLaid(w, n, bs, t)
    ensures TableNames(bs, t, n.edges)
  {
    forall i | 0 <= i < |n.edges|
      ensures EntryInside(bs, t, i) && bs[t + TableLength(i)] == CharByte(n.edges[i].c)
    {
      assert KidLaid(w, n, bs, t, i);
    }
  }

  /** The reader's step at a node with a header. */
  lemma ReadStep(w: ValueWidth, n: Node, pos: nat, bs: seq<byte>, s: seq<SChar>)
    requires !(!n.terminal && |n.edges| == 1) && |s| > 0 && InRange(w, n.value) && HeadAt(w, n, bs, pos)
    requires TableNames(bs, pos + |HeaderBytes(w, n)| + 1, n.edges)
    ensures var t := pos + |HeaderBytes(w, n)| + 1;
      ReadLookup(bs, pos, s) ==
        match KidIndex(n.edges, s[0], 0)
        case None => None
        case Some(j) => if ChildPos(bs, t, |n.edges|, j) < 0 then None else ReadLookup(bs, ChildPos(bs, t, |n.edges|, j), s[1..])
  {
    HeadFacts(w, n, bs, pos);
    ReadTable(bs, pos, |HeaderBytes(w, n)|, n.edges, s);
  }

  /** What the reader sees of a node's header in the stream. */
  lemma HeadFacts(w: ValueWidth, n: Node, bs: seq<byte>, pos: nat)
    requires InRange(w, n.value) && HeadAt(w, n, bs, pos)
    ensures pos + |HeaderBytes(w, n)| < |bs| && bs[pos] < 32 && |HeaderBytes(w, n)| == 1 + HeaderUnits(bs[pos])
    ensures bs[pos + |HeaderBytes(w, n)|] as int == |n.edges| + 1
  {
    HeaderRead(w, n);
    assert bs[pos] == HeaderBytes(w, n)[0];
  }

  /** The reader at a header byte announcing `hl - 1` payload units and
      followed by the count of `edges` plus one and their table. */
  lemma ReadTable(bs: seq<byte>, pos: nat, hl: nat, edges: seq<Edge>, s: seq<SChar>)
    requires |s| > 0 && pos + hl < |bs| && bs[pos] < 32 && hl == 1 + HeaderUnits(bs[pos])
    requires bs[pos + hl] as int == |edges| + 1 && TableNames(bs, pos + hl + 1, edges)
    ensures ReadLookup(bs, pos, s) ==
        match KidIndex(edges, s[0], 0)
        case None => None
        case Some(j) => if ChildPos(bs, pos + hl + 1, |edges|, j) < 0 then None else ReadLookup(bs, ChildPos(bs, pos + hl + 1, |edges|, j), s[1..])
  {
    FindEntryIndex(bs, pos + hl + 1, edges, 0, s[0]);
  }

  /** The trie's step: the first character selects the child by index. */
  lemma LookupStep(n: Node, s: seq<SChar>)
    requires |s| > 0
    ensures Lookup(n, s) ==
      match KidIndex(n.edges, s[0], 0)
      case None => None
      case Some(j) => Lookup(n.edges[j].kid, s[1..])
  {
    FindKidIndex(n.edges, s[0], 0);
    assert n.edges[0..] == n.edges;
  }

  /** The pieces of a node encoded with a header. */
  lemma EncodeUnfold(w: ValueWidth, n: Node, pos: nat, b: seq<byte>) returns (t: nat, ks: nat, kids: Placed, tb: seq<byte>)
    requires ValuesInRange(w, n) && Encode(w, n, pos) == Some(b)
    requires !(!n.terminal && |n.edges| == 1)
    ensures |n.edges| + 1 < 128 && t == pos + |HeaderBytes(w, n)| + 1
    ensures ks == t + TableLength(|n.edges|) && ks == t + |tb| && EncodeKids(w, n, 0, ks) == Some(kids)
    ensures Table(n.edges, kids.starts, 0) == Some(tb)
    ensures b == HeaderBytes(w, n) + [(|n.edges| + 1) as byte] + tb + kids.bytes
  {
    t := pos + |HeaderBytes(w, n)| + 1;
    ks := t + TableLength(|n.edges|);
    kids := EncodeKids(w, n, 0, ks).value;
    tb := Table(n.edges, kids.starts, 0).value;
  }

  lemma AtCompose(bs: seq<byte>, off: nat, outer: seq<byte>, inner: nat, b: seq<byte>)
    requires At(bs, off, outer) && At(outer, inner, b)
    ensures At(bs, off + inner, b)
  {
    AtSlice(bs, off, outer, inner, inner + |b|);
    assert outer[inner..inner + |b|] == b;
  }

  /** An encoding placed in the stream lays its node out there. */
  lemma {:induction false} EncodeLaysOut(w: ValueWidth, n: Node, pos: nat, bs: seq<byte>, b: seq<byte>)
    requires ValuesInRange(w, n) && Encode(w, n, pos) == Some(b) && At(bs, pos, b)
    decreases n, 4
    ensures NodeAt(w, n, bs, pos)
  {
    if !n.terminal && |n.edges| == 1 {
      ChainLaysOut(w, n, pos, bs, b);
    } else {
      HeaderLaysOut(w, n, pos, bs, b);
    }
  }

  /** A node written with a header: its pieces are in place, so it is laid
      out. */
  lemma {:induction false} HeaderLaysOut(w: ValueWidth, n: Node, pos: nat, bs: seq<byte>, b: seq<byte>)
    requires ValuesInRange(w, n) && Encode(w, n, pos) == Some(b) && At(bs, pos, b)
    requires !(!n.terminal && |n.edges| == 1)
    decreases n, 3
    ensures NodeAt(w, n, bs, pos)
  {
    var t, ks, kids, tb := EncodeUnfold(w, n, pos, b);
    HeadPlaced(w, n, pos, bs, t, tb, kids.bytes);
    HeadedLaysOut(w, n, pos, bs, t, ks, kids, tb);
  }

  /** A chained node: its character byte, then its child right after. */
  lemma {:induction false} ChainLaysOut(w: ValueWidth, n: Node, pos: nat, bs: seq<byte>, b: seq<byte>)
    requires ValuesInRange(w, n) && Encode(w, n, pos) == Some(b) && At(bs, pos, b)
    requires !n.terminal && |n.edges| == 1
    decreases n, 2
    ensures NodeAt(w, n, bs, pos)
  {
    var e := n.edges[0];
    var rest := Encode(w, e.kid, pos + 1).value;
    assert b == [CharByte(e.c)] + rest;
    AtSplit(bs, pos, [CharByte(e.c)], rest);
    assert bs[pos] == CharByte(e.c);
    EncodeLaysOut(w, e.kid, pos + 1, bs, rest);
  }

  /** A node with a header whose pieces are in place is laid out. */
  lemma HeadedNodeAt(w: ValueWidth, n: Node, bs: seq<byte>, pos: nat, t: nat)
    requires !(!n.terminal && |n.edges| == 1) && InRange(w, n.value) && HeadAt(w, n, bs, pos)
    requires t == pos + |HeaderBytes(w, n)| + 1 && KidsLaid(w, n, bs, t)
    ensures NodeAt(w, n, bs, pos)
  {
  }

  /** A node written with a header lays its header, table and children
      out where the reader looks for them. */
  lemma {:induction false} HeadedLaysOut(w: ValueWidth, n: Node, pos: nat, bs: seq<byte>, t: nat, ks: nat, kids: Placed, tb: seq<byte>)
    requires ValuesInRange(w, n) && !(!n.terminal && |n.edges| == 1) && |n.edges| + 1 < 128
    requires t == pos + |HeaderBytes(w, n)| + 1 && ks == t + TableLength(|n.edges|) && EncodeKids(w, n, 0, ks) == Some(kids)
    requires Table(n.edges, kids.starts, 0) == Some(tb)
    requires HeadAt(w, n, bs, pos) && At(bs, t, tb) && At(bs, ks, kids.bytes)
    decreases n, 2
    ensures NodeAt(w, n, bs, pos)
  {
    KidsLayOut(w, n, bs, t, ks, kids, tb);
    HeadedNodeAt(w, n, bs, pos, t);
  }

  /** The header, payload and child count of a node written at `pos` are
      where the reader looks for them, followed by the table and the
      children. */
  lemma HeadPlaced(w: ValueWidth, n: Node, pos: nat, bs: seq<byte>, t: nat, tb: seq<byte>, kb: seq<byte>)
    requires InRange(w, n.value) && |n.edges| + 1 < 128 && t == pos + |HeaderBytes(w, n)| + 1
    requires At(bs, pos, HeaderBytes(w, n) + [(|n.edges| + 1) as byte] + tb + kb)
    ensures HeadAt(w, n, bs, pos) && At(bs, t, tb) && At(bs, t + |tb|, kb)
  {
    AtFour(bs, pos, HeaderBytes(w, n), (|n.edges| + 1) as byte, tb, kb);
  }

  /** The four pieces of a node written with a header, found in the stream. */
  lemma AtFour(bs: seq<byte>, pos: nat, x: seq<byte>, c: byte, y: seq<byte>, z: seq<byte>)
    requires At(bs, pos, x + [c] + y + z)
    ensures At(bs, pos, x) && pos + |x| < |bs| && bs[pos + |x|] == c
    ensures At(bs, pos + |x| + 1, y) && At(bs, pos + |x| + 1 + |y|, z)
  {
    AtSplit(bs, pos, x + [c] + y, z);
    AtSplit(bs, pos, x + [c], y);
    AtSplit(bs, pos, x, [c]);
    assert bs[pos + |x|] == [c][0];
  }

  lemma {:induction false} KidsLayOut(w: ValueWidth, n: Node, bs: seq<byte>, t: nat, ks: nat, kids: Placed, tb: seq<byte>)
    requires ValuesInRange(w, n)
    requires ks == t + TableLength(|n.edges|) && EncodeKids(w, n, 0, ks) == Some(kids)
    requires Table(n.edges, kids.starts, 0) == Some(tb)
    requires At(bs, t, tb) && At(bs, ks, kids.bytes)
    decreases n, 1
    ensures KidsLaid(w, n, bs, t)
  {
    forall j | 0 <= j < |n.edges| ensures KidLaid(w, n, bs, t, j) {
      KidPlaced(w, n, bs, t, ks, kids, tb, j);
      KidLaysOut(w, n, bs, t, j, kids.starts[j], kids.parts[j]);
    }
  }

  /** Child `j` of a node with a header: the table entry names it and leads
      to where its encoding sits. */
  lemma KidPlaced(w: ValueWidth, n: Node, bs: seq<byte>, t: nat, ks: nat, kids: Placed, tb: seq<byte>, j: nat)
    requires ValuesInRange(w, n) && j < |n.edges|
    requires ks == t + TableLength(|n.edges|) && EncodeKids(w, n, 0, ks) == Some(kids)
    requires Table(n.edges, kids.starts, 0) == Some(tb)
    requires At(bs, t, tb) && At(bs, ks, kids.bytes)
    ensures j < |kids.starts| == |kids.parts|
    ensures EntryInside(bs, t, j) && bs[t + TableLength(j)] == CharByte(n.edges[j].c)
    ensures ChildPos(bs, t, |n.edges|, j) == kids.starts[j]
    ensures Encode(w, n.edges[j].kid, kids.starts[j]) == Some(kids.parts[j]) && At(bs, kids.starts[j], kids.parts[j])
  {
    PartPlaced(bs, ks, kids.bytes, kids.starts, kids.parts, j);
    EntryPlaced(n.edges, kids.starts, tb, bs, t, j);
    KidEncoded(w, n, 0, ks, j, kids);
  }

  /** The child behind entry `j`, encoded where the entry leads, is laid out
      there. */
  lemma {:induction false} KidLaysOut(w: ValueWidth, n: Node, bs: seq<byte>, t: nat, j: nat, q: nat, part: seq<byte>)
    requires ValuesInRange(w, n) && j < |n.edges|
    requires EntryInside(bs, t, j) && bs[t + TableLength(j)] == CharByte(n.edges[j].c) && ChildPos(bs, t, |n.edges|, j) == q
    requires Encode(w, n.edges[j].kid, q) == Some(part) && At(bs, q, part)
    decreases n, 0
    ensures KidLaid(w, n, bs, t, j)
  {
    EncodeLaysOut(w, n.edges[j].kid, q, bs, part);
  }

  /** Part `j` of the parts laid from `start` sits at `starts[j]` in the
      stream. */
  lemma PartPlaced(bs: seq<byte>, start: nat, bytes: seq<byte>, starts: seq<nat>, parts: seq<seq<byte>>, j: nat)
    requires Laid(bytes, starts, parts, start) && At(bs, start, bytes) && j < |parts|
    ensures At(bs, starts[j], parts[j]) && (j == 0 ==> starts[0] == start)
  {
    LaidAt(bytes, starts, parts, start, j);
    AtCompose(bs, start, bytes, starts[j] - start, parts[j]);
  }

  /** Entry `j` of a written table names child `j` and leads to where the
      child was placed. */
  lemma EntryPlaced(edges: seq<Edge>, starts: seq<nat>, tb: seq<byte>, bs: seq<byte>, t: nat, j: nat)
    requires |starts| == |edges| && j < |edges| && Table(edges, starts, 0) == Some(tb) && At(bs, t, tb)
    requires j == 0 ==> starts[0] == t + TableLength(|edges|)
    ensures EntryInside(bs, t, j) && bs[t + TableLength(j)] == CharByte(edges[j].c)
    ensures ChildPos(bs, t, |edges|, j) == starts[j]
  {
    TableAt(edges, starts, 0, j);
    EntryNamed(tb, bs, t, j, CharByte(edges[j].c));
    if j > 0 {
      EntryLeads(tb, bs, t, |edges|, j, starts[j]);
    }
  }

  /** The character byte of entry `j`, copied into the stream. */
  lemma EntryNamed(tb: seq<byte>, bs: seq<byte>, t: nat, j: nat, b: byte)
    requires At(bs, t, tb) && TableLength(j) + (if j > 0 then 4 else 1) <= |tb| && tb[TableLength(j)] == b
    ensures EntryInside(bs, t, j) && bs[t + TableLength(j)] == b
  {
    assert bs[t + TableLength(j)] == tb[TableLength(j)];
  }

  /** The offset bytes of entry `j > 0`, copied into the stream, lead to `q`. */
  lemma EntryLeads(tb: seq<byte>, bs: seq<byte>, t: nat, k: nat, j: nat, q: nat)
    requires At(bs, t, tb) && 0 < j && TableLength(j) + 4 <= |tb| && q < MaxOffset
    requires tb[TableLength(j) + 1..TableLength(j) + 4] == OffsetBytes(q)
    ensures EntryInside(bs, t, j) && ChildPos(bs, t, k, j) == q
  {
    var o := TableLength(j);
    AtSlice(bs, t, tb, o + 1, o + 4);
    OffsetRead(bs, t + o + 1, q);
  }

  /** Offset bytes in the stream are read back as the offset. */
  lemma OffsetRead(bs: seq<byte>, at: nat, q: nat)
    requires q < MaxOffset && At(bs, at, OffsetBytes(q))
    ensures at + 3 <= |bs| && DecodeOffset(bs[at..at + 3]) == q
  {
    OffsetRoundTrip(q);
  }

  /** Reading the encoded bytes gives what the trie holds. */
  lemma ReadEncoded(w: ValueWidth, n: Node, pos: nat, bs: seq<byte>, s: seq<SChar>)
    requires ValuesInRange(w, n) && Readable(w, n)
    requires Encode(w, n, pos).Some? && At(bs, pos, Encode(w, n, pos).value)
    ensures ReadLookup(bs, pos, s) == Stored(Lookup(n, s))
  {
    EncodeLaysOut(w, n, pos, bs, Encode(w, n, pos).value);
    ReadNodeAt(w, n, pos, bs, s);
  }

  /** The encoded string-tree map answers every lookup with the value of the
      last entry for that string. */
  lemma EncodedMapLookup(w: ValueWidth, entries: seq<(seq<SChar>, int)>, s: seq<SChar>)
    requires forall i :: 0 <= i < |entries| ==> InRange(w, entries[i].1) && (entries[i].1 >= 0 || w == Int32)
    requires EncodeStringTreeMap(w, entries).Some?
    ensures ReadLookup(EncodeStringTreeMap(w, entries).value, 0, s) == Stored(LastValue(entries, s))
  {
    BuildInRange(w, entries);
    BuildReadable(w, entries);
    var bs := EncodeStringTreeMap(w, entries).value;
    assert bs[0..|bs|] == bs;
    ReadEncoded(w, Build(entries), 0, bs, s);
    BuildLookup(entries, s);
  }

  lemma {:induction false} BuildReadable(w: ValueWidth, entries: seq<(seq<SChar>, int)>)
    requires forall i :: 0 <= i < |entries| ==> entries[i].1 >= 0 || w == Int32
    ensures Readable(w, Build(entries))
  {
    if |entries| > 0 {
      BuildReadable(w, entries[..|entries| - 1]);
      InsertReadable(w, Build(entries[..|entries| - 1]), entries[|entries| - 1].0, entries[|entries| - 1].1);
    }
  }

  lemma {:induction false} InsertReadable(w: ValueWidth, n: Node, s: seq<SChar>, v: int)
    requires Sorted(n) && Readable(w, n) && (v >= 0 || w == Int32)
    ensures Readable(w, Insert(n, s, v))
    decreases |s|, 1, 0
  {
    if |s| > 0 {
      InsertEdgeReadable(w, n.edges, s[0], s[1..], v);
    }
  }

  lemma {:induction false} InsertEdgeReadable(w: ValueWidth, edges: seq<Edge>, c: SChar, rest: seq<SChar>, v: int)
    requires SortedKids(edges) && (forall i :: 0 <= i < |edges| ==> Readable(w, edges[i].kid))
    requires v >= 0 || w == Int32
    ensures forall i :: 0 <= i < |InsertEdge(edges, c, rest, v)| ==> Readable(w, InsertEdge(edges, c, rest, v)[i].kid)
    decreases |rest| + 1, 0, |edges|
  {
    if |edges| == 0 {
      InsertReadable(w, Empty(), rest, v);
    } else if edges[0].c == c {
      InsertReadable(w, edges[0].kid, rest, v);
    } else if c < edges[0].c {
      InsertReadable(w, Empty(), rest, v);
    } else {
      InsertEdgeReadable(w, edges[1..], c, rest, v);
    }
  }

  /** The encoded string-tree set finds exactly the strings of the set. */
  lemma EncodedSetMembership(strings: seq<seq<SChar>>, s: seq<SChar>)
    requires EncodeStringTreeSet(strings).Some?
    ensures ReadLookup(EncodeStringTreeSet(strings).value, 0, s) == if s in strings then Some(0) else None
  {
    PowFacts();
    var e := SetEntries(strings);
    EncodedMapLookup(Int16, e, s);
    SetLastValue(strings, s);
  }

  lemma {:induction false} SetLastValue(strings: seq<seq<SChar>>, s: seq<SChar>)
    ensures LastValue(SetEntries(strings), s) == if s in strings then Some(0) else None
  {
    if |strings| > 0 {
      var init := strings[..|strings| - 1];
      SetLastValue(init, s);
      assert SetEntries(strings)[..|strings| - 1] == SetEntries(init);
      assert strings == init + [strings[|strings| - 1]];
    }
  }
}

=== FILE: uninstantiable_types.dfy ===
/** The uninstantiable types of the remove-uninstantiables pass: the
    candidates (uninstantiable classes and interfaces nothing can implement),
    pruned by walking from every instantiable class up its superclass chain
    and through its interfaces; the walk also records each visited class as
    an instantiable child of its superclass. Types are opaque ids; a type
    without a class definition is the source's null class. */
module UninstantiableTypes {
  import opened Wrappers
  import opened Sets

  type TypeId = nat

  /** A class as the computation sees it. `uninstantiableClass` is the
      answer of the type system's own check, which is not part of this
      model. */
  datatype UClass = UClass(
    isInterface: bool,
    isAnnotation: bool,
    isExternal: bool,
    rootOrUnrenameable: bool,
    vmethodsRootOrUnrenameable: seq<bool>,
    uninstantiableClass: bool,
    super: Option<TypeId>,
    interfaces: seq<TypeId>)

  type Classes = map<TypeId, UClass>

  /** An interface counts as instantiable when it is an annotation, external,
      a root or unrenameable, or has a virtual method that is a root or
      unrenameable. */
  predicate InterfaceInstantiable(c: UClass) {
    c.isAnnotation || c.isExternal || c.rootOrUnrenameable || true in c.vmethodsRootOrUnrenameable
  }

  /** A class whose type starts out as possibly uninstantiable. */
  predicate Candidate(c: UClass) {
    c.uninstantiableClass || (c.isInterface && !InterfaceInstantiable(c))
  }

  /** The instantiable children recorded for a superclass (or for the null
      superclass). */
  function Kids(children: map<Option<TypeId>, set<TypeId>>, k: Option<TypeId>): set<TypeId> {
    if k in children then children[k] else {}
  }

  /** The state of the walk: visited classes, remaining candidates, and the
      instantiable children recorded so far. */
  datatype Walk = Walk(visited: set<TypeId>, uninstantiable: set<TypeId>, children: map<Option<TypeId>, set<TypeId>>)

  /** `b` is the superclass or an interface of class `a`. */
  predicate Parent(classes: Classes, a: TypeId, b: TypeId) {
    a in classes && (classes[a].super == Some(b) || b in classes[a].interfaces)
  }

  /** A set that holds the starting classes and, with every class it holds,
      that class's superclass and interfaces. */
  ghost predicate ParentClosed(classes: Classes, roots: set<TypeId>, s: set<TypeId>) {
    roots <= s && forall a, b :: a in s && Parent(classes, a, b) ==> b in s
  }

  /** Every class of `v` lies in every parent-closed set: it can be reached
      from a starting class through superclasses and interfaces. */
  ghost predicate InAllClosed(classes: Classes, roots: set<TypeId>, v: set<TypeId>) {
    forall s :: ParentClosed(classes, roots, s) ==> v <= s
  }

  lemma ParentReached(classes: Classes, roots: set<TypeId>, a: TypeId, b: TypeId)
    requires InAllClosed(classes, roots, {a}) && Parent(classes, a, b)
    ensures InAllClosed(classes, roots, {b})
  {
    forall s | ParentClosed(classes, roots, s)
      ensures b in s
    {
      assert a in s;
    }
  }

  lemma ReachedUnion(classes: Classes, roots: set<TypeId>, a: set<TypeId>, b: set<TypeId>)
    requires InAllClosed(classes, roots, a) && InAllClosed(classes, roots, b)
    ensures InAllClosed(classes, roots, a + b)
  {
  }

  /** Some visited class lists `y` among its interfaces. */
  ghost predicate InterfaceOfVisited(classes: Classes, visited: set<TypeId>, y: TypeId) {
    exists z :: z in visited && z in classes && y in classes[z].interfaces
  }

  /** The superclasses of the visited classes. */
  function SupersOf(classes: Classes, visited: set<TypeId>): set<Option<TypeId>>
    requires visited <= classes.Keys
  {
    set y | y in visited :: classes[y].super
  }

  /** The children map that records exactly the visited classes, each under
      its superclass. */
  function ChildrenOf(classes: Classes, visited: set<TypeId>): map<Option<TypeId>, set<TypeId>>
    requires visited <= classes.Keys
  {
    map k | k in SupersOf(classes, visited) :: set y | y in visited && classes[y].super == k
  }

  /** The children recorded under `k` are exactly the visited classes whose
      superclass is `k`. */
  lemma ChildrenOfKids(classes: Classes, visited: set<TypeId>)
    requires visited <= classes.Keys
    ensures forall k, y :: y in Kids(ChildrenOf(classes, visited), k) <==> y in visited && classes[y].super == k
  {
    assert forall k, y :: y in visited && classes[y].super == k ==> k in SupersOf(classes, visited);
  }

  /** The walk's remaining candidates and children map are the ones its
      visited set determines: the candidates not visited, and the visited
      classes under their superclasses. */
  ghost predicate Tracks(classes: Classes, cands: set<TypeId>, w: Walk) {
    && w.visited <= classes.Keys
    && w.uninstantiable == cands - w.visited
    && w.children == ChildrenOf(classes, w.visited)
  }

  /** What a walk step leaves behind: it only adds visited classes, and
      every interface of a newly visited class is visited too. */
  ghost predicate VisitEffect(classes: Classes, w: Walk, w': Walk) {
    && w.visited <= w'.visited
    && (forall y, i :: y in w'.visited - w.visited && y in classes && i in classes[y].interfaces && i in classes ==> i in w'.visited)
  }

  lemma EffectTrans(classes: Classes, a: Walk, b: Walk, c: Walk)
    requires VisitEffect(classes, a, b) && VisitEffect(classes, b, c)
    ensures VisitEffect(classes, a, c)
  {
  }

  /** Marks a class visited: drops it from the candidates and records it as
      a child of its superclass. */
  function Mark(classes: Classes, w: Walk, t: TypeId): (r: Walk)
    requires t in classes
    ensures r.visited == w.visited + {t}
  {
    var k := classes[t].super;
    Walk(w.visited + {t}, w.uninstantiable - {t}, w.children[k := Kids(w.children, k) + {t}])
  }

  /** Marking keeps the candidates and the children map in step with the
      visited set. */
  lemma RecordOne(classes: Classes, cands: set<TypeId>, w: Walk, t: TypeId)
    requires Tracks(classes, cands, w) && t in classes && t !in w.visited
    ensures Tracks(classes, cands, Mark(classes, w, t))
  {
    var k0 := classes[t].super;
    var a := Mark(classes, w, t).children;
    var b := ChildrenOf(classes, w.visited + {t});
    ChildrenOfKids(classes, w.visited);
    ChildrenOfKids(classes, w.visited + {t});
    assert SupersOf(classes, w.visited + {t}) == SupersOf(classes, w.visited) + {k0};
    forall k | k in a.Keys
      ensures a[k] == b[k]
    {
      assert a[k] == Kids(a, k) && b[k] == Kids(b, k);
    }
    assert a == b;
  }

  lemma InterfaceOfVisitedGrows(classes: Classes, a: set<TypeId>, b: set<TypeId>)
    requires a <= b
    ensures forall y :: InterfaceOfVisited(classes, a, y) ==> InterfaceOfVisited(classes, b, y)
  {
  }

  /** `visit`: false for a null or already visited class; otherwise the
      class is new to the walk and is visited. */
  method Visit(classes: Classes, w: Walk, ghost roots: set<TypeId>, ghost cands: set<TypeId>, x: Option<TypeId>)
    returns (ok: bool, w': Walk)
    requires Tracks(classes, cands, w) && InAllClosed(classes, roots, w.visited)
    requires x.Some? ==> InAllClosed(classes, roots, {x.value})
    ensures ok <==> x.Some? && x.value in classes && x.value !in w.visited
    ensures !ok ==> w' == w
    ensures ok ==> x.value in w'.visited
    ensures Tracks(classes, cands, w') && VisitEffect(classes, w, w')
    ensures forall y :: y in w'.visited - w.visited && Some(y) != x ==> InterfaceOfVisited(classes, w'.visited, y)
    ensures InAllClosed(classes, roots, w'.visited)
    decreases |classes.Keys - w.visited|, 2
  {
    if x.None? || x.value !in classes || x.value in w.visited {
      return false, w;
    }
    ok := true;
    w' := VisitNew(classes, w, roots, cands, x.value);
  }

  /** The body of `visit` for a class new to the walk: marks it visited,
      records it as a child of its superclass, drops it from the candidates
      and visits its interfaces in order. Every other class it visits is an
      interface of a visited class. */
  method VisitNew(classes: Classes, w: Walk, ghost roots: set<TypeId>, ghost cands: set<TypeId>, t: TypeId)
    returns (w': Walk)
    requires Tracks(classes, cands, w) && InAllClosed(classes, roots, w.visited)
    requires t in classes && t !in w.visited && InAllClosed(classes, roots, {t})
    ensures t in w'.visited
    ensures Tracks(classes, cands, w') && VisitEffect(classes, w, w')
    ensures forall y :: y in w'.visited - w.visited && y != t ==> InterfaceOfVisited(classes, w'.visited, y)
    ensures InAllClosed(classes, roots, w'.visited)
    decreases |classes.Keys - w.visited|, 1
  {
    RecordOne(classes, cands, w, t);
    DiffDrop(classes.Keys, w.visited, t);
    ReachedUnion(classes, roots, w.visited, {t});
    var c := classes[t];
    w' := Mark(classes, w, t);
    for k := 0 to |c.interfaces|
      invariant InterfacesDone(classes, roots, cands, w, w', t, k)
    {
      DiffMono(classes.Keys, w.visited + {t}, w'.visited);
      w' := VisitInterfaceAt(classes, w, w', roots, cands, t, k);
    }
    forall y, i | y in w'.visited - w.visited && y in classes && i in classes[y].interfaces && i in classes
      ensures i in w'.visited
    {
      if y == t {
        var j :| 0 <= j < |c.interfaces| && c.interfaces[j] == i;
      }
    }
  }

  /** The progress of the interface loop of `visit` for class `t`, started
      from walk `w0`: the first `k` interfaces are visited, and every class
      visited since, other than `t`, has its interfaces visited and is an
      interface of a visited class. */
  ghost predicate InterfacesDone(classes: Classes, roots: set<TypeId>, cands: set<TypeId>, w0: Walk, w: Walk, t: TypeId, k: nat)
    requires t in classes
  {
    && Tracks(classes, cands, w) && w0.visited + {t} <= w.visited && k <= |classes[t].interfaces|
    && (forall y, i :: y in w.visited - w0.visited && y != t && y in classes && i in classes[y].interfaces && i in classes ==> i in w.visited)
    && (forall j :: 0 <= j < k && classes[t].interfaces[j] in classes ==> classes[t].interfaces[j] in w.visited)
    && (forall y :: y in w.visited - w0.visited && y != t ==> InterfaceOfVisited(classes, w.visited, y))
    && InAllClosed(classes, roots, w.visited)
  }

  /** One round of the interface loop: visits interface `k` of `t`. */
  method VisitInterfaceAt(classes: Classes, w0: Walk, w: Walk, ghost roots: set<TypeId>, ghost cands: set<TypeId>, t: TypeId, k: nat)
    returns (w': Walk)
    requires t in classes && k < |classes[t].interfaces|
    requires InterfacesDone(classes, roots, cands, w0, w, t, k)
    ensures InterfacesDone(classes, roots, cands, w0, w', t, k + 1)
    decreases |classes.Keys - w.visited|, 3
  {
    var i := classes[t].interfaces[k];
    ParentReached(classes, roots, t, i);
    var seen;
    seen, w' := Visit(classes, w, roots, cands, Some(i));
    InterfaceOfVisitedGrows(classes, w.visited, w'.visited);
    assert InterfaceOfVisited(classes, w'.visited, i) by {
      assert t in w'.visited && t in classes && i in classes[t].interfaces;
    }
    forall j | 0 <= j < k + 1 && classes[t].interfaces[j] in classes
      ensures classes[t].interfaces[j] in w'.visited
    {
      if j < k {
        assert classes[t].interfaces[j] in w.visited;
      }
    }
  }

  /** A visited class either had its superclass walked to as well, or was
      reached as an interface of a visited class. */
  ghost predicate ChainOrInterface(classes: Classes, visited: set<TypeId>, y: TypeId)
    requires y in classes
  {
    || classes[y].super.None? || classes[y].super.value !in classes || classes[y].super.value in visited
    || InterfaceOfVisited(classes, visited, y)
  }

  /** The walk up a superclass chain: visit `x`, then its superclass, and
      so on until `visit` returns false. Only the classes whose superclass
      is `x` may still lack their chain on entry; on exit none does. */
  method WalkChain(classes: Classes, w: Walk, ghost roots: set<TypeId>, ghost cands: set<TypeId>, x: Option<TypeId>)
    returns (w': Walk)
    requires Tracks(classes, cands, w) && InAllClosed(classes, roots, w.visited)
    requires x.Some? ==> InAllClosed(classes, roots, {x.value})
    requires forall y :: y in w.visited && classes[y].super != x ==> ChainOrInterface(classes, w.visited, y)
    ensures Tracks(classes, cands, w') && VisitEffect(classes, w, w') && (x.Some? && x.value in classes ==> x.value in w'.visited)
    ensures forall y :: y in w'.visited ==> ChainOrInterface(classes, w'.visited, y)
    ensures InAllClosed(classes, roots, w'.visited)
    decreases |classes.Keys - w.visited|
  {
    var ok;
    ok, w' := Visit(classes, w, roots, cands, x);
    if !ok {
      return;
    }
    var t := x.value;
    var next := classes[t].super;
    InterfaceOfVisitedGrows(classes, w.visited, w'.visited);
    if next.Some? {
      ParentReached(classes, roots, t, next.value);
    }
    DiffDrop(classes.Keys, w.visited, t);
    DiffMono(classes.Keys, w.visited + {t}, w'.visited);
    var mid := w';
    w' := WalkChain(classes, mid, roots, cands, next);
    EffectTrans(classes, w, mid, w');
  }

  /** The instantiable classes of the scope: those that are not candidates. */
  function Instantiable(classes: Classes, scope: seq<TypeId>): (r: set<TypeId>)
    requires forall t :: t in scope ==> t in classes
    ensures forall t :: t in r <==> t in scope && !Candidate(classes[t])
  {
    set t | t in scope && !Candidate(classes[t])
  }

  /** `compute_scoped_uninstantiable_types`: the candidates of the scope that
      the walk from the instantiable classes never reaches, plus
      java.lang.Void. The walk starts at every instantiable class, follows
      interfaces, and follows superclasses until it meets a visited class.
      Every class it visits lies in every set that holds the instantiable
      classes and the superclass and interfaces of each class it holds. The
      children map records exactly the visited classes under their
      superclass. */
  method ComputeScopedUninstantiableTypes(classes: Classes, scope: seq<TypeId>, voidType: TypeId)
    returns (uninstantiable: set<TypeId>, children: map<Option<TypeId>, set<TypeId>>, visited: set<TypeId>)
    requires forall t :: t in scope ==> t in classes
    ensures forall t :: t in uninstantiable <==> t == voidType || (t in scope && Candidate(classes[t]) && t !in visited)
    ensures visited <= classes.Keys && Instantiable(classes, scope) <= visited
    ensures forall y, i :: y in visited && i in classes[y].interfaces && i in classes ==> i in visited
    ensures forall y :: y in visited ==> ChainOrInterface(classes, visited, y)
    ensures InAllClosed(classes, Instantiable(classes, scope), visited)
    ensures forall k, y :: y in Kids(children, k) <==> y in visited && classes[y].super == k
  {
    ghost var roots := Instantiable(classes, scope);
    var candidates := set t | t in scope && Candidate(classes[t]);
    var instantiable := [];
    for k := 0 to |scope|
      invariant forall t :: t in instantiable <==> t in scope[..k] && !Candidate(classes[t])
    {
      assert scope[..k + 1] == scope[..k] + [scope[k]];
      if !Candidate(classes[scope[k]]) {
        instantiable := instantiable + [scope[k]];
      }
    }
    assert scope[..|scope|] == scope;
    var w := Walk({}, candidates, map[]);
    assert Tracks(classes, candidates, w) by {
      assert SupersOf(classes, {}) == {};
    }
    for k := 0 to |instantiable|
      invariant Tracks(classes, candidates, w) && VisitEffect(classes, Walk({}, candidates, map[]), w)
      invariant forall j :: 0 <= j < k ==> instantiable[j] in w.visited
      invariant forall y :: y in w.visited ==> ChainOrInterface(classes, w.visited, y)
      invariant InAllClosed(classes, roots, w.visited)
    {
      ghost var before := w;
      w := WalkChain(classes, w, roots, candidates, Some(instantiable[k]));
      EffectTrans(classes, Walk({}, candidates, map[]), before, w);
    }
    ChildrenOfKids(classes, w.visited);
    uninstantiable := w.uninstantiable + {voidType};
    children := w.children;
    visited := w.visited;
  }
}

=== FILE: virtual_scopes.dfy ===
/** The overridden-virtual-scopes analysis of the remove-uninstantiables
    pass: which types are instantiated, which methods are targets of an
    invoke-super, which virtual scopes every instantiable child of a type
    overrides, and from these whether a method's code can ever run. */
module VirtualScopes {
  import opened Wrappers
  import opened Sets
  import opened UninstantiableTypes

  /** A virtual scope: a method name with its prototype. */
  datatype ScopeId = ScopeId(name: string, proto: nat)

  type MethodKey = nat

  /** An instruction as the code scan sees it. An invoke-super carries the
      scope of the callee reference and the result of resolving it against
      the superclass of the calling method (`None` when resolution fails);
      method resolution itself is not part of this model. */
  datatype Insn =
    | NewInstance(t: TypeId)
    | ConstClass(t: TypeId)
    | InvokeSuper(callee: ScopeId, resolved: Option<MethodKey>)
    | OtherInsn

  /** What the code scan gathers. */
  datatype Scan = Scan(instantiated: set<TypeId>, unresolvedSuper: set<ScopeId>, resolvedSuper: set<MethodKey>)

  /** `scan_code`, over the instructions of all method bodies: new-instance
      and const-class mark their type instantiated; an invoke-super records
      its resolved callee, or the callee's scope when it does not resolve. */
  method ScanCode(insns: seq<Insn>) returns (r: Scan)
    ensures forall t :: t in r.instantiated <==> NewInstance(t) in insns || ConstClass(t) in insns
    ensures forall s :: s in r.unresolvedSuper <==> InvokeSuper(s, None) in insns
    ensures forall m :: m in r.resolvedSuper <==> exists s :: InvokeSuper(s, Some(m)) in insns
  {
    r := Scan({}, {}, {});
    for i := 0 to |insns|
      invariant forall t :: t in r.instantiated <==> NewInstance(t) in insns[..i] || ConstClass(t) in insns[..i]
      invariant forall s :: s in r.unresolvedSuper <==> InvokeSuper(s, None) in insns[..i]
      invariant forall m :: m in r.resolvedSuper <==> exists s :: InvokeSuper(s, Some(m)) in insns[..i]
    {
      assert insns[..i + 1] == insns[..i] + [insns[i]];
      match insns[i]
      case NewInstance(t) =>
        r := r.(instantiated := r.instantiated + {t});
      case ConstClass(t) =>
        r := r.(instantiated := r.instantiated + {t});
      case InvokeSuper(s, resolved) =>
        if resolved.None? {
          r := r.(unresolvedSuper := r.unresolvedSuper + {s});
        } else {
          r := r.(resolvedSuper := r.resolvedSuper + {resolved.value});
        }
      case OtherInsn =>
    }
    assert insns[..|insns|] == insns;
  }

  /** The inputs of the analysis: the virtual scopes each class of the scope
      defines, the instantiable children the hierarchy walk recorded, the
      types whose class is a root or not renameable, and the code scan. */
  datatype Analysis = Analysis(
    defined: map<TypeId, set<ScopeId>>,
    children: map<Option<TypeId>, set<TypeId>>,
    keepers: set<TypeId>,
    scan: Scan)

  /** `is_instantiated`: a root or unrenameable class, or a type that some
      code creates or names with const-class. */
  predicate IsInstantiated(a: Analysis, t: TypeId) {
    t in a.keepers || t in a.scan.instantiated
  }

  /** The virtual scopes a type defines itself (none for a type outside the
      scope). */
  function Own(a: Analysis, t: TypeId): set<ScopeId> {
    if t in a.defined then a.defined[t] else {}
  }

  /** Every virtual scope some class defines. */
  function AllScopes(a: Analysis): set<ScopeId> {
    set t, s | t in a.defined && s in a.defined[t] :: s
  }

  lemma OwnInAll(a: Analysis, t: TypeId)
    ensures Own(a, t) <= AllScopes(a)
  {
    forall s | s in Own(a, t)
      ensures s in AllScopes(a)
    {
      assert t in a.defined && s in a.defined[t];
    }
  }

  /** The hierarchy below each type is finite and acyclic: every
      instantiable child sits strictly lower than its superclass. */
  ghost predicate Ranked(a: Analysis, height: map<TypeId, nat>) {
    forall p, c :: c in Kids(a.children, Some(p)) ==> p in height && c in height && height[c] < height[p]
  }

  /** The transitively defined virtual scopes of a type: its own when it is
      instantiated; otherwise the scopes that every instantiable child either
      defines or has transitively; none without children. */
  ghost function Transitive(a: Analysis, height: map<TypeId, nat>, t: TypeId): (r: set<ScopeId>)
    requires Ranked(a, height)
    ensures r <= AllScopes(a)
    decreases if t in height then height[t] else 0
  {
    if IsInstantiated(a, t) then Own(a, t)
    else
      var kids := Kids(a.children, Some(t));
      if kids == {} then {}
      else set s | s in AllScopes(a) && forall c :: c in kids ==> s in Own(a, c) + Transitive(a, height, c)
  }

  /** The scopes a child contributes to its parent's count. */
  ghost function Covered(a: Analysis, height: map<TypeId, nat>, c: TypeId): set<ScopeId>
    requires Ranked(a, height)
  {
    Own(a, c) + Transitive(a, height, c)
  }

  /** The children among `done` that cover scope `s`. */
  ghost function Holders(a: Analysis, height: map<TypeId, nat>, done: set<TypeId>, s: ScopeId): set<TypeId>
    requires Ranked(a, height)
  {
    set c | c in done && s in Covered(a, height, c)
  }

  lemma HoldersStep(a: Analysis, height: map<TypeId, nat>, done: set<TypeId>, c: TypeId, s: ScopeId)
    requires Ranked(a, height) && c !in done
    ensures |Holders(a, height, done + {c}, s)| == |Holders(a, height, done, s)| + (if s in Covered(a, height, c) then 1 else 0)
  {
    if s in Covered(a, height, c) {
      assert Holders(a, height, done + {c}, s) == Holders(a, height, done, s) + {c};
    } else {
      assert Holders(a, height, done + {c}, s) == Holders(a, height, done, s);
    }
  }

  /** Every child covers `s` exactly when the count of holders reaches the
      number of children. */
  lemma HoldersFull(a: Analysis, height: map<TypeId, nat>, kids: set<TypeId>, s: ScopeId)
    requires Ranked(a, height)
    ensures |Holders(a, height, kids, s)| == |kids| <==> forall c :: c in kids ==> s in Covered(a, height, c)
  {
    var h := Holders(a, height, kids, s);
    assert h <= kids;
    if forall c :: c in kids ==> s in Covered(a, height, c) {
      assert h == kids;
    }
    if |h| == |kids| {
      SubsetEqCard(h, kids);
      assert forall c :: c in kids ==> c in h;
    }
  }

  /** The count of a scope, 0 when it has none. */
  function Count(counted: map<ScopeId, nat>, s: ScopeId): nat {
    if s in counted then counted[s] else 0
  }

  /** `counted[scope]++` for every scope of `ss`. */
  function Bump(counted: map<ScopeId, nat>, ss: set<ScopeId>): (r: map<ScopeId, nat>)
    ensures forall s :: Count(r, s) == Count(counted, s) + (if s in ss then 1 else 0)
    ensures forall s :: s in r ==> r[s] > 0 || s in counted
  {
    map s | s in counted.Keys + ss :: Count(counted, s) + (if s in ss then 1 else 0)
  }

  /** The memo holds the transitively defined scopes of each type it has. */
  ghost predicate Memo(a: Analysis, height: map<TypeId, nat>, memo: map<TypeId, set<ScopeId>>)
    requires Ranked(a, height)
  {
    forall u :: u in memo ==> memo[u] == Transitive(a, height, u)
  }

  /** `compute_transitively_defined_virtual_scope`: a type already in the
      memo is left alone; an instantiated type gets its own scopes;
      otherwise each scope is counted once per child that defines it or has
      it transitively (computing the child first), and the type gets the
      scopes whose count equals the number of children. */
  method ComputeTransitive(a: Analysis, ghost height: map<TypeId, nat>, t: TypeId, memo: map<TypeId, set<ScopeId>>)
    returns (memo': map<TypeId, set<ScopeId>>)
    requires Ranked(a, height) && Memo(a, height, memo)
    ensures Memo(a, height, memo') && t in memo' && memo.Keys <= memo'.Keys
    decreases if t in height then height[t] else 0, 1
  {
    if t in memo {
      return memo;
    }
    if IsInstantiated(a, t) {
      return memo[t := Own(a, t)];
    }
    var kids := Kids(a.children, Some(t));
    var counted: map<ScopeId, nat> := map[];
    var todo := kids;
    ghost var done: set<TypeId> := {};
    memo' := memo;
    while todo != {}
      invariant todo <= kids && done == kids - todo && CountedSoFar(a, height, done, counted)
      invariant Memo(a, height, memo') && memo.Keys <= memo'.Keys
      decreases todo
    {
      var c :| c in todo;
      counted, memo' := CountChild(a, height, t, done, c, counted, memo');
      todo := todo - {c};
      done := done + {c};
    }
    assert done == kids;
    var res := set s | s in counted && counted[s] == |kids|;
    CountedMeaning(a, height, t, counted);
    memo' := memo'[t := res];
  }

  /** The counts of the children in `done`: each scope is counted once per
      child that covers it, and no count is zero. */
  ghost predicate CountedSoFar(a: Analysis, height: map<TypeId, nat>, done: set<TypeId>, counted: map<ScopeId, nat>)
    requires Ranked(a, height)
  {
    && (forall s :: Count(counted, s) == |Holders(a, height, done, s)|)
    && (forall s :: s in counted ==> counted[s] > 0)
  }

  /** One round of the children loop: counts the child's own scopes,
      computes the child, then counts its transitive scopes that it does not
      define itself. */
  method CountChild(a: Analysis, ghost height: map<TypeId, nat>, ghost t: TypeId, ghost done: set<TypeId>, c: TypeId,
                    counted: map<ScopeId, nat>, memo: map<TypeId, set<ScopeId>>)
    returns (counted': map<ScopeId, nat>, memo': map<TypeId, set<ScopeId>>)
    requires Ranked(a, height) && Memo(a, height, memo) && c in Kids(a.children, Some(t)) && c !in done
    requires CountedSoFar(a, height, done, counted)
    ensures CountedSoFar(a, height, done + {c}, counted')
    ensures Memo(a, height, memo') && memo.Keys <= memo'.Keys
    decreases if t in height then height[t] else 0, 0
  {
    var own := Own(a, c);
    counted' := Bump(counted, own);
    memo' := ComputeTransitive(a, height, c, memo);
    counted' := Bump(counted', memo'[c] - own);
    CountStep(a, height, done, c, counted, counted');
  }

  /** Counting one more child: each scope it covers gains one. */
  lemma CountStep(a: Analysis, height: map<TypeId, nat>, done: set<TypeId>, c: TypeId, counted: map<ScopeId, nat>, next: map<ScopeId, nat>)
    requires Ranked(a, height) && c !in done
    requires forall s :: Count(counted, s) == |Holders(a, height, done, s)|
    requires forall s :: s in counted ==> counted[s] > 0
    requires next == Bump(Bump(counted, Own(a, c)), Transitive(a, height, c) - Own(a, c))
    ensures forall s :: Count(next, s) == |Holders(a, height, done + {c}, s)|
    ensures forall s :: s in next ==> next[s] > 0
  {
    forall s
      ensures Count(next, s) == |Holders(a, height, done + {c}, s)|
    {
      HoldersStep(a, height, done, c, s);
    }
  }

  /** Once every child is counted, the scopes counted once per child are
      the transitively defined scopes of a non-instantiated type. */
  lemma CountedMeaning(a: Analysis, height: map<TypeId, nat>, t: TypeId, counted: map<ScopeId, nat>)
    requires Ranked(a, height) && !IsInstantiated(a, t)
    requires forall s :: Count(counted, s) == |Holders(a, height, Kids(a.children, Some(t)), s)|
    requires forall s :: s in counted ==> counted[s] > 0
    ensures (set s | s in counted && counted[s] == |Kids(a.children, Some(t))|) == Transitive(a, height, t)
  {
    var kids := Kids(a.children, Some(t));
    var res := set s | s in counted && counted[s] == |kids|;
    forall s
      ensures s in res <==> s in Transitive(a, height, t)
    {
      HoldersFull(a, height, kids, s);
      if kids != {} {
        var c0 :| c0 in kids;
        OwnInAll(a, c0);
      }
    }
  }

  /** The analysis runs the computation for every class of the scope. */
  method ComputeAll(a: Analysis, ghost height: map<TypeId, nat>, scope: seq<TypeId>)
    returns (memo: map<TypeId, set<ScopeId>>)
    requires Ranked(a, height)
    ensures Memo(a, height, memo)
    ensures forall t :: t in scope ==> t in memo
  {
    memo := map[];
    for i := 0 to |scope|
      invariant Memo(a, height, memo)
      invariant forall j :: 0 <= j < i ==> scope[j] in memo
    {
      memo := ComputeTransitive(a, height, scope[i], memo);
    }
  }

  /** A method as `keep_code` sees it. */
  datatype MethodInfo = MethodInfo(key: MethodKey, cls: TypeId, scope: ScopeId, isStatic: bool, isVirtual: bool)

  /** `keep_code`: static code is kept; code of an uninstantiable class is
      dropped; non-virtual code is kept, and so is code that an invoke-super
      targets or that belongs to an instantiated class; otherwise the code is
      kept unless every instantiable child covers its scope. `None` stands
      for the failing lookup of a class the computation never saw. */
  function KeepCode(a: Analysis, uninstantiable: set<TypeId>, memo: map<TypeId, set<ScopeId>>, m: MethodInfo): Option<bool> {
    if m.isStatic then Some(true)
    else if m.cls in uninstantiable then Some(false)
    else if !m.isVirtual then Some(true)
    else if m.key in a.scan.resolvedSuper || m.scope in a.scan.unresolvedSuper then Some(true)
    else if IsInstantiated(a, m.cls) then Some(true)
    else if m.cls !in memo then None
    else Some(m.scope !in memo[m.cls])
  }

  /** Whether some invoke-super targets the method. */
  predicate SuperInvoked(a: Analysis, m: MethodInfo) {
    m.key in a.scan.resolvedSuper || m.scope in a.scan.unresolvedSuper
  }

  /** With a computed memo, code is dropped exactly when the method is not
      static and either its class is uninstantiable, or it is a virtual
      method of a non-instantiated class, never super-invoked, whose scope
      every instantiable child of the class covers. */
  lemma KeepCodeMeaning(a: Analysis, height: map<TypeId, nat>, uninstantiable: set<TypeId>, memo: map<TypeId, set<ScopeId>>, m: MethodInfo)
    requires Ranked(a, height) && Memo(a, height, memo) && m.cls in memo
    ensures KeepCode(a, uninstantiable, memo, m).Some?
    ensures KeepCode(a, uninstantiable, memo, m) == Some(false) <==>
      !m.isStatic &&
      (m.cls in uninstantiable ||
       (m.isVirtual && !SuperInvoked(a, m) && !IsInstantiated(a, m.cls) && m.scope in Transitive(a, height, m.cls)))
  {
  }

  /** A chain of instantiable children going down from `t`. */
  ghost predicate ChildChain(a: Analysis, t: TypeId, path: seq<TypeId>) {
    && |path| >= 1
    && path[0] in Kids(a.children, Some(t))
    && forall i :: 0 <= i < |path| - 1 ==> path[i + 1] in Kids(a.children, Some(path[i]))
  }

  /** A scope a non-instantiated type has transitively is defined again on
      every chain of instantiable children that ends at an instantiated type:
      the type's own method of that scope is overridden on the way, so it is
      never the one an instantiated object calls. */
  lemma {:induction false} Overridden(a: Analysis, height: map<TypeId, nat>, t: TypeId, path: seq<TypeId>, s: ScopeId)
    requires Ranked(a, height) && ChildChain(a, t, path)
    requires !IsInstantiated(a, t) && IsInstantiated(a, path[|path| - 1])
    requires s in Transitive(a, height, t)
    ensures exists i :: 0 <= i < |path| && s in Own(a, path[i])
    decreases |path|
  {
    var c := path[0];
    assert s in Covered(a, height, c);
    if s !in Own(a, c) {
      assert |path| >= 2;
      var rest := path[1..];
      assert ChildChain(a, c, rest) by {
        forall i | 0 <= i < |rest| - 1
          ensures rest[i + 1] in Kids(a.children, Some(rest[i]))
        {
          assert rest[i + 1] == path[i + 2] && rest[i] == path[i + 1];
        }
      }
      Overridden(a, height, c, rest, s);
      var i :| 0 <= i < |rest| && s in Own(a, rest[i]);
      assert rest[i] == path[i + 1];
    }
  }

  /** A method of the scope as the pass's method walk sees it. */
  datatype PassMethod = PassMethod(info: MethodInfo, hasCode: bool, noOptimizations: bool)

  /** The method walk of `run_pass`: methods without code or marked
      no-optimizations are skipped; the others keep their code (whose
      uninstantiable references are then rewritten) or are collected as
      uncallable instance methods. */
  method RunPass(a: Analysis, uninstantiable: set<TypeId>, memo: map<TypeId, set<ScopeId>>, methods: seq<PassMethod>)
    returns (rewritten: set<MethodKey>, uncallable: set<MethodKey>)
    requires forall i :: 0 <= i < |methods| ==> methods[i].info.cls in memo
    ensures forall k :: k in uncallable <==> exists i :: 0 <= i < |methods| && Dropped(a, uninstantiable, memo, methods[i], k)
    ensures forall k :: k in rewritten <==> exists i :: 0 <= i < |methods| && Kept(a, uninstantiable, memo, methods[i], k)
  {
    rewritten, uncallable := {}, {};
    for i := 0 to |methods|
      invariant forall k :: k in uncallable <==> exists j :: 0 <= j < i && Dropped(a, uninstantiable, memo, methods[j], k)
      invariant forall k :: k in rewritten <==> exists j :: 0 <= j < i && Kept(a, uninstantiable, memo, methods[j], k)
    {
      var pm := methods[i];
      if pm.noOptimizations || !pm.hasCode {
        continue;
      }
      var keep := KeepCode(a, uninstantiable, memo, pm.info);
      if keep == Some(true) {
        rewritten := rewritten + {pm.info.key};
      } else {
        uncallable := uncallable + {pm.info.key};
      }
    }
  }

  /** The method with key `k` has code the pass looks at. */
  predicate Considered(pm: PassMethod, k: MethodKey) {
    pm.info.key == k && pm.hasCode && !pm.noOptimizations
  }

  predicate Dropped(a: Analysis, uninstantiable: set<TypeId>, memo: map<TypeId, set<ScopeId>>, pm: PassMethod, k: MethodKey) {
    Considered(pm, k) && KeepCode(a, uninstantiable, memo, pm.info) == Some(false)
  }

  predicate Kept(a: Analysis, uninstantiable: set<TypeId>, memo: map<TypeId, set<ScopeId>>, pm: PassMethod, k: MethodKey) {
    Considered(pm, k) && KeepCode(a, uninstantiable, memo, pm.info) == Some(true)
  }
}

=== FILE: wrappers.dfy ===
/** Option and Result, used for the source's null references, optional returns
    and thrown errors. */
module Wrappers {

  /** A value that may be missing; `None` stands for a null reference or an
      empty `std::optional`. */
  datatype Option<+T> = None | Some(value: T) {

    /** The value, or `default` when there is none. */
    function GetOr(default: T): T {
      match this
      case Some(v) => v
      case None => default
    }

    predicate IsFailure() {
      None?
    }

    function PropagateFailure<U>(): Option<U>
      requires None?
    {
      None
    }

    function Extract(): T
      requires Some?
    {
      value
    }
  }

  /** The outcome of an operation that can fail; `Failure` stands for a thrown
      exception or a failed assertion in the source. */
  datatype Result<+R, +E> = Success(value: R) | Failure(error: E)
}
